=== FILE: README.md ===
# Molniya, modelled in Dafny

Molniya is a gateway between the Nagios monitoring system and XMPP chat. Nagios
hands it notifications, and it delivers each one by following the contact's
notification policies in order: chat, e-mail or pager. A contact who is away
collects the notifications they miss, and gets a "While you were out" summary
when they come back online. From chat, a contact can ask for the status report
or a host's or service's detail, force a check, or acknowledge a problem.
Acknowledgements are made by replying to a notification's `@N` number. The
gateway writes these actions as lines to Nagios's external command pipe.

The gateway reads the Nagios configuration (`define host { ... }` blocks) and
the status file (`hoststatus { ... }` blocks). It keeps each in a cache that
reloads when the file's mtime changes. A configuration reload forces a status
reload, and registered listeners are told of each new status.

The model covers:

- the current release (`molniya.rb`, `nagios.rb`, `trunk/commands.rb`);
- the text formatters of `tags/release-0.3/formatting.rb`;
- the parts of release 0.1 (`tags/release-0.1/molniya.rb`) that behave
  differently.

Its modules follow the program:

| module | file | what |
|---|---|---|
| `Wrappers`, `OrderedMaps`, `Sorting`, `Text` | wrappers.dfy, ordered_map.dfy, sorting.dfy, text.dfy | Ruby values the code relies on: results and raised errors, hashes in insertion order, sorting, `upcase`, `split`, `to_s`/`to_i`, `inspect` |
| `Scanning` | scanner.dfy | `StringScanner`: a text and a cursor, with the patterns the commands use |
| `Duration` | duration.dfy | `brief_duration` and `brief_time_delta`, for both releases |
| `NagiosModel` | nagios_model.dfy | state tables, `update_state`/`cur_state`, ordering, the configuration snapshot |
| `NagiosParse` | nagios_parse.dfy | `parse_status`/`parse_object`/`parse_defs`/`parse_def` |
| `NagiosConfig` | nagios_config.dfy | `Config.load` |
| `NagiosStatus` | nagios_status.dfy | `Status.load` |
| `NagiosStore` | cache.dfy | `Cached`, `Config`/`Status` refresh, listeners |
| `Control` | control.dfy | `CommandTarget` lines, `acknowledge`, `force_check` |
| `Events` | events.dfy | notifications and the outbox events (chat, e-mail, command line, roster change) |
| `StatusReport` | report.dfy | `NagiosInstance.status_report` |
| `Formatting` | formatting.dfy | the plain-text, e-mail and subject formatters |
| `Chat` | chat.dfy | presence, `available?`, the `Contact` record and its ten-slot ring |
| `Gateway` | switchboard.dfy | `Switchboard`: lookups, service resolution, `check`, `notification`, `xmpp_notification`, `catch_up`, the presence callback |
| `Commands` | commands.dfy | the chat commands and `handle_message` |
| `Release01` | release01.dfy | release 0.1: presence, `catch_up`, `status_report`, `ack`, `notification` |
| `Release01Chat` | release01_chat.dfy | release 0.1: `handle_message` |

### How state is modelled

- **Effects become events.** Sending a chat message, sending an e-mail,
  writing a command line and changing the roster each append an event to the
  switchboard's `Outbox`.
- **Inputs become parameters.** Times, file mtimes and file contents (as
  lines) are passed in.
- **In-place state stays in classes.** The caches, chat contacts, scanner and
  switchboard are classes whose methods update their fields.
- **Everything else is a value.** Parsers and reports are functions, or
  methods with loops proved against functions.
- **Ruby hashes keep their order.** A hash is a map plus its keys in
  insertion order (`OMap`).
- **Nagios objects are values.** Hosts and services live inside the
  configuration snapshot, keyed by name, and are referred to by `Ref`.

## Model

| member | source | states |
|---|---|---|
| Scanning.RunAt | trunk/commands.rb:38-53 | `scan(/[k]+/)` anchored at the cursor: nothing when the next character is not of the class, otherwise the maximal non-empty run |
| Scanning.RunAtIsMaximal | trunk/commands.rb:38-53 | a run holds only characters of its class and stops where the class stops |
| Scanning.UntilLineFrom | trunk/commands.rb:105-120 | `scan_until(/\S.+/)` finds the leftmost non-space character followed by a non-newline, and no earlier position matches |
| Scanning.Scanner.Scan | trunk/commands.rb:38-53 | the run at the cursor is returned and the cursor moves past it exactly |
| Scanning.Scanner.ScanChar | molniya.rb:270-318 | `scan(/\//)` consumes one '/' when it is next, else nothing moves |
| Scanning.Scanner.ScanRunThen | trunk/commands.rb:38-53 | `scan(/([^\s\/]+)\//)` (trunk, class `Token`) or `scan(/(\w+)\//)` (release 0.1, class `Word`): a run of the class followed by '/', answered with the run, the cursor after the '/'; nothing moves otherwise |
| Scanning.Scanner.ScanLiteral | molniya.rb:578-585 | a service name matches at the cursor (with or without case) and is consumed, or nothing moves |
| Scanning.Scanner.ScanPair | trunk/commands.rb:168-176 | `scan(/(\S+)\s+(\S+)/)` gives the whole match and both groups, or nothing with the cursor kept |
| Scanning.Scanner.ScanUntilLine | trunk/commands.rb:105-120 | the match of `/\S.+/` runs to the end of its line and the cursor moves to its end |
| Scanning.UntilLineShape | trunk/commands.rb:105-120 | what `scan_until(/\S.+/)` finds has at least two characters and no newline |
| Scanning.UntilLineNeedsTwo | trunk/commands.rb:105-120 | a one-character remainder is no comment |
| Scanning.TokenHasNoSpaceOrSlash | molniya.rb:270-318 | the first token of a message holds neither spaces nor '/' |
| Duration.BriefDurationShape | molniya.rb:81-93 | at most two `<count><unit>` parts: the first unit `secs` strictly exceeds, then at most the unit right after it |
| Duration.BriefDurationEmpty | molniya.rb:81-93 | a duration no longer than every unit renders as "" |
| Duration.BriefDurationNonEmpty | molniya.rb:81-93 | a duration longer than some unit renders as non-empty text |
| Duration.TrunkEmptyExactly | molniya.rb:55-93 | with the current table "" exactly for `secs <= 1`, and 60 seconds gives "60s" |
| Duration.Release01EmptyExactly | tags/release-0.1/molniya.rb:54-79 | the release 0.1 table has no seconds, so "" exactly for durations up to a minute |
| Duration.BriefTimeDelta | molniya.rb:73-79 | "ever" for times up to 1996-01-01, else the duration since the time; a nil time raises |
| Duration.BriefTimeDelta01 | tags/release-0.1/molniya.rb:63-65 | release 0.1: the duration since the time, without the cut-off |
| NagiosModel.StateSym | nagios.rb:26-37 | host codes 0/1/2 give ok/down/unreachable, service codes 0/1/2/3 give ok/warning/critical/unknown, other codes nil |
| NagiosModel.StateCodesInverse | nagios.rb:26-37 | the state tables and the state codes are inverse to each other, kind by kind |
| NagiosModel.UpdateState | nagios.rb:198-206 | `current_state` gives the soft state and `last_hard_state` the hard one, through the kind's table; the record is kept |
| NagiosModel.CurState | nagios.rb:208-210 | the soft state unless nil, then the hard state |
| NagiosModel.UpdateStateRoundTrip | nagios.rb:198-210 | a record holding a state's code leaves the object in that state |
| NagiosModel.Info | nagios.rb:212-214 | `plugin_output` of the last record; raises before any record |
| NagiosModel.RefKey | nagios.rb:321-323 | the sort key of an object: a host's name, a service's host name then description |
| NagiosModel.RefKeyOrder | nagios.rb:384-391 | hosts order by name, services by host name then description, and equal keys mean the same object |
| NagiosModel.PluralAlias | nagios.rb:473-474 | the `"<tag>s"` alias reads the same table as the tag |
| NagiosParse.Field | nagios.rb:66-79 | a field line's key and value; a status value may itself hold '=' |
| NagiosParse.First | nagios.rb:81-98 | the leftmost position where a line pattern matches |
| NagiosParse.FirstLeftmost | nagios.rb:81-98 | that position is the leftmost match, and one is found whenever there is a match |
| NagiosParse.InfoAt | nagios.rb:47-113 | line `i` is classified as an opening line, a field, a closing line or other text |
| NagiosParse.Body | nagios.rb:66-79 | the fields of a block up to the closing line; a stray line or the end of the file raises |
| NagiosParse.ParseBody | nagios.rb:100-113 | `parse_object`/`parse_def`: the loop reads exactly the block's fields and stops after its closing line |
| NagiosParse.Parse | nagios.rb:47-64 | `parse_status`/`parse_defs`: the loop returns the blocks of the file in order, or the first error |
| NagiosParse.BodyStep | nagios.rb:66-79 | one step of the block loop, on the line itself |
| NagiosParse.BlocksStep | nagios.rb:47-64 | one step of the file loop: lines outside blocks are skipped, an opening line starts a block |
| NagiosParse.NextField | nagios.rb:66-79 | each field line adds a key not read yet |
| NagiosParse.BodyOfFields | nagios.rb:66-79 | a block's field lines rebuild its fields; it ends at its closing line or fails at the end of the file |
| NagiosParse.RoundTrip | nagios.rb:47-113 | parsing a file rendered from blocks gives those blocks back, values holding '=' and '}' included |
| NagiosParse.UnclosedBlock | nagios.rb:66-79 | a block without a closing line fails the whole parse with the end-of-file error |
| NagiosParse.StrayLine | nagios.rb:66-79 | a line inside a block that is neither a field nor a closing line raises "unexpected line" with the line |
| NagiosParse.RepeatedKeyLastWins | nagios.rb:66-79 | a repeated key keeps the last value, at the place of its first occurrence |
| NagiosConfig.ReadDefEffect | nagios.rb:450-466 | one definition replaces any earlier one of the same name, queues a service, and moves nothing else |
| NagiosConfig.Attach | nagios.rb:467-476 | a service joins its host's table under its description; an unknown host raises |
| NagiosConfig.AttachEffect | nagios.rb:467-476 | attaching adds or replaces exactly that service and changes no other |
| NagiosConfig.AttachKeeps | nagios.rb:467-476 | attaching keeps the hosts, their order and the tables' shape |
| NagiosConfig.ReadDefinitions | nagios.rb:450-466 | the first loop of `Config.load` computes the definition tables and the service queue |
| NagiosConfig.AttachServices | nagios.rb:467-476 | the second loop attaches the queued services, or raises at the first unknown host |
| NagiosConfig.LoadConfig | nagios.rb:450-477 | `Config.load` is the two loops in sequence |
| NagiosConfig.UnknownTagIgnored | nagios.rb:416-418 | a definition of an unknown tag changes nothing |
| NagiosConfig.ItemDefinedLast | nagios.rb:450-466 | the item under a tag and name is the one of the last definition with them |
| NagiosConfig.HostDefinedLast | nagios.rb:450-466 | the same for hosts |
| NagiosConfig.HostDefinedIff | nagios.rb:450-466 | a host is in the table exactly when some definition defines it |
| NagiosConfig.ServiceDefsKept | nagios.rb:450-466 | the service queue holds exactly the service definitions, in order |
| NagiosConfig.AttachAllFailsIff | nagios.rb:467-476 | attaching fails exactly when some service names a host not in the table |
| NagiosConfig.ServiceAttached | nagios.rb:467-476 | every service ends up under its host and description unless a later one replaces it |
| NagiosConfig.AttachAllErrPersists | nagios.rb:467-476 | the first failing service fails the whole loop with its message |
| NagiosConfig.ReadDefValid | nagios.rb:450-466 | one definition keeps the tables well formed |
| NagiosConfig.LoadedValid | nagios.rb:450-477 | a loaded configuration is well formed |
| NagiosConfig.LoadFailsIff | nagios.rb:450-477 | loading fails exactly when a service names an undefined host, with "No such host !" |
| NagiosConfig.LastDefinitionWins | nagios.rb:450-477 | in a loaded configuration the last definition of each tag and name wins |
| NagiosConfig.LastHostWins | nagios.rb:450-477 | the same for hosts, not yet updated from the status file |
| NagiosConfig.LoadedTablesKnown | nagios.rb:416-418 | every loaded table is a known tag's, so each is also reachable under its plural |
| NagiosStatus.ScanAllErrPersists | nagios.rb:499-538 | once a record raises, the loop ends there |
| NagiosStatus.LoadStatus | nagios.rb:499-538 | `Status.load` updates the configuration record by record, and leaves earlier updates applied when a record raises |
| NagiosStatus.Filed | nagios.rb:499-538 | the objects the records file under a state, in record order |
| NagiosStatus.StateListed | nagios.rb:499-538 | every state a record can give has a list |
| NagiosStatus.ScanRecordLists | nagios.rb:499-538 | a record that does not raise adds what it files to the lists and nothing else |
| NagiosStatus.ScanAllLists | nagios.rb:499-538 | after the loop the unsorted lists hold exactly what the records file |
| NagiosStatus.LoadedLists | nagios.rb:499-538 | after a load each state's list holds, sorted, the objects whose records gave that state |
| NagiosStatus.SetMonEffect | nagios.rb:198-206 | updating an object changes its monitored state and no other's |
| NagiosStatus.StatusKeepsConfig | nagios.rb:499-538 | loading the status changes only the monitored state of hosts and services, whether it succeeds or not |
| NagiosStatus.EraseSameHost | nagios.rb:499-538 | configurations equal but for monitored state have the same hosts and services |
| NagiosStatus.ScanRecordMon | nagios.rb:499-538 | a record updates the object it names, even when it then raises, and no other object |
| NagiosStatus.UnnamedUnchanged | nagios.rb:499-538 | an object no record names keeps its state |
| NagiosStatus.LastRecordWins | nagios.rb:499-538 | after a load, an object's state is the one its last record gives |
| NagiosStatus.RecordErase | nagios.rb:499-538 | whether a record loads depends only on the configuration without its monitored state |
| NagiosStatus.ScanRecordErr | nagios.rb:499-538 | a record raises exactly when its object is missing or it gives no state, with that message |
| NagiosStatus.ScanAllOkIff | nagios.rb:499-538 | the loop completes exactly when every record loads |
| NagiosStatus.LoadStatusOutcome | nagios.rb:499-538 | loading succeeds exactly when every record loads, and otherwise raises the first failing record's error |
| NagiosStatus.NilStateKeepsUpdate | nagios.rb:499-538 | a host record with no state raises, but its update stays in place |
| NagiosStore.Mtime | nagios.rb:156-161 | a missing file raises when its mtime is read |
| NagiosStore.CallListener | molniya.rb:594-612 | a listener fires and drops out once the object's last check is newer than the request; a nil last check raises |
| NagiosStore.SelectListenersFails | nagios.rb:175-180 | the walk over the listeners fails exactly when some listener raises |
| NagiosStore.SelectListenersKeeps | nagios.rb:175-180 | only the listeners answering true remain, and each one that goes sends exactly one message |
| NagiosStore.NagiosInstance.Register | nagios.rb:182-184 | `register` appends the listener |
| NagiosStore.NagiosInstance.HasListeners | nagios.rb:186-188 | `listeners?` is true exactly when the list is not empty |
| NagiosStore.NagiosInstance.SetStatus | nagios.rb:175-180 | `contents=` sets the contents, then keeps the listeners that answer true |
| NagiosStore.NagiosInstance.RefreshStatus | nagios.rb:156-161 | `_refresh` reads the mtime, then parses and loads, then records the mtime read before parsing |
| NagiosStore.NagiosInstance.RefreshStatusIfNeeded | nagios.rb:123-134 | the status store reloads exactly when it is stale and answers whether it reloaded |
| NagiosStore.NagiosInstance.WaitAndRefreshStatus | nagios.rb:136-154 | the wait polls once a second until the file is at least as new as `newer`, and times out otherwise |
| NagiosStore.NagiosInstance.RefreshConfig | nagios.rb:156-161 | the configuration store's `_refresh` |
| NagiosStore.NagiosInstance.RefreshIfNeeded | nagios.rb:437-444 | a configuration reload forces a status wait; otherwise the status refreshes if needed |
| NagiosStore.NagiosInstance.ConfigContents | nagios.rb:163-169 | `contents` refreshes, then raises "Failed to load contents" rather than answer nil |
| NagiosStore.RefreshStatusOnError | nagios.rb:156-180 | a failed reload keeps the mtime and the listeners, and changes only monitored state |
| NagiosStore.RefreshStatusOnSuccess | nagios.rb:156-180 | a successful reload holds the new status and the file's mtime, and keeps exactly the listeners still waiting |
| NagiosStore.StatusIfNeededIff | nagios.rb:123-134 | a reload happens exactly when the file exists and nothing is loaded, no mtime is recorded, or the file is newer |
| NagiosStore.RefreshStatusKeepsConfig | nagios.rb:156-161 | a status reload keeps the configuration loaded if it was |
| NagiosStore.WaitStep | nagios.rb:136-154 | a poll that finds the file older sleeps a second and polls again |
| NagiosStore.WaitTimesOut | nagios.rb:136-154 | when every poll up to the deadline finds the file older, the wait raises the time-out and reloads nothing |
| NagiosStore.WaitReloadsFirstNewer | nagios.rb:136-154 | the wait reloads at the first poll that finds the file new enough |
| NagiosStore.WaitHit | nagios.rb:136-154 | a poll that finds the file new enough reloads from it |
| NagiosStore.WaitKeepsConfig | nagios.rb:136-154 | the wait touches only what a status reload touches |
| NagiosStore.ConfigReloadForcesStatus | nagios.rb:437-444 | after a configuration reload, a status file already new enough is reloaded at once |
| NagiosStore.ConfigReloadOutlivesTimeout | nagios.rb:437-444 | the configuration reload stands when the status times out |
| NagiosStore.ConfigFreshRefreshesStatus | nagios.rb:437-444 | without a configuration reload, the status store refreshes if needed |
| NagiosStore.ConfigContentsNeverNil | nagios.rb:163-169 | `contents` raises "Failed to load contents" exactly when nothing was ever loaded and the file is missing |
| NagiosStore.SelectErrPersists | nagios.rb:175-180 | once a listener raises, the rest of the walk is skipped |
| Control.ControlLine | nagios.rb:548-558 | `[<time>] <DIRECTIVE>;<args joined by ';'>` and a newline, the directive upper-cased |
| Control.ParseLayout | nagios.rb:548-558 | the layout of a control line, field by field |
| Control.ControlLineRoundTrip | nagios.rb:548-558 | a line reads back as the time, the upper-cased directive and the arguments when none holds a ';' |
| Control.SemicolonNotEscaped | nagios.rb:548-558 | arguments are not escaped: one holding a ';' does not read back |
| Control.AckFields | nagios.rb:298-307 | sticky 0, notify 1, persistent 1 unless overridden, then author and comment |
| Control.TargetArgs | nagios.rb:358-368 | a host is named by its name, a service by its host name and description |
| Control.AckDirective | nagios.rb:298-307 | `ACKNOWLEDGE_HOST_PROBLEM` or `ACKNOWLEDGE_SVC_PROBLEM` |
| Control.ForceDirective | nagios.rb:309-311 | `SCHEDULE_FORCED_HOST_CHECK` or `SCHEDULE_FORCED_SVC_CHECK` |
| Control.AcknowledgeFields | nagios.rb:358-368 | an acknowledgement reads back as the names, sticky, notify, persistent, author and comment |
| Control.ForceCheckFields | nagios.rb:370-374 | a forced check reads back as the names and the time as a whole number |
| StatusReport.Having | molniya.rb:431-446 | the entries in one state, in order |
| StatusReport.GroupIndex | molniya.rb:431-446 | the place of a state's group, or the end when it has none |
| StatusReport.AddToExisting | molniya.rb:431-446 | an entry whose state has a group joins it |
| StatusReport.AddToNew | molniya.rb:431-446 | an entry of a new state opens a group at the end |
| StatusReport.ClassifyPartition | molniya.rb:431-446 | `classify` partitions its input by state |
| StatusReport.ClassifiedMembership | molniya.rb:431-446 | each entry is in the group of its own state and in no other, and nothing else is listed |
| StatusReport.BadHosts | molniya.rb:431-446 | the hosts whose current state is not ok, in order |
| StatusReport.ProblemServicesOf | molniya.rb:429-446 | a host's services in a problem state |
| StatusReport.ProblemServices | molniya.rb:429-446 | the problem services of the hosts that are ok |
| StatusReport.ProblemServicesComplete | molniya.rb:429-446 | every problem service of an ok host is listed |
| StatusReport.StatusReportOf | molniya.rb:431-446 | `status_report` of a configuration; no host table raises |
| StatusReport.HostListedIff | molniya.rb:431-446 | a host is listed exactly when it is not ok (a nil state included), in the group of its state |
| StatusReport.HostGroupsNotOk | molniya.rb:431-446 | every host group holds only hosts that are not ok |
| StatusReport.ServiceListedIff | molniya.rb:429-446 | a service is listed exactly when its host is ok and it is critical, warning or unknown |
| StatusReport.ServiceGroupsProblems | molniya.rb:429-446 | every service group holds only problem services of ok hosts |
| StatusReport.ReportGroupsDistinct | molniya.rb:431-446 | groups are never empty and no state has two |
| Formatting.RenderNotification | tags/release-0.3/formatting.rb:18-27 | host and service notifications go to their formatter; any other type raises "unhandled notification type" |
| Formatting.ChatExtendsMail | tags/release-0.3/formatting.rb:33-58 | for a problem or recovery, the chat text is the mail text behind the `@` number |
| Formatting.ChatShowsComment | tags/release-0.3/formatting.rb:33-58 | for an acknowledgement, custom notification or downtime, the info line carries the comment |
| Formatting.ChatOmitsInfo | tags/release-0.3/formatting.rb:33-58 | for any other type the chat text has no info line |
| Formatting.HostDetail | tags/release-0.3/formatting.rb:69-71 | the name, the upper-cased soft state and how long it has held |
| Formatting.ServiceDetail | tags/release-0.3/formatting.rb:64-67 | the same for a service, then the plugin output on its own line |
| Formatting.ItemStatusEntry | tags/release-0.3/formatting.rb:83-92 | a host is `<name> for <delta>`, a service `<host>/<name> for <delta>` |
| Formatting.HostDetailMatchesEntry | tags/release-0.3/formatting.rb:69-92 | the host detail view and the report entry name the same duration |
| Formatting.ServiceDetailMatchesEntry | tags/release-0.3/formatting.rb:64-92 | the service detail view and the report entry name the same duration |
| Formatting.EntryTexts | tags/release-0.3/formatting.rb:94-105 | entries rendered in order; the first that cannot be rendered raises |
| Formatting.ReportText | tags/release-0.3/formatting.rb:94-105 | `status_report(s)` as text |
| Formatting.ReportAllClearIff | tags/release-0.3/formatting.rb:94-105 | the report reads "All clear." exactly when both lists are empty |
| Formatting.ReportLines | tags/release-0.3/formatting.rb:94-105 | one line per group, host groups first, naming the upper-cased state and the entries |
| Formatting.GroupLineSorted | tags/release-0.3/formatting.rb:94-105 | each line lists its group's entries sorted, each once |
| Formatting.CountParts | tags/release-0.3/formatting.rb:73-81 | one `"<count> <state>"` per state |
| Formatting.StatusMessage | tags/release-0.3/formatting.rb:73-81 | the nested loops fill the counts group by group and render the presence message |
| Formatting.CountGroupsEffect | tags/release-0.3/formatting.rb:73-81 | counting adds each new state at the end and each group's size to its state |
| Formatting.CountsOfReport | tags/release-0.3/formatting.rb:73-81 | hosts and services are counted together, and only states that have a group |
| Formatting.MessageAllClearIff | tags/release-0.3/formatting.rb:73-81 | "All clear" exactly when there are no groups, else one part per state |
| Chat.PresenceSymOf | molniya.rb:216-226 | no presence or type unavailable gives unavailable, otherwise the show or plain available |
| Chat.AvailableAsWritten | molniya.rb:107-118 | `available?` as written: online, and the last presence's raw show is `chat` |
| Chat.Available | molniya.rb:107-118 | `available?` as intended: online, and the last presence is available or chat through `presence_sym` |
| Chat.AvailableAsWrittenMissesPlainPresence | molniya.rb:107-118 | a plain available presence is reachable for the callback but away for `available?` as written |
| Chat.AvailableDiffersFromAsWritten | molniya.rb:107-118 | the two readings differ on exactly two kinds of last presence |
| Chat.BareJid | molniya.rb:228-249 | `jid.strip`: the address without its resource |
| Chat.CameOnlineIsAnEdge | molniya.rb:228-249 | catch-up fires only on a change from not reachable to reachable, so a repeated presence never re-fires |
| Chat.NextSeq | molniya.rb:120-128 | one more, wrapping from 9 to 0, always in 0..9 |
| Chat.SeqAfterCycles | molniya.rb:120-128 | from a fresh contact the numbers run 1..9, 0, 1, ... |
| Chat.ChatContact.IsAvailable | molniya.rb:107-118 | the corrected reading `Available` of the contact's roster item (Findings row 2; `available?` as written is `AvailableAsWritten`) |
| Chat.ChatContact.RecordNotification | molniya.rb:120-128 | the next number, with `n` under it and every other slot unchanged |
| Chat.ChatContact.Miss | molniya.rb:652-655 | `missed << n` appends once and changes nothing else |
| Chat.ChatClient.PresenceChanged | molniya.rb:228-249 | a contact is registered only for an unknown bare address; the edge is reported |
| Gateway.FindHost | molniya.rb:556-558 | the host filed under the name; a configuration without hosts raises |
| Gateway.FindService | molniya.rb:560-567 | the host's service by description, or nothing when either is missing |
| Gateway.FindReferent | molniya.rb:569-576 | the host or service a notification names, by type; other types name nothing |
| Gateway.FirstWithProp | molniya.rb:549-554 | the first contact whose chat property is the address |
| Gateway.FindContactWithJid | molniya.rb:549-554 | the first configured contact with that chat address |
| Gateway.ContactNamed | molniya.rb:614-637 | `contacts.fetch(name)`: the contact, or a key error |
| Gateway.FirstServiceAt | molniya.rb:578-585 | the first service name in definition order that matches at the cursor, not the longest |
| Gateway.ResolveAt | molniya.rb:578-585 | the resolved service with the cursor after its name, or "Unknown service starting with ..." |
| Gateway.ResolveAtIsFirstMatch | molniya.rb:578-585 | the result is the first matching name, and the error comes only when none matches |
| Gateway.FirstDefinedWins | molniya.rb:578-585 | of two names where one is a prefix of the other, the one defined first wins |
| Gateway.InspectProps | molniya.rb:639-657 | a hash of strings inspected as `{"k"=>"v", ...}` |
| Gateway.XmppStep | molniya.rb:639-657 | no address raises; no chat contact answers false; a reachable contact gets the next number and one message; otherwise `n` is missed once |
| Gateway.MailStep | molniya.rb:701-717 | e-mail or pager to the contact's address; each missing piece raises in order |
| Gateway.PolicyStep | molniya.rb:614-637 | `xmpp` stops when reached, `email`/`pager` always stop, an unknown policy raises |
| Gateway.WalkStep | molniya.rb:614-637 | the walk is the first policy's step, then the rest unless it stopped |
| Gateway.MailEndsWalk | molniya.rb:614-637 | mail and pager end the walk whatever follows |
| Gateway.ReachedEndsWalk | molniya.rb:614-637 | a reachable contact ends the walk at the first `xmpp`, with exactly one message |
| Gateway.UnknownPolicyRaises | molniya.rb:614-637 | an unknown policy raises when the walk reaches it, and only then |
| Gateway.AwayMissesEach | molniya.rb:614-657 | an away contact misses one copy per `xmpp` policy passed, and nothing is sent |
| Gateway.Referents | molniya.rb:659-695 | the referents of the missed notifications, in order; a lookup that raises stops it |
| Gateway.Dedup | molniya.rb:659-695 | `to_set`: each element once, at its first place |
| Gateway.StillBad | molniya.rb:659-695 | the objects whose hard state is not ok |
| Gateway.HardStates | molniya.rb:659-695 | the hard states in first-occurrence order, each once |
| Gateway.WithHard | molniya.rb:659-695 | the objects in one hard state, in order |
| Gateway.CatchUpMessage | molniya.rb:659-695 | the summary of the objects still in a hard problem state, grouped by state; none when there are none |
| Gateway.CatchUpQuietWhenRecovered | molniya.rb:659-695 | nothing is said when every missed notification names nothing or an object hard ok now |
| Gateway.HardGroupsPartition | molniya.rb:659-695 | each group line holds exactly the objects of its state, once each, in order, with distinct states |
| Gateway.Switchboard.ChatContactFor | molniya.rb:639-657 | the chat contact filed under the contact's chat address |
| Gateway.Switchboard.Check | molniya.rb:594-612 | a forced check is written, and a listener is registered when someone asked |
| Gateway.Switchboard.ResolveServiceName | molniya.rb:578-585 | the scanner carries out `ResolveAt` |
| Gateway.Switchboard.XmppNotification | molniya.rb:639-657 | the chat contact and the outbox change as `XmppStep` says |
| Gateway.Switchboard.ApplyPolicy | molniya.rb:614-637 | one policy carried out as `PolicyStep` says |
| Gateway.Switchboard.RunPolicies | molniya.rb:614-637 | the loop carries out `WalkSpec` |
| Gateway.Switchboard.Notification | molniya.rb:614-637 | an unknown contact or unresolvable referent raises before any channel is tried; then the walk |
| Gateway.Switchboard.CatchUp | molniya.rb:659-695 | nothing missed does nothing; otherwise at most one summary is sent and the queue is emptied; a lookup that raises keeps the queue |
| Gateway.Switchboard.PresenceCallback | molniya.rb:228-249 | a new contact is registered; a known contact that came online is caught up: no missed notifications do nothing, a lookup that raises returns the error and keeps the queue, otherwise the summary, if any, is sent to it and the queue emptied |
| Gateway.Switchboard.UpdateStatusMsg | molniya.rb:587-592 | the presence text becomes the current report's status message; a report that raises keeps it |
| Commands.TargetAt | trunk/commands.rb:38-53 | `h/...` resolves a service of host `h`, a bare `h` names the host, no token raises "Parse error at: ..." |
| Commands.TargetAtShape | trunk/commands.rb:38-53 | no token raises and keeps the cursor; names hold neither spaces nor '/' |
| Commands.UnknownHostRaises | trunk/commands.rb:38-53 | a token naming no host raises "Unknown host", with or without a service |
| Commands.CheckEffect | trunk/commands.rb:78-84 | the forced check, plus a listener for the sender when there is one |
| Commands.BareCheckRaises | trunk/commands.rb:78-84 | `skip` never raises 'syntax'; a bare `check` raises the parse error and forces nothing |
| Commands.AckBy | trunk/commands.rb:86-103 | the acknowledgement by the sender's configured contact, whose name is the author |
| Commands.AckComment | trunk/commands.rb:86-103 | the rest of the text when it starts with a non-space, else "acknowledged." |
| Commands.AckTargetFirst | trunk/commands.rb:86-103 | a bad target's error wins over "No Nagios contact with JID" |
| Commands.AckLineFields | trunk/commands.rb:86-103 | the line reads back as the names, 0, 1, 1, the author and the comment |
| Commands.ReplyCommentShape | trunk/commands.rb:105-120 | a reply comment is one line of at least two characters; one character gives the default |
| Commands.ReplySlotIsFirstDigit | trunk/commands.rb:130-155 | `@12` addresses slot 1, and an empty slot is answered without raising |
| Commands.ReplyNeedsSubcommand | trunk/commands.rb:130-155 | a reply without a word raises "Missing subcommand!" |
| Commands.AdminAddNeedsTwo | trunk/commands.rb:157-189 | `admin add` adds exactly the two tokens, else answers its usage line |
| Commands.AdminRemoveNeedsOne | trunk/commands.rb:157-189 | `admin remove` needs one token; an address not on the roster raises |
| Commands.StatusAt | trunk/commands.rb:56-64 | the status report rendered as text |
| Commands.DetailAt | trunk/commands.rb:66-76 | the object's detail view |
| Commands.CommandFor | molniya.rb:154-155 | the command words in the order they are tried |
| Commands.NoTokenNoReply | molniya.rb:270-318 | a body starting with a space or '/' gets no reply |
| Commands.CommandWordsFirst | molniya.rb:270-318 | a command word wins over a host of the same name |
| Commands.RaisedIsAnswered | molniya.rb:270-318 | what raised is answered "Oops. " and the error, as the last message |
| Commands.Base.ParseHostOrSvc | trunk/commands.rb:38-53 | the scanner carries out `TargetAt` |
| Commands.Base.InvokeCheck | trunk/commands.rb:78-84 | `Check#invoke` carries out `CheckAt` |
| Commands.Base.InvokeAck | trunk/commands.rb:86-103 | `Ack#invoke` carries out `AckAt` |
| Commands.Base.AckRest | trunk/commands.rb:92-101 | after the target: the comment is taken, then the sender's contact acknowledges |
| Commands.Base.Acknowledge | trunk/commands.rb:86-103 | the sender's contact acknowledges the target |
| Commands.Base.InvokeReplyAck | trunk/commands.rb:105-120 | `ReplyAck#invoke` carries out `ReplyAckAt` |
| Commands.Base.InvokeReplyCheck | trunk/commands.rb:122-128 | `ReplyCheck#invoke` carries out `ReplyCheckAt` |
| Commands.Base.InvokeReply | trunk/commands.rb:130-155 | `Reply#invoke` carries out `ReplyAt` |
| Commands.Base.InvokeSubcommand | trunk/commands.rb:130-155 | the subcommand word and the child it invokes |
| Commands.Base.InvokeChild | trunk/commands.rb:26-36 | the child shares message, contact, scanner cursor and switchboard, with this command as parent |
| Commands.Base.InvokeAdmin | trunk/commands.rb:157-189 | `Admin#invoke` carries out `AdminAt` |
| Commands.Base.AdminSub | trunk/commands.rb:163-187 | the subcommand runs as `AdminSubAt` says: list the roster, add, remove, or the unknown-command line |
| Commands.Base.AdminAdd | trunk/commands.rb:168-176 | `admin add` carries out `AdminAddAt` |
| Commands.Base.AdminRemove | trunk/commands.rb:177-184 | `admin remove` carries out `AdminRemoveAt` |
| Commands.Base.InvokeHelp | trunk/commands.rb:211-226 | sends the help text |
| Commands.Base.InvokeStatus | trunk/commands.rb:56-64 | `Status#invoke` carries out `StatusAt` |
| Commands.Base.InvokeDetail | trunk/commands.rb:66-76 | the detail commands carry out `DetailAt` |
| Commands.SenderContact | molniya.rb:270-318 | the chat contact filed under the sender's bare address |
| Commands.HandleMessage | molniya.rb:270-318 | `handle_message` sends what `MessageSpec` says |
| Commands.Dispatch | molniya.rb:270-318 | a command word runs its command; otherwise a host, then host/service |
| Commands.InvokeHostOrService | molniya.rb:297-309 | a '/' after a host resolves a service and shows its detail, else the host's |
| Commands.InvokeCommand | molniya.rb:320-329 | a fresh command of the word's class, invoked |
| Release01.Available01VersusAvailable | tags/release-0.1/molniya.rb:59-102 | release 0.1 tests the raw show against `[:chat, nil]`; it differs from the current reading only on a last presence of type unavailable |
| Release01.CameOnlineAsWrittenNeverReturns | tags/release-0.1/molniya.rb:193-207 | the trigger as written compares presences with symbols and never fires on an arriving presence |
| Release01.Referent01 | tags/release-0.1/molniya.rb:884-897 | the object read straight from the hosts table; missing pieces raise when the hard state is asked; another type raises "unexpected ntype" |
| Release01.AddOnce | tags/release-0.1/molniya.rb:884-897 | adding to a set keeps each element once, in insertion order |
| Release01.Collect01 | tags/release-0.1/molniya.rb:881-897 | the hosts and services in a hard state other than ok, each once; the first raise stops the loop |
| Release01.CollectErrSticks | tags/release-0.1/molniya.rb:881-897 | a prefix that raises makes the whole loop raise with its message |
| Release01.UnknownNTypeRaises01 | tags/release-0.1/molniya.rb:893-895 | an unknown ntype raises "unexpected ntype", whatever follows |
| Release01.SortedStates01 | tags/release-0.1/molniya.rb:900-910 | groups sorted by state; a nil state among two or more groups raises the comparison error |
| Release01.CatchUpMessage01 | tags/release-0.1/molniya.rb:874-919 | the heading, then the host line, then the service line; nothing when none is in trouble |
| Release01.MessageOf01 | tags/release-0.1/molniya.rb:898-916 | a line of groups for each kind that has any, after the heading |
| Release01.Collect01AgreesWithCurrent | tags/release-0.1/molniya.rb:881-897 | the same objects as the current release, when every referent exists |
| Release01.CatchUp01QuietWhenRecovered | tags/release-0.1/molniya.rb:881-898 | the loop collects nothing, so nothing is sent, when every missed object is hard ok now |
| Release01.MissingStateBreaksSort01 | tags/release-0.1/molniya.rb:900-904 | hosts in two states, one nil, make the catch-up raise |
| Release01.Buckets01 | tags/release-0.1/molniya.rb:472-483 | the states whose list is not empty, each with its list; a missing list raises |
| Release01.InOrderSnoc | tags/release-0.1/molniya.rb:472-483 | a list for the last state keeps the order |
| Release01.Buckets01InOrder | tags/release-0.1/molniya.rb:472-483 | down before unreachable; critical, warning, unknown |
| Release01.CollectBuckets | tags/release-0.1/molniya.rb:472-483 | the loop computes `Buckets01` |
| Release01.StatusReport01 | tags/release-0.1/molniya.rb:469-485 | `status_report` computes the hosts' then the services' buckets |
| Release01.StatusReport01OfLoadedStatus | tags/release-0.1/molniya.rb:469-485 | a loaded status never makes the report raise, and nothing in trouble gives an empty report |
| Release01.Ack01Fields | tags/release-0.1/molniya.rb:491-511 | the line reads back as the names, 0, 1, 1, the author and the comment; other types raise "unsupported ntype" |
| Release01.ServiceNotify01 | tags/release-0.1/molniya.rb:645-650 | the HTML formatter's lookups: a service notification whose host is not configured raises "Notification for <host> but could not find host definition!", and a missing service raises a key error; otherwise the service |
| Release01.PolicyStep01 | tags/release-0.1/molniya.rb:852-872 | one policy as in the current release, except that a service notification reaching a chat contact whose lookups fail raises after its number is taken, and nothing is sent |
| Release01.WalkSpec01WhenFound | tags/release-0.1/molniya.rb:831-872 | when the lookups succeed, and always for host notifications, the 0.1 walk is the current release's |
| Release01.Notification01 | tags/release-0.1/molniya.rb:831-850 | the contact is fetched, then the 0.1 policy walk, without looking up the referent first |
| Release01.Notification01NeedsNoReferent | tags/release-0.1/molniya.rb:831-850 | a host notification naming no host is still delivered, through the current release's walk |
| Release01.MissingHostLosesSlot01 | tags/release-0.1/molniya.rb:645-650 | a service notification whose host is not configured raises at the first `xmpp` for a reachable contact: nothing is sent and the number stays used |
| Release01.CatchUp01 | tags/release-0.1/molniya.rb:874-919 | at most one message, `CatchUpMessage01`, and the missed queue is left as it is |
| Release01.CollectMissed | tags/release-0.1/molniya.rb:881-897 | the loop computes `Collect01` |
| Release01.PresenceCallback01 | tags/release-0.1/molniya.rb:193-207 | a new contact is registered; a known contact that came online is caught up: no missed notifications do nothing, a failed message returns its error, otherwise the message, if any, is sent to it |
| Release01Chat.Status01At | tags/release-0.1/molniya.rb:261-262 | the rendered report when status and report load, else what raised |
| Release01Chat.Check01Syntax | tags/release-0.1/molniya.rb:263-280 | "syntax" exactly when no word follows; a forced check names that word's host |
| Release01Chat.ReplyAck01At | tags/release-0.1/molniya.rb:288-297 | the contact is looked up first; the line acknowledges by its name with the comment |
| Release01Chat.ReplyCheck01At | tags/release-0.1/molniya.rb:298-303 | the referent is checked; nothing found raises with the notification |
| Release01Chat.UnknownReplyIgnored01 | tags/release-0.1/molniya.rb:284-304 | another subcommand does nothing |
| Release01Chat.Reply01Slots | tags/release-0.1/molniya.rb:281-308 | no chat contact raises; an empty slot is answered |
| Release01Chat.AdminAddAsWrittenSwapsFields | tags/release-0.1/molniya.rb:328-336 | "a@b c" adds the address "a@b c" under the alias "a@b"; the corrected command adds "a@b" as "c" |
| Release01Chat.HostOr01Cases | tags/release-0.1/molniya.rb:350-363 | no host, a host alone, a host with a service |
| Release01Chat.ServiceNamesCaseSensitive01 | tags/release-0.1/molniya.rb:803-810 | a service `HTTP` is not found from `http`, which the current release resolves |
| Release01Chat.RaisedIsAnswered01 | tags/release-0.1/molniya.rb:364-369 | "Oops. " and the error exactly when the command raised |
| Release01Chat.NoWordNoReply01 | tags/release-0.1/molniya.rb:253-257 | a body starting with a space or '/' gets no reply |
| Release01Chat.HandleMessage01 | tags/release-0.1/molniya.rb:235-370 | `handle_message` sends what `MessageSpec01` says |
| Release01Chat.Dispatch01 | tags/release-0.1/molniya.rb:260-363 | the `case first` carries out `Dispatch01At` |
| Release01Chat.Status01 | tags/release-0.1/molniya.rb:261-262 | carries out `Status01At` |
| Release01Chat.Check01 | tags/release-0.1/molniya.rb:263-280 | carries out `Check01At` |
| Release01Chat.CheckWord01 | tags/release-0.1/molniya.rb:267-280 | carries out `CheckWord01At` |
| Release01Chat.CheckService01 | tags/release-0.1/molniya.rb:269-273 | carries out `CheckService01At` |
| Release01Chat.CheckHost01 | tags/release-0.1/molniya.rb:274-277 | carries out `CheckHost01At` |
| Release01Chat.Reply01 | tags/release-0.1/molniya.rb:281-308 | carries out `Reply01At` |
| Release01Chat.ReplySub01 | tags/release-0.1/molniya.rb:284-304 | carries out `ReplySub01At` |
| Release01Chat.ReplyAck01 | tags/release-0.1/molniya.rb:288-297 | carries out `ReplyAck01At` |
| Release01Chat.Admin01 | tags/release-0.1/molniya.rb:319-347 | carries out `Commands.AdminAt` |
| Release01Chat.AdminAdd01 | tags/release-0.1/molniya.rb:328-336 | carries out the corrected `Commands.AdminAddAt` |
| Release01Chat.AdminRemove01 | tags/release-0.1/molniya.rb:337-344 | carries out `Commands.AdminRemoveAt` |
| Release01Chat.HostOr01 | tags/release-0.1/molniya.rb:348-363 | carries out `HostOr01At` |

## Left out

- The XMPP transport. Connecting, reconnecting, `TraceClient`, the worker
  threads and the inbox queue are not modelled. Each outgoing message is an
  outbox event, and every operation runs atomically.
- Dead code: `send_if_online`, `online?`, `invite`, `send_` and
  `update_status`, which rely on an `@im` that is never set.
- `known_sender?`: it always answers true, so every message is handled.
- Files, the clock and the command pipe. Times and mtimes are integers passed
  in; a file is its lines; a command line is returned as an event rather
  than written.
- Duration.BriefTimeDelta: the cut-off `OLD` is fixed at 1996-01-01 00:00
  UTC. Ruby's `Time.parse('1996-01-01')` is local midnight, so within the
  host's time-zone offset of that instant the model answers with a duration
  where Ruby answers "ever", or the reverse. The time zone is not modelled.
- NagiosStore.NagiosInstance.WaitAndRefreshStatus: the time-out message
  renders `newer` as the integer count of seconds. Ruby interpolates a
  `Time`, which prints as a local date and time; that rendering is not
  modelled.
- NagiosStore.WaitTimesOut: states the same time-out message, with `newer`
  rendered as an integer rather than as Ruby's local date and time.
- Sleeping. `wait_and_refresh` polls at the times it is given.
- The HTTP server (`WebApp`), the SMTP session, the mail headers (including
  the RFC 822 `Date` header) and the Nagios CGI links.
- The HTML formatters (`XMPPHTMLFormatter`). Chat texts use the plain-text
  formatter of release 0.3.
- Release01Chat.Render01: release 0.1's chat formatter is HTML, so its status
  report and service detail views are parameters of the model.
- Release01.Notification01: release 0.1's chat text is taken from the
  plain-text formatter of release 0.3 rather than 0.1's HTML formatter. The
  lookups that formatter makes for a service notification are modelled
  (`ServiceNotify01`); the markup itself is not.
- The `Eval` command: it runs Ruby `eval` (it is disabled in release 0.1 and
  does nothing there).
- `trunk/inspectable.rb` and the `meta_def` reflection behind `tag_is` and
  `cmd`. Tags and command words are constants.
- `inspect`: the text of an OpenStruct or a contact in error messages is
  approximated by the inspection of its property hash (`InspectProps`).
- Regular expressions:
  - a service name is matched as a literal word, not as a pattern;
  - lines are matched without their terminator: the end of a line stands in
    for the newline that a trailing `\s+` (the object-cache field pattern)
    or `\s*` would otherwise consume, so every line is taken to end with a
    newline, the last one included.
- Object identity:
  - hosts and services are values in the configuration snapshot;
  - a stale object kept across a configuration reload is not modelled;
  - the JID-versus-String keys of the contacts hash are modelled as bare
    address strings.
- Chat.ChatContact.IsAvailable: answers the corrected reading `Available`
  (Findings row 2), not `available?` as written (`AvailableAsWritten`). An
  online contact whose last presence is plain available (nil `show`) is
  reachable here, where the source treats it as away.
- Gateway.Switchboard.XmppNotification: delivery is decided by the
  corrected `Available`. For a plain available contact the model records a
  slot, sends the chat message and answers true; the source as written
  queues the notification as missed and answers false.
- Gateway.Switchboard.ApplyPolicy: its `xmpp` step is `XmppNotification`'s,
  so it inherits the corrected availability.
- Gateway.Switchboard.RunPolicies: walks `WalkSpec` over a view built with
  the corrected `Available`; with policies "xmpp;email" and a plain
  available contact the model stops at `xmpp`, where the source goes on to
  e-mail.
- Gateway.Switchboard.Notification: runs that walk, so it too delivers by
  the corrected availability.
- Release01.PresenceCallback01: fires on the corrected trigger
  `Chat.CameOnline` (Findings row 1). Release 0.1 as written
  (`CameOnlineAsWritten01`) never fires on an arriving presence, so there a
  known contact with missed notifications is never caught up.
- Release01Chat.Admin01: carries out the corrected `Commands.AdminAt`
  (Findings row 3). For "admin add a@b c" the model adds the address "a@b"
  as "c"; release 0.1 as written (`AdminAddAsWritten01`) adds "a@b c" as
  "a@b".
- Release01Chat.AdminAdd01: carries out the corrected `Commands.AdminAddAt`
  rather than `AdminAddAsWritten01`, for the same reason.
- Release01Chat.Dispatch01: its `admin` branch runs the corrected add, as
  `Release01Chat.Admin01` does.
- Release01Chat.HandleMessage01: dispatches through `Dispatch01`, so an
  `admin add` message gets the corrected add.
- The configuration refresh inside `nagios.config.contents`. Every read of
  the configuration in the source refreshes the caches first; a
  configuration reload then forces a status wait, and a status reload fires
  the check listeners, which send chat messages. That composition is
  modelled on its own (`NagiosStore.NagiosInstance.ConfigContents`,
  `RefreshIfNeeded`) but not inside the gateway operations, which take the
  configuration as a snapshot `cfg`:
  - Commands.HandleMessage: `cfg` is a snapshot taken without the refresh
    and its listener messages;
  - Commands.Dispatch: the same snapshot;
  - Gateway.Switchboard.Notification: the same snapshot;
  - Gateway.Switchboard.CatchUp: the same snapshot;
  - Release01Chat.HandleMessage01: the same snapshot.
- Launching: option parsing, YAML loading and logger set-up.
- Release 0.1's `nagios.rb` is not part of this model. Release 0.1's
  objects are modelled with the current configuration snapshot.

## Findings

| source | as written | input that shows it | evidently intended | confidence | as-written member | corrected member |
|---|---|---|---|---|---|---|
| tags/release-0.1/molniya.rb:202 | the callback compares presence objects with the symbols `[:chat, nil]`, so it fires only when the new presence is nil | a contact going from no presence to a plain available presence is never caught up (`CameOnlineAsWrittenNeverReturns`) | fire when the presence symbol changes from not reachable to reachable | not executed | Release01.CameOnlineAsWritten01 | Chat.CameOnline |
| molniya.rb:107-118 | `available?` tests the raw `show` against `[:chat, :available]`, and a plain presence has a nil show | an online contact whose last presence is plain available counts as away, so its notifications are queued as missed | read the presence through `presence_sym`, as the callback does | not executed | Chat.AvailableAsWritten | Chat.Available |
| tags/release-0.1/molniya.rb:328-336 | `admin add` takes `scanner[0]` (the whole match) as the address and `scanner[1]` as the alias | `admin add a@b c` adds the address "a@b c" under the alias "a@b" | `scanner[1]` and `scanner[2]`, as the current release does | not executed | Release01Chat.AdminAddAsWritten01 | Commands.AdminAddAt |

=== FILE: cache.dfy ===
/** The two files the gateway reads from the monitoring system, each kept as
    loaded contents that are reloaded when the file changes: the object
    cache (the configuration) and the status file. Reloading the
    configuration forces a reload of the status, and whoever waits for a
    check result listens to status reloads. */
module NagiosStore {

  import opened Wrappers
  import opened Text
  import opened NagiosModel
  import opened NagiosParse
  import opened NagiosConfig
  import opened NagiosStatus
  import opened Events
  import opened Formatting

  // ---------------------------------------------------------------------
  // Files and listeners

  /** What a file holds when it is read: its modification time in seconds
      since the epoch and its lines. */
  datatype FileState = FileState(mtime: int, lines: seq<string>)

  /** A file as the gateway sees it at one moment: its path, and what it
      holds unless it does not exist. */
  datatype Source = Source(path: string, file: Option<FileState>)

  /** `source.mtime`: a missing file raises. */
  function Mtime(src: Source): (r: Result<int>)
    ensures r.Err? <==> src.file.None?
    ensures r.Err? ==> r.msg == "No such file or directory - " + src.path
    ensures r.Ok? ==> r.value == src.file.value.mtime
  {
    match src.file
    case None => Err("No such file or directory - " + src.path)
    case Some(f) => Ok(f.mtime)
  }

  /** The listener `Switchboard#check` registers: the object whose check was
      asked for, the time it was asked for, and the chat address to tell. */
  datatype Listener = CheckListener(item: Ref, requested: int, jid: string)

  /** Calling a listener with the new status: it compares the object's last
      check with the time of the request. A newer check sends the object's
      detail view and drops the listener; otherwise the listener stays.
      A never-checked object compares nil and raises. */
  function CallListener(l: Listener, cfg: Option<ConfigData>, now: int): (r: Result<(bool, seq<Event>)>)
    ensures r.Ok? && r.value.0 ==> r.value.1 == []
    ensures r.Ok? && !r.value.0 ==> |r.value.1| == 1 && r.value.1[0].Chat? && r.value.1[0].jid == l.jid
  {
    var m := if cfg.Some? then MonitoredOf(cfg.value, l.item) else None;
    if m.None? || m.value.lastCheck.None? then Err(NilError(">"))
    else if m.value.lastCheck.value > l.requested then
      var text :- Detail(l.item, m.value, now);
      Ok((false, [Chat(l.jid, text)]))
    else Ok((true, []))
  }

  /** What `@listeners.select { |l| l.call(v) }` leaves: the listeners kept,
      the messages sent, and the message of the first listener that raised,
      which stops the walk. */
  datatype Selected = Selected(kept: seq<Listener>, sent: seq<Event>, err: Option<string>)

  function SelectListeners(ls: seq<Listener>, cfg: Option<ConfigData>, now: int): Selected {
    if |ls| == 0 then Selected([], [], None)
    else
      var p := SelectListeners(ls[..|ls| - 1], cfg, now);
      if p.err.Some? then p
      else
        match CallListener(ls[|ls| - 1], cfg, now)
        case Err(e) => Selected(p.kept, p.sent, Some(e))
        case Ok(c) => Selected(p.kept + (if c.0 then [ls[|ls| - 1]] else []), p.sent + c.1, None)
  }

  /** The walk over the listeners fails exactly when some listener
      raises. */
  lemma {:induction false} SelectListenersFails(ls: seq<Listener>, cfg: Option<ConfigData>, now: int)
    ensures SelectListeners(ls, cfg, now).err.None? <==>
      forall i :: 0 <= i < |ls| ==> CallListener(ls[i], cfg, now).Ok?
  {
    if |ls| > 0 {
      var prefix := ls[..|ls| - 1];
      SelectListenersFails(prefix, cfg, now);
      if SelectListeners(prefix, cfg, now).err.Some? {
        var i :| 0 <= i < |prefix| && CallListener(prefix[i], cfg, now).Err?;
        assert CallListener(ls[i], cfg, now).Err?;
      } else {
        assert forall i :: 0 <= i < |prefix| ==> prefix[i] == ls[i];
      }
    }
  }

  /** The listeners a status reload keeps are exactly those whose object
      has no check newer than the request, and each listener that goes
      sends exactly one message. */
  lemma {:induction false} SelectListenersKeeps(ls: seq<Listener>, cfg: Option<ConfigData>, now: int)
    requires SelectListeners(ls, cfg, now).err.None?
    ensures forall l :: l in SelectListeners(ls, cfg, now).kept <==>
      l in ls && CallListener(l, cfg, now) == Ok((true, []))
    ensures |SelectListeners(ls, cfg, now).sent| + |SelectListeners(ls, cfg, now).kept| == |ls|
  {
    if |ls| > 0 {
      var prefix := ls[..|ls| - 1];
      var last := ls[|ls| - 1];
      assert SelectListeners(prefix, cfg, now).err.None?;
      SelectListenersKeeps(prefix, cfg, now);
      assert forall l :: l in ls <==> l in prefix || l == last;
    }
  }

  // ---------------------------------------------------------------------
  // The stores

  /** The state of both stores: the loaded configuration and the mtime it
      was read at, the loaded status and its mtime, and the listeners
      waiting for status reloads. Nothing registers listeners on the
      configuration, so its list is always empty and is not kept. */
  datatype Stores = Stores(
    config: Option<ConfigData>,
    configMtime: Option<int>,
    status: Option<StatusData>,
    statusMtime: Option<int>,
    listeners: seq<Listener>)

  /** The state an operation leaves, the messages its listeners sent, and
      what it returned or raised. */
  datatype Done<T> = Done(after: Stores, sent: seq<Event>, result: Result<T>)

  /** `contents = v` on the status store: the contents are replaced first,
      then the listeners are walked; when one raises, the list stays as it
      was. */
  function SetStatusSpec(s: Stores, v: StatusData, now: int): Done<bool> {
    var sel := SelectListeners(s.listeners, s.config, now);
    var s' := s.(status := Some(v));
    if sel.err.Some? then Done(s', sel.sent, Err(sel.err.value))
    else Done(s'.(listeners := sel.kept), sel.sent, Ok(true))
  }

  /** `Status#_refresh`: the mtime is read first, then the file is parsed
      and loaded against the current configuration, whose objects take the
      records' state as they are read, then the contents are replaced and
      only then the mtime recorded. */
  function RefreshStatusSpec(s: Stores, src: Source, now: int): Done<bool> {
    match Mtime(src)
    case Err(e) => Done(s, [], Err(e))
    case Ok(mt) =>
      match ParseSpec(StatusFormat, src.file.value.lines)
      case Err(e) => Done(s, [], Err(e))
      case Ok(objs) =>
        var loaded := LoadStatusSpec(s.config, objs);
        var s1 := s.(config := loaded.0);
        match loaded.1
        case Err(e) => Done(s1, [], Err(e))
        case Ok(v) =>
          var d := SetStatusSpec(s1, v, now);
          if d.result.Err? then d else Done(d.after.(statusMtime := Some(mt)), d.sent, Ok(true))
  }

  /** Whether `refresh_if_needed` reloads: the file exists, and nothing is
      loaded, or no mtime is recorded, or the file is newer. */
  predicate Stale(contentsLoaded: bool, recorded: Option<int>, src: Source) {
    src.file.Some? && (!contentsLoaded || recorded.None? || src.file.value.mtime > recorded.value)
  }

  /** `Cached#refresh_if_needed` on the status store: whether it reloaded.
      A missing file reads as not reloaded. */
  function StatusIfNeededSpec(s: Stores, src: Source, now: int): Done<bool> {
    if Stale(s.status.Some?, s.statusMtime, src) then RefreshStatusSpec(s, src, now)
    else Done(s, [], Ok(false))
  }

  /** The file as the `k`th poll of `wait_and_refresh` sees it: `src` at
      the start, then each following second as listed in `later`; past the
      end of `later` the file no longer changes. */
  function PollAt(src: Source, later: seq<Source>, k: nat): Source {
    if k == 0 then src
    else if k - 1 < |later| then later[k - 1]
    else if |later| > 0 then later[|later| - 1]
    else src
  }

  function TimedOut(path: string, newer: int): string {
    "Timed out waiting to refresh " + path + " with a newer version than " + IntToString(newer)
  }

  /** `Cached#wait_and_refresh(newer, timeout)` from the `k`th poll on,
      started at `start`: it polls once a second until the deadline and
      reloads as soon as the file is at least as new as `newer`. */
  function WaitSpec(s: Stores, newer: int, timeout: int, start: int, src: Source, later: seq<Source>, k: nat): Done<bool>
    decreases timeout - k
  {
    if k >= timeout then Done(s, [], Err(TimedOut(src.path, newer)))
    else
      var f := PollAt(src, later, k);
      match Mtime(f)
      case Err(e) => Done(s, [], Err(e))
      case Ok(mt) =>
        if mt >= newer then RefreshStatusSpec(s, f, start + k)
        else WaitSpec(s, newer, timeout, start, src, later, k + 1)
  }

  /** `Config#_refresh`. */
  function RefreshConfigSpec(s: Stores, src: Source): Done<bool> {
    match Mtime(src)
    case Err(e) => Done(s, [], Err(e))
    case Ok(mt) =>
      match ParseSpec(DefFormat, src.file.value.lines)
      case Err(e) => Done(s, [], Err(e))
      case Ok(defs) =>
        match LoadSpec(defs)
        case Err(e) => Done(s, [], Err(e))
        case Ok(c) => Done(s.(config := Some(c), configMtime := Some(mt)), [], Ok(true))
  }

  /** How long a configuration reload waits for a matching status file. */
  const STATUS_WAIT: int := 60

  /** `Config#refresh_if_needed`: when the configuration reloads, the
      status must reload from a file at least as new within a minute;
      otherwise the status reloads if it needs to. What it returns is not
      used, so only whether it raised is kept. */
  function ConfigIfNeededSpec(s: Stores, cfgSrc: Source, statusSrc: Source, later: seq<Source>, now: int): Done<bool> {
    if Stale(s.config.Some?, s.configMtime, cfgSrc) then
      var d := RefreshConfigSpec(s, cfgSrc);
      if d.result.Err? then d
      else
        var w := WaitSpec(d.after, cfgSrc.file.value.mtime, STATUS_WAIT, now, statusSrc, later, 0);
        Done(w.after, w.sent, if w.result.Err? then w.result else Ok(true))
    else
      var d := StatusIfNeededSpec(s, statusSrc, now);
      Done(d.after, d.sent, if d.result.Err? then d.result else Ok(false))
  }

  const NO_CONFIG: string := "Failed to load contents of Nagios::Config!"

  /** `Config#contents`: refresh if needed, then the contents, which must
      exist. */
  function ConfigContentsSpec(s: Stores, cfgSrc: Source, statusSrc: Source, later: seq<Source>, now: int): Done<ConfigData> {
    var d := ConfigIfNeededSpec(s, cfgSrc, statusSrc, later, now);
    if d.result.Err? then Done(d.after, d.sent, Err(d.result.msg))
    else if d.after.config.None? then Done(d.after, d.sent, Err(NO_CONFIG))
    else Done(d.after, d.sent, Ok(d.after.config.value))
  }

  // ---------------------------------------------------------------------
  // The gateway's view of the monitoring system

  /** The configuration and status stores of one monitoring system. */
  class NagiosInstance {
    var config: Option<ConfigData>
    var configMtime: Option<int>
    var status: Option<StatusData>
    var statusMtime: Option<int>
    var listeners: seq<Listener>

    function Snapshot(): Stores
      reads this
    {
      Stores(config, configMtime, status, statusMtime, listeners)
    }

    /** Nothing is loaded and nobody listens. */
    constructor ()
      ensures Snapshot() == Stores(None, None, None, None, [])
    {
      config := None;
      configMtime := None;
      status := None;
      statusMtime := None;
      listeners := [];
    }

    /** `register(&listener)` on the status store. */
    method Register(l: Listener)
      modifies this
      ensures Snapshot() == old(Snapshot()).(listeners := old(listeners) + [l])
    {
      listeners := listeners + [l];
    }

    /** `listeners?` on the status store. */
    function HasListeners(): (b: bool)
      reads this
      ensures b <==> |listeners| > 0
    {
      |listeners| != 0
    }

    /** `Status#contents = v`. */
    method SetStatus(v: StatusData, now: int) returns (sent: seq<Event>, r: Result<bool>)
      modifies this
      ensures var d := SetStatusSpec(old(Snapshot()), v, now);
        Snapshot() == d.after && sent == d.sent && r == d.result
    {
      status := Some(v);
      var kept: seq<Listener> := [];
      sent := [];
      var i := 0;
      while i < |listeners|
        invariant 0 <= i <= |listeners|
        invariant listeners == old(listeners) && config == old(config)
        invariant SelectListeners(listeners[..i], config, now) == Selected(kept, sent, None)
      {
        assert listeners[..i + 1][..i] == listeners[..i];
        var c := CallListener(listeners[i], config, now);
        if c.Err? {
          SelectErrPersists(listeners, config, now, i + 1);
          return sent, Err(c.msg);
        }
        if c.value.0 {
          kept := kept + [listeners[i]];
        }
        sent := sent + c.value.1;
        i := i + 1;
      }
      assert listeners[..|listeners|] == listeners;
      listeners := kept;
      r := Ok(true);
    }

    /** `Status#_refresh`. */
    method RefreshStatus(src: Source, now: int) returns (sent: seq<Event>, r: Result<bool>)
      modifies this
      ensures var d := RefreshStatusSpec(old(Snapshot()), src, now);
        Snapshot() == d.after && sent == d.sent && r == d.result
    {
      sent := [];
      if src.file.None? {
        return [], Err(Mtime(src).msg);
      }
      var mtime := src.file.value.mtime;
      var objs := Parse(StatusFormat, src.file.value.lines);
      if objs.Err? {
        return [], Err(objs.msg);
      }
      var cfgOut, loaded := LoadStatus(config, objs.value);
      config := cfgOut;
      if loaded.Err? {
        return [], Err(loaded.msg);
      }
      sent, r := SetStatus(loaded.value, now);
      if r.Err? {
        return;
      }
      statusMtime := Some(mtime);
    }

    /** `Status#refresh_if_needed`. */
    method RefreshStatusIfNeeded(src: Source, now: int) returns (sent: seq<Event>, r: Result<bool>)
      modifies this
      ensures var d := StatusIfNeededSpec(old(Snapshot()), src, now);
        Snapshot() == d.after && sent == d.sent && r == d.result
    {
      if src.file.Some? && (status.None? || statusMtime.None? || src.file.value.mtime > statusMtime.value) {
        sent, r := RefreshStatus(src, now);
      } else {
        sent, r := [], Ok(false);
      }
    }

    /** `Status#wait_and_refresh(newer, timeout)`, started at `start`; each
      failed poll sleeps one second. */
    method WaitAndRefreshStatus(newer: int, timeout: int, start: int, src: Source, later: seq<Source>)
      returns (sent: seq<Event>, r: Result<bool>)
      modifies this
      ensures var d := WaitSpec(old(Snapshot()), newer, timeout, start, src, later, 0);
        Snapshot() == d.after && sent == d.sent && r == d.result
    {
      ghost var s0 := Snapshot();
      var now := start;
      var timeoutT := start + timeout;
      var k: nat := 0;
      while now < timeoutT
        invariant now == start + k
        invariant Snapshot() == s0
        invariant WaitSpec(s0, newer, timeout, start, src, later, 0) == WaitSpec(s0, newer, timeout, start, src, later, k)
        decreases timeoutT - now
      {
        var f := PollAt(src, later, k);
        if f.file.None? {
          return [], Err(Mtime(f).msg);
        }
        if f.file.value.mtime >= newer {
          sent, r := RefreshStatus(f, now);
          return;
        }
        now := now + 1;
        k := k + 1;
      }
      return [], Err(TimedOut(src.path, newer));
    }

    /** `Config#_refresh`; nobody listens to the configuration. */
    method RefreshConfig(src: Source) returns (r: Result<bool>)
      modifies this
      ensures var d := RefreshConfigSpec(old(Snapshot()), src);
        Snapshot() == d.after && r == d.result
    {
      if src.file.None? {
        return Err(Mtime(src).msg);
      }
      var mtime := src.file.value.mtime;
      var defs := Parse(DefFormat, src.file.value.lines);
      if defs.Err? {
        return Err(defs.msg);
      }
      var c := LoadConfig(defs.value);
      if c.Err? {
        return Err(c.msg);
      }
      config := Some(c.value);
      configMtime := Some(mtime);
      r := Ok(true);
    }

    /** `Config#refresh_if_needed`. */
    method RefreshIfNeeded(cfgSrc: Source, statusSrc: Source, later: seq<Source>, now: int)
      returns (sent: seq<Event>, r: Result<bool>)
      modifies this
      ensures var d := ConfigIfNeededSpec(old(Snapshot()), cfgSrc, statusSrc, later, now);
        Snapshot() == d.after && sent == d.sent && r == d.result
    {
      if cfgSrc.file.Some? && (config.None? || configMtime.None? || cfgSrc.file.value.mtime > configMtime.value) {
        r := RefreshConfig(cfgSrc);
        if r.Err? {
          return [], r;
        }
        sent, r := WaitAndRefreshStatus(configMtime.value, STATUS_WAIT, now, statusSrc, later);
        if r.Ok? {
          r := Ok(true);
        }
      } else {
        sent, r := RefreshStatusIfNeeded(statusSrc, now);
        if r.Ok? {
          r := Ok(false);
        }
      }
    }

    /** `Config#contents`. */
    method ConfigContents(cfgSrc: Source, statusSrc: Source, later: seq<Source>, now: int)
      returns (sent: seq<Event>, r: Result<ConfigData>)
      modifies this
      ensures var d := ConfigContentsSpec(old(Snapshot()), cfgSrc, statusSrc, later, now);
        Snapshot() == d.after && sent == d.sent && r == d.result
    {
      var refreshed;
      sent, refreshed := RefreshIfNeeded(cfgSrc, statusSrc, later, now);
      if refreshed.Err? {
        return sent, Err(refreshed.msg);
      }
      if config.None? {
        return sent, Err(NO_CONFIG);
      }
      r := Ok(config.value);
    }
  }

  // ---------------------------------------------------------------------
  // What reloading promises

  /** A status reload that fails leaves the recorded mtime and the
      listeners as they were, and changes no more of the configuration than
      the monitored state of its objects: the records read before the
      failure stay applied. The status itself is replaced only when it was
      a listener that raised. */
  lemma RefreshStatusOnError(s: Stores, src: Source, now: int)
    requires RefreshStatusSpec(s, src, now).result.Err?
    ensures var d := RefreshStatusSpec(s, src, now);
      d.after.statusMtime == s.statusMtime && d.after.listeners == s.listeners &&
      d.after.configMtime == s.configMtime &&
      (d.after.config.Some? <==> s.config.Some?) &&
      (s.config.Some? ==> Erase(d.after.config.value) == Erase(s.config.value))
    ensures var d := RefreshStatusSpec(s, src, now);
      d.after.status != s.status ==>
        src.file.Some? && ParseSpec(StatusFormat, src.file.value.lines).Ok? &&
        LoadStatusSpec(s.config, ParseSpec(StatusFormat, src.file.value.lines).value).1.Ok? &&
        d.after.status == Some(LoadStatusSpec(s.config, ParseSpec(StatusFormat, src.file.value.lines).value).1.value) &&
        SelectListeners(s.listeners, d.after.config, now).err.Some?
  {
    if src.file.Some? && ParseSpec(StatusFormat, src.file.value.lines).Ok? && s.config.Some? {
      StatusKeepsConfig(s.config.value, ParseSpec(StatusFormat, src.file.value.lines).value);
    }
  }

  /** A status reload that succeeds holds the newly loaded status, records
      the file's mtime, and keeps exactly the listeners whose object has no
      check newer than their request; each other listener sent one
      message. */
  lemma RefreshStatusOnSuccess(s: Stores, src: Source, now: int)
    requires RefreshStatusSpec(s, src, now).result.Ok?
    ensures src.file.Some? && ParseSpec(StatusFormat, src.file.value.lines).Ok?
    ensures var d := RefreshStatusSpec(s, src, now);
      var loaded := LoadStatusSpec(s.config, ParseSpec(StatusFormat, src.file.value.lines).value);
      loaded.1.Ok? && d.after.config == loaded.0 &&
      d.after.status == Some(loaded.1.value) && d.after.statusMtime == Some(src.file.value.mtime) &&
      d.after.configMtime == s.configMtime &&
      (forall l :: l in d.after.listeners <==>
        l in s.listeners && CallListener(l, d.after.config, now) == Ok((true, []))) &&
      |d.sent| + |d.after.listeners| == |s.listeners|
  {
    var objs := ParseSpec(StatusFormat, src.file.value.lines).value;
    var cfg := LoadStatusSpec(s.config, objs).0;
    SelectListenersKeeps(s.listeners, cfg, now);
  }

  /** `refresh_if_needed` reloads exactly when the store is stale: then it
      is a reload and answers true if that succeeds; otherwise nothing
      changes and it answers false. */
  lemma StatusIfNeededIff(s: Stores, src: Source, now: int)
    ensures var d := StatusIfNeededSpec(s, src, now);
      (d.result == Ok(true) <==> Stale(s.status.Some?, s.statusMtime, src) && RefreshStatusSpec(s, src, now).result.Ok?) &&
      (!Stale(s.status.Some?, s.statusMtime, src) ==> d == Done(s, [], Ok(false))) &&
      (Stale(s.status.Some?, s.statusMtime, src) ==> d == RefreshStatusSpec(s, src, now))
  {
  }

  /** A status reload keeps the configuration loaded if it was. */
  lemma RefreshStatusKeepsConfig(s: Stores, src: Source, now: int)
    ensures RefreshStatusSpec(s, src, now).after.config.Some? <==> s.config.Some?
    ensures RefreshStatusSpec(s, src, now).after.configMtime == s.configMtime
  {
  }

  /** A poll that finds the file older than `newer` sleeps a second and
      polls again. */
  lemma WaitStep(s: Stores, newer: int, timeout: int, start: int, src: Source, later: seq<Source>, k: nat)
    requires k < timeout
    requires PollAt(src, later, k).file.Some? && PollAt(src, later, k).file.value.mtime < newer
    ensures WaitSpec(s, newer, timeout, start, src, later, k) == WaitSpec(s, newer, timeout, start, src, later, k + 1)
  {
  }

  /** When every poll up to the deadline finds the file older than
      `newer`, the wait raises the time-out and reloads nothing. */
  lemma {:induction false} WaitTimesOut(s: Stores, newer: int, timeout: int, start: int, src: Source, later: seq<Source>, k: nat)
    requires forall j: nat :: k <= j < timeout ==>
      PollAt(src, later, j).file.Some? && PollAt(src, later, j).file.value.mtime < newer
    ensures WaitSpec(s, newer, timeout, start, src, later, k) == Done(s, [], Err(TimedOut(src.path, newer)))
    decreases timeout - k
  {
    if k < timeout {
      WaitStep(s, newer, timeout, start, src, later, k);
      WaitTimesOut(s, newer, timeout, start, src, later, k + 1);
    }
  }

  /** The wait reloads from the first poll that finds the file at least as
      new as `newer`, at the time of that poll, provided every earlier poll
      found the file and the poll comes before the deadline. */
  lemma {:induction false} WaitReloadsFirstNewer(s: Stores, newer: int, timeout: int, start: int, src: Source, later: seq<Source>,
                                                  k: nat, hit: nat)
    requires k <= hit < timeout
    requires PollAt(src, later, hit).file.Some? && PollAt(src, later, hit).file.value.mtime >= newer
    requires forall j: nat :: k <= j < hit ==>
      PollAt(src, later, j).file.Some? && PollAt(src, later, j).file.value.mtime < newer
    ensures WaitSpec(s, newer, timeout, start, src, later, k) == RefreshStatusSpec(s, PollAt(src, later, hit), start + hit)
    decreases hit - k
  {
    if k < hit {
      WaitStep(s, newer, timeout, start, src, later, k);
      WaitReloadsFirstNewer(s, newer, timeout, start, src, later, k + 1, hit);
    } else {
      WaitHit(s, newer, timeout, start, src, later, k);
    }
  }

  /** A poll that finds the file at least as new as `newer` reloads from
      it. */
  lemma WaitHit(s: Stores, newer: int, timeout: int, start: int, src: Source, later: seq<Source>, k: nat)
    requires k < timeout
    requires PollAt(src, later, k).file.Some? && PollAt(src, later, k).file.value.mtime >= newer
    ensures WaitSpec(s, newer, timeout, start, src, later, k) == RefreshStatusSpec(s, PollAt(src, later, k), start + k)
  {
  }

  /** Whatever the wait does, it touches only what a status reload touches:
      the configuration's recorded mtime stays, and so does whether a
      configuration is loaded. */
  lemma {:induction false} WaitKeepsConfig(s: Stores, newer: int, timeout: int, start: int, src: Source, later: seq<Source>, k: nat)
    ensures WaitSpec(s, newer, timeout, start, src, later, k).after.configMtime == s.configMtime
    ensures WaitSpec(s, newer, timeout, start, src, later, k).after.config.Some? <==> s.config.Some?
    decreases timeout - k
  {
    if k < timeout {
      var f := PollAt(src, later, k);
      if f.file.Some? {
        if f.file.value.mtime >= newer {
          RefreshStatusKeepsConfig(s, f, start + k);
        } else {
          WaitStep(s, newer, timeout, start, src, later, k);
          WaitKeepsConfig(s, newer, timeout, start, src, later, k + 1);
        }
      }
    }
  }

  /** A configuration reload forces a status reload: when the status file
      is already at least as new as the configuration file, the status is
      reloaded from it at once. */
  lemma ConfigReloadForcesStatus(s: Stores, cfgSrc: Source, statusSrc: Source, later: seq<Source>, now: int)
    requires Stale(s.config.Some?, s.configMtime, cfgSrc)
    requires RefreshConfigSpec(s, cfgSrc).result.Ok?
    requires statusSrc.file.Some? && statusSrc.file.value.mtime >= cfgSrc.file.value.mtime
    ensures var c := RefreshConfigSpec(s, cfgSrc).after;
      var r := RefreshStatusSpec(c, statusSrc, now);
      ConfigIfNeededSpec(s, cfgSrc, statusSrc, later, now) == Done(r.after, r.sent, if r.result.Ok? then Ok(true) else r.result)
  {
    WaitReloadsFirstNewer(RefreshConfigSpec(s, cfgSrc).after, cfgSrc.file.value.mtime, STATUS_WAIT, now, statusSrc, later, 0, 0);
  }

  /** A configuration reload stands even when the status does not follow
      within the minute: the new configuration and its mtime are kept and
      the time-out is raised. */
  lemma ConfigReloadOutlivesTimeout(s: Stores, cfgSrc: Source, statusSrc: Source, later: seq<Source>, now: int)
    requires Stale(s.config.Some?, s.configMtime, cfgSrc)
    requires RefreshConfigSpec(s, cfgSrc).result.Ok?
    requires forall j: nat :: j < STATUS_WAIT ==>
      PollAt(statusSrc, later, j).file.Some? && PollAt(statusSrc, later, j).file.value.mtime < cfgSrc.file.value.mtime
    ensures var d := ConfigIfNeededSpec(s, cfgSrc, statusSrc, later, now);
      d.result == Err(TimedOut(statusSrc.path, cfgSrc.file.value.mtime)) &&
      d.after == RefreshConfigSpec(s, cfgSrc).after &&
      d.after.configMtime == Some(cfgSrc.file.value.mtime) && d.after.config.Some? && d.sent == []
  {
    WaitTimesOut(RefreshConfigSpec(s, cfgSrc).after, cfgSrc.file.value.mtime, STATUS_WAIT, now, statusSrc, later, 0);
  }

  /** Without a configuration reload, the configuration's refresh is the
      status store's own. */
  lemma ConfigFreshRefreshesStatus(s: Stores, cfgSrc: Source, statusSrc: Source, later: seq<Source>, now: int)
    requires !Stale(s.config.Some?, s.configMtime, cfgSrc)
    ensures var d := ConfigIfNeededSpec(s, cfgSrc, statusSrc, later, now);
      var t := StatusIfNeededSpec(s, statusSrc, now);
      d.after == t.after && d.sent == t.sent && (d.result.Err? <==> t.result.Err?)
  {
  }

  /** `contents` never answers nil: when the refresh itself does not
      raise, it raises "Failed to load contents" instead, and only when
      nothing was ever loaded and the file is missing. */
  lemma ConfigContentsNeverNil(s: Stores, cfgSrc: Source, statusSrc: Source, later: seq<Source>, now: int)
    ensures var d := ConfigContentsSpec(s, cfgSrc, statusSrc, later, now);
      (d.result.Ok? ==> d.after.config == Some(d.result.value)) &&
      (d.result.Err? && ConfigIfNeededSpec(s, cfgSrc, statusSrc, later, now).result.Ok? ==>
        d.result.msg == NO_CONFIG && s.config.None? && cfgSrc.file.None?)
  {
    var d := ConfigIfNeededSpec(s, cfgSrc, statusSrc, later, now);
    if Stale(s.config.Some?, s.configMtime, cfgSrc) {
      var c := RefreshConfigSpec(s, cfgSrc);
      if c.result.Ok? {
        WaitKeepsConfig(c.after, cfgSrc.file.value.mtime, STATUS_WAIT, now, statusSrc, later, 0);
      }
    } else {
      if Stale(s.status.Some?, s.statusMtime, statusSrc) {
        RefreshStatusKeepsConfig(s, statusSrc, now);
      }
    }
  }

  /** Once a listener raises, the rest of the walk is skipped. */
  lemma {:induction false} SelectErrPersists(ls: seq<Listener>, cfg: Option<ConfigData>, now: int, j: nat)
    requires j <= |ls| && SelectListeners(ls[..j], cfg, now).err.Some?
    ensures SelectListeners(ls, cfg, now) == SelectListeners(ls[..j], cfg, now)
    decreases |ls|
  {
    if j < |ls| {
      var prefix := ls[..|ls| - 1];
      assert prefix[..j] == ls[..j];
      SelectErrPersists(prefix, cfg, now, j);
    } else {
      assert ls[..j] == ls;
    }
  }
}

=== FILE: chat.dfy ===
/** The gateway's side of the chat network: the presence of each contact on
    the roster, whether a contact counts as reachable, and the per-contact
    record of the notifications sent to it (a ten-slot ring addressed by the
    `@` number) and of those it missed while away. */
module Chat {

  import opened Wrappers
  import opened Text
  import opened Events

  // ---------------------------------------------------------------------
  // Presence

  /** The `<show/>` values of an available presence (section 4.7.2.1 of
      RFC 6121): away, chat, do not disturb, extended away. */
  datatype Show = Away | ChatShow | Dnd | Xa

  /** A presence stanza as the roster sees it: whether its type is
      `unavailable` (section 4.7.1 of RFC 6121) and its `<show/>`, if any. */
  datatype Presence = Presence(unavailable: bool, show: Option<Show>)

  /** The symbol `presence_sym` gives a presence. */
  datatype PresenceSym = SymUnavailable | SymAvailable | SymShow(show: Show)

  /** `presence_sym(p)`: no presence or one of type unavailable means
      unavailable; otherwise the presence's show, or plain available when it
      has none. */
  function PresenceSymOf(p: Option<Presence>): (r: PresenceSym)
    ensures r == SymUnavailable <==> p.None? || p.value.unavailable
    ensures r == SymAvailable <==> p.Some? && !p.value.unavailable && p.value.show.None?
    ensures r.SymShow? ==> p == Some(Presence(false, Some(r.show)))
  {
    match p
    case None => SymUnavailable
    case Some(q) =>
      if q.unavailable then SymUnavailable
      else if q.show.None? then SymAvailable
      else SymShow(q.show.value)
  }

  /** `XMPP_AVAIL.member?(sym)`: reachable means `:chat` or `:available`. */
  predicate XmppAvail(s: PresenceSym) {
    s == SymAvailable || s == SymShow(ChatShow)
  }

  /** A roster item: the contact's address and the presences received from
      its resources, in the roster's order (by priority), so the last one is
      the presence the roster ranks highest. */
  datatype RosterItem = RosterItem(jid: string, presences: seq<Presence>)

  /** `RosterItem#online?`: some resource has sent a presence that is not of
      type unavailable. */
  predicate Online(ri: RosterItem) {
    exists i :: 0 <= i < |ri.presences| && !ri.presences[i].unavailable
  }

  /** `roster_item.presences.last`. */
  function LastPresence(ri: RosterItem): Presence
    requires |ri.presences| > 0
  {
    ri.presences[|ri.presences| - 1]
  }

  /** `Contact#available?` as written: no roster item or an offline item is
      not available; otherwise the raw show of the last presence is tested
      against `[:chat, :available]`, and since `:available` is never a show
      value, only a presence showing `chat` passes. */
  function AvailableAsWritten(ri: Option<RosterItem>): (b: bool)
    ensures b <==> ri.Some? && Online(ri.value) && LastPresence(ri.value).show == Some(ChatShow)
  {
    if ri.None? || !Online(ri.value) then false
    else LastPresence(ri.value).show == Some(ChatShow)
  }

  /** `Contact#available?` with the last presence read through
      `presence_sym`, the same test the presence callback applies: a contact
      is reachable when it is online and its last presence is plain
      available or shows `chat`. */
  function Available(ri: Option<RosterItem>): (b: bool)
    ensures b <==> ri.Some? && Online(ri.value) && XmppAvail(PresenceSymOf(Some(LastPresence(ri.value))))
  {
    if ri.None? || !Online(ri.value) then false
    else XmppAvail(PresenceSymOf(Some(LastPresence(ri.value))))
  }

  /** The two readings agree except on a contact that is online without a
      `<show/>`, the common case of a plain available presence: the callback
      treats it as having come online, while `available?` as written treats
      it as away, so its notifications go to the missed queue. */
  lemma AvailableAsWrittenMissesPlainPresence(jid: string)
    ensures var ri := RosterItem(jid, [Presence(false, None)]);
      Available(Some(ri)) && !AvailableAsWritten(Some(ri))
  {
    var ri := RosterItem(jid, [Presence(false, None)]);
    assert !ri.presences[0].unavailable;
  }

  /** The two readings differ on exactly two kinds of last presence of an
      online contact: a plain available one, which only the corrected
      reading accepts, and one of type unavailable that still carries a
      `chat` show, which only the reading as written accepts. */
  lemma AvailableDiffersFromAsWritten(ri: Option<RosterItem>)
    ensures Available(ri) != AvailableAsWritten(ri) <==>
      ri.Some? && Online(ri.value) &&
      (LastPresence(ri.value) == Presence(false, None) || LastPresence(ri.value) == Presence(true, Some(ChatShow)))
  {
  }

  /** The address a roster item is filed under: `jid.strip`, the address
      without its resource. */
  function BareJid(j: string): (r: string)
    ensures '/' !in r
    ensures '/' !in j ==> r == j
    ensures '/' in j ==> r + "/" <= j
  {
    if '/' in j then
      var i := FirstIndex(j, '/');
      assert j[..i] + "/" == j[..i + 1];
      j[..i]
    else j
  }

  /** The presence callback's trigger: a contact has come online when its
      old presence was not reachable and its new one is. */
  predicate CameOnline(oldP: Option<Presence>, newP: Option<Presence>) {
    !XmppAvail(PresenceSymOf(oldP)) && XmppAvail(PresenceSymOf(newP))
  }

  /** A repeated reachable presence never triggers again, and neither does
      going away. */
  lemma CameOnlineIsAnEdge(oldP: Option<Presence>, newP: Option<Presence>)
    ensures XmppAvail(PresenceSymOf(oldP)) ==> !CameOnline(oldP, newP)
    ensures !XmppAvail(PresenceSymOf(newP)) ==> !CameOnline(oldP, newP)
    ensures CameOnline(None, Some(Presence(false, None)))
    ensures CameOnline(Some(Presence(false, Some(Away))), Some(Presence(false, Some(ChatShow))))
    ensures !CameOnline(Some(Presence(false, None)), Some(Presence(false, Some(ChatShow))))
  {
  }

  // ---------------------------------------------------------------------
  // The ring of recent notifications

  /** The next `@` number: one more, wrapping from 9 to 0. */
  function NextSeq(s: int): (r: int)
    ensures 0 <= s <= 9 ==> r == (s + 1) % 10
    ensures s >= -1 ==> 0 <= r <= 9
  {
    if s < 9 then s + 1 else 0
  }

  /** The number the `k`-th notification sent to a fresh contact gets. */
  function SeqAfter(k: nat): int {
    if k == 0 then 0 else NextSeq(SeqAfter(k - 1))
  }

  /** From a fresh contact the numbers run 1, 2, ..., 9, 0, 1, ...: the k-th
      is k mod 10. */
  lemma {:induction false} SeqAfterCycles(k: nat)
    ensures SeqAfter(k) == k % 10
    ensures k >= 1 ==> (SeqAfter(k) == 0 <==> k % 10 == 0)
  {
    if k > 0 {
      SeqAfterCycles(k - 1);
    }
  }

  /** The gateway's record of one chat contact. */
  class ChatContact {
    const jid: string
    var rosterItem: Option<RosterItem>
    var missed: seq<Notification>
    var recent: map<int, Notification>
    var seqNo: int

    /** The number last given is a slot of the ring, and so is every slot
        that holds a notification. */
    ghost predicate Valid()
      reads this
    {
      0 <= seqNo <= 9 && forall k :: k in recent ==> 0 <= k <= 9
    }

    /** `Contact.new(jid)`: no notifications yet and number 0. */
    constructor (jid: string)
      ensures this.jid == jid && rosterItem == None
      ensures missed == [] && recent == map[] && seqNo == 0
      ensures Valid()
    {
      this.jid := jid;
      rosterItem := None;
      missed := [];
      recent := map[];
      seqNo := 0;
    }

    /** `available?`. */
    function IsAvailable(): (b: bool)
      reads this
      ensures b == Available(rosterItem)
    {
      rosterItem.Some? && Online(rosterItem.value) && XmppAvail(PresenceSymOf(Some(LastPresence(rosterItem.value))))
    }

    /** `record_notification(n)`: the next number, under which `n` is filed;
        every other slot keeps what it held. */
    method RecordNotification(n: Notification) returns (k: int)
      requires Valid()
      modifies this
      ensures Valid()
      ensures k == NextSeq(old(seqNo)) && seqNo == k && 0 <= k <= 9
      ensures recent == old(recent)[k := n]
      ensures k in recent && recent[k] == n
      ensures forall j :: j != k ==> (j in recent <==> j in old(recent)) && (j in recent ==> recent[j] == old(recent)[j])
      ensures missed == old(missed) && rosterItem == old(rosterItem)
    {
      if seqNo < 9 {
        seqNo := seqNo + 1;
      } else {
        seqNo := 0;
      }
      recent := recent[seqNo := n];
      k := seqNo;
    }

    /** `missed << n`. */
    method Miss(n: Notification)
      modifies this
      ensures missed == old(missed) + [n]
      ensures recent == old(recent) && seqNo == old(seqNo) && rosterItem == old(rosterItem)
    {
      missed := missed + [n];
    }
  }

  /** The contacts the chat client knows, by bare address, and the
      addresses on its roster. */
  class ChatClient {
    var contacts: map<string, ChatContact>
    var roster: seq<string>

    constructor (roster: seq<string>)
      ensures contacts == map[] && this.roster == roster
    {
      contacts := map[];
      this.roster := roster;
    }

    /** The presence callback's bookkeeping: a contact is registered for an
        address not yet known, with the roster item; a known contact keeps
        its record. The roster item is the roster's own object, which the
        roster updates before the callback runs, so the contact sees the new
        presence in either case. Whether the contact has just come online is
        returned, together with the contact. */
    method PresenceChanged(item: RosterItem, oldP: Option<Presence>, newP: Option<Presence>)
      returns (c: ChatContact, cameOnline: bool)
      modifies this, if BareJid(item.jid) in contacts then {contacts[BareJid(item.jid)]} else {}
      ensures var j := BareJid(item.jid);
        j in old(contacts) ==> contacts == old(contacts) && c == old(contacts)[j]
      ensures var j := BareJid(item.jid);
        j !in old(contacts) ==> (fresh(c) && contacts == old(contacts)[j := c] &&
          c.jid == j && c.missed == [] && c.recent == map[] && c.seqNo == 0 && c.Valid())
      ensures c.rosterItem == Some(item)
      ensures var j := BareJid(item.jid);
        j in old(contacts) ==> c.missed == old(contacts[j].missed) && c.recent == old(contacts[j].recent) && c.seqNo == old(contacts[j].seqNo)
      ensures cameOnline == CameOnline(oldP, newP)
      ensures roster == old(roster)
    {
      var j := BareJid(item.jid);
      if j in contacts {
        c := contacts[j];
      } else {
        c := new ChatContact(j);
        contacts := contacts[j := c];
      }
      c.rosterItem := Some(item);
      cameOnline := !XmppAvail(PresenceSymOf(oldP)) && XmppAvail(PresenceSymOf(newP));
    }
  }
}

=== FILE: commands.dfy ===
/** The chat commands. A message's first word picks a command; the command
    reads the rest of the message through the shared string scanner and
    then answers, forces a check, acknowledges a problem or edits the
    roster. Everything a command sends goes to the outbox, and a command
    that raises is answered with "Oops." and the message. */
module Commands {

  import opened Wrappers
  import opened Text
  import opened NagiosModel
  import opened Control
  import opened Events
  import opened StatusReport
  import opened Formatting
  import opened Sorting
  import opened NagiosStore
  import opened Chat
  import opened Scanning
  import opened Gateway

  /** A chat message: the sender's full address and the body, if any. */
  datatype Message = Message(from: string, body: Option<string>)

  /** The command classes. */
  datatype Kind =
    | StatusCmd | HostDetailCmd | ServiceDetailCmd | CheckCmd | AckCmd
    | ReplyAckCmd | ReplyCheckCmd | ReplyCmd | AdminCmd | HelpCmd

  /** The sender's chat contact as a command sees it: its bare address and
      its ring of recent notifications. */
  datatype Sender = Sender(jid: string, recent: map<int, Notification>)

  /** What a command reads besides the scanner: the configuration, the
      contact property holding chat addresses, the time, the sender's full
      address and chat contact, and the addresses on the roster. */
  datatype Ctx = Ctx(cfg: Result<ConfigData>, field: string, now: int, from: string,
                     sender: Option<Sender>, roster: seq<string>)

  /** What a command does: where it leaves the cursor, what it sends, the
      listeners it registers, and whether it raised. */
  datatype Effect = Effect(pos: nat, sent: seq<Event>, listen: seq<Listener>, outcome: Outcome)

  /** A command that only answers the sender. */
  function Answer(c: Ctx, pos: nat, text: string): Effect {
    Effect(pos, [Chat(c.from, text)], [], Pass)
  }

  /** A command that raised, with nothing sent. */
  function Raise(pos: nat, e: string): Effect {
    Effect(pos, [], [], Fail(e))
  }

  // ---------------------------------------------------------------------
  // Parsing a target

  /** `parse_host_or_svc` with the cursor at `pos`: a token (no space, no
      '/') followed by '/' names a host whose service is resolved from the
      text after the '/'; a token alone names a host; no token raises. */
  function TargetAt(cfg: Result<ConfigData>, text: string, pos: nat): (p: Parsed)
    requires pos <= |text|
    ensures pos <= p.pos <= |text|
  {
    var e := SpanEnd(text, pos, Token);
    if e > pos && e < |text| && text[e] == '/' then
      match FindHost(cfg, text[pos..e])
      case Err(m) => Parsed(Err(m), e + 1)
      case Ok(None) => Parsed(Err("Unknown host " + text[pos..e]), e + 1)
      case Ok(Some(host)) => ResolveAt(text[pos..e], host, text, e + 1, true)
    else if e > pos then
      match FindHost(cfg, text[pos..e])
      case Err(m) => Parsed(Err(m), e)
      case Ok(None) => Parsed(Err("Unknown host " + text[pos..e]), e)
      case Ok(Some(host)) => Parsed(Ok(Entry(HostRef(text[pos..e]), host.mon)), e)
    else Parsed(Err("Parse error at: " + Inspect(text[pos..])), pos)
  }

  /** No token at the cursor raises the parse error and leaves the cursor;
      a host is named by the whole token, which holds neither spaces nor
      '/', and a service by the token before the '/'. */
  lemma TargetAtShape(cfg: Result<ConfigData>, text: string, pos: nat)
    requires pos <= |text|
    ensures RunAt(text, pos, Token).None? ==>
      TargetAt(cfg, text, pos) == Parsed(Err("Parse error at: " + Inspect(text[pos..])), pos)
    ensures var p := TargetAt(cfg, text, pos);
      p.result.Ok? && p.result.value.ref.HostRef? ==>
        var h := p.result.value.ref.host;
        RunAt(text, pos, Token) == Some(h) && '/' !in h && (forall j :: 0 <= j < |h| ==> !IsSpace(h[j])) &&
        p.pos == pos + |h| && (p.pos == |text| || text[p.pos] != '/') &&
        cfg.Ok? && HostOf(cfg.value, h).Some? && p.result.value.mon == HostOf(cfg.value, h).value.mon
    ensures var p := TargetAt(cfg, text, pos);
      p.result.Ok? && p.result.value.ref.SvcRef? ==>
        var h := p.result.value.ref.host;
        RunAt(text, pos, Token) == Some(h) && pos + |h| < |text| && text[pos + |h|] == '/' &&
        cfg.Ok? && HostOf(cfg.value, h).Some?
  {
    if RunAt(text, pos, Token).Some? {
      TokenHasNoSpaceOrSlash(text, pos);
    }
  }

  /** A token that names no host raises "Unknown host", with or without a
      service after it. */
  lemma UnknownHostRaises(cfg: ConfigData, text: string, pos: nat)
    requires pos <= |text| && RunAt(text, pos, Token).Some?
    requires cfg.hosts.Some? && HostOf(cfg, RunAt(text, pos, Token).value).None?
    ensures TargetAt(Ok(cfg), text, pos).result == Err("Unknown host " + RunAt(text, pos, Token).value)
  {
  }

  // ---------------------------------------------------------------------
  // The commands, as functions of the context, the text and the cursor

  /** `sb.check(item, contact)`: the forced check, and a listener for the
      sender when there is one. */
  function CheckEffect(c: Ctx, r: Ref, pos: nat): (e: Effect)
    ensures e.outcome == Pass && e.sent == [Control(ForceCheck(c.now, r, c.now))]
    ensures |e.listen| == (if c.sender.Some? then 1 else 0)
    ensures c.sender.Some? ==> e.listen[0] == CheckListener(r, c.now, c.sender.value.jid)
  {
    Effect(pos, [Control(ForceCheck(c.now, r, c.now))],
      if c.sender.Some? then [CheckListener(r, c.now, c.sender.value.jid)] else [], Pass)
  }

  /** `Check`: skip spaces (which cannot fail, since a skip of no
      characters answers 0 and 0 is true), parse the target, force the
      check. */
  function CheckAt(c: Ctx, text: string, pos: nat): Effect
    requires pos <= |text|
  {
    var t := TargetAt(c.cfg, text, SpanEnd(text, pos, Space));
    if t.result.Err? then Raise(t.pos, t.result.msg)
    else CheckEffect(c, t.result.value.ref, t.pos)
  }

  /** A `check` with nothing but spaces after it raises the parse error at
      the empty rest, and forces nothing. */
  lemma BareCheckRaises(c: Ctx, text: string, pos: nat)
    requires pos <= |text| && forall j :: pos <= j < |text| ==> IsSpace(text[j])
    ensures CheckAt(c, text, pos) == Raise(|text|, "Parse error at: " + Inspect(""))
  {
    SpanEndRun(text, pos, Space);
    assert SpanEnd(text, pos, Space) == |text|;
  }

  /** The acknowledgement by the configured contact whose chat address is
      the sender's; its name is the author. */
  function AckBy(c: Ctx, r: Ref, comment: string, pos: nat): (e: Effect)
    ensures e.listen == [] && e.pos == pos
    ensures e.outcome == Pass <==> (c.sender.Some? && FindContactWithJid(c.cfg, c.field, c.sender.value.jid).Ok? &&
      FindContactWithJid(c.cfg, c.field, c.sender.value.jid).value.Some?)
    ensures e.outcome == Pass ==> e.sent == [Control(Acknowledge(c.now, r, AckOptions(None, None, None,
      Some(FindContactWithJid(c.cfg, c.field, c.sender.value.jid).value.value.name), Some(comment))))]
    ensures e.outcome.Fail? ==> e.sent == []
  {
    if c.sender.None? then Raise(pos, NilError("jid"))
    else match FindContactWithJid(c.cfg, c.field, c.sender.value.jid)
      case Err(m) => Raise(pos, m)
      case Ok(None) => Raise(pos, "No Nagios contact with JID " + c.sender.value.jid + "?")
      case Ok(Some(nc)) =>
        Effect(pos, [Control(Acknowledge(c.now, r, AckOptions(None, None, None, Some(nc.name), Some(comment))))], [], Pass)
  }

  /** The comment of `ack`: the rest of the text when it starts with a
      character that is not a space, and "acknowledged." otherwise. */
  function AckComment(text: string, pos: nat): (s: string)
    requires pos <= |text|
    ensures s == "acknowledged." || (|s| > 0 && !IsSpace(s[0]) && s == text[pos..])
  {
    if pos < |text| && InClass(text[pos], NonSpace) then text[pos..] else "acknowledged."
  }

  /** `Ack`: skip spaces, parse the target, skip spaces, take the comment,
      and only then look up the sender's configured contact. */
  function AckAt(c: Ctx, text: string, pos: nat): Effect
    requires pos <= |text|
  {
    var t := TargetAt(c.cfg, text, SpanEnd(text, pos, Space));
    if t.result.Err? then Raise(t.pos, t.result.msg)
    else
      var p := SpanEnd(text, t.pos, Space);
      AckBy(c, t.result.value.ref, AckComment(text, p), p)
  }

  /** A target that does not parse wins over a sender that is not a
      configured contact: the parse error is what is raised. */
  lemma AckTargetFirst(c: Ctx, text: string, pos: nat)
    requires pos <= |text|
    requires TargetAt(c.cfg, text, SpanEnd(text, pos, Space)).result.Err?
    ensures AckAt(c, text, pos).outcome == Fail(TargetAt(c.cfg, text, SpanEnd(text, pos, Space)).result.msg)
    ensures AckAt(c, text, pos).sent == []
  {
  }

  /** An acknowledgement reads back as the target's names, sticky 0,
      notify 1, persistent 1, the author and the comment, when none of
      them holds a ';'. */
  lemma AckLineFields(c: Ctx, text: string, pos: nat)
    requires pos <= |text| && AckAt(c, text, pos).outcome == Pass
    ensures var t := TargetAt(c.cfg, text, SpanEnd(text, pos, Space));
      var comment := AckComment(text, SpanEnd(text, t.pos, Space));
      var author := FindContactWithJid(c.cfg, c.field, c.sender.value.jid).value.value.name;
      var r := t.result.value.ref;
      (forall k :: 0 <= k < |TargetArgs(r)| ==> ';' !in TargetArgs(r)[k]) && ';' !in author && ';' !in comment ==>
        |AckAt(c, text, pos).sent| == 1 && AckAt(c, text, pos).sent[0].Control? &&
        ParseControl(AckAt(c, text, pos).sent[0].line) ==
          Some(Command(c.now, AckDirective(r), TargetArgs(r) + ["0", "1", "1", author, comment]))
  {
    var t := TargetAt(c.cfg, text, SpanEnd(text, pos, Space));
    var comment := AckComment(text, SpanEnd(text, t.pos, Space));
    var author := FindContactWithJid(c.cfg, c.field, c.sender.value.jid).value.value.name;
    var r := t.result.value.ref;
    if (forall k :: 0 <= k < |TargetArgs(r)| ==> ';' !in TargetArgs(r)[k]) && ';' !in author && ';' !in comment {
      var o := AckOptions(None, None, None, Some(author), Some(comment));
      AcknowledgeFields(c.now, r, o);
      assert IntToString(0) == "0" && IntToString(1) == "1";
    }
  }

  /** The comment of a reply `ack`: what `scan_until(/\S.+/)` matched, from
      the first character that is not a space and is followed by a
      character other than a newline to the end of that line; when nothing
      matches, "acknowledged.". */
  function ReplyComment(text: string, pos: nat): (nat, string)
    requires pos <= |text|
  {
    match UntilLineFrom(text, pos)
    case None => (pos, "acknowledged.")
    case Some(p) => (LineEnd(text, p + 1), text[p..LineEnd(text, p + 1)])
  }

  /** `ReplyAck`: look up the sender's configured contact first, then skip
      spaces, take the comment, and acknowledge what the notification
      referred to. */
  function ReplyAckAt(c: Ctx, n: Option<Notification>, text: string, pos: nat): Effect
    requires pos <= |text|
  {
    if c.sender.None? then Raise(pos, NilError("jid"))
    else match FindContactWithJid(c.cfg, c.field, c.sender.value.jid)
      case Err(m) => Raise(pos, m)
      case Ok(None) => Raise(pos, "No Nagios contact with JID " + c.sender.value.jid + "?")
      case Ok(Some(nc)) =>
        var (p, comment) := ReplyComment(text, SpanEnd(text, pos, Space));
        if n.None? then Raise(p, NilError("referent"))
        else if n.value.referent.None? then Raise(p, NilError("acknowledge"))
        else Effect(p, [Control(Acknowledge(c.now, n.value.referent.value, AckOptions(None, None, None, Some(nc.name), Some(comment))))], [], Pass)
  }

  /** A reply comment is one line of at least two characters starting with
      one that is not a space; a single character is not a comment, so the
      default is used. */
  lemma ReplyCommentShape(text: string, pos: nat)
    requires pos <= |text|
    ensures var s := ReplyComment(text, pos).1;
      s == "acknowledged." || (|s| >= 2 && '\n' !in s && !IsSpace(s[0]))
    ensures pos + 1 == |text| ==> ReplyComment(text, pos) == (pos, "acknowledged.")
  {
    if UntilLineFrom(text, pos).Some? {
      UntilLineShape(text, pos);
    }
  }

  /** `ReplyCheck`: force a check of what the notification referred to. */
  function ReplyCheckAt(c: Ctx, n: Option<Notification>, pos: nat): Effect {
    if n.None? then Raise(pos, NilError("referent"))
    else if n.value.referent.None? then Raise(pos, NilError("force_check"))
    else CheckEffect(c, n.value.referent.value, pos)
  }

  /** `/^@(\d)/ === word`. */
  predicate IsReplyWord(w: string) {
    |w| >= 2 && w[0] == '@' && IsDigit(w[1])
  }

  /** `Reply`: the slot is the digit after the `@`. An empty slot is
      answered, not raised; otherwise a word names the subcommand, `ack` or
      `check`, which continues at the cursor; any other word is answered. */
  function ReplyAt(c: Ctx, cmdText: string, text: string, pos: nat): Effect
    requires pos <= |text|
  {
    if !IsReplyWord(cmdText) then Raise(pos, "inconsistent dispatch!")
    else if c.sender.None? then Raise(pos, NilError("recent"))
    else if DigitValue(cmdText[1]) !in c.sender.value.recent then
      Answer(c, pos, "No record of notification " + [cmdText[1]] + ", sorry.")
    else
      ReplySubAt(c, c.sender.value.recent[DigitValue(cmdText[1])], text, pos)
  }

  /** A reply whose slot holds `n`: a word names the subcommand, `ack` or
      `check`, which continues at the cursor; any other word is answered. */
  function ReplySubAt(c: Ctx, n: Notification, text: string, pos: nat): Effect
    requires pos <= |text|
  {
    var p := SpanEnd(text, pos, Space);
    match RunAt(text, p, Word)
    case None => Raise(p, "Missing subcommand!")
    case Some(w) =>
      if w == "ack" then ReplyAckAt(c, Some(n), text, p + |w|)
      else if w == "check" then ReplyCheckAt(c, Some(n), p + |w|)
      else Answer(c, p + |w|, "Unknown reply command " + w + "!")
  }

  /** Only the first digit picks the slot: `@12` addresses slot 1, and an
      empty slot is answered without raising. */
  lemma ReplySlotIsFirstDigit(c: Ctx, rest: string, text: string, pos: nat, d: char)
    requires pos <= |text| && IsDigit(d) && c.sender.Some?
    requires DigitValue(d) !in c.sender.value.recent
    ensures ReplyAt(c, ['@', d] + rest, text, pos) == Answer(c, pos, "No record of notification " + [d] + ", sorry.")
  {
  }

  /** The subcommand of a reply must be a word. */
  lemma ReplyNeedsSubcommand(c: Ctx, cmdText: string, text: string, pos: nat)
    requires pos <= |text| && IsReplyWord(cmdText) && c.sender.Some?
    requires DigitValue(cmdText[1]) in c.sender.value.recent
    requires RunAt(text, SpanEnd(text, pos, Space), Word).None?
    ensures ReplyAt(c, cmdText, text, pos).outcome == Fail("Missing subcommand!")
  {
  }

  /** `Admin`: skip spaces, take the subcommand (a token of non-spaces),
      skip spaces, then list the roster, add a contact, remove one, or
      answer with usage or an unknown-command line. */
  function AdminAt(c: Ctx, text: string, pos: nat): Effect
    requires pos <= |text|
  {
    var p1 := SpanEnd(text, pos, Space);
    var a := RunAt(text, p1, NonSpace);
    AdminSubAt(c, a, text, SpanEnd(text, p1 + (if a.Some? then |a.value| else 0), Space))
  }

  /** The admin subcommand `a`, with the cursor after it and the spaces
      that follow it. */
  function AdminSubAt(c: Ctx, a: Option<string>, text: string, pos: nat): Effect
    requires pos <= |text|
  {
    if a == Some("list-roster") then
      Answer(c, pos, "Roster: " + Join(SortStrings(c.roster), ", "))
    else if a == Some("add") then AdminAddAt(c, text, pos)
    else if a == Some("remove") then AdminRemoveAt(c, text, pos)
    else Answer(c, pos, "Unknown admin command " + a.GetOr(""))
  }

  /** `admin add <jid> <alias>`. */
  function AdminAddAt(c: Ctx, text: string, pos: nat): Effect
    requires pos <= |text|
  {
    match PairAt(text, pos)
    case None => Answer(c, pos, "Usage: admin add <jid> <alias>")
    case Some((m, e)) =>
      Effect(e, [RosterAdd(m.first, m.second),
                 Chat(c.from, "Added " + m.first + " (" + m.second + ") to roster and requested presence subscription.")], [], Pass)
  }

  /** `admin remove <jid>`. */
  function AdminRemoveAt(c: Ctx, text: string, pos: nat): Effect
    requires pos <= |text|
  {
    match RunAt(text, pos, NonSpace)
    case None => Answer(c, pos, "Usage: admin remove <jid>")
    case Some(j) =>
      if j in c.roster then
        Effect(pos + |j|, [RosterRemove(j), Chat(c.from, "Contact " + j + " successfully removed from roster.")], [], Pass)
      else Raise(pos + |j|, NilError("remove"))
  }

  /** `admin add` needs two tokens, the address and the alias, and adds
      exactly those; with fewer it answers its usage line. */
  lemma AdminAddNeedsTwo(c: Ctx, text: string, pos: nat)
    requires pos <= |text|
    requires var p1 := SpanEnd(text, pos, Space); RunAt(text, p1, NonSpace) == Some("add")
    ensures var p2 := SpanEnd(text, SpanEnd(text, pos, Space) + 3, Space);
      var e := AdminAt(c, text, pos);
      (PairAt(text, p2).None? ==> e == Answer(c, p2, "Usage: admin add <jid> <alias>")) &&
      (PairAt(text, p2).Some? ==> (e.outcome == Pass && |e.sent| == 2 &&
        e.sent[0] == RosterAdd(PairAt(text, p2).value.0.first, PairAt(text, p2).value.0.second) &&
        |e.sent[0].jid| > 0 && |e.sent[0].name| > 0))
  {
  }

  /** `admin remove` needs one token; an address not on the roster raises,
      since the roster answers nil for it. */
  lemma AdminRemoveNeedsOne(c: Ctx, text: string, pos: nat)
    requires pos <= |text|
    requires var p1 := SpanEnd(text, pos, Space); RunAt(text, p1, NonSpace) == Some("remove")
    ensures var p2 := SpanEnd(text, SpanEnd(text, pos, Space) + 6, Space);
      var e := AdminAt(c, text, pos);
      (RunAt(text, p2, NonSpace).None? ==> e == Answer(c, p2, "Usage: admin remove <jid>")) &&
      (RunAt(text, p2, NonSpace).Some? ==>
        (e.outcome == Pass <==> RunAt(text, p2, NonSpace).value in c.roster) &&
        (e.outcome == Pass ==> e.sent[0] == RosterRemove(RunAt(text, p2, NonSpace).value)))
  {
  }

  /** The help text. */
  const HELP: string :=
    "Nagios switchboard commands:\n" +
    "status: get a status report\n" +
    "<host | host/svc>: get details on the named host or srevice\n" +
    "check <host | host/svc>: force a check of the named host or service\n" +
    "ack <host | host/svc> [message]: acknowledge a host or service problem, with optional message\n" +
    "You can respond to a notification with its @ number, like so:\n" +
    "@N ack [message]: acknowledge a host or service problem, with optional message\n" +
    "@N check: force a check of the host or service referred to\n"

  /** `Status`: the status report, rendered as text. */
  function StatusAt(c: Ctx, pos: nat): (e: Effect)
    ensures e.listen == [] && e.pos == pos
    ensures e.outcome == Pass <==> (c.cfg.Ok? && c.cfg.value.hosts.Some? &&
      ReportText(StatusReportOf(c.cfg.value).value, c.now).Ok?)
    ensures e.outcome == Pass ==> e.sent == [Chat(c.from, ReportText(StatusReportOf(c.cfg.value).value, c.now).value)]
    ensures e.outcome.Fail? ==> e.sent == []
  {
    if c.cfg.Err? then Raise(pos, c.cfg.msg)
    else match StatusReportOf(c.cfg.value)
      case Err(m) => Raise(pos, m)
      case Ok(rep) =>
        match ReportText(rep, c.now)
        case Err(m) => Raise(pos, m)
        case Ok(t) => Answer(c, pos, t)
  }

  /** `HostDetail` and `ServiceDetail`: the object's detail view. */
  function DetailAt(c: Ctx, e: Entry, pos: nat): (r: Effect)
    ensures r.listen == [] && r.pos == pos
    ensures r.outcome == Pass <==> Detail(e.ref, e.mon, c.now).Ok?
    ensures r.outcome == Pass ==> r.sent == [Chat(c.from, Detail(e.ref, e.mon, c.now).value)]
  {
    match Detail(e.ref, e.mon, c.now)
    case Err(m) => Raise(pos, m)
    case Ok(t) => Answer(c, pos, t)
  }

  /** The command words, in the order they are tried. */
  function CommandFor(word: string): (k: Option<Kind>)
    ensures k.Some? ==> k.value in {StatusCmd, CheckCmd, AckCmd, ReplyCmd, AdminCmd, HelpCmd}
  {
    if word == "status" then Some(StatusCmd)
    else if word == "check" then Some(CheckCmd)
    else if word == "ack" then Some(AckCmd)
    else if IsReplyWord(word) then Some(ReplyCmd)
    else if word == "admin" then Some(AdminCmd)
    else if word == "help" then Some(HelpCmd)
    else None
  }

  /** The command `k` run with the cursor after the first word. */
  function RunAtCursor(c: Ctx, k: Kind, word: string, text: string, pos: nat): Effect
    requires pos <= |text|
  {
    match k
    case StatusCmd => StatusAt(c, pos)
    case CheckCmd => CheckAt(c, text, pos)
    case AckCmd => AckAt(c, text, pos)
    case ReplyCmd => ReplyAt(c, word, text, pos)
    case AdminCmd => AdminAt(c, text, pos)
    case HelpCmd => Answer(c, pos, HELP)
    case _ => Raise(pos, "inconsistent dispatch!")
  }

  /** `handle_message` after the first word: a command word runs its
      command; otherwise the word is tried as a host name, followed by '/'
      and a service name or not; otherwise the sender is told the message
      was not understood. */
  function DispatchAt(c: Ctx, word: string, text: string, pos: nat): Effect
    requires pos <= |text|
  {
    match CommandFor(word)
    case Some(k) => RunAtCursor(c, k, word, text, pos)
    case None =>
      match FindHost(c.cfg, word)
      case Err(m) => Raise(pos, m)
      case Ok(None) => Answer(c, pos, "I'm sorry, I didn't quite catch that?")
      case Ok(Some(h)) => HostOrServiceAt(c, word, h, text, pos)
  }

  /** The detail of host `h`, named by `word`, or of its service named
      after a '/'. */
  function HostOrServiceAt(c: Ctx, word: string, h: Host, text: string, pos: nat): Effect
    requires pos <= |text|
  {
    if pos < |text| && text[pos] == '/' then
      var p := ResolveAt(word, h, text, pos + 1, true);
      if p.result.Err? then Raise(p.pos, p.result.msg)
      else DetailAt(c, p.result.value, p.pos)
    else DetailAt(c, Entry(HostRef(word), h.mon), pos)
  }

  /** What handling a message sends and registers. */
  datatype Reaction = Reaction(sent: seq<Event>, listen: seq<Listener>)

  /** `handle_message(msg)`: a message without a body, or whose body does
      not start with a token, gets no reply; otherwise the first token is
      dispatched, and what raised is answered with "Oops. " and the
      message. */
  function MessageSpec(c: Ctx, body: Option<string>): Reaction {
    if body.None? then Reaction([], [])
    else
      var text := body.value;
      var e := SpanEnd(text, 0, Token);
      if e == 0 then Reaction([], [])
      else
        var d := DispatchAt(c, text[..e], text, e);
        Reaction(d.sent + (if d.outcome.Fail? then [Chat(c.from, "Oops. " + d.outcome.msg)] else []), d.listen)
  }

  /** A body that starts with a space or '/' gets no reply at all. */
  lemma NoTokenNoReply(c: Ctx, text: string)
    requires |text| > 0 && (IsSpace(text[0]) || text[0] == '/')
    ensures MessageSpec(c, Some(text)) == Reaction([], [])
  {
  }

  /** A command word wins over a host of the same name. */
  lemma CommandWordsFirst(c: Ctx, text: string, k: nat)
    requires k <= |text| && SpanEnd(text, 0, Token) == k && CommandFor(text[..k]).Some?
    ensures var d := DispatchAt(c, text[..k], text, k);
      d == RunAtCursor(c, CommandFor(text[..k]).value, text[..k], text, k)
  {
  }

  /** What raised is answered: the last message sent is "Oops. " and the
      error, to the sender. */
  lemma RaisedIsAnswered(c: Ctx, text: string)
    requires SpanEnd(text, 0, Token) > 0
    requires DispatchAt(c, text[..SpanEnd(text, 0, Token)], text, SpanEnd(text, 0, Token)).outcome.Fail?
    ensures var s := MessageSpec(c, Some(text)).sent;
      |s| > 0 && s[|s| - 1] == Chat(c.from, "Oops. " +
        DispatchAt(c, text[..SpanEnd(text, 0, Token)], text, SpanEnd(text, 0, Token)).outcome.msg)
  {
  }

  // ---------------------------------------------------------------------
  // The command objects

  /** A command being run: its class, the word that picked it, the message,
      the sender's chat contact (nil when the sender has none), the shared
      scanner, the switchboard, the chat client, the command that invoked
      it, and, for a reply, the notification it addresses. */
  class Base {
    const kind: Kind
    const cmdText: string
    const msg: Message
    const contact: Option<ChatContact>
    const scanner: Scanner
    const sb: Switchboard
    const client: ChatClient
    var parent: Option<Base>
    var n: Option<Notification>

    constructor (kind: Kind, cmdText: string, msg: Message, contact: Option<ChatContact>,
                 scanner: Scanner, sb: Switchboard, client: ChatClient)
      ensures this.kind == kind && this.cmdText == cmdText && this.msg == msg && this.contact == contact
      ensures this.scanner == scanner && this.sb == sb && this.client == client
      ensures parent == None && n == None
    {
      this.kind := kind;
      this.cmdText := cmdText;
      this.msg := msg;
      this.contact := contact;
      this.scanner := scanner;
      this.sb := sb;
      this.client := client;
      parent := None;
      n := None;
    }

    /** What the command reads besides the scanner. */
    function CtxOf(cfg: Result<ConfigData>, now: int): Ctx
      reads client, if contact.Some? then {contact.value} else {}
    {
      ContextOf(cfg, now, sb.conf.xmppField, msg.from, contact, client)
    }

    /** The notification of the invoking command, if any. */
    function ParentN(): Option<Notification>
      reads this, if parent.Some? then {parent.value} else {}
    {
      if parent.Some? then parent.value.n else None
    }

    /** `parse_host_or_svc`, on the scanner. */
    method ParseHostOrSvc(cfg: Result<ConfigData>) returns (r: Result<Entry>)
      requires scanner.Valid()
      modifies scanner
      ensures scanner.Valid()
      ensures var p := TargetAt(cfg, scanner.text, old(scanner.pos)); r == p.result && scanner.pos == p.pos
    {
      var h := scanner.ScanRunThen(Token, '/');
      if h.Some? {
        var host := FindHost(cfg, h.value);
        if host.Err? {
          return Err(host.msg);
        }
        if host.value.None? {
          return Err("Unknown host " + h.value);
        }
        r := sb.ResolveServiceName(h.value, host.value.value, scanner, true);
        return;
      }
      var t := scanner.Scan(Token);
      if t.Some? {
        var host := FindHost(cfg, t.value);
        if host.Err? {
          return Err(host.msg);
        }
        if host.value.None? {
          return Err("Unknown host " + t.value);
        }
        return Ok(Entry(HostRef(t.value), host.value.value.mon));
      }
      return Err("Parse error at: " + Inspect(scanner.Rest()));
    }

    /** `Check#invoke`. */
    method InvokeCheck(cfg: Result<ConfigData>, now: int) returns (r: Outcome)
      requires scanner.Valid()
      modifies scanner, sb.out, sb.nagios
      ensures scanner.Valid()
      ensures var e := CheckAt(old(CtxOf(cfg, now)), scanner.text, old(scanner.pos));
        r == e.outcome && scanner.pos == e.pos && sb.out.events == old(sb.out.events) + e.sent &&
        sb.nagios.Snapshot() == old(sb.nagios.Snapshot()).(listeners := old(sb.nagios.listeners) + e.listen)
    {
      var _ := scanner.Skip(Space);
      var t := ParseHostOrSvc(cfg);
      if t.Err? {
        assert old(sb.nagios.listeners) + [] == old(sb.nagios.listeners);
        return Fail(t.msg);
      }
      sb.Check(t.value.ref, contact, now);
      return Pass;
    }

    /** `Ack#invoke`. */
    method InvokeAck(cfg: Result<ConfigData>, now: int) returns (r: Outcome)
      requires scanner.Valid()
      modifies scanner, sb.out
      ensures scanner.Valid()
      ensures var e := AckAt(old(CtxOf(cfg, now)), scanner.text, old(scanner.pos));
        r == e.outcome && scanner.pos == e.pos && sb.out.events == old(sb.out.events) + e.sent && e.listen == []
    {
      ghost var c := CtxOf(cfg, now);
      var _ := scanner.Skip(Space);
      var t := ParseHostOrSvc(cfg);
      if t.Err? {
        return Fail(t.msg);
      }
      r := AckRest(c, t.value.ref, cfg, now);
    }

    /** The part of `Ack#invoke` after the target: skip spaces, take the
        comment, acknowledge. */
    method AckRest(ghost c: Ctx, target: Ref, cfg: Result<ConfigData>, now: int) returns (r: Outcome)
      requires scanner.Valid() && c == CtxOf(cfg, now)
      modifies scanner, sb.out
      ensures scanner.Valid()
      ensures var p := SpanEnd(scanner.text, old(scanner.pos), Space);
        var e := AckBy(c, target, AckComment(scanner.text, p), p);
        r == e.outcome && scanner.pos == e.pos && sb.out.events == old(sb.out.events) + e.sent
    {
      var _ := scanner.Skip(Space);
      var comment := if scanner.Peek(NonSpace) then scanner.Rest() else "acknowledged.";
      r := Acknowledge(target, comment, cfg, now);
    }

    /** The sender's configured contact acknowledges `target`. */
    method Acknowledge(target: Ref, comment: string, cfg: Result<ConfigData>, now: int) returns (r: Outcome)
      modifies sb.out
      ensures var e := AckBy(CtxOf(cfg, now), target, comment, 0);
        r == e.outcome && sb.out.events == old(sb.out.events) + e.sent
    {
      if contact.None? {
        return Fail(NilError("jid"));
      }
      var nc := FindContactWithJid(cfg, sb.conf.xmppField, contact.value.jid);
      if nc.Err? {
        return Fail(nc.msg);
      }
      if nc.value.None? {
        return Fail("No Nagios contact with JID " + contact.value.jid + "?");
      }
      sb.out.Send(Control(Control.Acknowledge(now, target, AckOptions(None, None, None, Some(nc.value.value.name), Some(comment)))));
      return Pass;
    }

    /** `ReplyAck#invoke`. */
    method InvokeReplyAck(cfg: Result<ConfigData>, now: int) returns (r: Outcome)
      requires scanner.Valid()
      modifies scanner, sb.out
      ensures scanner.Valid()
      ensures var e := ReplyAckAt(old(CtxOf(cfg, now)), old(ParentN()), scanner.text, old(scanner.pos));
        r == e.outcome && scanner.pos == e.pos && sb.out.events == old(sb.out.events) + e.sent && e.listen == []
    {
      if contact.None? {
        return Fail(NilError("jid"));
      }
      var nc := FindContactWithJid(cfg, sb.conf.xmppField, contact.value.jid);
      if nc.Err? {
        return Fail(nc.msg);
      }
      if nc.value.None? {
        return Fail("No Nagios contact with JID " + contact.value.jid + "?");
      }
      var _ := scanner.Skip(Space);
      var m := scanner.ScanUntilLine();
      var comment := if m.Some? then m.value else "acknowledged.";
      var pn := ParentN();
      if pn.None? {
        return Fail(NilError("referent"));
      }
      if pn.value.referent.None? {
        return Fail(NilError("acknowledge"));
      }
      sb.out.Send(Control(Control.Acknowledge(now, pn.value.referent.value, AckOptions(None, None, None, Some(nc.value.value.name), Some(comment)))));
      return Pass;
    }

    /** `ReplyCheck#invoke`. */
    method InvokeReplyCheck(cfg: Result<ConfigData>, now: int) returns (r: Outcome)
      requires scanner.Valid()
      modifies sb.out, sb.nagios
      ensures var e := ReplyCheckAt(old(CtxOf(cfg, now)), old(ParentN()), scanner.pos);
        r == e.outcome && sb.out.events == old(sb.out.events) + e.sent &&
        sb.nagios.Snapshot() == old(sb.nagios.Snapshot()).(listeners := old(sb.nagios.listeners) + e.listen)
    {
      var pn := ParentN();
      if pn.None? {
        assert old(sb.nagios.listeners) + [] == old(sb.nagios.listeners);
        return Fail(NilError("referent"));
      }
      if pn.value.referent.None? {
        assert old(sb.nagios.listeners) + [] == old(sb.nagios.listeners);
        return Fail(NilError("force_check"));
      }
      sb.Check(pn.value.referent.value, contact, now);
      return Pass;
    }

    /** `Reply#invoke`. */
    method InvokeReply(cfg: Result<ConfigData>, now: int) returns (r: Outcome)
      requires scanner.Valid()
      modifies this, scanner, sb.out, sb.nagios
      ensures scanner.Valid()
      ensures var e := ReplyAt(old(CtxOf(cfg, now)), cmdText, scanner.text, old(scanner.pos));
        r == e.outcome && scanner.pos == e.pos && sb.out.events == old(sb.out.events) + e.sent &&
        sb.nagios.Snapshot() == old(sb.nagios.Snapshot()).(listeners := old(sb.nagios.listeners) + e.listen)
    {
      assert old(sb.nagios.listeners) + [] == old(sb.nagios.listeners);
      if !IsReplyWord(cmdText) {
        return Fail("inconsistent dispatch!");
      }
      if contact.None? {
        return Fail(NilError("recent"));
      }
      var slot := DigitValue(cmdText[1]);
      if slot !in contact.value.recent {
        n := None;
        sb.out.Send(Chat(msg.from, "No record of notification " + [cmdText[1]] + ", sorry."));
        return Pass;
      }
      n := Some(contact.value.recent[slot]);
      r := InvokeSubcommand(cfg, now);
    }

    /** The part of `Reply#invoke` after the notification is found: the
        subcommand word and the child command it invokes. */
    method InvokeSubcommand(cfg: Result<ConfigData>, now: int) returns (r: Outcome)
      requires scanner.Valid() && n.Some?
      modifies scanner, sb.out, sb.nagios
      ensures scanner.Valid()
      ensures var e := ReplySubAt(old(CtxOf(cfg, now)), n.value, scanner.text, old(scanner.pos));
        r == e.outcome && scanner.pos == e.pos && sb.out.events == old(sb.out.events) + e.sent &&
        sb.nagios.Snapshot() == old(sb.nagios.Snapshot()).(listeners := old(sb.nagios.listeners) + e.listen)
    {
      assert old(sb.nagios.listeners) + [] == old(sb.nagios.listeners);
      ghost var c := CtxOf(cfg, now);
      ghost var p0 := scanner.pos;
      var _ := scanner.Skip(Space);
      ghost var p := scanner.pos;
      var w := scanner.Scan(Word);
      if w.None? {
        assert ReplySubAt(c, n.value, scanner.text, p0) == Raise(p, "Missing subcommand!");
        return Fail("Missing subcommand!");
      }
      assert w == RunAt(scanner.text, p, Word) && scanner.pos == p + |w.value|;
      if w.value == "ack" || w.value == "check" {
        var k := if w.value == "ack" then ReplyAckCmd else ReplyCheckCmd;
        assert ReplySubAt(c, n.value, scanner.text, p0) ==
          if k == ReplyAckCmd then ReplyAckAt(c, n, scanner.text, scanner.pos) else ReplyCheckAt(c, n, scanner.pos);
        r := InvokeChild(k, w.value, cfg, now);
      } else {
        assert ReplySubAt(c, n.value, scanner.text, p0) == Answer(c, scanner.pos, "Unknown reply command " + w.value + "!");
        sb.out.Send(Chat(msg.from, "Unknown reply command " + w.value + "!"));
        r := Pass;
      }
    }

    /** `invoke_child(klass, c_cmd_text)`: a fresh command of class `k`
        with the same message, contact, scanner (so it continues at this
        command's cursor), switchboard and client, invoked by this one, so
        that it sees this command's notification. */
    method InvokeChild(k: Kind, cText: string, cfg: Result<ConfigData>, now: int) returns (r: Outcome)
      requires scanner.Valid() && (k == ReplyAckCmd || k == ReplyCheckCmd)
      modifies scanner, sb.out, sb.nagios
      ensures scanner.Valid()
      ensures var e := if k == ReplyAckCmd then ReplyAckAt(old(CtxOf(cfg, now)), n, scanner.text, old(scanner.pos))
                       else ReplyCheckAt(old(CtxOf(cfg, now)), n, old(scanner.pos));
        r == e.outcome && scanner.pos == e.pos && sb.out.events == old(sb.out.events) + e.sent &&
        sb.nagios.Snapshot() == old(sb.nagios.Snapshot()).(listeners := old(sb.nagios.listeners) + e.listen)
    {
      var c := new Base(k, cText, msg, contact, scanner, sb, client);
      c.parent := Some(this);
      if k == ReplyAckCmd {
        r := c.InvokeReplyAck(cfg, now);
        assert old(sb.nagios.listeners) + [] == old(sb.nagios.listeners);
      } else {
        r := c.InvokeReplyCheck(cfg, now);
      }
    }

    /** `Admin#invoke`. */
    method InvokeAdmin(cfg: Result<ConfigData>, now: int) returns (r: Outcome)
      requires scanner.Valid()
      modifies scanner, sb.out
      ensures scanner.Valid()
      ensures var e := AdminAt(old(CtxOf(cfg, now)), scanner.text, old(scanner.pos));
        r == e.outcome && scanner.pos == e.pos && sb.out.events == old(sb.out.events) + e.sent && e.listen == []
    {
      ghost var c := CtxOf(cfg, now);
      var _ := scanner.Skip(Space);
      var a := scanner.Scan(NonSpace);
      var _ := scanner.Skip(Space);
      r := AdminSub(c, a);
    }

    /** The admin subcommand `a`, with the cursor after it. */
    method AdminSub(ghost c: Ctx, a: Option<string>) returns (r: Outcome)
      requires scanner.Valid() && c.from == msg.from && c.roster == client.roster
      modifies scanner, sb.out
      ensures scanner.Valid()
      ensures var e := AdminSubAt(c, a, scanner.text, old(scanner.pos));
        r == e.outcome && scanner.pos == e.pos && sb.out.events == old(sb.out.events) + e.sent && e.listen == []
    {
      if a == Some("list-roster") {
        sb.out.Send(Chat(msg.from, "Roster: " + Join(SortStrings(client.roster), ", ")));
        r := Pass;
      } else if a == Some("add") {
        r := AdminAdd(c);
      } else if a == Some("remove") {
        r := AdminRemove(c);
      } else {
        sb.out.Send(Chat(msg.from, "Unknown admin command " + a.GetOr("")));
        r := Pass;
      }
    }

    /** `admin add`, with the cursor after the subcommand. */
    method AdminAdd(ghost c: Ctx) returns (r: Outcome)
      requires scanner.Valid() && c.from == msg.from
      modifies scanner, sb.out
      ensures scanner.Valid()
      ensures var e := AdminAddAt(c, scanner.text, old(scanner.pos));
        r == e.outcome && scanner.pos == e.pos && sb.out.events == old(sb.out.events) + e.sent
    {
      var m := scanner.ScanPair();
      if m.Some? {
        var added := "Added " + m.value.first + " (" + m.value.second + ") to roster and requested presence subscription.";
        sb.out.Send(RosterAdd(m.value.first, m.value.second));
        sb.out.Send(Chat(msg.from, added));
        assert sb.out.events == old(sb.out.events) + [RosterAdd(m.value.first, m.value.second), Chat(msg.from, added)];
      } else {
        sb.out.Send(Chat(msg.from, "Usage: admin add <jid> <alias>"));
      }
      return Pass;
    }

    /** `admin remove`, with the cursor after the subcommand. */
    method AdminRemove(ghost c: Ctx) returns (r: Outcome)
      requires scanner.Valid() && c.from == msg.from && c.roster == client.roster
      modifies scanner, sb.out
      ensures scanner.Valid()
      ensures var e := AdminRemoveAt(c, scanner.text, old(scanner.pos));
        r == e.outcome && scanner.pos == e.pos && sb.out.events == old(sb.out.events) + e.sent
    {
      var j := scanner.Scan(NonSpace);
      if j.None? {
        sb.out.Send(Chat(msg.from, "Usage: admin remove <jid>"));
        return Pass;
      }
      if j.value !in client.roster {
        return Fail(NilError("remove"));
      }
      var removed := "Contact " + j.value + " successfully removed from roster.";
      sb.out.Send(RosterRemove(j.value));
      sb.out.Send(Chat(msg.from, removed));
      assert sb.out.events == old(sb.out.events) + [RosterRemove(j.value), Chat(msg.from, removed)];
      return Pass;
    }

    /** `Help#invoke`. */
    method InvokeHelp() returns (r: Outcome)
      modifies sb.out
      ensures r == Pass && sb.out.events == old(sb.out.events) + [Chat(msg.from, HELP)]
    {
      sb.out.Send(Chat(msg.from, HELP));
      return Pass;
    }

    /** `Status#invoke`. */
    method InvokeStatus(cfg: Result<ConfigData>, now: int) returns (r: Outcome)
      modifies sb.out
      ensures var e := StatusAt(CtxOf(cfg, now), scanner.pos);
        r == e.outcome && sb.out.events == old(sb.out.events) + e.sent
    {
      if cfg.Err? {
        return Fail(cfg.msg);
      }
      var rep := StatusReportOf(cfg.value);
      if rep.Err? {
        return Fail(rep.msg);
      }
      var text := ReportText(rep.value, now);
      if text.Err? {
        return Fail(text.msg);
      }
      sb.out.Send(Chat(msg.from, text.value));
      return Pass;
    }

    /** `HostDetail#invoke(host)` and `ServiceDetail#invoke(svc)`. */
    method InvokeDetail(e: Entry, cfg: Result<ConfigData>, now: int) returns (r: Outcome)
      modifies sb.out
      ensures var d := DetailAt(CtxOf(cfg, now), e, scanner.pos);
        r == d.outcome && sb.out.events == old(sb.out.events) + d.sent
    {
      var text := Detail(e.ref, e.mon, now);
      if text.Err? {
        return Fail(text.msg);
      }
      sb.out.Send(Chat(msg.from, text.value));
      return Pass;
    }
  }

  /** What a command run for a message from `from` reads: the sender's chat
      contact gives the sender. */
  function ContextOf(cfg: Result<ConfigData>, now: int, field: string, from: string,
                     contact: Option<ChatContact>, client: ChatClient): Ctx
    reads client, if contact.Some? then {contact.value} else {}
  {
    Ctx(cfg, field, now, from,
        if contact.Some? then Some(Sender(contact.value.jid, contact.value.recent)) else None,
        client.roster)
  }

  /** The chat contact a message's sender is filed under, if any. */
  function SenderContact(client: ChatClient, from: string): (c: Option<ChatContact>)
    reads client
    ensures c.Some? <==> BareJid(from) in client.contacts
    ensures c.Some? ==> c.value == client.contacts[BareJid(from)]
  {
    if BareJid(from) in client.contacts then Some(client.contacts[BareJid(from)]) else None
  }

  /** What handling `m` reads. */
  function MessageCtx(sb: Switchboard, m: Message, cfg: Result<ConfigData>, now: int): Ctx
    reads sb.xmpp, if BareJid(m.from) in sb.xmpp.contacts then {sb.xmpp.contacts[BareJid(m.from)]} else {}
  {
    ContextOf(cfg, now, sb.conf.xmppField, m.from, SenderContact(sb.xmpp, m.from), sb.xmpp)
  }

  /** `handle_message(msg)`: the first token of the body picks a command,
      which reads on from the scanner; a raised error is answered with
      "Oops." and the error. */
  method HandleMessage(sb: Switchboard, m: Message, cfg: Result<ConfigData>, now: int)
    modifies sb.out, sb.nagios
    ensures var e := MessageSpec(old(MessageCtx(sb, m, cfg, now)), m.body);
      sb.out.events == old(sb.out.events) + e.sent &&
      sb.nagios.Snapshot() == old(sb.nagios.Snapshot()).(listeners := old(sb.nagios.listeners) + e.listen)
  {
    assert old(sb.out.events) + [] == old(sb.out.events);
    assert old(sb.nagios.listeners) + [] == old(sb.nagios.listeners);
    if m.body.None? {
      return;
    }
    var scanner := new Scanner(m.body.value);
    var first := scanner.Scan(Token);
    if first.None? {
      return;
    }
    ghost var c := MessageCtx(sb, m, cfg, now);
    ghost var e0 := sb.out.events;
    var contact := SenderContact(sb.xmpp, m.from);
    var r := Dispatch(sb, m, contact, scanner, first.value, cfg, now);
    ghost var d := DispatchAt(c, first.value, scanner.text, |first.value|);
    assert sb.out.events == e0 + d.sent;
    if r.Fail? {
      sb.out.Send(Chat(m.from, "Oops. " + r.msg));
    }
  }

  /** The dispatch part of `handle_message`: a command word runs its
      command; otherwise the word is tried as a host, and then as a host
      followed by '/' and a service. */
  method Dispatch(sb: Switchboard, m: Message, contact: Option<ChatContact>, scanner: Scanner,
                  first: string, cfg: Result<ConfigData>, now: int) returns (r: Outcome)
    requires scanner.Valid() && scanner.pos == |first| && first == scanner.text[..|first|]
    modifies scanner, sb.out, sb.nagios
    ensures var e := DispatchAt(old(ContextOf(cfg, now, sb.conf.xmppField, m.from, contact, sb.xmpp)), first, scanner.text, old(scanner.pos));
      r == e.outcome && sb.out.events == old(sb.out.events) + e.sent &&
      sb.nagios.Snapshot() == old(sb.nagios.Snapshot()).(listeners := old(sb.nagios.listeners) + e.listen)
  {
    assert old(sb.nagios.listeners) + [] == old(sb.nagios.listeners);
    ghost var c := ContextOf(cfg, now, sb.conf.xmppField, m.from, contact, sb.xmpp);
    var k := CommandFor(first);
    if k.Some? {
      r := InvokeCommand(sb, m, contact, scanner, k.value, first, cfg, now);
      return;
    }
    var host := FindHost(cfg, first);
    if host.Err? {
      return Fail(host.msg);
    }
    if host.value.None? {
      sb.out.Send(Chat(m.from, "I'm sorry, I didn't quite catch that?"));
      return Pass;
    }
    r := InvokeHostOrService(sb, m, contact, scanner, first, host.value.value, cfg, now);
  }

  /** The host branch of `handle_message`: a '/' after the host name
      resolves a service and shows its detail, otherwise the host's. */
  method InvokeHostOrService(sb: Switchboard, m: Message, contact: Option<ChatContact>, scanner: Scanner,
                             first: string, h: Host, cfg: Result<ConfigData>, now: int) returns (r: Outcome)
    requires scanner.Valid()
    modifies scanner, sb.out
    ensures var e := HostOrServiceAt(old(ContextOf(cfg, now, sb.conf.xmppField, m.from, contact, sb.xmpp)), first, h, scanner.text, old(scanner.pos));
      r == e.outcome && sb.out.events == old(sb.out.events) + e.sent
  {
    ghost var c := ContextOf(cfg, now, sb.conf.xmppField, m.from, contact, sb.xmpp);
    var slash := scanner.ScanChar('/');
    if slash {
      var svc := sb.ResolveServiceName(first, h, scanner, true);
      if svc.Err? {
        return Fail(svc.msg);
      }
      var cmd := new Base(ServiceDetailCmd, first, m, contact, scanner, sb, sb.xmpp);
      assert cmd.CtxOf(cfg, now) == c;
      r := cmd.InvokeDetail(svc.value, cfg, now);
    } else {
      var cmd := new Base(HostDetailCmd, first, m, contact, scanner, sb, sb.xmpp);
      assert cmd.CtxOf(cfg, now) == c;
      r := cmd.InvokeDetail(Entry(HostRef(first), h.mon), cfg, now);
    }
  }

  /** `invoke_cmd(cd, first, msg, contact, scanner)` for a command word: a
      fresh command of that class, invoked. */
  method InvokeCommand(sb: Switchboard, m: Message, contact: Option<ChatContact>, scanner: Scanner,
                       k: Kind, first: string, cfg: Result<ConfigData>, now: int) returns (r: Outcome)
    requires scanner.Valid() && CommandFor(first) == Some(k)
    modifies scanner, sb.out, sb.nagios
    ensures var e := RunAtCursor(old(ContextOf(cfg, now, sb.conf.xmppField, m.from, contact, sb.xmpp)), k, first, scanner.text, old(scanner.pos));
      r == e.outcome && sb.out.events == old(sb.out.events) + e.sent &&
      sb.nagios.Snapshot() == old(sb.nagios.Snapshot()).(listeners := old(sb.nagios.listeners) + e.listen)
  {
    assert old(sb.nagios.listeners) + [] == old(sb.nagios.listeners);
    var cmd := new Base(k, first, m, contact, scanner, sb, sb.xmpp);
    match k {
      case StatusCmd => r := cmd.InvokeStatus(cfg, now);
      case CheckCmd => r := cmd.InvokeCheck(cfg, now);
      case AckCmd => r := cmd.InvokeAck(cfg, now);
      case ReplyCmd => r := cmd.InvokeReply(cfg, now);
      case AdminCmd => r := cmd.InvokeAdmin(cfg, now);
      case HelpCmd => r := cmd.InvokeHelp();
    }
  }
}

=== FILE: control.dfy ===
/** The command pipe of the monitoring system: every external command the
    gateway issues is one line naming a directive and its arguments. */
module Control {

  import opened Wrappers
  import opened Text
  import opened NagiosModel

  /** `[<unix time>] <DIRECTIVE>;<arg>;<arg>...` and a newline: the directive
      is the method name upper-cased and the arguments are rendered with
      `to_s` and joined by ';' without any escaping. */
  function ControlLine(now: int, directive: string, args: seq<string>): (r: string)
    ensures |r| == 4 + |IntToString(now)| + |directive| + |Join(args, ";")| + 1
    ensures r[0] == '[' && r[|r| - 1] == '\n'
  {
    "[" + IntToString(now) + "] " + Upcase(directive) + ";" + Join(args, ";") + "\n"
  }

  /** A command line read back: the time stamp, the directive and the
      arguments. */
  datatype Command = Command(time: int, directive: string, args: seq<string>)

  /** Reading a control line: the time stamp up to the first ']', then a
      space, the directive up to the first ';', and the arguments split at
      every ';' up to the final newline. */
  function ParseControl(line: string): Option<Command> {
    if |line| < 2 || line[0] != '[' || line[|line| - 1] != '\n' || ']' !in line then None
    else
      var i := FirstIndex(line, ']');
      if i < 1 || i + 2 > |line| - 1 || line[i + 1] != ' ' then None
      else
        var body := line[i + 2..|line| - 1];
        if ';' !in body then None
        else
          var j := FirstIndex(body, ';');
          Some(Command(ToI(line[1..i]), body[..j], SplitAll(body[j + 1..], ';')))
  }

  lemma NoBracketInNumber(now: int)
    ensures ']' !in IntToString(now) && |IntToString(now)| >= 1
  {
    var s := IntToString(now);
    if now < 0 {
      assert s == "-" + NatToString(-now);
      assert forall k :: 1 <= k < |s| ==> s[k] == NatToString(-now)[k - 1];
    }
  }

  lemma UpcaseKeepsSemicolons(d: string)
    ensures ';' in Upcase(d) <==> ';' in d
  {
    var u := Upcase(d);
    if ';' in u {
      var k :| 0 <= k < |u| && u[k] == ';';
      assert d[k] == ';';
    }
    if ';' in d {
      var k :| 0 <= k < |d| && d[k] == ';';
      assert u[k] == ';';
    }
  }

  /** The layout of a control line, field by field. */
  lemma ParseLayout(ts: string, d: string, tail: string)
    requires |ts| >= 1 && ']' !in ts && ';' !in d
    ensures ParseControl("[" + ts + "] " + d + ";" + tail + "\n") == Some(Command(ToI(ts), d, SplitAll(tail, ';')))
  {
    var rest := " " + d + ";" + tail + "\n";
    var line := "[" + ts + "] " + d + ";" + tail + "\n";
    assert line == ("[" + ts) + [']'] + rest;
    FirstIndexAfter("[" + ts, rest, ']');
    var i := |ts| + 1;
    assert line[1..i] == ts;
    assert line[i + 1] == ' ';
    var body := line[i + 2..|line| - 1];
    assert body == d + [';'] + tail;
    FirstIndexAfter(d, tail, ';');
    assert body[..|d|] == d;
    assert body[|d| + 1..] == tail;
  }

  /** A control line reads back as the time, the upper-cased directive and
      the arguments, as long as neither the directive nor any argument holds
      a ';'. */
  lemma ControlLineRoundTrip(now: int, directive: string, args: seq<string>)
    requires ';' !in directive
    requires |args| >= 1 && forall k :: 0 <= k < |args| ==> ';' !in args[k]
    ensures ParseControl(ControlLine(now, directive, args)) == Some(Command(now, Upcase(directive), args))
  {
    NoBracketInNumber(now);
    UpcaseKeepsSemicolons(directive);
    ParseLayout(IntToString(now), Upcase(directive), Join(args, ";"));
    ToIOfIntToString(now);
    SplitAllJoin(args, ';');
  }

  /** Arguments are not escaped: an argument holding a ';' does not read
      back as itself. */
  lemma SemicolonNotEscaped(now: int, directive: string, args: seq<string>, k: nat)
    requires k < |args| && ';' in args[k]
    ensures ParseControl(ControlLine(now, directive, args)) != Some(Command(now, Upcase(directive), args))
  {
  }

  const ACK_HOST: string := "acknowledge_host_problem"
  const ACK_SVC: string := "acknowledge_svc_problem"
  const FORCE_HOST: string := "schedule_forced_host_check"
  const FORCE_SVC: string := "schedule_forced_svc_check"

  /** The options a caller of `acknowledge` passes; each one that is absent
      takes its default. */
  datatype AckOptions = AckOptions(
    sticky: Option<int>,
    notify: Option<int>,
    persistent: Option<int>,
    author: Option<string>,
    comment: Option<string>)

  /** What `{:sticky => 0, :notify => 1, :persistent => 1}.merge!(opts)`
      leaves: sticky, notify, persistent, author and comment, rendered with
      `to_s` (an absent author or comment renders as ""). */
  function AckFields(o: AckOptions): (r: seq<string>)
    ensures |r| == 5
    ensures r[0] == IntToString(o.sticky.GetOr(0))
    ensures r[1] == IntToString(o.notify.GetOr(1))
    ensures r[2] == IntToString(o.persistent.GetOr(1))
    ensures r[3] == o.author.GetOr("") && r[4] == o.comment.GetOr("")
  {
    [IntToString(o.sticky.GetOr(0)), IntToString(o.notify.GetOr(1)), IntToString(o.persistent.GetOr(1)),
     o.author.GetOr(""), o.comment.GetOr("")]
  }

  /** The names that identify a host or a service in a command. */
  function TargetArgs(r: Ref): (a: seq<string>)
    ensures r.HostRef? ==> a == [r.host]
    ensures r.SvcRef? ==> a == [r.host, r.svc]
  {
    match r
    case HostRef(h) => [h]
    case SvcRef(h, s) => [h, s]
  }

  /** `Host#acknowledge` / `Service#acknowledge`. */
  function Acknowledge(now: int, r: Ref, o: AckOptions): string {
    ControlLine(now, if r.HostRef? then ACK_HOST else ACK_SVC, TargetArgs(r) + AckFields(o))
  }

  /** `Host#force_check(at)` / `Service#force_check(at)`. */
  function ForceCheck(now: int, r: Ref, at: int): string {
    ControlLine(now, if r.HostRef? then FORCE_HOST else FORCE_SVC, TargetArgs(r) + [IntToString(at)])
  }

  lemma UpcaseIs(s: string, u: string)
    requires |s| == |u| && forall i :: 0 <= i < |s| ==> UpcaseChar(s[i]) == u[i]
    ensures Upcase(s) == u
  {
  }

  lemma UpcaseAckHost()
    ensures Upcase(ACK_HOST) == "ACKNOWLEDGE_HOST_PROBLEM"
  {
    UpcaseIs(ACK_HOST, "ACKNOWLEDGE_HOST_PROBLEM");
  }

  lemma UpcaseAckSvc()
    ensures Upcase(ACK_SVC) == "ACKNOWLEDGE_SVC_PROBLEM"
  {
    UpcaseIs(ACK_SVC, "ACKNOWLEDGE_SVC_PROBLEM");
  }

  lemma UpcaseForceHost()
    ensures Upcase(FORCE_HOST) == "SCHEDULE_FORCED_HOST_CHECK"
  {
    UpcaseIs(FORCE_HOST, "SCHEDULE_FORCED_HOST_CHECK");
  }

  lemma UpcaseForceSvc()
    ensures Upcase(FORCE_SVC) == "SCHEDULE_FORCED_SVC_CHECK"
  {
    UpcaseIs(FORCE_SVC, "SCHEDULE_FORCED_SVC_CHECK");
  }

  lemma DirectivesPlain()
    ensures ';' !in ACK_HOST && ';' !in ACK_SVC && ';' !in FORCE_HOST && ';' !in FORCE_SVC
  {
  }

  /** The directive a host or service acknowledgement sends. */
  function AckDirective(r: Ref): (d: string)
    ensures d == Upcase(if r.HostRef? then ACK_HOST else ACK_SVC)
  {
    if r.HostRef? then UpcaseAckHost(); "ACKNOWLEDGE_HOST_PROBLEM"
    else UpcaseAckSvc(); "ACKNOWLEDGE_SVC_PROBLEM"
  }

  /** The directive a forced host or service check sends. */
  function ForceDirective(r: Ref): (d: string)
    ensures d == Upcase(if r.HostRef? then FORCE_HOST else FORCE_SVC)
  {
    if r.HostRef? then UpcaseForceHost(); "SCHEDULE_FORCED_HOST_CHECK"
    else UpcaseForceSvc(); "SCHEDULE_FORCED_SVC_CHECK"
  }

  /** An acknowledgement names the host, or the host and the service, then
      sticky 0, notify 1 and persistent 1 unless overridden, then the author
      and the comment. When no name, author or comment holds a ';', the line
      reads back field by field. */
  lemma AcknowledgeFields(now: int, r: Ref, o: AckOptions)
    requires forall k :: 0 <= k < |TargetArgs(r)| ==> ';' !in TargetArgs(r)[k]
    requires ';' !in o.author.GetOr("") && ';' !in o.comment.GetOr("")
    ensures ParseControl(Acknowledge(now, r, o)) == Some(Command(now, AckDirective(r),
        TargetArgs(r) + [IntToString(o.sticky.GetOr(0)), IntToString(o.notify.GetOr(1)),
                         IntToString(o.persistent.GetOr(1)), o.author.GetOr(""), o.comment.GetOr("")]))
  {
    var args := TargetArgs(r) + AckFields(o);
    forall k | 0 <= k < |args| ensures ';' !in args[k] {
      if k >= |TargetArgs(r)| {
        var j := k - |TargetArgs(r)|;
        if j < 3 {
          NumberHasNoSemicolon([o.sticky.GetOr(0), o.notify.GetOr(1), o.persistent.GetOr(1)][j]);
        }
      }
    }
    DirectivesPlain();
    ControlLineRoundTrip(now, if r.HostRef? then ACK_HOST else ACK_SVC, args);
  }

  lemma NumberHasNoSemicolon(i: int)
    ensures ';' !in IntToString(i)
  {
    var s := IntToString(i);
    if i < 0 {
      assert forall k :: 1 <= k < |s| ==> s[k] == NatToString(-i)[k - 1];
    }
  }

  /** A forced check names the host, or the host and the service, then the
      time the check is wanted at as a whole number of seconds. */
  lemma ForceCheckFields(now: int, r: Ref, at: int)
    requires forall k :: 0 <= k < |TargetArgs(r)| ==> ';' !in TargetArgs(r)[k]
    ensures ParseControl(ForceCheck(now, r, at)) == Some(Command(now, ForceDirective(r),
      TargetArgs(r) + [IntToString(at)]))
  {
    NumberHasNoSemicolon(at);
    DirectivesPlain();
    var args := TargetArgs(r) + [IntToString(at)];
    ControlLineRoundTrip(now, if r.HostRef? then FORCE_HOST else FORCE_SVC, args);

  }
}

=== FILE: duration.dfy ===
/** The gateway's short rendering of elapsed time ("3d4h", "5m", "ever").
    A duration is written with the largest unit it strictly exceeds, then at
    most one more part taken from the very next unit. */
module Duration {

  import opened Wrappers
  import opened Text

  type Positive = n: int | n > 0 witness 1

  /** One entry of the unit table: its length in seconds and its letter. */
  datatype Unit = Unit(size: Positive, letter: char)

  const SECOND: Positive := 1
  const MINUTE: Positive := 60
  const HOUR: Positive := 60 * MINUTE
  const DAY: Positive := 24 * HOUR
  const WEEK: Positive := 7 * DAY

  /** The unit table of the current gateway, largest unit first. */
  const TSPEC: seq<Unit> := [Unit(WEEK, 'w'), Unit(DAY, 'd'), Unit(HOUR, 'h'), Unit(MINUTE, 'm'), Unit(SECOND, 's')]

  /** The unit table of release 0.1, which has no seconds unit. */
  const TSPEC_0_1: seq<Unit> := [Unit(WEEK, 'w'), Unit(DAY, 'd'), Unit(HOUR, 'h'), Unit(MINUTE, 'm')]

  /** Midnight at the start of 1 January 1996, in seconds since the epoch:
      times no later than this read as "ever". */
  const OLD: int := 820454400

  /** One `<count><letter>` part. */
  function Piece(secs: int, u: Unit): string
    requires secs > u.size
  {
    NatToString(secs / u.size) + [u.letter]
  }

  /** The next unit only: Ruby's `parts[1..1]`. */
  function NextOnly(parts: seq<Unit>): seq<Unit>
    requires |parts| > 0
  {
    if |parts| >= 2 then [parts[1]] else []
  }

  /** `brief_duration(secs, parts)`. */
  function BriefDuration(secs: int, parts: seq<Unit>): string
    decreases |parts|
  {
    if |parts| == 0 then ""
    else if secs > parts[0].size then
      Piece(secs, parts[0]) + BriefDuration(secs % parts[0].size, NextOnly(parts))
    else
      BriefDuration(secs, parts[1..])
  }

  /** The second part of the rendering, taken from the unit after `parts[i]`
      when the remainder strictly exceeds it. */
  function SecondPiece(secs: int, parts: seq<Unit>, i: nat): string
    requires i < |parts|
  {
    var r := secs % parts[i].size;
    if i + 1 < |parts| && r > parts[i + 1].size then Piece(r, parts[i + 1]) else ""
  }

  /** Shape of the rendering: when `parts[i]` is the first unit that `secs`
      strictly exceeds, the text is that unit's part followed by at most one
      part from the unit right after it. */
  lemma {:induction false} BriefDurationShape(secs: int, parts: seq<Unit>, i: nat)
    requires i < |parts| && secs > parts[i].size
    requires forall j :: 0 <= j < i ==> secs <= parts[j].size
    ensures BriefDuration(secs, parts) == Piece(secs, parts[i]) + SecondPiece(secs, parts, i)
    decreases i
  {
    if i == 0 {
      var r := secs % parts[0].size;
      if |parts| >= 2 {
        if r > parts[1].size {
          assert BriefDuration(r / parts[1].size, []) == "";
          assert BriefDuration(r, [parts[1]]) == Piece(r, parts[1]) + BriefDuration(r % parts[1].size, []);
        } else {
          assert BriefDuration(r, [parts[1]]) == BriefDuration(r, []);
        }
      }
    } else {
      BriefDurationShape(secs, parts[1..], i - 1);
      assert SecondPiece(secs, parts[1..], i - 1) == SecondPiece(secs, parts, i);
    }
  }

  /** A duration no longer than every unit renders as the empty string. */
  lemma {:induction false} BriefDurationEmpty(secs: int, parts: seq<Unit>)
    requires forall j :: 0 <= j < |parts| ==> secs <= parts[j].size
    ensures BriefDuration(secs, parts) == ""
    decreases |parts|
  {
    if |parts| > 0 {
      BriefDurationEmpty(secs, parts[1..]);
    }
  }

  /** A duration longer than some unit renders as a non-empty string. */
  lemma {:induction false} BriefDurationNonEmpty(secs: int, parts: seq<Unit>, j: nat)
    requires j < |parts| && secs > parts[j].size
    ensures BriefDuration(secs, parts) != ""
    decreases |parts|
  {
    if secs <= parts[0].size {
      BriefDurationNonEmpty(secs, parts[1..], j - 1);
    }
  }

  /** With the current table a duration renders as "" exactly when it is at
      most one second; in particular a full minute renders as "60s". */
  lemma TrunkEmptyExactly(secs: int)
    ensures BriefDuration(secs, TSPEC) == "" <==> secs <= 1
    ensures BriefDuration(60, TSPEC) == "60s"
  {
    if secs <= 1 {
      BriefDurationEmpty(secs, TSPEC);
    } else {
      BriefDurationNonEmpty(secs, TSPEC, 4);
    }
    BriefDurationShape(60, TSPEC, 4);
  }

  /** With the release 0.1 table a duration renders as "" exactly when it is
      at most one minute. */
  lemma Release01EmptyExactly(secs: int)
    ensures BriefDuration(secs, TSPEC_0_1) == "" <==> secs <= 60
  {
    if secs <= 60 {
      BriefDurationEmpty(secs, TSPEC_0_1);
    } else {
      BriefDurationNonEmpty(secs, TSPEC_0_1, 3);
    }
  }

  /** `brief_time_delta(t)` at wall-clock time `now`: the time elapsed since
      `t`, or "ever" for a time no later than the start of 1996. A missing
      time raises, because nil cannot be compared with a time. */
  function BriefTimeDelta(t: Option<int>, now: int): (r: Result<string>)
    ensures t.None? <==> r.Err?
    ensures t.None? ==> r.msg == NilError(">")
    ensures t.Some? && t.value <= OLD ==> r == Ok("ever")
    ensures t.Some? && t.value > OLD ==> r == Ok(BriefDuration(now - t.value, TSPEC))
  {
    match t
    case None => Err(NilError(">"))
    case Some(v) => if v > OLD then Ok(BriefDuration(now - v, TSPEC)) else Ok("ever")
  }

  /** Release 0.1's `brief_time_delta(t)`: no "ever" cut-off and the table
      without seconds. */
  function BriefTimeDelta01(t: int, now: int): (r: string)
    ensures r == "" <==> now - t <= 60
  {
    Release01EmptyExactly(now - t);
    BriefDuration(now - t, TSPEC_0_1)
  }
}

=== FILE: events.dfy ===
/** The notifications the monitoring system posts to the gateway, and the
    effects the gateway has on the world outside it: chat messages, mail,
    lines written to the command pipe and changes to the chat roster. */
module Events {

  import opened Wrappers
  import opened Text
  import opened OrderedMaps
  import opened NagiosModel

  /** A notification: the parameters it was posted with (`ntype`,
      `NOTIFICATIONTYPE`, `HOSTNAME`, `SERVICEDESC`, ...), the `@` number
      it was given when it was sent to a chat contact, if it was, and the
      host or service it was found to refer to, once it was looked up. */
  datatype Notification = Notification(params: Props, number: Option<int>, referent: Option<Ref>)

  /** `n.FIELD` as it reads when interpolated: an absent field reads as "". */
  function Param(n: Notification, k: string): string {
    n.params.Get(k).GetOr("")
  }

  /** `n.ntype`: "host" or "service" for the notifications the gateway
      understands. */
  function NType(n: Notification): string {
    Param(n, "ntype")
  }

  /** `"#{n.seq}"`: the number, or nothing before one was given. */
  function SeqLabel(n: Notification): string {
    match n.number
    case None => ""
    case Some(k) => IntToString(k)
  }

  /** The message `Hash#fetch` raises for a missing key. */
  function KeyNotFound(k: string): string {
    "key not found: " + Inspect(k)
  }

  /** What the gateway does to the outside world, in the order it does it. */
  datatype Event =
    | Chat(jid: string, text: string)
    | Email(from: string, to: string, alias: string, subject: string, body: string)
    | Control(line: string)
    | RosterAdd(jid: string, name: string)
    | RosterRemove(jid: string)
}

=== FILE: formatting.dfy ===
/** The plain-text renderings of release 0.3: a notification as chat text,
    as a mail body and as a mail subject; the detail view of a host or a
    service; and the two summaries of the status report, the one-line
    presence message and the per-state report. */
module Formatting {

  import opened Wrappers
  import opened Text
  import opened OrderedMaps
  import opened NagiosModel
  import opened Events
  import opened Duration
  import opened StatusReport
  import opened Sorting

  /** The three formatters: chat text, mail body and mail subject. */
  datatype Formatter = ChatText | MailBody | MailSubject

  /** Notification types whose info line is the plugin output. */
  predicate ReportsOutput(t: string) {
    t == "PROBLEM" || t == "RECOVERY"
  }

  /** Notification types whose info line is the notification comment. */
  predicate ReportsComment(t: string) {
    t == "ACKNOWLEDGEMENT" || t == "CUSTOM" || t == "DOWNTIMESTART" || t == "DOWNTIMEEND"
  }

  /** The first line every formatter writes: the type, what the
      notification is about, and its state. */
  function Headline(n: Notification): string {
    if NType(n) == "host" then
      Param(n, "NOTIFICATIONTYPE") + ": " + Param(n, "HOSTNAME") + " is " + Param(n, "HOSTSTATE")
    else
      Param(n, "NOTIFICATIONTYPE") + ": Service " + Param(n, "SERVICEDESC") + " on " + Param(n, "HOSTNAME") +
      " is " + Param(n, "SERVICESTATE")
  }

  /** The parameter holding the plugin output of what the notification is
      about. */
  function OutputKey(n: Notification): string {
    if NType(n) == "host" then "HOSTOUTPUT" else "SERVICEOUTPUT"
  }

  /** The info line of the chat text, which depends on the type: the plugin
      output, the comment, or nothing for a type it does not expect. */
  function ChatInfo(n: Notification): string {
    var t := Param(n, "NOTIFICATIONTYPE");
    if ReportsOutput(t) then "Info: " + Param(n, OutputKey(n))
    else if ReportsComment(t) then "Info: " + Param(n, "NOTIFICATIONCOMMENT")
    else ""
  }

  /** `XMPPFormatter#host_notify` and `#service_notify`: the `@` number the
      contact can reply to, then the headline and the info line. */
  function ChatNotify(n: Notification): string {
    "@" + SeqLabel(n) + " " + Headline(n) + "\n" + ChatInfo(n)
  }

  /** `EmailFormatter#host_notify` and `#service_notify`, which the subject
      formatter repeats word for word: the headline and the plugin output,
      whatever the type. */
  function MailNotify(n: Notification): string {
    Headline(n) + "\nInfo: " + Param(n, OutputKey(n))
  }

  /** `BaseFormatter#notification`: a host or a service notification is
      rendered by the formatter, anything else raises. */
  function RenderNotification(f: Formatter, n: Notification): (r: Result<string>)
    ensures r.Err? <==> NType(n) != "host" && NType(n) != "service"
    ensures r.Err? ==> r.msg == "unhandled notification type " + NType(n) + "!"
    ensures r.Ok? && f != ChatText ==> r.value == MailNotify(n)
  {
    if NType(n) != "host" && NType(n) != "service" then Err("unhandled notification type " + NType(n) + "!")
    else if f == ChatText then Ok(ChatNotify(n))
    else Ok(MailNotify(n))
  }

  /** For a problem or a recovery, the chat text is the mail text behind
      the `@` number. */
  lemma ChatExtendsMail(n: Notification)
    requires NType(n) == "host" || NType(n) == "service"
    requires ReportsOutput(Param(n, "NOTIFICATIONTYPE"))
    ensures RenderNotification(ChatText, n).Ok? && RenderNotification(MailBody, n).Ok?
    ensures RenderNotification(ChatText, n).value == "@" + SeqLabel(n) + " " + RenderNotification(MailBody, n).value
  {
    var o := Param(n, OutputKey(n));
    assert ChatInfo(n) == "Info: " + o;
    InfoLineRegroups("@" + SeqLabel(n) + " ", Headline(n), "Info: " + o);
  }

  lemma InfoLineRegroups(p: string, h: string, i: string)
    ensures p + h + "\n" + i == p + (h + "\n" + i)
  {
  }

  /** For an acknowledgement, a custom notification or a downtime, the chat
      text is the mail text behind the `@` number, with the comment where
      the mail has the plugin output. */
  lemma ChatShowsComment(n: Notification)
    requires NType(n) == "host" || NType(n) == "service"
    requires ReportsComment(Param(n, "NOTIFICATIONTYPE"))
    ensures var mail := RenderNotification(MailBody, n).value;
      |Param(n, OutputKey(n))| <= |mail| &&
      RenderNotification(ChatText, n).value ==
        "@" + SeqLabel(n) + " " + mail[..|mail| - |Param(n, OutputKey(n))|] + Param(n, "NOTIFICATIONCOMMENT")
  {
    var mail := MailNotify(n);
    var o := Param(n, OutputKey(n));
    assert mail == (Headline(n) + "\nInfo: ") + o;
    assert mail[..|mail| - |o|] == Headline(n) + "\nInfo: ";
    assert ChatInfo(n) == "Info: " + Param(n, "NOTIFICATIONCOMMENT");
    InfoLineRegroups("@" + SeqLabel(n) + " ", Headline(n), "Info: " + Param(n, "NOTIFICATIONCOMMENT"));
  }

  /** For any other type, the chat text stops after the headline's
      newline: it is the mail text behind the `@` number without the info
      line. */
  lemma ChatOmitsInfo(n: Notification)
    requires NType(n) == "host" || NType(n) == "service"
    requires !ReportsOutput(Param(n, "NOTIFICATIONTYPE")) && !ReportsComment(Param(n, "NOTIFICATIONTYPE"))
    ensures var mail := RenderNotification(MailBody, n).value;
      |"Info: " + Param(n, OutputKey(n))| <= |mail| &&
      RenderNotification(ChatText, n).value ==
        "@" + SeqLabel(n) + " " + mail[..|mail| - |"Info: " + Param(n, OutputKey(n))|]
  {
    var mail := MailNotify(n);
    assert mail[..|mail| - |"Info: " + Param(n, OutputKey(n))|] == Headline(n) + "\n";
  }

  // ---------------------------------------------------------------------
  // Detail views

  /** `host_detail(h)`: the name, the upper-cased soft state and how long
      it has held. */
  function HostDetail(name: string, m: Monitored, now: int): (r: Result<string>)
    ensures r.Err? <==> m.softSince.None?
    ensures r.Err? ==> r.msg == NilError(">")
  {
    var d :- BriefTimeDelta(m.softSince, now);
    Ok(name + ": " + Upcase(OptStateName(m.soft)) + " for " + d)
  }

  /** `service_detail(svc)`: the same, then the plugin output on a line of
      its own. The delta is rendered first, so it raises first. */
  function ServiceDetail(name: string, m: Monitored, now: int): (r: Result<string>)
    ensures r.Err? <==> m.softSince.None? || m.data.None?
    ensures m.softSince.None? ==> r == Err(NilError(">"))
    ensures m.softSince.Some? && m.data.None? ==> r == Err(NilError("[]"))
  {
    var d :- BriefTimeDelta(m.softSince, now);
    var info :- Info(m);
    Ok(name + ": " + Upcase(OptStateName(m.soft)) + " for " + d + "\nInfo: " + info)
  }

  /** `item.detail(fmt)`: the detail view of a host or of a service. */
  function Detail(r: Ref, m: Monitored, now: int): Result<string> {
    match r
    case HostRef(h) => HostDetail(h, m, now)
    case SvcRef(_, s) => ServiceDetail(s, m, now)
  }

  // ---------------------------------------------------------------------
  // The status report

  /** `item_status_entry(i)`: the display name and how long the soft state
      has held. */
  function ItemStatusEntry(e: Entry, now: int): (r: Result<string>)
    ensures r.Err? <==> e.mon.softSince.None?
    ensures r.Err? ==> r.msg == NilError(">")
  {
    var d :- BriefTimeDelta(e.mon.softSince, now);
    Ok(RefLabel(e.ref) + " for " + d)
  }

  /** A host's detail view and its report entry name the same state
      duration: the view is the entry with the upper-cased state put after
      the name. */
  lemma HostDetailMatchesEntry(e: Entry, now: int)
    requires e.ref.HostRef? && e.mon.softSince.Some?
    ensures var entry := ItemStatusEntry(e, now).value;
      Detail(e.ref, e.mon, now).Ok? && |e.ref.host| <= |entry| &&
      Detail(e.ref, e.mon, now).value == e.ref.host + ": " + Upcase(OptStateName(e.mon.soft)) + entry[|e.ref.host|..]
  {
    var d := BriefTimeDelta(e.mon.softSince, now).value;
    var entry := ItemStatusEntry(e, now).value;
    assert entry == e.ref.host + (" for " + d);
    assert entry[|e.ref.host|..] == " for " + d;
  }

  /** A service's detail view and its report entry name the same state
      duration: the view puts the upper-cased state after the description
      alone, and adds the plugin output. */
  lemma ServiceDetailMatchesEntry(e: Entry, now: int)
    requires e.ref.SvcRef? && e.mon.softSince.Some? && e.mon.data.Some?
    ensures var entry := ItemStatusEntry(e, now).value;
      var cut := |e.ref.host| + 1 + |e.ref.svc|;
      Detail(e.ref, e.mon, now).Ok? && cut <= |entry| &&
      Detail(e.ref, e.mon, now).value ==
        e.ref.svc + ": " + Upcase(OptStateName(e.mon.soft)) + entry[cut..] + "\nInfo: " + Info(e.mon).value
  {
    var d := BriefTimeDelta(e.mon.softSince, now).value;
    var entry := ItemStatusEntry(e, now).value;
    assert entry == (e.ref.host + "/" + e.ref.svc) + (" for " + d);
    assert entry[|e.ref.host| + 1 + |e.ref.svc|..] == " for " + d;
  }

  /** The order `items_r.to_a.sort` puts a group's entries in. */
  function EntryKey(e: Entry): seq<string> {
    RefKey(e.ref)
  }

  /** The entries rendered one by one, in order; the first that cannot be
      rendered raises. */
  function EntryTexts(es: seq<Entry>, now: int): (r: Result<seq<string>>)
    ensures r.Ok? <==> forall i :: 0 <= i < |es| ==> es[i].mon.softSince.Some?
    ensures r.Ok? ==> |r.value| == |es| && forall i :: 0 <= i < |es| ==> r.value[i] == ItemStatusEntry(es[i], now).value
  {
    if |es| == 0 then Ok([])
    else
      var first :- ItemStatusEntry(es[0], now);
      var rest :- EntryTexts(es[1..], now);
      assert forall i :: 1 <= i < |es| ==> es[i] == es[1..][i - 1];
      Ok([first] + rest)
  }

  /** One line of the report: the upper-cased state, then the group's
      entries sorted and joined by "; ". */
  function GroupLine(g: Group, now: int): Result<string> {
    var items :- EntryTexts(SortBy(g.entries, EntryKey), now);
    Ok(Upcase(OptStateName(g.state)) + ": " + Join(items, "; "))
  }

  function GroupLines(gs: seq<Group>, now: int): (r: Result<seq<string>>)
    ensures r.Ok? <==> forall i :: 0 <= i < |gs| ==> GroupLine(gs[i], now).Ok?
    ensures r.Ok? ==> |r.value| == |gs| && forall i :: 0 <= i < |gs| ==> r.value[i] == GroupLine(gs[i], now).value
  {
    if |gs| == 0 then Ok([])
    else
      var first :- GroupLine(gs[0], now);
      var rest :- GroupLines(gs[1..], now);
      assert forall i :: 1 <= i < |gs| ==> gs[i] == gs[1..][i - 1];
      Ok([first] + rest)
  }

  /** `XMPPFormatter#status_report(s)`. */
  function ReportText(rep: Report, now: int): (r: Result<string>)
    ensures |rep.hosts| + |rep.services| == 0 ==> r == Ok("All clear.")
    ensures |rep.hosts| + |rep.services| > 0 ==>
      (r.Ok? <==> forall i :: 0 <= i < |rep.hosts + rep.services| ==> GroupLine((rep.hosts + rep.services)[i], now).Ok?)
  {
    if |rep.services| > 0 || |rep.hosts| > 0 then
      var lines :- GroupLines(rep.hosts + rep.services, now);
      Ok(Join(lines, "\n"))
    else Ok("All clear.")
  }

  lemma JoinStartsWithFirst(parts: seq<string>, sep: string)
    requires |parts| >= 1
    ensures parts[0] <= Join(parts, sep)
  {
  }

  /** The report reads "All clear." exactly when nothing is wrong. */
  lemma ReportAllClearIff(rep: Report, now: int)
    requires ReportText(rep, now).Ok?
    ensures ReportText(rep, now).value == "All clear." <==> |rep.hosts| + |rep.services| == 0
  {
    if |rep.hosts| + |rep.services| > 0 {
      var gs := rep.hosts + rep.services;
      var lines := GroupLines(gs, now).value;
      var u := Upcase(OptStateName(gs[0].state));
      JoinStartsWithFirst(lines, "\n");
      assert lines[0][|u|] == ':';
      assert Join(lines, "\n")[|u|] == ':';
      assert ':' !in "All clear.";
    }
  }

  /** Line by line: unless a line holds a newline of its own, the report
      has one line per group, host groups first, each naming the group's
      state and listing its entries in order. */
  lemma ReportLines(rep: Report, now: int)
    requires ReportText(rep, now).Ok? && |rep.hosts| + |rep.services| > 0
    requires forall i :: 0 <= i < |rep.hosts + rep.services| ==> '\n' !in GroupLine((rep.hosts + rep.services)[i], now).value
    ensures SplitAll(ReportText(rep, now).value, '\n') == GroupLines(rep.hosts + rep.services, now).value
  {
    SplitAllJoin(GroupLines(rep.hosts + rep.services, now).value, '\n');
  }

  /** Each line lists the group's entries sorted by name, each once. */
  lemma GroupLineSorted(g: Group, now: int)
    requires GroupLine(g, now).Ok?
    ensures var sorted := SortBy(g.entries, EntryKey);
      SortedBy(sorted, EntryKey) && multiset(sorted) == multiset(g.entries) &&
      GroupLine(g, now).value == Upcase(OptStateName(g.state)) + ": " + Join(EntryTexts(sorted, now).value, "; ")
  {
  }

  // ---------------------------------------------------------------------
  // The presence message

  /** The counts `status_message` accumulates, per state in the order the
      states first occur. */
  type Counts = OMap<Option<State>, nat>

  /** `counts[state] += n` on a hash whose missing values read as 0. */
  function Bump(c: Counts, st: Option<State>, n: nat): Counts {
    c.Put(st, c.Get(st).GetOr(0) + n)
  }

  /** The counts after the groups of one list. */
  function CountGroups(c: Counts, gs: seq<Group>): Counts {
    if |gs| == 0 then c
    else Bump(CountGroups(c, gs[..|gs| - 1]), gs[|gs| - 1].state, |gs[|gs| - 1].entries|)
  }

  /** The counts after several lists, one after the other. */
  function CountLists(c: Counts, ls: seq<seq<Group>>): Counts {
    if |ls| == 0 then c
    else CountGroups(CountLists(c, ls[..|ls| - 1]), ls[|ls| - 1])
  }

  /** The counts of a report: its host groups, then its service groups. */
  function CountsOf(rep: Report): Counts {
    CountLists(Empty(), [rep.hosts, rep.services])
  }

  /** `"#{count} #{state}"` for each of the states `ks`. */
  function CountParts(c: Counts, ks: seq<Option<State>>): (r: seq<string>)
    ensures |r| == |ks|
    ensures forall i :: 0 <= i < |ks| ==> r[i] == NatToString(c.Get(ks[i]).GetOr(0)) + " " + OptStateName(ks[i])
  {
    if |ks| == 0 then []
    else [NatToString(c.Get(ks[0]).GetOr(0)) + " " + OptStateName(ks[0])] + CountParts(c, ks[1..])
  }

  /** The text `status_message` makes of the counts. */
  function MessageOf(c: Counts): string {
    if c.Size() == 0 then "All clear" else Join(CountParts(c, c.keys), ", ")
  }

  /** `XMPPFormatter#status_message(s)`: the counts are filled group by
      group, list by list, then rendered. */
  method StatusMessage(rep: Report) returns (msg: string)
    ensures msg == MessageOf(CountsOf(rep))
  {
    var lists := [rep.hosts, rep.services];
    var counts: Counts := Empty();
    var i := 0;
    while i < |lists|
      invariant 0 <= i <= |lists|
      invariant counts == CountLists(Empty(), lists[..i])
    {
      var gs := lists[i];
      var j := 0;
      while j < |gs|
        invariant 0 <= j <= |gs|
        invariant counts == CountGroups(CountLists(Empty(), lists[..i]), gs[..j])
      {
        var before := counts;
        var prior := if gs[j].state in counts.m then counts.m[gs[j].state] else 0;
        counts := counts.Put(gs[j].state, prior + |gs[j].entries|);
        assert counts == Bump(before, gs[j].state, |gs[j].entries|);
        CountGroupsSnoc(CountLists(Empty(), lists[..i]), gs, j);
        j := j + 1;
      }
      assert gs[..|gs|] == gs;
      CountListsSnoc(Empty(), lists, i);
      i := i + 1;
    }
    assert lists[..|lists|] == lists;
    if counts.Size() == 0 {
      msg := "All clear";
    } else {
      msg := Join(CountParts(counts, counts.keys), ", ");
    }
  }

  lemma CountGroupsSnoc(c: Counts, gs: seq<Group>, j: nat)
    requires j < |gs|
    ensures CountGroups(c, gs[..j + 1]) == Bump(CountGroups(c, gs[..j]), gs[j].state, |gs[j].entries|)
  {
    assert gs[..j + 1][..j] == gs[..j];
  }

  lemma CountListsSnoc(c: Counts, ls: seq<seq<Group>>, i: nat)
    requires i < |ls|
    ensures CountLists(c, ls[..i + 1]) == CountGroups(CountLists(c, ls[..i]), ls[i])
  {
    assert ls[..i + 1][..i] == ls[..i];
  }

  /** The number of entries in the groups of state `st`. */
  function Tally(gs: seq<Group>, st: Option<State>): nat {
    if |gs| == 0 then 0
    else Tally(gs[..|gs| - 1], st) + (if gs[|gs| - 1].state == st then |gs[|gs| - 1].entries| else 0)
  }

  /** Counting a list of groups keeps the states counted so far in their
      places, adds every state of the list that is new, and adds to each
      state the entries of its groups. */
  lemma {:induction false} CountGroupsEffect(c: Counts, gs: seq<Group>, st: Option<State>)
    ensures c.Valid() ==> CountGroups(c, gs).Valid()
    ensures c.keys <= CountGroups(c, gs).keys
    ensures st in CountGroups(c, gs).m <==> st in c.m || exists i :: 0 <= i < |gs| && gs[i].state == st
    ensures CountGroups(c, gs).Get(st).GetOr(0) == c.Get(st).GetOr(0) + Tally(gs, st)
  {
    if |gs| > 0 {
      var prefix := gs[..|gs| - 1];
      var last := gs[|gs| - 1];
      CountGroupsEffect(c, prefix, st);
      if st in c.m || exists i :: 0 <= i < |prefix| && prefix[i].state == st {
        if !(st in c.m) {
          var i :| 0 <= i < |prefix| && prefix[i].state == st;
          assert gs[i].state == st;
        }
      }
      if exists i :: 0 <= i < |gs| && gs[i].state == st {
        var i :| 0 <= i < |gs| && gs[i].state == st;
        if i < |gs| - 1 {
          assert prefix[i].state == st;
        }
      }
    }
  }

  /** The presence message counts each state that some group has, hosts
      and services together, and nothing else. */
  lemma CountsOfReport(rep: Report, st: Option<State>)
    ensures CountsOf(rep).Valid()
    ensures st in CountsOf(rep).m <==>
      (exists i :: 0 <= i < |rep.hosts| && rep.hosts[i].state == st) ||
      (exists i :: 0 <= i < |rep.services| && rep.services[i].state == st)
    ensures CountsOf(rep).Get(st).GetOr(0) == Tally(rep.hosts, st) + Tally(rep.services, st)
  {
    var ls := [rep.hosts, rep.services];
    assert ls[..1] == [rep.hosts];
    assert [rep.hosts][..0] == [];
    var afterHosts := CountGroups(Empty(), rep.hosts);
    assert CountLists(Empty(), [rep.hosts]) == afterHosts;
    CountGroupsEffect(Empty(), rep.hosts, st);
    CountGroupsEffect(afterHosts, rep.services, st);
  }

  /** The presence message is "All clear" exactly when the report has no
      groups; otherwise it has one "<count> <state>" part per state. */
  lemma MessageAllClearIff(rep: Report)
    ensures MessageOf(CountsOf(rep)) == "All clear" <==> |rep.hosts| + |rep.services| == 0
  {
    var c := CountsOf(rep);
    if |rep.hosts| > 0 {
      CountsOfReport(rep, rep.hosts[0].state);
    } else if |rep.services| > 0 {
      CountsOfReport(rep, rep.services[0].state);
    } else {
      forall st ensures st !in c.m {
        CountsOfReport(rep, st);
      }
      CountsOfReport(rep, None);
      assert forall k :: k in c.keys ==> k in c.m;
    }
    if c.Size() > 0 {
      CountsOfReport(rep, c.keys[0]);
      var parts := CountParts(c, c.keys);
      JoinStartsWithFirst(parts, ", ");
      assert IsDigit(parts[0][0]);
      assert Join(parts, ", ")[0] == parts[0][0];
    }
  }
}

=== FILE: nagios_config.dfy ===
/** Loading the object cache into the configuration the gateway reads: the
    items of every known tag keyed by name, and the host table with each
    host's services attached (`Config.load`). */
module NagiosConfig {

  import opened Wrappers
  import opened OrderedMaps
  import opened NagiosModel
  import opened NagiosParse

  const HOST_TAG: string := "host"
  const SERVICE_TAG: string := "service"

  /** The error raised for a service whose host is not defined; the host it
      interpolates is always nil, so the name is missing from the text. */
  const NO_SUCH_HOST: string := "No such host !"

  /** `props[name_field]`: an item's name is its `<tag>_name` field, a
      service's its `service_description`; a missing field reads as "". */
  function ItemName(tag: string, props: Props): string {
    props.Get(tag + "_name").GetOr("")
  }

  function ServiceName(props: Props): string {
    props.Get("service_description").GetOr("")
  }

  function HostNameOf(props: Props): string {
    props.Get("host_name").GetOr("")
  }

  /** How the first loop treats a definition: hosts and the other known tags
      go into tables, services are kept for the second loop, anything else is
      ignored. */
  datatype TagClass = HostTag | ItemTag | ServiceTag | OtherTag

  function ClassOf(tag: string): (c: TagClass)
    ensures c == HostTag <==> tag == HOST_TAG
    ensures c == ServiceTag <==> tag == SERVICE_TAG
    ensures c == ItemTag <==> tag in OBJECT_TAGS && tag != HOST_TAG
  {
    if tag == HOST_TAG then HostTag
    else if tag in OBJECT_TAGS then ItemTag
    else if tag == SERVICE_TAG then ServiceTag
    else OtherTag
  }

  /** The state of `Config.load` after its first loop: `by_tag` split into
      the host table and the other tables, and the service definitions kept
      for later. */
  datatype Loading = Loading(
    hosts: Option<OMap<string, Host>>,
    tables: OMap<string, OMap<string, Item>>,
    svcs: seq<Props>)

  ghost predicate HostsValid(hosts: OMap<string, Host>) {
    hosts.Valid() && forall h :: h in hosts.m ==> hosts.m[h].services.Valid()
  }

  ghost predicate LoadingValid(l: Loading) {
    (l.hosts.Some? ==> HostsValid(l.hosts.value)) &&
    l.tables.Valid() && (forall t :: t in l.tables.m ==> l.tables.m[t].Valid()) &&
    (forall t :: t in l.tables.m ==> ClassOf(t) == ItemTag)
  }

  const NoDefs: Loading := Loading(None, Empty(), [])

  /** The table for `tag`, created empty on first use. */
  function TableOf(tables: OMap<string, OMap<string, Item>>, tag: string): OMap<string, Item> {
    tables.Get(tag).GetOr(Empty())
  }

  /** The host a loading state holds under `name`, if any. */
  function HostAt(l: Loading, name: string): Option<Host> {
    if l.hosts.Some? then l.hosts.value.Get(name) else None
  }

  /** The item a loading state holds under `tag` and `name`, if any. */
  function ItemAt(l: Loading, tag: string, name: string): Option<Item> {
    if tag in l.tables.m then l.tables.m[tag].Get(name) else None
  }

  /** One definition of the first loop. */
  function ReadDef(l: Loading, b: Block): Loading {
    match ClassOf(b.otype)
    case HostTag =>
      var hs := l.hosts.GetOr(Empty());
      var name := ItemName(HOST_TAG, b.data);
      Loading(Some(hs.Put(name, Host(name, b.data, Empty(), NeverUpdated))), l.tables, l.svcs)
    case ItemTag =>
      var name := ItemName(b.otype, b.data);
      var t := TableOf(l.tables, b.otype);
      Loading(l.hosts, l.tables.Put(b.otype, t.Put(name, Item(b.otype, name, b.data))), l.svcs)
    case ServiceTag =>
      Loading(l.hosts, l.tables, l.svcs + [b.data])
    case OtherTag =>
      l
  }

  /** What one definition changes: the host or item it defines replaces any
      earlier one with the same name, a service definition is queued, and
      nothing else moves. */
  lemma ReadDefEffect(l: Loading, b: Block, tag: string, name: string)
    ensures ReadDef(l, b).svcs == l.svcs + (if ClassOf(b.otype) == ServiceTag then [b.data] else [])
    ensures ReadDef(l, b).hosts.Some? <==> l.hosts.Some? || ClassOf(b.otype) == HostTag
    ensures HostAt(ReadDef(l, b), name) ==
      if ClassOf(b.otype) == HostTag && ItemName(HOST_TAG, b.data) == name
      then Some(Host(name, b.data, Empty(), NeverUpdated)) else HostAt(l, name)
    ensures ItemAt(ReadDef(l, b), tag, name) ==
      if ClassOf(b.otype) == ItemTag && b.otype == tag && ItemName(tag, b.data) == name
      then Some(Item(tag, name, b.data)) else ItemAt(l, tag, name)
  {
  }

  /** The first loop over the definitions `defs`. */
  function ReadDefs(defs: seq<Block>): Loading {
    if |defs| == 0 then NoDefs else ReadDef(ReadDefs(defs[..|defs| - 1]), defs[|defs| - 1])
  }

  /** Two host tables with the same hosts, which may differ only in the
      services attached to them. */
  ghost predicate SameHosts(a: OMap<string, Host>, b: OMap<string, Host>) {
    (forall h :: h in b.m <==> h in a.m) &&
    (forall h :: h in a.m && h in b.m ==> b.m[h].(services := a.m[h].services) == a.m[h])
  }

  /** Attaching one service definition to its host. */
  function Attach(hosts: OMap<string, Host>, svc: Props): (r: Result<OMap<string, Host>>)
    ensures r.Err? <==> HostNameOf(svc) !in hosts.m
    ensures r.Err? ==> r.msg == NO_SUCH_HOST
  {
    var key := HostNameOf(svc);
    match hosts.Get(key)
    case None => Err(NO_SUCH_HOST)
    case Some(h) =>
      var s := Service(h.name, ServiceName(svc), svc, NeverUpdated);
      Ok(hosts.Put(key, h.(services := h.services.Put(s.name, s))))
  }

  /** The service a host table holds for host `hk` under description `sn`. */
  function SvcAt(hosts: OMap<string, Host>, hk: string, sn: string): Option<Service> {
    match hosts.Get(hk)
    case None => None
    case Some(h) => h.services.Get(sn)
  }

  /** Attaching a service adds it, or replaces the one with the same host
      and description, and changes no other service. */
  lemma AttachEffect(hosts: OMap<string, Host>, svc: Props, hk: string, sn: string)
    requires Attach(hosts, svc).Ok?
    ensures SvcAt(Attach(hosts, svc).value, hk, sn) ==
      if hk == HostNameOf(svc) && sn == ServiceName(svc)
      then Some(Service(hosts.m[hk].name, sn, svc, NeverUpdated)) else SvcAt(hosts, hk, sn)
  {
  }

  /** The second loop, over the service definitions `svcs` in order. */
  function AttachAll(hosts: OMap<string, Host>, svcs: seq<Props>): Result<OMap<string, Host>> {
    if |svcs| == 0 then Ok(hosts)
    else
      match AttachAll(hosts, svcs[..|svcs| - 1])
      case Err(m) => Err(m)
      case Ok(hs) => Attach(hs, svcs[|svcs| - 1])
  }

  /** Attaching services keeps the host table's hosts, their order and its
      well-formedness; only the services of the hosts change. */
  lemma AttachKeeps(hosts: OMap<string, Host>, svc: Props)
    requires Attach(hosts, svc).Ok?
    ensures Attach(hosts, svc).value.keys == hosts.keys
    ensures SameHosts(hosts, Attach(hosts, svc).value)
    ensures HostsValid(hosts) ==> HostsValid(Attach(hosts, svc).value)
  {
  }

  lemma {:induction false} AttachAllKeeps(hosts: OMap<string, Host>, svcs: seq<Props>)
    requires AttachAll(hosts, svcs).Ok?
    ensures AttachAll(hosts, svcs).value.keys == hosts.keys
    ensures SameHosts(hosts, AttachAll(hosts, svcs).value)
    ensures HostsValid(hosts) ==> HostsValid(AttachAll(hosts, svcs).value)
    decreases |svcs|
  {
    if |svcs| > 0 {
      var prefix := svcs[..|svcs| - 1];
      AttachAllKeeps(hosts, prefix);
      AttachKeeps(AttachAll(hosts, prefix).value, svcs[|svcs| - 1]);
    }
  }

  /** `Config.load(defs)`. Without services the host table is present only
      when some host was defined; a service makes the lookup create an empty
      table first, which matters only for the error it then raises. */
  function LoadSpec(defs: seq<Block>): (r: Result<ConfigData>) {
    var l := ReadDefs(defs);
    if |l.svcs| == 0 then Ok(ConfigData(l.hosts, l.tables))
    else
      match AttachAll(l.hosts.GetOr(Empty()), l.svcs)
      case Err(m) => Err(m)
      case Ok(hs) => Ok(ConfigData(Some(hs), l.tables))
  }

  /** The first loop after one more definition. */
  lemma ReadDefsSnoc(defs: seq<Block>, i: nat)
    requires i < |defs|
    ensures ReadDefs(defs[..i + 1]) == ReadDef(ReadDefs(defs[..i]), defs[i])
  {
    assert defs[..i + 1][..i] == defs[..i];
  }

  /** The first loop of `Config.load`. */
  method ReadDefinitions(defs: seq<Block>) returns (l: Loading)
    ensures l == ReadDefs(defs)
  {
    var hosts: Option<OMap<string, Host>> := None;
    var tables: OMap<string, OMap<string, Item>> := Empty();
    var svcs: seq<Props> := [];
    var i := 0;
    while i < |defs|
      invariant 0 <= i <= |defs|
      invariant Loading(hosts, tables, svcs) == ReadDefs(defs[..i])
    {
      ReadDefsSnoc(defs, i);
      var b := defs[i];
      if b.otype in OBJECT_TAGS {
        var name := ItemName(b.otype, b.data);
        if b.otype == HOST_TAG {
          var hs := if hosts.Some? then hosts.value else Empty();
          hosts := Some(hs.Put(name, Host(name, b.data, Empty(), NeverUpdated)));
        } else {
          var t := TableOf(tables, b.otype);
          tables := tables.Put(b.otype, t.Put(name, Item(b.otype, name, b.data)));
        }
      } else if b.otype == SERVICE_TAG {
        svcs := svcs + [b.data];
      }
      i := i + 1;
    }
    assert defs[..|defs|] == defs;
    return Loading(hosts, tables, svcs);
  }

  /** The second loop of `Config.load`. */
  method AttachServices(hosts: OMap<string, Host>, svcs: seq<Props>) returns (r: Result<OMap<string, Host>>)
    ensures r == AttachAll(hosts, svcs)
  {
    var hs := hosts;
    var j := 0;
    while j < |svcs|
      invariant 0 <= j <= |svcs|
      invariant AttachAll(hosts, svcs[..j]) == Ok(hs)
    {
      assert svcs[..j + 1][..j] == svcs[..j];
      var key := HostNameOf(svcs[j]);
      if key !in hs.m {
        AttachAllErrPersists(hosts, svcs, j + 1);
        return Err(NO_SUCH_HOST);
      }
      var h := hs.m[key];
      var s := Service(h.name, ServiceName(svcs[j]), svcs[j], NeverUpdated);
      hs := hs.Put(key, h.(services := h.services.Put(s.name, s)));
      j := j + 1;
    }
    assert svcs[..|svcs|] == svcs;
    return Ok(hs);
  }

  /** `Config.load`. */
  method LoadConfig(defs: seq<Block>) returns (r: Result<ConfigData>)
    ensures r == LoadSpec(defs)
  {
    var l := ReadDefinitions(defs);
    if |l.svcs| == 0 {
      return Ok(ConfigData(l.hosts, l.tables));
    }
    var hs := AttachServices(if l.hosts.Some? then l.hosts.value else Empty(), l.svcs);
    if hs.Err? {
      return Err(hs.msg);
    }
    return Ok(ConfigData(Some(hs.value), l.tables));
  }

  // ---------------------------------------------------------------------
  // Properties of loading

  /** A definition of a tag the gateway does not know is ignored. */
  lemma UnknownTagIgnored(defs: seq<Block>, b: Block)
    requires b.otype !in OBJECT_TAGS && b.otype != SERVICE_TAG
    ensures ReadDefs(defs + [b]) == ReadDefs(defs)
  {
    assert (defs + [b])[..|defs|] == defs;
  }

  /** After the first loop, the item held under a tag and name is the one
      from the last definition of that tag with that name. */
  lemma {:induction false} ItemDefinedLast(defs: seq<Block>, k: nat)
    requires k < |defs| && ClassOf(defs[k].otype) == ItemTag
    requires forall j :: k < j < |defs| ==>
      defs[j].otype != defs[k].otype || ItemName(defs[j].otype, defs[j].data) != ItemName(defs[k].otype, defs[k].data)
    ensures ItemAt(ReadDefs(defs), defs[k].otype, ItemName(defs[k].otype, defs[k].data)) ==
      Some(Item(defs[k].otype, ItemName(defs[k].otype, defs[k].data), defs[k].data))
    decreases |defs|
  {
    var last := |defs| - 1;
    var prefix := defs[..last];
    var tag, name := defs[k].otype, ItemName(defs[k].otype, defs[k].data);
    ReadDefsSnoc(defs, last);
    assert defs[..last + 1] == defs;
    ReadDefEffect(ReadDefs(prefix), defs[last], tag, name);
    if k < last {
      forall j | k < j < |prefix|
        ensures prefix[j].otype != prefix[k].otype || ItemName(prefix[j].otype, prefix[j].data) != ItemName(prefix[k].otype, prefix[k].data)
      {
        assert prefix[j] == defs[j];
      }
      assert prefix[k] == defs[k];
      ItemDefinedLast(prefix, k);
    }
  }

  /** The same for hosts. */
  lemma {:induction false} HostDefinedLast(defs: seq<Block>, k: nat)
    requires k < |defs| && defs[k].otype == HOST_TAG
    requires forall j :: k < j < |defs| ==>
      defs[j].otype != HOST_TAG || ItemName(HOST_TAG, defs[j].data) != ItemName(HOST_TAG, defs[k].data)
    ensures HostAt(ReadDefs(defs), ItemName(HOST_TAG, defs[k].data)) ==
      Some(Host(ItemName(HOST_TAG, defs[k].data), defs[k].data, Empty(), NeverUpdated))
    decreases |defs|
  {
    var last := |defs| - 1;
    var prefix := defs[..last];
    var name := ItemName(HOST_TAG, defs[k].data);
    ReadDefsSnoc(defs, last);
    assert defs[..last + 1] == defs;
    ReadDefEffect(ReadDefs(prefix), defs[last], HOST_TAG, name);
    if k < last {
      forall j | k < j < |prefix|
        ensures prefix[j].otype != HOST_TAG || ItemName(HOST_TAG, prefix[j].data) != ItemName(HOST_TAG, prefix[k].data)
      {
        assert prefix[j] == defs[j];
      }
      assert prefix[k] == defs[k];
      HostDefinedLast(prefix, k);
    }
  }

  /** Some definition of `defs` defines a host named `name`. */
  ghost predicate HostDefined(defs: seq<Block>, name: string) {
    exists j :: 0 <= j < |defs| && defs[j].otype == HOST_TAG && ItemName(HOST_TAG, defs[j].data) == name
  }

  /** After the first loop the host table holds a host under a name exactly
      when some definition defines a host of that name. */
  lemma {:induction false} HostDefinedIff(defs: seq<Block>, name: string)
    ensures HostAt(ReadDefs(defs), name).Some? <==> HostDefined(defs, name)
    decreases |defs|
  {
    if |defs| > 0 {
      var last := |defs| - 1;
      var prefix := defs[..last];
      ReadDefsSnoc(defs, last);
      assert defs[..last + 1] == defs;
      ReadDefEffect(ReadDefs(prefix), defs[last], HOST_TAG, name);
      HostDefinedIff(prefix, name);
      if HostDefined(prefix, name) {
        var j :| 0 <= j < |prefix| && prefix[j].otype == HOST_TAG && ItemName(HOST_TAG, prefix[j].data) == name;
        assert defs[j] == prefix[j];
      }
      if HostDefined(defs, name) {
        var j :| 0 <= j < |defs| && defs[j].otype == HOST_TAG && ItemName(HOST_TAG, defs[j].data) == name;
        if j < last {
          assert prefix[j] == defs[j];
        }
      }
    }
  }

  /** The service definitions the first loop keeps are exactly those of the
      input. */
  lemma {:induction false} ServiceDefsKept(defs: seq<Block>, s: Props)
    ensures s in ReadDefs(defs).svcs <==> exists k :: 0 <= k < |defs| && defs[k].otype == SERVICE_TAG && defs[k].data == s
    decreases |defs|
  {
    if |defs| > 0 {
      var last := |defs| - 1;
      var prefix := defs[..last];
      ReadDefsSnoc(defs, last);
      assert defs[..last + 1] == defs;
      ReadDefEffect(ReadDefs(prefix), defs[last], HOST_TAG, "");
      ServiceDefsKept(prefix, s);
      if exists k :: 0 <= k < |prefix| && prefix[k].otype == SERVICE_TAG && prefix[k].data == s {
        var k :| 0 <= k < |prefix| && prefix[k].otype == SERVICE_TAG && prefix[k].data == s;
        assert defs[k] == prefix[k];
      }
      if exists k :: 0 <= k < |defs| && defs[k].otype == SERVICE_TAG && defs[k].data == s {
        var k :| 0 <= k < |defs| && defs[k].otype == SERVICE_TAG && defs[k].data == s;
        if k < last {
          assert prefix[k] == defs[k];
        }
      }
    }
  }

  /** Attaching services fails exactly when one of them names a host that is
      not in the table. */
  lemma {:induction false} AttachAllFailsIff(hosts: OMap<string, Host>, svcs: seq<Props>)
    ensures AttachAll(hosts, svcs).Err? <==> exists s :: s in svcs && HostNameOf(s) !in hosts.m
    ensures AttachAll(hosts, svcs).Err? ==> AttachAll(hosts, svcs).msg == NO_SUCH_HOST
    decreases |svcs|
  {
    if |svcs| > 0 {
      var prefix := svcs[..|svcs| - 1];
      AttachAllFailsIff(hosts, prefix);
      var last := svcs[|svcs| - 1];
      assert svcs == prefix + [last];
      var r := AttachAll(hosts, prefix);
      if r.Ok? {
        AttachAllKeeps(hosts, prefix);
      }
    }
  }

  /** Every attached service ends up in its host's table under its
      description, unless a later one with the same host and description
      replaces it. */
  lemma {:induction false} ServiceAttached(hosts: OMap<string, Host>, svcs: seq<Props>, k: nat)
    requires k < |svcs|
    requires AttachAll(hosts, svcs).Ok?
    requires forall j :: k < j < |svcs| ==>
      HostNameOf(svcs[j]) != HostNameOf(svcs[k]) || ServiceName(svcs[j]) != ServiceName(svcs[k])
    ensures SvcAt(AttachAll(hosts, svcs).value, HostNameOf(svcs[k]), ServiceName(svcs[k])).Some?
    ensures var s := SvcAt(AttachAll(hosts, svcs).value, HostNameOf(svcs[k]), ServiceName(svcs[k])).value;
      s.name == ServiceName(svcs[k]) && s.props == svcs[k] && s.mon == NeverUpdated
    decreases |svcs|
  {
    var last := |svcs| - 1;
    var prefix := svcs[..last];
    assert AttachAll(hosts, prefix).Ok?;
    var hs := AttachAll(hosts, prefix).value;
    assert AttachAll(hosts, svcs) == Attach(hs, svcs[last]);
    AttachEffect(hs, svcs[last], HostNameOf(svcs[k]), ServiceName(svcs[k]));
    if k < last {
      forall j | k < j < |prefix|
        ensures HostNameOf(prefix[j]) != HostNameOf(prefix[k]) || ServiceName(prefix[j]) != ServiceName(prefix[k])
      {
        assert prefix[j] == svcs[j];
      }
      assert prefix[k] == svcs[k];
      ServiceAttached(hosts, prefix, k);
    }
  }

  /** Once a service fails to attach, the whole second loop fails with the
      same message. */
  lemma {:induction false} AttachAllErrPersists(hosts: OMap<string, Host>, svcs: seq<Props>, j: nat)
    requires j <= |svcs| && AttachAll(hosts, svcs[..j]).Err?
    ensures AttachAll(hosts, svcs) == AttachAll(hosts, svcs[..j])
    decreases |svcs|
  {
    if j < |svcs| {
      var prefix := svcs[..|svcs| - 1];
      assert prefix[..j] == svcs[..j];
      AttachAllErrPersists(hosts, prefix, j);
    } else {
      assert svcs[..j] == svcs;
    }
  }

  /** One definition keeps the tables well formed: each lists its names
      once, and every table is that of a known tag other than host. */
  lemma ReadDefValid(l: Loading, b: Block)
    requires LoadingValid(l)
    ensures LoadingValid(ReadDef(l, b))
  {
  }

  lemma {:induction false} ReadDefsValid(defs: seq<Block>)
    ensures LoadingValid(ReadDefs(defs))
    decreases |defs|
  {
    if |defs| > 0 {
      ReadDefsValid(defs[..|defs| - 1]);
      ReadDefValid(ReadDefs(defs[..|defs| - 1]), defs[|defs| - 1]);
    }
  }

  /** A loaded configuration is well formed. */
  lemma LoadedValid(defs: seq<Block>)
    requires LoadSpec(defs).Ok?
    ensures LoadSpec(defs).value.hosts.Some? ==> HostsValid(LoadSpec(defs).value.hosts.value)
    ensures LoadSpec(defs).value.tables.Valid()
    ensures forall t :: t in LoadSpec(defs).value.tables.m ==> LoadSpec(defs).value.tables.m[t].Valid()
  {
    ReadDefsValid(defs);
    var l := ReadDefs(defs);
    if |l.svcs| > 0 {
      AttachAllKeeps(l.hosts.GetOr(Empty()), l.svcs);
    }
  }

  /** Loading fails exactly when a service definition names a host that no
      definition defines, and then with "No such host !". */
  lemma LoadFailsIff(defs: seq<Block>)
    ensures LoadSpec(defs).Err? <==>
      exists k :: 0 <= k < |defs| && defs[k].otype == SERVICE_TAG && !HostDefined(defs, HostNameOf(defs[k].data))
    ensures LoadSpec(defs).Err? ==> LoadSpec(defs).msg == NO_SUCH_HOST
  {
    var l := ReadDefs(defs);
    var hs := l.hosts.GetOr(Empty());
    AttachAllFailsIff(hs, l.svcs);
    if exists k :: 0 <= k < |defs| && defs[k].otype == SERVICE_TAG && !HostDefined(defs, HostNameOf(defs[k].data)) {
      var k :| 0 <= k < |defs| && defs[k].otype == SERVICE_TAG && !HostDefined(defs, HostNameOf(defs[k].data));
      ServiceDefsKept(defs, defs[k].data);
      HostDefinedIff(defs, HostNameOf(defs[k].data));
      assert defs[k].data in l.svcs;
    }
    if LoadSpec(defs).Err? {
      var s :| s in l.svcs && HostNameOf(s) !in hs.m;
      ServiceDefsKept(defs, s);
      HostDefinedIff(defs, HostNameOf(s));
      var k :| 0 <= k < |defs| && defs[k].otype == SERVICE_TAG && defs[k].data == s;
    }
  }

  /** In a loaded configuration, each known tag's table holds under a name
      the item of the last definition with that tag and name. */
  lemma LastDefinitionWins(defs: seq<Block>, k: nat)
    requires k < |defs| && defs[k].otype in OBJECT_TAGS && defs[k].otype != HOST_TAG
    requires forall j :: k < j < |defs| ==>
      defs[j].otype != defs[k].otype || ItemName(defs[j].otype, defs[j].data) != ItemName(defs[k].otype, defs[k].data)
    requires LoadSpec(defs).Ok?
    ensures Table(LoadSpec(defs).value, defs[k].otype).Some?
    ensures Table(LoadSpec(defs).value, defs[k].otype).value.Get(ItemName(defs[k].otype, defs[k].data)) ==
      Some(Item(defs[k].otype, ItemName(defs[k].otype, defs[k].data), defs[k].data))
  {
    ItemDefinedLast(defs, k);
  }

  /** In a loaded configuration, the host held under a name is the one of the
      last host definition with that name, not yet updated from the status
      file. */
  lemma LastHostWins(defs: seq<Block>, k: nat)
    requires k < |defs| && defs[k].otype == HOST_TAG
    requires forall j :: k < j < |defs| ==>
      defs[j].otype != HOST_TAG || ItemName(HOST_TAG, defs[j].data) != ItemName(HOST_TAG, defs[k].data)
    requires LoadSpec(defs).Ok?
    ensures HostOf(LoadSpec(defs).value, ItemName(HOST_TAG, defs[k].data)).Some?
    ensures var h := HostOf(LoadSpec(defs).value, ItemName(HOST_TAG, defs[k].data)).value;
      h.name == ItemName(HOST_TAG, defs[k].data) && h.props == defs[k].data && h.mon == NeverUpdated
  {
    HostDefinedLast(defs, k);
    var l := ReadDefs(defs);
    if |l.svcs| > 0 {
      AttachAllKeeps(l.hosts.GetOr(Empty()), l.svcs);
    }
  }

  /** Every table of a loaded configuration is the table of a known tag, so
      each is also reachable under its plural. */
  lemma LoadedTablesKnown(defs: seq<Block>, tag: string)
    requires LoadSpec(defs).Ok? && tag in LoadSpec(defs).value.tables.m
    ensures tag in OBJECT_TAGS
    ensures Table(LoadSpec(defs).value, tag + "s") == Table(LoadSpec(defs).value, tag)
  {
    ReadDefsValid(defs);
    PluralAlias(LoadSpec(defs).value, tag);
  }
}

=== FILE: nagios_model.dfy ===
/** The monitoring system's objects as the gateway sees them: hosts, the
    services attached to them, other configuration items, the state codes of
    the status file and the monitored state each host and service carries. */
module NagiosModel {

  import opened Wrappers
  import opened Text
  import opened OrderedMaps

  /** The state symbols of both tables. */
  datatype State = OK | DOWN | UNREACHABLE | WARNING | CRITICAL | UNKNOWN

  /** `Symbol#to_s`. */
  function StateName(s: State): string {
    match s
    case OK => "ok"
    case DOWN => "down"
    case UNREACHABLE => "unreachable"
    case WARNING => "warning"
    case CRITICAL => "critical"
    case UNKNOWN => "unknown"
  }

  /** A missing state prints as nothing, as `nil.to_s` does. */
  function OptStateName(s: Option<State>): string {
    match s
    case None => ""
    case Some(st) => StateName(st)
  }

  datatype Kind = HostKind | ServiceKind

  /** `HOST_STATE_SYMS[v]` and `SVC_STATE_SYMS[v]`: other codes give nil. */
  function StateSym(kind: Kind, v: int): (r: Option<State>)
    ensures r.Some? <==> 0 <= v <= (if kind == HostKind then 2 else 3)
  {
    match kind
    case HostKind =>
      if v == 0 then Some(OK) else if v == 1 then Some(DOWN) else if v == 2 then Some(UNREACHABLE) else None
    case ServiceKind =>
      if v == 0 then Some(OK) else if v == 1 then Some(WARNING) else if v == 2 then Some(CRITICAL)
      else if v == 3 then Some(UNKNOWN) else None
  }

  /** The states a kind of object can be in. */
  predicate StateOfKind(kind: Kind, s: State) {
    match kind
    case HostKind => s == OK || s == DOWN || s == UNREACHABLE
    case ServiceKind => s == OK || s == WARNING || s == CRITICAL || s == UNKNOWN
  }

  /** The code the status file uses for a state. */
  function StateCode(s: State): nat {
    match s
    case OK => 0
    case DOWN => 1
    case UNREACHABLE => 2
    case WARNING => 1
    case CRITICAL => 2
    case UNKNOWN => 3
  }

  /** The state tables are exactly inverse to the state codes: each state of
      a kind has one code, and each code of the table names one state of
      that kind. */
  lemma StateCodesInverse(kind: Kind, v: int, s: State)
    ensures StateOfKind(kind, s) ==> StateSym(kind, StateCode(s)) == Some(s)
    ensures StateSym(kind, v) == Some(s) ==> StateOfKind(kind, s) && StateCode(s) == v
  {
  }

  type Props = OMap<string, string>

  /** The state an object carries once `update_state` has run on it; every
      field is nil before that. */
  datatype Monitored = Monitored(
    soft: Option<State>,
    hard: Option<State>,
    softSince: Option<int>,
    hardSince: Option<int>,
    lastOk: Option<int>,
    lastCheck: Option<int>,
    data: Option<Props>)

  const NeverUpdated: Monitored := Monitored(None, None, None, None, None, None, None)

  /** `x.to_i` on a field that may be absent: `nil.to_i` is 0. */
  function FieldToI(data: Props, key: string): int {
    match data.Get(key)
    case None => 0
    case Some(v) => ToI(v)
  }

  /** `update_state(data)`. Times are whole seconds since the epoch, and a
      missing time field reads as the epoch. */
  function UpdateState(kind: Kind, data: Props): (r: Monitored)
    ensures r.soft == StateSym(kind, FieldToI(data, "current_state"))
    ensures r.hard == StateSym(kind, FieldToI(data, "last_hard_state"))
    ensures r.softSince.Some? && r.hardSince.Some? && r.lastOk.Some? && r.lastCheck.Some?
    ensures r.lastCheck.value == FieldToI(data, "last_check")
    ensures r.data == Some(data)
  {
    Monitored(
      StateSym(kind, FieldToI(data, "current_state")),
      StateSym(kind, FieldToI(data, "last_hard_state")),
      Some(FieldToI(data, "last_state_change")),
      Some(FieldToI(data, "last_hard_state_change")),
      Some(FieldToI(data, "last_time_ok")),
      Some(FieldToI(data, "last_check")),
      Some(data))
  }

  /** `cur_state`: the soft state unless nil, then the hard state. */
  function CurState(m: Monitored): (r: Option<State>)
    ensures r.None? <==> m.soft.None? && m.hard.None?
    ensures m.soft.Some? ==> r == m.soft
  {
    if m.soft.Some? then m.soft else m.hard
  }

  /** A status record whose current state field holds the code of a state of
      its kind gives an object in that state. */
  lemma UpdateStateRoundTrip(kind: Kind, data: Props, s: State)
    requires data.Valid() && StateOfKind(kind, s)
    ensures CurState(UpdateState(kind, data.Put("current_state", IntToString(StateCode(s))))) == Some(s)
  {
    var d := data.Put("current_state", IntToString(StateCode(s)));
    ToIOfIntToString(StateCode(s));
    assert d.Get("current_state") == Some(IntToString(StateCode(s)));
    StateCodesInverse(kind, StateCode(s), s);
  }

  /** `plugin_output` of the last status record (`info`). Before any record
      it raises, since the record is nil; an absent field reads as "". */
  function Info(m: Monitored): (r: Result<string>)
    ensures m.data.None? <==> r.Err?
  {
    match m.data
    case None => Err(NilError("[]"))
    case Some(d) => Ok(d.Get("plugin_output").GetOr(""))
  }

  /** A configuration item other than a host: its tag, its name and its
      properties. A missing name field reads as "". */
  datatype Item = Item(tag: string, name: string, props: Props)

  /** A service, attached to the host named `hostName`. */
  datatype Service = Service(hostName: string, name: string, props: Props, mon: Monitored)

  /** A host and its services, keyed by description in definition order. */
  datatype Host = Host(name: string, props: Props, services: OMap<string, Service>, mon: Monitored)

  /** A reference to a host or to one service of a host: the identity of the
      object inside the current configuration. */
  datatype Ref = HostRef(host: string) | SvcRef(host: string, svc: string) {
    function HostName(): string {
      match this
      case HostRef(h) => h
      case SvcRef(h, _) => h
    }
  }

  /** The sort key of `<=>`: a host by name, a service by host name then
      description. */
  function RefKey(r: Ref): (k: seq<string>)
    ensures r.HostRef? ==> k == [r.host]
    ensures r.SvcRef? ==> k == [r.host, r.svc]
  {
    match r
    case HostRef(h) => [h]
    case SvcRef(h, s) => [h, s]
  }

  /** Hosts order by name; services by host name, then description. Two
      references with the same key are the same reference. */
  lemma RefKeyOrder(a: Ref, b: Ref)
    ensures a.HostRef? && b.HostRef? ==> (KeyLe(RefKey(a), RefKey(b)) <==> StrLe(a.host, b.host))
    ensures a.SvcRef? && b.SvcRef? && a.host != b.host ==> (KeyLe(RefKey(a), RefKey(b)) <==> StrLe(a.host, b.host))
    ensures a.SvcRef? && b.SvcRef? && a.host == b.host ==> (KeyLe(RefKey(a), RefKey(b)) <==> StrLe(a.svc, b.svc))
    ensures RefKey(a) == RefKey(b) ==> a == b
  {
    if a.HostRef? && b.HostRef? {
      assert RefKey(a)[1..] == [];
      if a.host == b.host {
        StrLeRefl(a.host);
      }
    }
    if a.SvcRef? && b.SvcRef? && a.host == b.host {
      assert RefKey(a)[1..] == [a.svc];
      assert RefKey(b)[1..] == [b.svc];
      assert [a.svc][1..] == [];
      if a.svc == b.svc {
        StrLeRefl(a.svc);
        KeyLeRefl(RefKey(a));
      }
    }
  }

  /** What the loaded configuration provides (`OpenStruct.new(by_tag)`): the
      host table, and the table of every other known tag that occurred. */
  datatype ConfigData = ConfigData(
    hosts: Option<OMap<string, Host>>,
    tables: OMap<string, OMap<string, Item>>)

  /** The tags `Config.load` keeps, in the order of `OBJECT_TYPES`. */
  const OBJECT_TAGS: seq<string> :=
    ["command", "contact", "contactgroup", "host", "hostgroup", "servicegroup", "serviceescalation", "timeperiod"]

  /** The attribute `attr` of the loaded configuration, for tags other than
      host: each table is reachable under its tag and under the tag plus "s";
      an attribute never set reads as nil. */
  function Table(c: ConfigData, attr: string): Option<OMap<string, Item>> {
    if attr in c.tables.m then Some(c.tables.m[attr])
    else if |attr| > 0 && attr[|attr| - 1] == 's' && attr[..|attr| - 1] in c.tables.m then
      Some(c.tables.m[attr[..|attr| - 1]])
    else None
  }

  /** `contents.contacts`. */
  function Contacts(c: ConfigData): Option<OMap<string, Item>> {
    Table(c, "contacts")
  }

  /** The plural alias reads the same table as the tag itself. */
  lemma PluralAlias(c: ConfigData, tag: string)
    requires tag in c.tables.m
    requires forall t :: t in c.tables.m ==> t in OBJECT_TAGS
    ensures Table(c, tag + "s") == Table(c, tag) == Some(c.tables.m[tag])
  {
    assert (tag + "s")[..|tag + "s"| - 1] == tag;
    assert tag + "s" !in OBJECT_TAGS;
  }

  /** The object a reference designates, looked up in a configuration. */
  function HostOf(c: ConfigData, name: string): Option<Host> {
    if c.hosts.Some? then c.hosts.value.Get(name) else None
  }

  function MonitoredOf(c: ConfigData, r: Ref): Option<Monitored> {
    match HostOf(c, r.HostName())
    case None => None
    case Some(h) =>
      match r
      case HostRef(_) => Some(h.mon)
      case SvcRef(_, s) =>
        match h.services.Get(s)
        case None => None
        case Some(svc) => Some(svc.mon)
  }

  /** The display name of a referenced object: `name` for a host,
      `host/name` for a service. */
  function RefLabel(r: Ref): string {
    match r
    case HostRef(h) => h
    case SvcRef(h, s) => h + "/" + s
  }
}

=== FILE: nagios_parse.dfy ===
/** The line parsers for the monitoring system's two file formats: the status
    file (`hoststatus {` ... `key=value` ... `}`) and the object cache
    (`define host {` ... `key value` ... `}`). A file is a sequence of lines
    without their terminators; every line of the file is taken to end with a
    newline. Each line test is the leftmost match of the corresponding
    unanchored regular expression. */
module NagiosParse {

  import opened Wrappers
  import opened Text
  import opened OrderedMaps
  import opened NagiosModel

  datatype Format = StatusFormat | DefFormat

  /** One block of a file: its type word and its fields in file order. */
  datatype Block = Block(otype: string, data: Props)

  const EOF_ERROR: string := "end of file reached"

  function UnexpectedLine(line: string): string {
    "unexpected line: " + line + "\n"
  }

  // ---------------------------------------------------------------------
  // Line tests

  /** `(\w+)\s*\{` matches with its word starting at `q`. */
  predicate StatusOpenAt(line: string, q: nat) {
    q < |line| && IsWord(line[q]) &&
    var e := SpanEnd(line, q, Word);
    var w := SpanEnd(line, e, Space);
    w < |line| && line[w] == '{'
  }

  /** `define\s+(\w+)\s*\{` matches with "define" starting at `d`. */
  predicate DefOpenAt(line: string, d: nat) {
    d + 6 <= |line| && line[d] == 'd' && line[d + 1] == 'e' && line[d + 2] == 'f' &&
    line[d + 3] == 'i' && line[d + 4] == 'n' && line[d + 5] == 'e' &&
    var s := SpanEnd(line, d + 6, Space);
    s > d + 6 && s < |line| && IsWord(line[s]) &&
    var e := SpanEnd(line, s, Word);
    var w := SpanEnd(line, e, Space);
    w < |line| && line[w] == '{'
  }

  /** The word a block-opening line opens, or None when the line opens no block. */
  function Open(fmt: Format, line: string): Option<string> {
    match First(OpenTest(fmt), line, 0)
    case None => None
    case Some(q) =>
      var s := if fmt == StatusFormat then q else SpanEnd(line, q + 6, Space);
      Some(line[s..SpanEnd(line, s, Word)])
  }

  /** `([a-zA-Z0-9_]+)=` (status) or `([a-zA-Z0-9_]+)\s+` (object cache)
      matches with its key starting at `q`; the end of the line counts as the
      white space of its newline. */
  predicate FieldAt(fmt: Format, line: string, q: nat) {
    q < |line| && IsWord(line[q]) &&
    var e := SpanEnd(line, q, Word);
    match fmt
    case StatusFormat => e < |line| && line[e] == '='
    case DefFormat => e == |line| || IsSpace(line[e])
  }

  /** The key and value of a field line, or None when the line is no field. */
  function Field(fmt: Format, line: string): (r: Option<(string, string)>)
    ensures r.Some? ==> |r.value.0| > 0
  {
    match First(FieldTest(fmt), line, 0)
    case None => None
    case Some(q) =>
      var e := SpanEnd(line, q, Word);
      match fmt
      case StatusFormat => Some((line[q..e], line[e + 1..]))
      case DefFormat => Some((line[q..e], line[SpanEnd(line, e, Space)..]))
  }

  /** The line tests, each of which is searched for leftmost. */
  datatype Test = OpenTest(fmt: Format) | FieldTest(fmt: Format)

  predicate MatchAt(t: Test, line: string, q: nat) {
    match t
    case OpenTest(StatusFormat) => StatusOpenAt(line, q)
    case OpenTest(DefFormat) => DefOpenAt(line, q)
    case FieldTest(fmt) => FieldAt(fmt, line, q)
  }

  /** The leftmost position from `q` on where test `t` matches. */
  function First(t: Test, line: string, q: nat): (r: Option<nat>)
    ensures r.Some? ==> q <= r.value < |line| && MatchAt(t, line, r.value)
    decreases |line| - q
  {
    if q >= |line| then None
    else if MatchAt(t, line, q) then Some(q)
    else First(t, line, q + 1)
  }

  /** The match `First` finds is the leftmost one, and it finds one whenever
      there is one. */
  lemma {:induction false} FirstLeftmost(t: Test, line: string, q: nat)
    ensures First(t, line, q).Some? ==> forall k :: q <= k < First(t, line, q).value ==> !MatchAt(t, line, k)
    ensures First(t, line, q).None? ==> forall k :: q <= k < |line| ==> !MatchAt(t, line, k)
    decreases |line| - q
  {
    if q < |line| && !MatchAt(t, line, q) {
      FirstLeftmost(t, line, q + 1);
    }
  }

  /** `\s*\}`: the line contains a closing brace. */
  predicate Closes(line: string) {
    '}' in line
  }

  /** What the block parser needs to know about one line: its text, the
      block it opens, the field it holds and whether it closes a block. */
  datatype LineInfo = LineInfo(text: string, open: Option<string>, field: Option<(string, string)>, closes: bool)

  function Classify(fmt: Format, line: string): (r: LineInfo)
    ensures r.text == line && r.open == Open(fmt, line) && r.field == Field(fmt, line) && r.closes == Closes(line)
  {
    LineInfo(line, Open(fmt, line), Field(fmt, line), Closes(line))
  }

  /** Every line of a file, classified. */
  function Infos(fmt: Format, lines: seq<string>): (r: seq<LineInfo>)
    ensures |r| == |lines|
  {
    if |lines| == 0 then [] else Infos(fmt, lines[..|lines| - 1]) + [Classify(fmt, lines[|lines| - 1])]
  }

  /** The classification of line `i`. */
  lemma {:induction false} InfoAt(fmt: Format, lines: seq<string>, i: nat)
    requires i < |lines|
    ensures Infos(fmt, lines)[i] == Classify(fmt, lines[i])
    decreases |lines|
  {
    if i < |lines| - 1 {
      InfoAt(fmt, lines[..|lines| - 1], i);
    }
  }

  // ---------------------------------------------------------------------
  // Specification

  /** The fields of a block from line `i` on, added to `data`, and the index
      of the line after the closing one. A line holding a field is a field
      even when it also holds a brace. */
  function Body(ls: seq<LineInfo>, i: nat, data: Props): (r: Result<(Props, nat)>)
    requires i <= |ls| && data.Valid()
    ensures r.Ok? ==> i < r.value.1 <= |ls| && r.value.0.Valid()
    decreases |ls| - i
  {
    if i == |ls| then Err(EOF_ERROR)
    else
      match ls[i].field
      case Some(kv) => Body(ls, i + 1, data.Put(kv.0, kv.1))
      case None =>
        if ls[i].closes then Ok((data, i + 1)) else Err(UnexpectedLine(ls[i].text))
  }

  /** The blocks of a file from line `i` on; a line outside a block that
      opens none is skipped. */
  function Blocks(ls: seq<LineInfo>, i: nat): Result<seq<Block>>
    requires i <= |ls|
    decreases |ls| - i
  {
    if i == |ls| then Ok([])
    else
      match ls[i].open
      case None => Blocks(ls, i + 1)
      case Some(t) =>
        match Body(ls, i + 1, Empty())
        case Err(m) => Err(m)
        case Ok(res) =>
          match Blocks(ls, res.1)
          case Err(m) => Err(m)
          case Ok(rest) => Ok([Block(t, res.0)] + rest)
  }

  /** The blocks of a whole file. */
  function ParseSpec(fmt: Format, lines: seq<string>): Result<seq<Block>> {
    Blocks(Infos(fmt, lines), 0)
  }

  function Prepend(objs: seq<Block>, r: Result<seq<Block>>): Result<seq<Block>> {
    match r
    case Err(m) => Err(m)
    case Ok(bs) => Ok(objs + bs)
  }

  // ---------------------------------------------------------------------
  // The parsers

  /** `parse_object` / `parse_def`: reads the fields of one block up to its
      closing line. */
  method ParseBody(fmt: Format, lines: seq<string>, start: nat) returns (r: Result<(Props, nat)>)
    requires start <= |lines|
    ensures r == Body(Infos(fmt, lines), start, Empty())
  {
    ghost var ls := Infos(fmt, lines);
    var data: Props := Empty();
    var i := start;
    while true
      invariant start <= i <= |lines| && data.Valid()
      invariant Body(ls, start, Empty()) == Body(ls, i, data)
      decreases |lines| - i
    {
      if i == |lines| {
        return Err(EOF_ERROR);
      }
      var line := lines[i];
      BodyStep(fmt, lines, i, data);
      var f := Field(fmt, line);
      if f.Some? {
        data := data.Put(f.value.0, f.value.1);
        i := i + 1;
      } else if Closes(line) {
        return Ok((data, i + 1));
      } else {
        return Err(UnexpectedLine(line));
      }
    }
  }

  /** `parse_status` / `parse_defs`: the blocks of a file, in file order. */
  method Parse(fmt: Format, lines: seq<string>) returns (r: Result<seq<Block>>)
    ensures r == ParseSpec(fmt, lines)
  {
    ghost var ls := Infos(fmt, lines);
    var objs: seq<Block> := [];
    var i := 0;
    PrependNothing(Blocks(ls, 0));
    while i < |lines|
      invariant 0 <= i <= |lines|
      invariant Blocks(ls, 0) == Prepend(objs, Blocks(ls, i))
      decreases |lines| - i
    {
      var t := Open(fmt, lines[i]);
      BlocksStep(fmt, lines, i);
      if t.Some? {
        var body := ParseBody(fmt, lines, i + 1);
        if body.Err? {
          return Err(body.msg);
        }
        PrependTwice(objs, Block(t.value, body.value.0), Blocks(ls, body.value.1));
        objs := objs + [Block(t.value, body.value.0)];
        i := body.value.1;
      } else {
        i := i + 1;
      }
    }
    assert objs + [] == objs;
    return Ok(objs);
  }

  /** One step of the block parser, on the line itself. */
  lemma BodyStep(fmt: Format, lines: seq<string>, i: nat, data: Props)
    requires i < |lines| && data.Valid()
    ensures Field(fmt, lines[i]).Some? ==>
      Body(Infos(fmt, lines), i, data) ==
      Body(Infos(fmt, lines), i + 1, data.Put(Field(fmt, lines[i]).value.0, Field(fmt, lines[i]).value.1))
    ensures Field(fmt, lines[i]).None? && Closes(lines[i]) ==> Body(Infos(fmt, lines), i, data) == Ok((data, i + 1))
    ensures Field(fmt, lines[i]).None? && !Closes(lines[i]) ==>
      Body(Infos(fmt, lines), i, data) == Err(UnexpectedLine(lines[i]))
  {
    InfoAt(fmt, lines, i);
  }

  /** One step of the file parser, on the line itself. */
  lemma BlocksStep(fmt: Format, lines: seq<string>, i: nat)
    requires i < |lines|
    ensures Open(fmt, lines[i]).None? ==> Blocks(Infos(fmt, lines), i) == Blocks(Infos(fmt, lines), i + 1)
    ensures Open(fmt, lines[i]).Some? && Body(Infos(fmt, lines), i + 1, Empty()).Err? ==>
      Blocks(Infos(fmt, lines), i) == Err(Body(Infos(fmt, lines), i + 1, Empty()).msg)
    ensures Open(fmt, lines[i]).Some? && Body(Infos(fmt, lines), i + 1, Empty()).Ok? ==>
      var res := Body(Infos(fmt, lines), i + 1, Empty()).value;
      Blocks(Infos(fmt, lines), i) == Prepend([Block(Open(fmt, lines[i]).value, res.0)], Blocks(Infos(fmt, lines), res.1))
  {
    InfoAt(fmt, lines, i);
    var ls := Infos(fmt, lines);
    if ls[i].open.Some? {
      BlocksOpen(ls, i, ls[i].open.value);
    } else {
      BlocksSkip(ls, i);
    }
  }

  lemma BlocksSkip(ls: seq<LineInfo>, i: nat)
    requires i < |ls| && ls[i].open.None?
    ensures Blocks(ls, i) == Blocks(ls, i + 1)
  {
  }

  lemma BlocksOpen(ls: seq<LineInfo>, i: nat, t: string)
    requires i < |ls| && ls[i].open == Some(t)
    ensures Body(ls, i + 1, Empty()).Err? ==> Blocks(ls, i) == Err(Body(ls, i + 1, Empty()).msg)
    ensures Body(ls, i + 1, Empty()).Ok? ==>
      Blocks(ls, i) == Prepend([Block(t, Body(ls, i + 1, Empty()).value.0)], Blocks(ls, Body(ls, i + 1, Empty()).value.1))
  {
  }

  lemma PrependNothing(r: Result<seq<Block>>)
    ensures r == Prepend([], r)
  {
    if r.Ok? {
      assert [] + r.value == r.value;
    }
  }

  lemma PrependTwice(objs: seq<Block>, b: Block, rest: Result<seq<Block>>)
    ensures Prepend(objs, Prepend([b], rest)) == Prepend(objs + [b], rest)
  {
    if rest.Ok? {
      assert objs + ([b] + rest.value) == (objs + [b]) + rest.value;
    }
  }

  // ---------------------------------------------------------------------
  // Rendering and the round trip

  predicate IsWordString(s: string) {
    |s| > 0 && forall k :: 0 <= k < |s| ==> IsWord(s[k])
  }

  /** A block the writer of the file could have produced: a word type, word
      keys, values on one line, and (in the object cache, where the value
      follows white space) values that do not start with white space. */
  ghost predicate WellFormed(fmt: Format, b: Block) {
    IsWordString(b.otype) && b.data.Valid() &&
    forall k :: k in b.data.keys ==>
      IsWordString(k) && '\n' !in b.data.m[k] &&
      (fmt == DefFormat && |b.data.m[k]| > 0 ==> !IsSpace(b.data.m[k][0]))
  }

  function OpenLine(fmt: Format, t: string): string {
    match fmt
    case StatusFormat => t + " {"
    case DefFormat => "define " + t + " {"
  }

  function FieldLine(fmt: Format, k: string, v: string): string {
    match fmt
    case StatusFormat => "\t" + k + "=" + v
    case DefFormat => "\t" + k + "\t" + v
  }

  const CLOSE_LINE: string := "\t}"

  function FieldLines(fmt: Format, data: Props, ks: seq<string>): (r: seq<string>)
    requires forall k :: k in ks ==> k in data.m
    ensures |r| == |ks|
  {
    if |ks| == 0 then [] else [FieldLine(fmt, ks[0], data.m[ks[0]])] + FieldLines(fmt, data, ks[1..])
  }

  function RenderBlock(fmt: Format, b: Block): seq<string>
    requires b.data.Valid()
  {
    [OpenLine(fmt, b.otype)] + FieldLines(fmt, b.data, b.data.keys) + [CLOSE_LINE]
  }

  /** The lines of a file holding `bs`, in the layout the monitoring system
      writes. */
  function Render(fmt: Format, bs: seq<Block>): seq<string>
    requires forall i :: 0 <= i < |bs| ==> bs[i].data.Valid()
  {
    if |bs| == 0 then [] else RenderBlock(fmt, bs[0]) + Render(fmt, bs[1..])
  }

  lemma OpenLineOpens(fmt: Format, t: string)
    requires IsWordString(t)
    ensures Open(fmt, OpenLine(fmt, t)) == Some(t)
  {
    var line := OpenLine(fmt, t);
    match fmt {
      case StatusFormat =>
        assert SpanEnd(line, 0, Word) == |t| by { WordSpan(line, 0, |t|); }
        assert MatchAt(OpenTest(fmt), line, 0);
        assert line[0..|t|] == t;
      case DefFormat =>
        assert SpanEnd(line, 6, Space) == 7;
        assert SpanEnd(line, 7, Word) == 7 + |t| by { WordSpan(line, 7, 7 + |t|); }
        assert SpanEnd(line, 7 + |t|, Space) == 8 + |t|;
        assert MatchAt(OpenTest(fmt), line, 0);
        assert line[7..7 + |t|] == t;
    }
  }

  lemma WordSpan(line: string, i: nat, e: nat)
    requires i <= e <= |line|
    requires forall k :: i <= k < e ==> IsWord(line[k])
    requires e == |line| || !IsWord(line[e])
    ensures SpanEnd(line, i, Word) == e
    decreases e - i
  {
    if i < e {
      WordSpan(line, i + 1, e);
    }
  }

  lemma SpaceSpan(line: string, i: nat, e: nat)
    requires i <= e <= |line|
    requires forall k :: i <= k < e ==> IsSpace(line[k])
    requires e == |line| || !IsSpace(line[e])
    ensures SpanEnd(line, i, Space) == e
    decreases e - i
  {
    if i < e {
      SpaceSpan(line, i + 1, e);
    }
  }

  lemma FieldLineParses(fmt: Format, k: string, v: string)
    requires IsWordString(k) && (fmt == DefFormat && |v| > 0 ==> !IsSpace(v[0]))
    ensures Field(fmt, FieldLine(fmt, k, v)) == Some((k, v))
  {
    match fmt {
      case StatusFormat => StatusFieldParses(k, v);
      case DefFormat => DefFieldParses(k, v);
    }
  }

  lemma StatusFieldParses(k: string, v: string)
    requires IsWordString(k)
    ensures Field(StatusFormat, FieldLine(StatusFormat, k, v)) == Some((k, v))
  {
    var line := "\t" + k + "=" + v;
    assert line[1..1 + |k|] == k;
    assert line[2 + |k|..] == v;
    assert line[1 + |k|] == '=';
    WordSpan(line, 1, 1 + |k|);
    assert !MatchAt(FieldTest(StatusFormat), line, 0);
    assert MatchAt(FieldTest(StatusFormat), line, 1);
    assert First(FieldTest(StatusFormat), line, 0) == Some(1);
  }

  lemma DefFieldParses(k: string, v: string)
    requires IsWordString(k) && (|v| > 0 ==> !IsSpace(v[0]))
    ensures Field(DefFormat, FieldLine(DefFormat, k, v)) == Some((k, v))
  {
    var line := "\t" + k + "\t" + v;
    assert line[1..1 + |k|] == k;
    assert line[2 + |k|..] == v;
    assert line[1 + |k|] == '\t';
    WordSpan(line, 1, 1 + |k|);
    SpaceSpan(line, 1 + |k|, 2 + |k|);
    assert !MatchAt(FieldTest(DefFormat), line, 0);
    assert MatchAt(FieldTest(DefFormat), line, 1);
    assert First(FieldTest(DefFormat), line, 0) == Some(1);
  }

  lemma NoWordInClose(fmt: Format)
    ensures Field(fmt, CLOSE_LINE) == None && Closes(CLOSE_LINE)
  {
    assert !MatchAt(FieldTest(fmt), CLOSE_LINE, 0);
    assert !MatchAt(FieldTest(fmt), CLOSE_LINE, 1);
    assert CLOSE_LINE[1] == '}';
  }

  /** `acc` holds the first `j` fields of `d`, in order. */
  ghost predicate FieldsSoFar(acc: Props, d: Props, j: nat) {
    j <= |d.keys| && acc.Valid() && acc.keys == d.keys[..j] &&
    forall k :: k in acc.m ==> k in d.m && acc.m[k] == d.m[k]
  }

  /** The `j`-th field of a block is a key not read yet, and adding it
      extends the fields read so far. */
  lemma NextField(b: Block, j: nat, acc: Props)
    requires b.data.Valid() && FieldsSoFar(acc, b.data, j) && j < |b.data.keys|
    ensures b.data.keys[j] !in acc.m
    ensures FieldsSoFar(acc.Put(b.data.keys[j], b.data.m[b.data.keys[j]]), b.data, j + 1)
  {
    var ks := b.data.keys;
    var k := ks[j];
    assert k in ks;
    assert forall x :: 0 <= x < j ==> ks[..j][x] != k;
    assert k !in acc.keys;
    assert ks[..j + 1] == ks[..j] + [k];
  }

  /** Field `x` of block `b` is classified as that field on line `base + x`,
      and line `base + n` closes the block if it exists. */
  ghost predicate FieldsAt(ls: seq<LineInfo>, b: Block, base: nat) {
    b.data.Valid() && base + |b.data.keys| <= |ls| &&
    (forall x :: 0 <= x < |b.data.keys| ==>
      ls[base + x].field == Some((b.data.keys[x], b.data.m[b.data.keys[x]]))) &&
    (base + |b.data.keys| < |ls| ==> ls[base + |b.data.keys|].field.None? && ls[base + |b.data.keys|].closes)
  }

  /** Reading a block's field lines from the `j`-th on rebuilds its fields;
      the block then ends at its closing line, or fails at the end of the
      file when there is none. */
  lemma {:induction false} BodyOfFields(ls: seq<LineInfo>, b: Block, base: nat, j: nat, acc: Props)
    requires FieldsAt(ls, b, base) && FieldsSoFar(acc, b.data, j)
    ensures Body(ls, base + j, acc) ==
      if base + |b.data.keys| < |ls| then Ok((b.data, base + |b.data.keys| + 1)) else Err(EOF_ERROR)
    decreases |b.data.keys| - j
  {
    var ks := b.data.keys;
    if j == |ks| {
      if base + j < |ls| {
        assert ks[..j] == ks;
        assert acc.m == b.data.m;
      }
    } else {
      NextField(b, j, acc);
      BodyOfFields(ls, b, base, j + 1, acc.Put(ks[j], b.data.m[ks[j]]));
    }
  }

  /** The layout of one rendered block. */
  lemma RenderBlockShape(fmt: Format, b: Block)
    requires b.data.Valid()
    ensures |RenderBlock(fmt, b)| == |b.data.keys| + 2
    ensures RenderBlock(fmt, b)[0] == OpenLine(fmt, b.otype)
    ensures forall x :: 0 <= x < |b.data.keys| ==>
      RenderBlock(fmt, b)[1 + x] == FieldLine(fmt, b.data.keys[x], b.data.m[b.data.keys[x]])
    ensures RenderBlock(fmt, b)[|b.data.keys| + 1] == CLOSE_LINE
  {
    var ks := b.data.keys;
    forall x | 0 <= x < |ks|
      ensures RenderBlock(fmt, b)[1 + x] == FieldLine(fmt, ks[x], b.data.m[ks[x]])
    {
      FieldLinesAt(fmt, b.data, ks, x);
    }
  }

  lemma FieldLinesAt(fmt: Format, d: Props, ks: seq<string>, x: nat)
    requires forall k :: k in ks ==> k in d.m
    requires x < |ks|
    ensures FieldLines(fmt, d, ks)[x] == FieldLine(fmt, ks[x], d.m[ks[x]])
    decreases x
  {
    if x > 0 {
      FieldLinesAt(fmt, d, ks[1..], x - 1);
    }
  }

  /** The lines from `i` on are classified as the lines of blocks `bs`,
      one after the other, and nothing else. */
  ghost predicate BlocksAt(ls: seq<LineInfo>, bs: seq<Block>, i: nat)
    decreases |bs|
  {
    i <= |ls| &&
    if |bs| == 0 then i == |ls|
    else
      var n := |bs[0].data.keys|;
      i + n + 2 <= |ls| && ls[i].open == Some(bs[0].otype) && FieldsAt(ls, bs[0], i + 1) &&
      BlocksAt(ls, bs[1..], i + n + 2)
  }

  /** Lines classified as a sequence of blocks parse as those blocks. */
  lemma {:induction false} BlocksOfLines(ls: seq<LineInfo>, bs: seq<Block>, i: nat)
    requires BlocksAt(ls, bs, i)
    ensures Blocks(ls, i) == Ok(bs)
    decreases |bs|
  {
    if |bs| > 0 {
      var b := bs[0];
      BlocksAtParts(ls, bs, i);
      BodyOfBlockLines(ls, b, i + 1);
      BlocksOfLines(ls, bs[1..], i + |b.data.keys| + 2);
      BlocksOpen(ls, i, b.otype);
      assert [b] + bs[1..] == bs;
    }
  }

  lemma BlocksAtParts(ls: seq<LineInfo>, bs: seq<Block>, i: nat)
    requires |bs| > 0 && BlocksAt(ls, bs, i)
    ensures i + |bs[0].data.keys| + 2 <= |ls| && ls[i].open == Some(bs[0].otype)
    ensures FieldsAt(ls, bs[0], i + 1) && BlocksAt(ls, bs[1..], i + |bs[0].data.keys| + 2)
  {
  }

  lemma BodyOfBlockLines(ls: seq<LineInfo>, b: Block, base: nat)
    requires FieldsAt(ls, b, base) && base + |b.data.keys| < |ls|
    ensures Body(ls, base, Empty()) == Ok((b.data, base + |b.data.keys| + 1))
  {
    assert FieldsSoFar(Empty(), b.data, 0);
    BodyOfFields(ls, b, base, 0, Empty());
  }

  /** Blocks `bs` are written one after the other from line `i` to the end. */
  ghost predicate RenderedFrom(fmt: Format, bs: seq<Block>, L: seq<string>, i: nat)
    decreases |bs|
  {
    if |bs| == 0 then i == |L|
    else RenderedAt(fmt, bs[0], L, i) && RenderedFrom(fmt, bs[1..], L, i + |bs[0].data.keys| + 2)
  }

  /** The rendering of `bs` placed at line `i` lays the blocks out one after
      the other. */
  lemma {:induction false} RenderLayout(fmt: Format, bs: seq<Block>, L: seq<string>, i: nat)
    requires forall x :: 0 <= x < |bs| ==> bs[x].data.Valid()
    requires i <= |L| && L[i..] == Render(fmt, bs)
    ensures RenderedFrom(fmt, bs, L, i)
    decreases |bs|
  {
    if |bs| == 0 {
      assert |L[i..]| == 0;
    } else {
      SplitRendered(fmt, bs, L, i);
      TailValid(bs);
      RenderLayout(fmt, bs[1..], L, i + |bs[0].data.keys| + 2);
    }
  }

  /** The classified lines of blocks written from line `i` on. */
  lemma {:induction false} RenderedLines(fmt: Format, bs: seq<Block>, L: seq<string>, i: nat)
    requires forall x :: 0 <= x < |bs| ==> WellFormed(fmt, bs[x])
    requires RenderedFrom(fmt, bs, L, i)
    ensures BlocksAt(Infos(fmt, L), bs, i)
    decreases |bs|
  {
    if |bs| > 0 {
      TailWellFormed(fmt, bs);
      RenderedAtLines(fmt, bs[0], L, i);
      RenderedBlockLines(fmt, bs[0], L, i);
      RenderedLines(fmt, bs[1..], L, i + |bs[0].data.keys| + 2);
      BlocksAtCons(Infos(fmt, L), bs, i);
    }
  }

  lemma TailValid(bs: seq<Block>)
    requires |bs| > 0
    requires forall x :: 0 <= x < |bs| ==> bs[x].data.Valid()
    ensures forall x :: 0 <= x < |bs[1..]| ==> bs[1..][x].data.Valid()
  {
    forall x | 0 <= x < |bs[1..]|
      ensures bs[1..][x].data.Valid()
    {
      assert bs[1..][x] == bs[x + 1];
    }
  }

  lemma TailWellFormed(fmt: Format, bs: seq<Block>)
    requires |bs| > 0
    requires forall x :: 0 <= x < |bs| ==> WellFormed(fmt, bs[x])
    ensures forall x :: 0 <= x < |bs[1..]| ==> WellFormed(fmt, bs[1..][x])
  {
    forall x | 0 <= x < |bs[1..]|
      ensures WellFormed(fmt, bs[1..][x])
    {
      assert bs[1..][x] == bs[x + 1];
    }
  }

  lemma BlocksAtCons(ls: seq<LineInfo>, bs: seq<Block>, i: nat)
    requires |bs| > 0 && i + |bs[0].data.keys| + 2 <= |ls|
    requires ls[i].open == Some(bs[0].otype) && FieldsAt(ls, bs[0], i + 1)
    requires BlocksAt(ls, bs[1..], i + |bs[0].data.keys| + 2)
    ensures BlocksAt(ls, bs, i)
  {
  }

  /** The lines of the first of the rendered blocks `bs` at line `i`, and
      the rendering of the others after them. */
  lemma SplitRendered(fmt: Format, bs: seq<Block>, L: seq<string>, i: nat)
    requires forall x :: 0 <= x < |bs| ==> bs[x].data.Valid()
    requires |bs| > 0 && i <= |L| && L[i..] == Render(fmt, bs)
    ensures RenderedAt(fmt, bs[0], L, i)
    ensures L[i + |bs[0].data.keys| + 2..] == Render(fmt, bs[1..])
  {
    var R := RenderBlock(fmt, bs[0]);
    RenderBlockShape(fmt, bs[0]);
    assert L[i..] == R + Render(fmt, bs[1..]);
    assert L[i..i + |R|] == L[i..][..|R|];
    assert L[i + |R|..] == L[i..][|R|..];
  }

  /** Block `b` is written, as the monitoring system writes it, at line `i`. */
  ghost predicate RenderedAt(fmt: Format, b: Block, L: seq<string>, i: nat) {
    b.data.Valid() && i + |b.data.keys| + 2 <= |L| &&
    L[i..i + |b.data.keys| + 2] == RenderBlock(fmt, b)
  }

  /** The lines of a block written at line `i`, one by one. */
  lemma RenderedAtLines(fmt: Format, b: Block, L: seq<string>, i: nat)
    requires RenderedAt(fmt, b, L, i)
    ensures L[i] == OpenLine(fmt, b.otype)
    ensures forall x :: 0 <= x < |b.data.keys| ==> L[i + 1 + x] == FieldLine(fmt, b.data.keys[x], b.data.m[b.data.keys[x]])
    ensures L[i + 1 + |b.data.keys|] == CLOSE_LINE
  {
    var n := |b.data.keys|;
    var R := RenderBlock(fmt, b);
    var F := FieldLines(fmt, b.data, b.data.keys);
    assert L[i..i + n + 2] == R;
    forall x | 0 <= x < n
      ensures L[i + 1 + x] == FieldLine(fmt, b.data.keys[x], b.data.m[b.data.keys[x]])
    {
      assert L[i + 1 + x] == L[i..i + n + 2][1 + x] == R[1 + x] == F[x];
      FieldLinesAt(fmt, b.data, b.data.keys, x);
    }
    assert L[i] == L[i..i + n + 2][0] == R[0];
    assert L[i + 1 + n] == L[i..i + n + 2][n + 1] == R[n + 1];
  }

  lemma OpenInfo(fmt: Format, L: seq<string>, j: nat, t: string)
    requires j < |L| && L[j] == OpenLine(fmt, t) && IsWordString(t)
    ensures Infos(fmt, L)[j].open == Some(t)
  {
    InfoAt(fmt, L, j);
    OpenLineOpens(fmt, t);
  }

  lemma FieldInfo(fmt: Format, L: seq<string>, j: nat, k: string, v: string)
    requires j < |L| && L[j] == FieldLine(fmt, k, v)
    requires IsWordString(k) && (fmt == DefFormat && |v| > 0 ==> !IsSpace(v[0]))
    ensures Infos(fmt, L)[j].field == Some((k, v))
  {
    InfoAt(fmt, L, j);
    FieldLineParses(fmt, k, v);
  }

  lemma CloseInfo(fmt: Format, L: seq<string>, j: nat)
    requires j < |L| && L[j] == CLOSE_LINE
    ensures Infos(fmt, L)[j].field.None? && Infos(fmt, L)[j].closes
  {
    InfoAt(fmt, L, j);
    NoWordInClose(fmt);
  }

  /** The classified lines of a block written at line `i`. */
  lemma RenderedBlockLines(fmt: Format, b: Block, L: seq<string>, i: nat)
    requires WellFormed(fmt, b) && i + |b.data.keys| + 2 <= |L|
    requires L[i] == OpenLine(fmt, b.otype)
    requires forall x :: 0 <= x < |b.data.keys| ==> L[i + 1 + x] == FieldLine(fmt, b.data.keys[x], b.data.m[b.data.keys[x]])
    requires L[i + 1 + |b.data.keys|] == CLOSE_LINE
    ensures Infos(fmt, L)[i].open == Some(b.otype) && FieldsAt(Infos(fmt, L), b, i + 1)
  {
    OpenInfo(fmt, L, i, b.otype);
    FieldInfos(fmt, b, L, i);
    CloseInfo(fmt, L, i + 1 + |b.data.keys|);
  }

  lemma FieldInfos(fmt: Format, b: Block, L: seq<string>, i: nat)
    requires WellFormed(fmt, b) && i + |b.data.keys| + 2 <= |L|
    requires forall x :: 0 <= x < |b.data.keys| ==> L[i + 1 + x] == FieldLine(fmt, b.data.keys[x], b.data.m[b.data.keys[x]])
    ensures forall x :: 0 <= x < |b.data.keys| ==>
      Infos(fmt, L)[i + 1 + x].field == Some((b.data.keys[x], b.data.m[b.data.keys[x]]))
  {
    var ks := b.data.keys;
    forall x | 0 <= x < |ks|
      ensures Infos(fmt, L)[i + 1 + x].field == Some((ks[x], b.data.m[ks[x]]))
    {
      assert ks[x] in ks;
      FieldInfo(fmt, L, i + 1 + x, ks[x], b.data.m[ks[x]]);
    }
  }

  /** Round trip: the parser reads back exactly the blocks a file was
      written from. In particular a status value may itself contain '='
      and '}'. */
  lemma RoundTrip(fmt: Format, bs: seq<Block>)
    requires forall x :: 0 <= x < |bs| ==> WellFormed(fmt, bs[x])
    requires forall x :: 0 <= x < |bs| ==> bs[x].data.Valid()
    ensures ParseSpec(fmt, Render(fmt, bs)) == Ok(bs)
  {
    var L := Render(fmt, bs);
    assert L[0..] == L;
    RenderLayout(fmt, bs, L, 0);
    RenderedLines(fmt, bs, L, 0);
    BlocksOfLines(Infos(fmt, L), bs, 0);
  }

  /** A block whose closing line is missing makes the whole parse fail with
      the end-of-file error. */
  lemma UnclosedBlock(fmt: Format, b: Block)
    requires WellFormed(fmt, b)
    ensures ParseSpec(fmt, [OpenLine(fmt, b.otype)] + FieldLines(fmt, b.data, b.data.keys)) == Err(EOF_ERROR)
  {
    var ks := b.data.keys;
    var L := [OpenLine(fmt, b.otype)] + FieldLines(fmt, b.data, ks);
    OpenInfo(fmt, L, 0, b.otype);
    forall x | 0 <= x < |ks|
      ensures Infos(fmt, L)[1 + x].field == Some((ks[x], b.data.m[ks[x]]))
    {
      FieldLinesAt(fmt, b.data, ks, x);
      assert ks[x] in ks;
      FieldInfo(fmt, L, 1 + x, ks[x], b.data.m[ks[x]]);
    }
    UnclosedLines(Infos(fmt, L), b);
  }

  lemma UnclosedLines(ls: seq<LineInfo>, b: Block)
    requires b.data.Valid() && |ls| == |b.data.keys| + 1 && ls[0].open.Some?
    requires forall x :: 0 <= x < |b.data.keys| ==> ls[1 + x].field == Some((b.data.keys[x], b.data.m[b.data.keys[x]]))
    ensures Blocks(ls, 0) == Err(EOF_ERROR)
  {
    assert FieldsAt(ls, b, 1);
    assert FieldsSoFar(Empty(), b.data, 0);
    BodyOfFields(ls, b, 1, 0, Empty());
  }

  /** A line inside a block that is neither a field nor a closing line stops
      the parse with that line in the message. */
  lemma StrayLine(fmt: Format, t: string, junk: string)
    requires IsWordString(t) && Field(fmt, junk).None? && !Closes(junk)
    ensures ParseSpec(fmt, [OpenLine(fmt, t), junk]) == Err(UnexpectedLine(junk))
  {
    OpenLineOpens(fmt, t);
    InfoAt(fmt, [OpenLine(fmt, t), junk], 0);
    InfoAt(fmt, [OpenLine(fmt, t), junk], 1);
  }

  /** When a key repeats inside a block the later value wins, and the key
      keeps the place of its first occurrence. */
  lemma RepeatedKeyLastWins(fmt: Format, t: string, k: string, v1: string, v2: string)
    requires IsWordString(t) && IsWordString(k)
    requires fmt == DefFormat ==> (|v1| > 0 ==> !IsSpace(v1[0])) && (|v2| > 0 ==> !IsSpace(v2[0]))
    ensures ParseSpec(fmt, [OpenLine(fmt, t), FieldLine(fmt, k, v1), FieldLine(fmt, k, v2), CLOSE_LINE])
         == Ok([Block(t, OMap([k], map[k := v2]))])
  {
    var L := [OpenLine(fmt, t), FieldLine(fmt, k, v1), FieldLine(fmt, k, v2), CLOSE_LINE];
    OpenLineOpens(fmt, t);
    FieldLineParses(fmt, k, v1);
    FieldLineParses(fmt, k, v2);
    NoWordInClose(fmt);
    InfoAt(fmt, L, 0);
    InfoAt(fmt, L, 1);
    InfoAt(fmt, L, 2);
    InfoAt(fmt, L, 3);
    RepeatedKeyLines(Infos(fmt, L), t, k, v1, v2);
  }

  lemma RepeatedKeyLines(ls: seq<LineInfo>, t: string, k: string, v1: string, v2: string)
    requires |ls| == 4 && ls[0].open == Some(t)
    requires ls[1].field == Some((k, v1)) && ls[2].field == Some((k, v2))
    requires ls[3].field.None? && ls[3].closes
    ensures Blocks(ls, 0) == Ok([Block(t, OMap([k], map[k := v2]))])
  {
    var d0: Props := Empty();
    var d1 := d0.Put(k, v1);
    var d2 := d1.Put(k, v2);
    assert d2 == OMap([k], map[k := v2]);
    assert Body(ls, 3, d2) == Ok((d2, 4));
    assert Body(ls, 1, d0) == Body(ls, 2, d1) == Body(ls, 3, d2);
    assert Blocks(ls, 4) == Ok([]);
    assert [Block(t, d2)] + [] == [Block(t, d2)];
  }
}

=== FILE: nagios_status.dfy ===
/** Loading the status file (`Status.load`): every host and service status
    record updates the monitored state of its object in the loaded
    configuration, and files a reference to the object under its current
    state; each state's list is then sorted. */
module NagiosStatus {

  import opened Wrappers
  import opened Text
  import opened OrderedMaps
  import opened NagiosModel
  import opened NagiosParse
  import opened NagiosConfig
  import opened Sorting

  const HOSTSTATUS: string := "hoststatus"
  const SERVICESTATUS: string := "servicestatus"

  /** The loaded status: the objects in each state, hosts and services
      apart. Only the states of the kind have a list. */
  datatype StatusData = StatusData(hostsBy: map<State, seq<Ref>>, servicesBy: map<State, seq<Ref>>)

  const NoStatus: StatusData := StatusData(
    map[OK := [], DOWN := [], UNREACHABLE := []],
    map[OK := [], WARNING := [], CRITICAL := [], UNKNOWN := []])

  /** The state of the loop over the records: the configuration as updated so
      far and the lists filled so far. */
  datatype Scan = Scan(cfg: ConfigData, lists: StatusData)

  /** The loop's state after a record, with the message of the exception the
      record raised, if any. What the loop updated before raising stays
      updated. */
  datatype Step = Step(scan: Scan, err: Option<string>)

  /** The state an object is in after `update_state` with the record `data`. */
  function RecordState(kind: Kind, data: Props): Option<State> {
    CurState(UpdateState(kind, data))
  }

  /** The configuration after `update_state` on the object `r`: its
      monitored state replaced by `m`, in place. */
  function SetMon(c: ConfigData, r: Ref, m: Monitored): ConfigData
    requires MonitoredOf(c, r).Some?
  {
    var hosts := c.hosts.value;
    var h := hosts.m[r.HostName()];
    match r
    case HostRef(key) => c.(hosts := Some(hosts.Put(key, h.(mon := m))))
    case SvcRef(key, desc) =>
      c.(hosts := Some(hosts.Put(key, h.(services := h.services.Put(desc, h.services.m[desc].(mon := m))))))
  }

  /** A `hoststatus` record. */
  function HostStatus(s: Scan, data: Props): Step {
    match s.cfg.hosts
    case None => Step(s, Some(NilError("[]")))
    case Some(hosts) =>
      var key := HostNameOf(data);
      match hosts.Get(key)
      case None => Step(s, Some(NilError("update_state")))
      case Some(h) =>
        var cfg := SetMon(s.cfg, HostRef(key), UpdateState(HostKind, data));
        var st := RecordState(HostKind, data);
        if st.Some? && st.value in s.lists.hostsBy then
          Step(Scan(cfg, s.lists.(hostsBy := s.lists.hostsBy[st.value := s.lists.hostsBy[st.value] + [HostRef(key)]])), None)
        else
          Step(Scan(cfg, s.lists), Some(NilError("<<")))
  }

  /** The message for a service record whose service the host lacks; it
      lists the host's services in sorted order. */
  function NoServiceMessage(desc: string, h: Host): string {
    "No service " + desc + " for host " + h.name + "; services " + InspectList(SortStrings(h.services.keys))
  }

  /** A `servicestatus` record. */
  function ServiceStatus(s: Scan, data: Props): Step {
    match s.cfg.hosts
    case None => Step(s, Some(NilError("[]")))
    case Some(hosts) =>
      var key := HostNameOf(data);
      match hosts.Get(key)
      case None => Step(s, Some("No host def: " + key))
      case Some(h) =>
        var desc := ServiceName(data);
        match h.services.Get(desc)
        case None => Step(s, Some(NoServiceMessage(desc, h)))
        case Some(_) =>
          var cfg := SetMon(s.cfg, SvcRef(key, desc), UpdateState(ServiceKind, data));
          var st := RecordState(ServiceKind, data);
          if st.Some? && st.value in s.lists.servicesBy then
            Step(Scan(cfg, s.lists.(servicesBy := s.lists.servicesBy[st.value := s.lists.servicesBy[st.value] + [SvcRef(key, desc)]])), None)
          else
            Step(Scan(cfg, s.lists), Some(NilError("<<")))
  }

  /** One record; records of other types are skipped. */
  function ScanRecord(s: Scan, b: Block): Step {
    if b.otype == HOSTSTATUS then HostStatus(s, b.data)
    else if b.otype == SERVICESTATUS then ServiceStatus(s, b.data)
    else Step(s, None)
  }

  /** The loop over the records `objs`, stopping at the first that raises. */
  function ScanAll(cfg: ConfigData, objs: seq<Block>): Step {
    if |objs| == 0 then Step(Scan(cfg, NoStatus), None)
    else
      var p := ScanAll(cfg, objs[..|objs| - 1]);
      if p.err.Some? then p else ScanRecord(p.scan, objs[|objs| - 1])
  }

  /** `sort!` on every list. */
  function SortBuckets(b: StatusData): StatusData {
    StatusData(
      map st | st in b.hostsBy :: SortBy(b.hostsBy[st], RefKey),
      map st | st in b.servicesBy :: SortBy(b.servicesBy[st], RefKey))
  }

  /** `Status.load(objs)` against the configuration's current contents: the
      configuration as the records left it, and the loaded status or the
      message of what was raised. Without loaded contents nothing is read. */
  function LoadStatusSpec(contents: Option<ConfigData>, objs: seq<Block>): (Option<ConfigData>, Result<StatusData>) {
    match contents
    case None => (None, Err(NilError("hosts")))
    case Some(cfg) =>
      var st := ScanAll(cfg, objs);
      (Some(st.scan.cfg), if st.err.Some? then Err(st.err.value) else Ok(SortBuckets(st.scan.lists)))
  }

  lemma ScanAllSnoc(cfg: ConfigData, objs: seq<Block>, i: nat)
    requires i < |objs| && ScanAll(cfg, objs[..i]).err.None?
    ensures ScanAll(cfg, objs[..i + 1]) == ScanRecord(ScanAll(cfg, objs[..i]).scan, objs[i])
  {
    assert objs[..i + 1][..i] == objs[..i];
  }

  /** Once a record raises, the loop ends there. */
  lemma {:induction false} ScanAllErrPersists(cfg: ConfigData, objs: seq<Block>, j: nat)
    requires j <= |objs| && ScanAll(cfg, objs[..j]).err.Some?
    ensures ScanAll(cfg, objs) == ScanAll(cfg, objs[..j])
    decreases |objs|
  {
    if j < |objs| {
      var prefix := objs[..|objs| - 1];
      assert prefix[..j] == objs[..j];
      ScanAllErrPersists(cfg, prefix, j);
    } else {
      assert objs[..j] == objs;
    }
  }

  /** `Status.load`, record by record. */
  method LoadStatus(contents: Option<ConfigData>, objs: seq<Block>) returns (cfgOut: Option<ConfigData>, r: Result<StatusData>)
    ensures (cfgOut, r) == LoadStatusSpec(contents, objs)
  {
    if contents.None? {
      return None, Err(NilError("hosts"));
    }
    var cfg := contents.value;
    var hostsBy := NoStatus.hostsBy;
    var servicesBy := NoStatus.servicesBy;
    var i := 0;
    while i < |objs|
      invariant 0 <= i <= |objs|
      invariant ScanAll(contents.value, objs[..i]) == Step(Scan(cfg, StatusData(hostsBy, servicesBy)), None)
    {
      ScanAllSnoc(contents.value, objs, i);
      var b := objs[i];
      if b.otype == HOSTSTATUS {
        if cfg.hosts.None? {
          ScanAllErrPersists(contents.value, objs, i + 1);
          return Some(cfg), Err(NilError("[]"));
        }
        var hosts := cfg.hosts.value;
        var key := HostNameOf(b.data);
        if key !in hosts.m {
          ScanAllErrPersists(contents.value, objs, i + 1);
          return Some(cfg), Err(NilError("update_state"));
        }
        var m := UpdateState(HostKind, b.data);
        cfg := SetMon(cfg, HostRef(key), m);
        var st := CurState(m);
        if st.None? || st.value !in hostsBy {
          ScanAllErrPersists(contents.value, objs, i + 1);
          return Some(cfg), Err(NilError("<<"));
        }
        hostsBy := hostsBy[st.value := hostsBy[st.value] + [HostRef(key)]];
      } else if b.otype == SERVICESTATUS {
        if cfg.hosts.None? {
          ScanAllErrPersists(contents.value, objs, i + 1);
          return Some(cfg), Err(NilError("[]"));
        }
        var hosts := cfg.hosts.value;
        var key := HostNameOf(b.data);
        if key !in hosts.m {
          ScanAllErrPersists(contents.value, objs, i + 1);
          return Some(cfg), Err("No host def: " + key);
        }
        var h := hosts.m[key];
        var desc := ServiceName(b.data);
        if desc !in h.services.m {
          ScanAllErrPersists(contents.value, objs, i + 1);
          return Some(cfg), Err(NoServiceMessage(desc, h));
        }
        var m := UpdateState(ServiceKind, b.data);
        cfg := SetMon(cfg, SvcRef(key, desc), m);
        var st := CurState(m);
        if st.None? || st.value !in servicesBy {
          ScanAllErrPersists(contents.value, objs, i + 1);
          return Some(cfg), Err(NilError("<<"));
        }
        servicesBy := servicesBy[st.value := servicesBy[st.value] + [SvcRef(key, desc)]];
      }
      i := i + 1;
    }
    assert objs[..|objs|] == objs;
    return Some(cfg), Ok(SortBuckets(StatusData(hostsBy, servicesBy)));
  }

  // ---------------------------------------------------------------------
  // What a record names, and what it files

  /** The object a record is about, if it is a status record. */
  function RecordRef(b: Block): Option<Ref> {
    if b.otype == HOSTSTATUS then Some(HostRef(HostNameOf(b.data)))
    else if b.otype == SERVICESTATUS then Some(SvcRef(HostNameOf(b.data), ServiceName(b.data)))
    else None
  }

  function KindOf(r: Ref): Kind {
    if r.HostRef? then HostKind else ServiceKind
  }

  /** What a record files under the state `st`: its object when it is a
      record of that kind whose state is `st`. */
  function FiledUnder(b: Block, kind: Kind, st: State): seq<Ref> {
    match RecordRef(b)
    case None => []
    case Some(r) => if KindOf(r) == kind && RecordState(kind, b.data) == Some(st) then [r] else []
  }

  /** The objects of kind `kind` the records file under `st`, in record
      order, an object once per record naming it. */
  function Filed(objs: seq<Block>, kind: Kind, st: State): (r: seq<Ref>)
    ensures forall x :: x in r ==> KindOf(x) == kind
  {
    if |objs| == 0 then []
    else Filed(objs[..|objs| - 1], kind, st) + FiledUnder(objs[|objs| - 1], kind, st)
  }

  /** The lists of a kind. */
  function ListsOf(d: StatusData, kind: Kind): map<State, seq<Ref>> {
    if kind == HostKind then d.hostsBy else d.servicesBy
  }

  /** Every state a record can give has a list. */
  lemma StateListed(kind: Kind, data: Props)
    ensures RecordState(kind, data).Some? ==> RecordState(kind, data).value in ListsOf(NoStatus, kind)
  {
    var m := UpdateState(kind, data);
    if m.soft.Some? {
      StateCodesInverse(kind, FieldToI(data, "current_state"), m.soft.value);
    } else if m.hard.Some? {
      StateCodesInverse(kind, FieldToI(data, "last_hard_state"), m.hard.value);
    }
  }

  /** A record that does not raise adds what it files to the lists and
      nothing else. */
  lemma ScanRecordLists(s: Scan, b: Block, kind: Kind)
    requires ScanRecord(s, b).err.None?
    ensures ListsOf(ScanRecord(s, b).scan.lists, kind).Keys == ListsOf(s.lists, kind).Keys
    ensures forall st :: st in ListsOf(s.lists, kind) ==>
      ListsOf(ScanRecord(s, b).scan.lists, kind)[st] == ListsOf(s.lists, kind)[st] + FiledUnder(b, kind, st)
  {
    if b.otype == HOSTSTATUS {
      HostScanRecordLists(s, b, kind);
    } else if b.otype == SERVICESTATUS {
      ServiceScanRecordLists(s, b, kind);
    }
  }

  /** The same for a host record. */
  lemma HostScanRecordLists(s: Scan, b: Block, kind: Kind)
    requires b.otype == HOSTSTATUS
    requires ScanRecord(s, b).err.None?
    ensures ListsOf(HostStatus(s, b.data).scan.lists, kind).Keys == ListsOf(s.lists, kind).Keys
    ensures forall st :: st in ListsOf(s.lists, kind) ==>
      ListsOf(HostStatus(s, b.data).scan.lists, kind)[st] == ListsOf(s.lists, kind)[st] + FiledUnder(b, kind, st)
  {
  }

  /** The same for a service record. */
  lemma ServiceScanRecordLists(s: Scan, b: Block, kind: Kind)
    requires b.otype == SERVICESTATUS
    requires ScanRecord(s, b).err.None?
    ensures ListsOf(ServiceStatus(s, b.data).scan.lists, kind).Keys == ListsOf(s.lists, kind).Keys
    ensures forall st :: st in ListsOf(s.lists, kind) ==>
      ListsOf(ServiceStatus(s, b.data).scan.lists, kind)[st] == ListsOf(s.lists, kind)[st] + FiledUnder(b, kind, st)
  {
  }

  /** The unsorted lists after the loop hold exactly what the records file,
      in record order. */
  lemma {:induction false} ScanAllLists(cfg: ConfigData, objs: seq<Block>, kind: Kind)
    requires ScanAll(cfg, objs).err.None?
    ensures ListsOf(ScanAll(cfg, objs).scan.lists, kind).Keys == ListsOf(NoStatus, kind).Keys
    ensures forall st :: st in ListsOf(NoStatus, kind) ==>
      ListsOf(ScanAll(cfg, objs).scan.lists, kind)[st] == Filed(objs, kind, st)
    decreases |objs|
  {
    if |objs| > 0 {
      var prefix := objs[..|objs| - 1];
      ScanAllLists(cfg, prefix, kind);
      ScanRecordLists(ScanAll(cfg, prefix).scan, objs[|objs| - 1], kind);
    }
  }

  /** After a successful load, the list of each state holds, sorted by name
      (services by host name, then description), the objects whose records
      gave that state, once per such record. */
  lemma LoadedLists(cfg: ConfigData, objs: seq<Block>, kind: Kind, st: State)
    requires LoadStatusSpec(Some(cfg), objs).1.Ok?
    requires st in ListsOf(NoStatus, kind)
    ensures st in ListsOf(LoadStatusSpec(Some(cfg), objs).1.value, kind)
    ensures var l := ListsOf(LoadStatusSpec(Some(cfg), objs).1.value, kind)[st];
      SortedBy(l, RefKey) && multiset(l) == multiset(Filed(objs, kind, st))
  {
    ScanAllLists(cfg, objs, kind);
  }

  // ---------------------------------------------------------------------
  // What loading the status changes in the configuration

  function EraseService(s: Service): Service {
    s.(mon := NeverUpdated)
  }

  function EraseHost(h: Host): Host {
    h.(mon := NeverUpdated,
       services := OMap(h.services.keys, map d | d in h.services.m :: EraseService(h.services.m[d])))
  }

  function EraseHosts(hs: OMap<string, Host>): OMap<string, Host> {
    OMap(hs.keys, map k | k in hs.m :: EraseHost(hs.m[k]))
  }

  /** The configuration without any monitored state. */
  function Erase(c: ConfigData): ConfigData {
    match c.hosts
    case None => c
    case Some(hs) => c.(hosts := Some(EraseHosts(hs)))
  }

  lemma ErasePut(hs: OMap<string, Host>, key: string, h: Host)
    requires key in hs.m && EraseHost(h) == EraseHost(hs.m[key])
    ensures EraseHosts(hs.Put(key, h)) == EraseHosts(hs)
  {
    assert EraseHosts(hs.Put(key, h)).m == EraseHosts(hs).m;
  }

  lemma EraseServicePut(h: Host, desc: string, svc: Service)
    requires desc in h.services.m && EraseService(svc) == EraseService(h.services.m[desc])
    ensures EraseHost(h.(services := h.services.Put(desc, svc))) == EraseHost(h)
  {
    var h' := h.(services := h.services.Put(desc, svc));
    assert EraseHost(h').services.m == EraseHost(h).services.m;
  }

  /** Updating an object changes monitored state only. */
  lemma SetMonShape(c: ConfigData, r: Ref, m: Monitored)
    requires MonitoredOf(c, r).Some?
    ensures Erase(SetMon(c, r, m)) == Erase(c)
  {
    var hs := c.hosts.value;
    var key := r.HostName();
    var h := hs.m[key];
    match r
    case HostRef(_) =>
      ErasePut(hs, key, h.(mon := m));
    case SvcRef(_, desc) =>
      var svc := h.services.m[desc];
      EraseServicePut(h, desc, svc.(mon := m));
      ErasePut(hs, key, h.(services := h.services.Put(desc, svc.(mon := m))));
  }

  /** Updating an object changes its monitored state and no other's. */
  lemma SetMonEffect(c: ConfigData, r: Ref, m: Monitored, x: Ref)
    requires MonitoredOf(c, r).Some?
    ensures MonitoredOf(SetMon(c, r, m), x) == if x == r then Some(m) else MonitoredOf(c, x)
  {
  }

  /** A record changes monitored state only. */
  lemma ScanRecordShape(s: Scan, b: Block)
    ensures Erase(ScanRecord(s, b).scan.cfg) == Erase(s.cfg)
  {
    var c := ScanRecord(s, b).scan.cfg;
    if c != s.cfg {
      var key := HostNameOf(b.data);
      if b.otype == HOSTSTATUS {
        SetMonShape(s.cfg, HostRef(key), UpdateState(HostKind, b.data));
      } else {
        SetMonShape(s.cfg, SvcRef(key, ServiceName(b.data)), UpdateState(ServiceKind, b.data));
      }
    }
  }

  /** Loading the status changes the monitored state of hosts and services
      and nothing else of the configuration, whether it succeeds or not. */
  lemma {:induction false} StatusKeepsConfig(cfg: ConfigData, objs: seq<Block>)
    ensures Erase(ScanAll(cfg, objs).scan.cfg) == Erase(cfg)
    decreases |objs|
  {
    if |objs| > 0 {
      var prefix := objs[..|objs| - 1];
      StatusKeepsConfig(cfg, prefix);
      ScanRecordShape(ScanAll(cfg, prefix).scan, objs[|objs| - 1]);
    }
  }

  /** Two configurations equal but for monitored state have the same
      hosts, each with the same name and the same services. */
  lemma EraseSameHost(a: ConfigData, c: ConfigData, key: string)
    requires Erase(a) == Erase(c)
    ensures a.hosts.Some? <==> c.hosts.Some?
    ensures a.hosts.Some? ==> (key in a.hosts.value.m <==> key in c.hosts.value.m)
    ensures a.hosts.Some? && key in a.hosts.value.m ==>
      a.hosts.value.m[key].name == c.hosts.value.m[key].name &&
      a.hosts.value.m[key].services.keys == c.hosts.value.m[key].services.keys &&
      a.hosts.value.m[key].services.m.Keys == c.hosts.value.m[key].services.m.Keys
  {
    if a.hosts.Some? {
      assert EraseHosts(a.hosts.value).m.Keys == a.hosts.value.m.Keys;
      assert EraseHosts(c.hosts.value).m.Keys == c.hosts.value.m.Keys;
      if key in a.hosts.value.m {
        var ha, hc := a.hosts.value.m[key], c.hosts.value.m[key];
        assert EraseHost(ha) == EraseHosts(a.hosts.value).m[key] == EraseHosts(c.hosts.value).m[key] == EraseHost(hc);
        assert EraseHost(ha).services.m.Keys == ha.services.m.Keys;
        assert EraseHost(hc).services.m.Keys == hc.services.m.Keys;
      }
    }
  }

  /** In particular they have the same objects. */
  lemma EraseKeepsObjects(a: ConfigData, b: ConfigData, r: Ref)
    requires Erase(a) == Erase(b)
    ensures MonitoredOf(a, r).Some? <==> MonitoredOf(b, r).Some?
  {
    EraseSameHost(a, b, r.HostName());
  }

  /** A record updates the monitored state of the object it names, if that
      exists, even when it then raises; no other object changes. */
  lemma ScanRecordMon(s: Scan, b: Block, r: Ref)
    ensures MonitoredOf(ScanRecord(s, b).scan.cfg, r) ==
      if RecordRef(b) == Some(r) && MonitoredOf(s.cfg, r).Some? then Some(UpdateState(KindOf(r), b.data))
      else MonitoredOf(s.cfg, r)
  {
    if b.otype == HOSTSTATUS {
      HostScanRecordMon(s, b, r);
    } else if b.otype == SERVICESTATUS {
      ServiceScanRecordMon(s, b, r);
    }
  }

  /** The same for a host record. */
  lemma HostScanRecordMon(s: Scan, b: Block, r: Ref)
    requires b.otype == HOSTSTATUS
    ensures MonitoredOf(HostStatus(s, b.data).scan.cfg, r) ==
      if RecordRef(b) == Some(r) && MonitoredOf(s.cfg, r).Some? then Some(UpdateState(KindOf(r), b.data))
      else MonitoredOf(s.cfg, r)
  {
    var o := HostRef(HostNameOf(b.data));
    assert RecordRef(b) == Some(o);
    if MonitoredOf(s.cfg, o).Some? {
      SetMonEffect(s.cfg, o, UpdateState(HostKind, b.data), r);
    }
  }

  /** The same for a service record. */
  lemma ServiceScanRecordMon(s: Scan, b: Block, r: Ref)
    requires b.otype == SERVICESTATUS
    ensures MonitoredOf(ServiceStatus(s, b.data).scan.cfg, r) ==
      if RecordRef(b) == Some(r) && MonitoredOf(s.cfg, r).Some? then Some(UpdateState(KindOf(r), b.data))
      else MonitoredOf(s.cfg, r)
  {
    var o := SvcRef(HostNameOf(b.data), ServiceName(b.data));
    assert RecordRef(b) == Some(o);
    if MonitoredOf(s.cfg, o).Some? {
      SetMonEffect(s.cfg, o, UpdateState(ServiceKind, b.data), r);
    }
  }

  /** An object no record names keeps its monitored state. */
  lemma {:induction false} UnnamedUnchanged(cfg: ConfigData, objs: seq<Block>, r: Ref)
    requires forall k :: 0 <= k < |objs| ==> RecordRef(objs[k]) != Some(r)
    ensures MonitoredOf(ScanAll(cfg, objs).scan.cfg, r) == MonitoredOf(cfg, r)
    decreases |objs|
  {
    if |objs| > 0 {
      var prefix := objs[..|objs| - 1];
      assert forall k :: 0 <= k < |prefix| ==> prefix[k] == objs[k];
      UnnamedUnchanged(cfg, prefix, r);
      ScanRecordMon(ScanAll(cfg, prefix).scan, objs[|objs| - 1], r);
    }
  }

  /** No record after the `k`th names the object it names. */
  ghost predicate LastNaming(objs: seq<Block>, k: nat) {
    k < |objs| && RecordRef(objs[k]).Some? &&
    forall j :: k < j < |objs| ==> RecordRef(objs[j]) != RecordRef(objs[k])
  }

  lemma LastNamingPrefix(objs: seq<Block>, k: nat)
    requires LastNaming(objs, k) && k < |objs| - 1
    ensures LastNaming(objs[..|objs| - 1], k)
    ensures RecordRef(objs[|objs| - 1]) != RecordRef(objs[k])
  {
  }

  /** After a successful load, an object's monitored state is the one the
      last record naming it gives. */
  lemma {:induction false} LastRecordWins(cfg: ConfigData, objs: seq<Block>, k: nat)
    requires LastNaming(objs, k)
    requires ScanAll(cfg, objs).err.None?
    ensures MonitoredOf(ScanAll(cfg, objs).scan.cfg, RecordRef(objs[k]).value) ==
      Some(UpdateState(KindOf(RecordRef(objs[k]).value), objs[k].data))
    decreases |objs|
  {
    var last := |objs| - 1;
    var prefix := objs[..last];
    var r := RecordRef(objs[k]).value;
    assert ScanAll(cfg, prefix).err.None?;
    ScanRecordMon(ScanAll(cfg, prefix).scan, objs[last], r);
    if k < last {
      LastNamingPrefix(objs, k);
      assert prefix[k] == objs[k];
      LastRecordWins(cfg, prefix, k);
    } else {
      ScanAllLists(cfg, prefix, HostKind);
      ScanAllLists(cfg, prefix, ServiceKind);
      ScanRecordErr(ScanAll(cfg, prefix).scan, objs[last]);
    }
  }

  // ---------------------------------------------------------------------
  // When loading the status raises

  /** A record that loads: a record of another type, or one naming an
      object of the configuration and giving it a state. */
  predicate RecordOk(cfg: ConfigData, b: Block) {
    match RecordRef(b)
    case None => true
    case Some(r) => MonitoredOf(cfg, r).Some? && RecordState(KindOf(r), b.data).Some?
  }

  /** The message a status record that does not load raises. */
  function RecordError(cfg: ConfigData, b: Block): string
    requires RecordRef(b).Some?
  {
    match cfg.hosts
    case None => NilError("[]")
    case Some(hosts) =>
      var key := HostNameOf(b.data);
      var desc := ServiceName(b.data);
      if b.otype == HOSTSTATUS then
        if key !in hosts.m then NilError("update_state") else NilError("<<")
      else if key !in hosts.m then "No host def: " + key
      else if desc !in hosts.m[key].services.m then NoServiceMessage(desc, hosts.m[key])
      else NilError("<<")
  }

  /** Whether a record loads, and what it raises, depend only on the
      configuration without its monitored state. */
  lemma RecordErase(a: ConfigData, c: ConfigData, b: Block)
    requires Erase(a) == Erase(c)
    ensures RecordOk(a, b) == RecordOk(c, b)
    ensures RecordRef(b).Some? ==> RecordError(a, b) == RecordError(c, b)
  {
    EraseSameHost(a, c, HostNameOf(b.data));
  }

  /** A record raises exactly when it does not load, with the message for
      it. */
  lemma ScanRecordErr(s: Scan, b: Block)
    requires ListsOf(s.lists, HostKind).Keys == ListsOf(NoStatus, HostKind).Keys
    requires ListsOf(s.lists, ServiceKind).Keys == ListsOf(NoStatus, ServiceKind).Keys
    ensures ScanRecord(s, b).err.None? <==> RecordOk(s.cfg, b)
    ensures ScanRecord(s, b).err.Some? ==> ScanRecord(s, b).err.value == RecordError(s.cfg, b)
  {
    if b.otype == HOSTSTATUS {
      HostScanRecordErr(s, b);
    } else if b.otype == SERVICESTATUS {
      ServiceScanRecordErr(s, b);
    }
  }

  /** The same for a host record. */
  lemma HostScanRecordErr(s: Scan, b: Block)
    requires b.otype == HOSTSTATUS
    requires ListsOf(s.lists, HostKind).Keys == ListsOf(NoStatus, HostKind).Keys
    requires ListsOf(s.lists, ServiceKind).Keys == ListsOf(NoStatus, ServiceKind).Keys
    ensures HostStatus(s, b.data).err.None? <==> RecordOk(s.cfg, b)
    ensures HostStatus(s, b.data).err.Some? ==> HostStatus(s, b.data).err.value == RecordError(s.cfg, b)
  {
    StateListed(HostKind, b.data);
    assert RecordRef(b) == Some(HostRef(HostNameOf(b.data)));
  }

  /** The same for a service record. */
  lemma ServiceScanRecordErr(s: Scan, b: Block)
    requires b.otype == SERVICESTATUS
    requires ListsOf(s.lists, HostKind).Keys == ListsOf(NoStatus, HostKind).Keys
    requires ListsOf(s.lists, ServiceKind).Keys == ListsOf(NoStatus, ServiceKind).Keys
    ensures ServiceStatus(s, b.data).err.None? <==> RecordOk(s.cfg, b)
    ensures ServiceStatus(s, b.data).err.Some? ==> ServiceStatus(s, b.data).err.value == RecordError(s.cfg, b)
  {
    StateListed(ServiceKind, b.data);
    assert RecordRef(b) == Some(SvcRef(HostNameOf(b.data), ServiceName(b.data)));
  }

  /** The loop completes exactly when every record loads. */
  lemma {:induction false} ScanAllOkIff(cfg: ConfigData, objs: seq<Block>)
    ensures ScanAll(cfg, objs).err.None? <==> forall k :: 0 <= k < |objs| ==> RecordOk(cfg, objs[k])
    decreases |objs|
  {
    if |objs| > 0 {
      var last := |objs| - 1;
      var prefix := objs[..last];
      assert forall k :: 0 <= k < |prefix| ==> prefix[k] == objs[k];
      ScanAllOkIff(cfg, prefix);
      var p := ScanAll(cfg, prefix);
      if p.err.None? {
        ScanAllLists(cfg, prefix, HostKind);
        ScanAllLists(cfg, prefix, ServiceKind);
        StatusKeepsConfig(cfg, prefix);
        RecordErase(p.scan.cfg, cfg, objs[last]);
        ScanRecordErr(p.scan, objs[last]);
      } else {
        var k :| 0 <= k < |prefix| && !RecordOk(cfg, prefix[k]);
      }
    }
  }

  /** Loading the status succeeds exactly when every record loads; otherwise
      it raises what the first record that does not load raises. */
  lemma LoadStatusOutcome(cfg: ConfigData, objs: seq<Block>, k: nat)
    ensures LoadStatusSpec(Some(cfg), objs).1.Ok? <==> forall j :: 0 <= j < |objs| ==> RecordOk(cfg, objs[j])
    ensures k < |objs| && !RecordOk(cfg, objs[k]) && (forall j :: 0 <= j < k ==> RecordOk(cfg, objs[j])) ==>
      LoadStatusSpec(Some(cfg), objs).1 == Err(RecordError(cfg, objs[k]))
  {
    ScanAllOkIff(cfg, objs);
    if k < |objs| && !RecordOk(cfg, objs[k]) && (forall j :: 0 <= j < k ==> RecordOk(cfg, objs[j])) {
      var prefix := objs[..k];
      assert forall j :: 0 <= j < |prefix| ==> prefix[j] == objs[j];
      ScanAllOkIff(cfg, prefix);
      var p := ScanAll(cfg, prefix);
      ScanAllLists(cfg, prefix, HostKind);
      ScanAllLists(cfg, prefix, ServiceKind);
      StatusKeepsConfig(cfg, prefix);
      RecordErase(p.scan.cfg, cfg, objs[k]);
      ScanRecordErr(p.scan, objs[k]);
      ScanAllSnoc(cfg, objs, k);
      ScanAllErrPersists(cfg, objs, k + 1);
    }
  }

  /** A host record whose state fields give no state raises, but the update
      it made stays in the configuration. */
  lemma NilStateKeepsUpdate(cfg: ConfigData, objs: seq<Block>, b: Block)
    requires ScanAll(cfg, objs).err.None?
    requires b.otype == HOSTSTATUS && MonitoredOf(cfg, HostRef(HostNameOf(b.data))).Some?
    requires RecordState(HostKind, b.data).None?
    ensures ScanAll(cfg, objs + [b]).err == Some(NilError("<<"))
    ensures MonitoredOf(ScanAll(cfg, objs + [b]).scan.cfg, HostRef(HostNameOf(b.data))) == Some(UpdateState(HostKind, b.data))
  {
    var p := ScanAll(cfg, objs);
    assert (objs + [b])[..|objs|] == objs;
    StatusKeepsConfig(cfg, objs);
    EraseKeepsObjects(p.scan.cfg, cfg, HostRef(HostNameOf(b.data)));
    ScanRecordMon(p.scan, b, HostRef(HostNameOf(b.data)));
  }
}

=== FILE: ordered_map.dfy ===
/** Ruby's Hash as the gateway uses it: a finite map that enumerates its keys
    in the order they were first inserted. Assigning to a key that is already
    present replaces its value and keeps its place. */
module OrderedMaps {

  import opened Wrappers

  datatype OMap<K(==,!new), V> = OMap(keys: seq<K>, m: map<K, V>) {

    /** Keys are listed once each, and exactly the keys of the map are listed. */
    ghost predicate Valid() {
      (forall i, j :: 0 <= i < j < |keys| ==> keys[i] != keys[j]) &&
      (forall k :: k in m <==> k in keys)
    }

    function Get(k: K): (r: Option<V>)
      ensures r.Some? <==> k in m
      ensures r.Some? ==> r.value == m[k]
    {
      if k in m then Some(m[k]) else None
    }

    /** `h[k] = v`. */
    function Put(k: K, v: V): (r: OMap<K, V>)
      ensures Valid() ==> r.Valid()
      ensures r.m == m[k := v]
      ensures k in m ==> r.keys == keys
      ensures k !in m ==> r.keys == keys + [k]
    {
      if k in m then OMap(keys, m[k := v]) else OMap(keys + [k], m[k := v])
    }

    /** `h.values`, in key order. */
    function Values(): (r: seq<V>)
      requires Valid()
      ensures |r| == |keys|
      ensures forall i :: 0 <= i < |keys| ==> r[i] == m[keys[i]]
    {
      ValuesOf(keys)
    }

    function ValuesOf(ks: seq<K>): (r: seq<V>)
      requires forall k :: k in ks ==> k in m
      ensures |r| == |ks|
      ensures forall i :: 0 <= i < |ks| ==> r[i] == m[ks[i]]
    {
      if |ks| == 0 then [] else [m[ks[0]]] + ValuesOf(ks[1..])
    }

    function Size(): nat {
      |keys|
    }
  }

  function Empty<K(==,!new), V>(): (r: OMap<K, V>)
    ensures r.Valid() && |r.keys| == 0 && r.m == map[]
  {
    OMap([], map[])
  }

  /** The position of a key in the enumeration order. */
  function IndexOf<K(==)>(ks: seq<K>, k: K): (i: nat)
    requires k in ks
    ensures i < |ks| && ks[i] == k
    ensures forall j :: 0 <= j < i ==> ks[j] != k
  {
    if ks[0] == k then 0 else 1 + IndexOf(ks[1..], k)
  }
}

=== FILE: release01.dfy ===
/** Release 0.1 of the gateway, where it differs from the current one: the
    presence test of `available?`, the presence callback's trigger, the
    catch-up message, the status report as lists in a fixed state order,
    the acknowledgement with fixed options, the policy walk without a
    referent, and a `handle_message` that runs every command itself. */
module Release01 {

  import opened Wrappers
  import opened Text
  import opened NagiosModel
  import opened Control
  import opened Events
  import opened StatusReport
  import opened Sorting
  import NagiosStatus
  import opened Chat
  import opened Scanning
  import opened Gateway
  import opened Commands
  import opened Formatting

  // ---------------------------------------------------------------------
  // Presence

  /** `Contact#available?`: an online contact is reachable when the show
      of its last presence is `chat` or absent, the members of
      `[:chat, nil]`. */
  predicate Available01(ri: Option<RosterItem>) {
    ri.Some? && Online(ri.value) &&
    (LastPresence(ri.value).show == None || LastPresence(ri.value).show == Some(ChatShow))
  }

  /** Release 0.1 reads the show alone, so it also counts a last presence
      of type unavailable that has no show or shows `chat`; on every other
      roster item it agrees with the current reading. */
  lemma Available01VersusAvailable(ri: Option<RosterItem>)
    ensures Available(ri) ==> Available01(ri)
    ensures Available01(ri) && !Available(ri) <==>
      (Available01(ri) && LastPresence(ri.value).unavailable)
  {
  }

  /** The presence callback's trigger as written: the presences themselves
      are tested for membership in `[:chat, nil]`. A presence object equals
      neither symbol, so only a missing presence is a member, and the
      trigger is "there was a presence and now there is none". */
  predicate CameOnlineAsWritten01(oldP: Option<Presence>, newP: Option<Presence>) {
    oldP.Some? && newP.None?
  }

  /** The trigger as written never fires on a presence that arrives, and
      when it fires the contact has gone away rather than come back; a
      contact sending its first plain presence has come online but is not
      caught up. */
  lemma CameOnlineAsWrittenNeverReturns(oldP: Option<Presence>, newP: Option<Presence>)
    ensures newP.Some? ==> !CameOnlineAsWritten01(oldP, newP)
    ensures CameOnlineAsWritten01(oldP, newP) ==> !CameOnline(oldP, newP)
    ensures CameOnline(None, Some(Presence(false, None))) && !CameOnlineAsWritten01(None, Some(Presence(false, None)))
  {
    CameOnlineIsAnEdge(None, Some(Presence(false, None)));
  }

  // ---------------------------------------------------------------------
  // Catching up

  /** The object a missed notification names, read straight from the hosts
      table: a missing table, host or service raises when its hard state
      is asked for, and a notification of another type raises. */
  function Referent01(c: ConfigData, n: Notification): (r: Result<Entry>)
    ensures r.Ok? ==> MonitoredOf(c, r.value.ref) == Some(r.value.mon)
    ensures r.Ok? && NType(n) == "host" ==> r.value.ref == HostRef(Param(n, "HOSTNAME"))
    ensures r.Ok? && NType(n) == "service" ==> r.value.ref == SvcRef(Param(n, "HOSTNAME"), Param(n, "SERVICEDESC"))
    ensures r.Ok? <==> ((NType(n) == "host" || NType(n) == "service") && FindReferent(Ok(c), n).Ok? &&
      FindReferent(Ok(c), n).value.Some?)
    ensures r.Ok? ==> FindReferent(Ok(c), n) == Ok(Some(r.value))
  {
    if NType(n) == "host" then
      if c.hosts.None? then Err(NilError("[]"))
      else match c.hosts.value.Get(Param(n, "HOSTNAME"))
        case None => Err(NilError("hard_state"))
        case Some(h) => Ok(Entry(HostRef(Param(n, "HOSTNAME")), h.mon))
    else if NType(n) == "service" then
      if c.hosts.None? then Err(NilError("[]"))
      else match c.hosts.value.Get(Param(n, "HOSTNAME"))
        case None => Err(NilError("services"))
        case Some(h) =>
          match h.services.Get(Param(n, "SERVICEDESC"))
          case None => Err(NilError("hard_state"))
          case Some(s) => Ok(Entry(SvcRef(Param(n, "HOSTNAME"), Param(n, "SERVICEDESC")), s.mon))
    else Err("unexpected ntype in " + InspectProps(n.params) + "!")
  }

  /** `s << x` on a set kept in insertion order. */
  function AddOnce(s: seq<Entry>, x: Entry): (r: seq<Entry>)
    ensures forall e :: e in r <==> e in s || e == x
    ensures (forall i, j :: 0 <= i < j < |s| ==> s[i] != s[j]) ==> forall i, j :: 0 <= i < j < |r| ==> r[i] != r[j]
  {
    if x in s then s else s + [x]
  }

  /** The loop over the missed notifications: the hosts and the services
      in a hard state other than ok, each once, in the order first met.
      The first notification that raises stops the loop. */
  function Collect01(c: ConfigData, ns: seq<Notification>): (r: Result<(seq<Entry>, seq<Entry>)>)
    ensures r.Err? <==> exists n :: n in ns && Referent01(c, n).Err?
    ensures r.Ok? ==> forall e :: e in r.value.0 <==>
      (exists n :: n in ns && Referent01(c, n) == Ok(e)) && e.ref.HostRef? && HardOf(e) != Some(OK)
    ensures r.Ok? ==> forall e :: e in r.value.1 <==>
      (exists n :: n in ns && Referent01(c, n) == Ok(e)) && e.ref.SvcRef? && HardOf(e) != Some(OK)
    ensures r.Ok? ==> forall i, j :: 0 <= i < j < |r.value.0| ==> r.value.0[i] != r.value.0[j]
    ensures r.Ok? ==> forall i, j :: 0 <= i < j < |r.value.1| ==> r.value.1[i] != r.value.1[j]
    decreases |ns|
  {
    if |ns| == 0 then Ok(([], []))
    else
      var front := ns[..|ns| - 1];
      var last := ns[|ns| - 1];
      assert forall n :: n in ns <==> n in front || n == last;
      var acc :- Collect01(c, front);
      var e :- Referent01(c, last);
      if HardOf(e) == Some(OK) then Ok(acc)
      else if e.ref.HostRef? then Ok((AddOnce(acc.0, e), acc.1))
      else Ok((acc.0, AddOnce(acc.1, e)))
  }

  /** A prefix that raises makes the whole loop raise with its message. */
  lemma {:induction false} CollectErrSticks(c: ConfigData, ns: seq<Notification>, k: nat)
    requires k <= |ns| && Collect01(c, ns[..k]).Err?
    ensures Collect01(c, ns) == Collect01(c, ns[..k])
    decreases |ns| - k
  {
    if k < |ns| {
      assert ns[..k + 1][..k] == ns[..k];
      CollectErrSticks(c, ns, k + 1);
    } else {
      assert ns[..k] == ns;
    }
  }

  /** The first missed notification of a type other than host or service
      stops the catch-up with the "unexpected ntype" error, whatever
      follows it. */
  lemma UnknownNTypeRaises01(c: ConfigData, ns: seq<Notification>, k: nat)
    requires k < |ns| && NType(ns[k]) != "host" && NType(ns[k]) != "service"
    requires forall j :: 0 <= j < k ==> Referent01(c, ns[j]).Ok?
    ensures Collect01(c, ns) == Err("unexpected ntype in " + InspectProps(ns[k].params) + "!")
  {
    var front := ns[..k];
    assert forall n :: n in front ==> Referent01(c, n).Ok?;
    assert Collect01(c, front).Ok?;
    assert ns[..k + 1][..k] == front && ns[..k + 1][k] == ns[k];
    assert Collect01(c, ns[..k + 1]) == Err("unexpected ntype in " + InspectProps(ns[k].params) + "!");
    CollectErrSticks(c, ns, k + 1);
  }

  /** The key states are sorted by: the name of the symbol. */
  function StateKey(st: Option<State>): seq<string> {
    [OptStateName(st)]
  }

  /** The message `sort` raises when it must compare nil with a symbol. */
  const SORT_FAILED: string := "comparison of Array with Array failed"

  /** One group line: the state's name as it prints, then the names of the
      objects in that state, in the order they were collected. */
  function GroupText01(es: seq<Entry>, st: Option<State>): string {
    OptStateName(st) + ": " + Join(Labels(WithHard(es, st)), ", ")
  }

  function GroupTexts01(es: seq<Entry>, sts: seq<Option<State>>): (r: seq<string>)
    ensures |r| == |sts| && forall i :: 0 <= i < |sts| ==> r[i] == GroupText01(es, sts[i])
  {
    if |sts| == 0 then [] else [GroupText01(es, sts[0])] + GroupTexts01(es, sts[1..])
  }

  /** `classify { |x| x.hard_state }.sort`: the groups in the order of
      their state names. Sorting compares the states, and a missing state
      cannot be compared with a symbol, so two or more groups of which one
      has no state raise. */
  function SortedStates01(es: seq<Entry>): (r: Result<seq<Option<State>>>)
    ensures r.Err? <==> |HardStates(es)| >= 2 && None in HardStates(es)
    ensures r.Ok? ==> SortedBy(r.value, StateKey) && multiset(r.value) == multiset(HardStates(es))
  {
    var sts := HardStates(es);
    if |sts| >= 2 && None in sts then Err(SORT_FAILED) else Ok(SortBy(sts, StateKey))
  }

  /** The groups of one kind of object, joined by "; ". */
  function GroupsText01(es: seq<Entry>): Result<string> {
    var sts :- SortedStates01(es);
    Ok(Join(GroupTexts01(es, sts), "; "))
  }

  /** `catch_up`'s message: the hosts, then the services, still in a hard
      problem state; nothing when there are none. */
  function CatchUpMessage01(cfg: Result<ConfigData>, missed: seq<Notification>): (r: Result<Option<string>>)
    ensures cfg.Err? ==> r == Err(cfg.msg)
    ensures cfg.Ok? ==> (r.Err? <==> (Collect01(cfg.value, missed).Err? ||
      SortedStates01(Collect01(cfg.value, missed).value.0).Err? ||
      SortedStates01(Collect01(cfg.value, missed).value.1).Err?))
    ensures r.Ok? ==> (r.value.None? <==> Collect01(cfg.value, missed) == Ok(([], [])))
  {
    var c :- cfg;
    var acc :- Collect01(c, missed);
    MessageOf01(acc.0, acc.1)
  }

  /** The message for the hosts `hs` and the services `ss`: a line of
      groups for each kind that has any, after the heading. */
  function MessageOf01(hs: seq<Entry>, ss: seq<Entry>): (r: Result<Option<string>>)
    ensures r.Err? <==> (hs != [] && SortedStates01(hs).Err?) || (ss != [] && SortedStates01(ss).Err?)
    ensures r.Ok? && r.value.Some? ==> WHILE_OUT <= r.value.value
  {
    if hs == [] && ss == [] then Ok(None)
    else
      var ht :- if hs == [] then Ok("") else GroupsText01(hs);
      var st :- if ss == [] then Ok("") else GroupsText01(ss);
      var m1 := if hs == [] then WHILE_OUT else WHILE_OUT + ht + "\n";
      Ok(Some(if ss == [] then m1 else m1 + st + "\n"))
  }

  /** Every object still in a problem state that a missed notification
      names is reported once, and every reported object is such an object:
      the same objects the current release reports, when every missed
      notification names an object that exists. */
  lemma Collect01AgreesWithCurrent(c: ConfigData, missed: seq<Notification>)
    requires forall n :: n in missed ==> Referent01(c, n).Ok?
    ensures Collect01(c, missed).Ok? && Referents(Ok(c), missed).Ok?
    ensures var acc := Collect01(c, missed).value; var bad := StillBad(Referents(Ok(c), missed).value);
      forall e :: e in acc.0 + acc.1 <==> e in bad
  {
    var acc := Collect01(c, missed).value;
    var found := Referents(Ok(c), missed).value;
    forall e | e in acc.0 + acc.1
      ensures e in StillBad(found)
    {
      var n :| n in missed && Referent01(c, n) == Ok(e);
    }
    forall e | e in StillBad(found)
      ensures e in acc.0 + acc.1
    {
      var n :| n in missed && FindReferent(Ok(c), n) == Ok(Some(e));
      assert Referent01(c, n) == Ok(e);
    }
  }

  /** A contact whose missed notifications all name objects that are hard
      ok now is sent nothing. */
  lemma {:induction false} CatchUp01QuietWhenRecovered(c: ConfigData, missed: seq<Notification>)
    requires forall n :: n in missed ==> Referent01(c, n).Ok? && HardOf(Referent01(c, n).value) == Some(OK)
    ensures Collect01(c, missed) == Ok(([], []))
    ensures CatchUpMessage01(Ok(c), missed) == Ok(None)
    decreases |missed|
  {
    if |missed| > 0 {
      var front := missed[..|missed| - 1];
      assert forall n :: n in front ==> n in missed;
      CatchUp01QuietWhenRecovered(c, front);
      assert missed[|missed| - 1] in missed;
    }
  }

  /** Hosts in two states, one of them unknown, make the catch-up raise
      instead of sending the message. */
  lemma MissingStateBreaksSort01(a: Entry, b: Entry)
    requires HardOf(a) == None && HardOf(b) == Some(DOWN)
    ensures GroupsText01([a, b]).Err?
  {
    assert [a, b][..1] == [a];
    assert HardStates([a]) == [None];
    assert HardStates([a, b]) == [None, Some(DOWN)];
  }

  // ---------------------------------------------------------------------
  // The status report

  /** The objects of one state. */
  datatype Bucket = Bucket(state: State, refs: seq<Ref>)

  /** `status_report`: the host lists and the service lists, each a list of
      states with their objects. */
  datatype Report01 = Report01(hosts: seq<Bucket>, services: seq<Bucket>)

  /** The states the report lists, in order. */
  const HOST_ORDER01: seq<State> := [DOWN, UNREACHABLE]
  const SVC_ORDER01: seq<State> := [CRITICAL, WARNING, UNKNOWN]

  /** The states of `order` whose list is not empty, each with its list. A
      state without a list raises when its list is asked whether it is
      empty. */
  function Buckets01(m: map<State, seq<Ref>>, order: seq<State>): (r: Result<seq<Bucket>>)
    ensures r.Err? <==> exists st :: st in order && st !in m
    ensures r.Err? ==> r.msg == NilError("empty?")
    ensures r.Ok? ==> forall i :: 0 <= i < |r.value| ==>
      r.value[i].state in order && r.value[i].state in m && r.value[i].refs == m[r.value[i].state] && r.value[i].refs != []
    ensures r.Ok? ==> forall st :: st in order && st in m && m[st] != [] ==>
      exists i :: 0 <= i < |r.value| && r.value[i].state == st
    decreases |order|
  {
    if |order| == 0 then Ok([])
    else
      var front := order[..|order| - 1];
      var st := order[|order| - 1];
      assert forall x :: x in order <==> x in front || x == st;
      var bs :- Buckets01(m, front);
      if st !in m then Err(NilError("empty?"))
      else if m[st] == [] then Ok(bs)
      else
        var r := bs + [Bucket(st, m[st])];
        assert forall i :: 0 <= i < |bs| ==> r[i] == bs[i];
        assert r[|bs|].state == st;
        Ok(r)
  }

  /** `x` comes before `y` in `order`. */
  predicate Before(order: seq<State>, x: State, y: State) {
    exists a, b :: 0 <= a < b < |order| && order[a] == x && order[b] == y
  }

  /** Each list's state comes before the next one's in `order`. */
  predicate InOrder(order: seq<State>, bs: seq<Bucket>) {
    forall i, j :: 0 <= i < j < |bs| ==> Before(order, bs[i].state, bs[j].state)
  }

  /** Appending a list for the last state of `order` keeps the order. */
  lemma InOrderSnoc(order: seq<State>, bs: seq<Bucket>, r: seq<Bucket>)
    requires |order| > 0 && InOrder(order[..|order| - 1], bs)
    requires forall i :: 0 <= i < |bs| ==> bs[i].state in order[..|order| - 1]
    requires |bs| <= |r| <= |bs| + 1 && r[..|bs|] == bs
    requires |r| == |bs| + 1 ==> r[|bs|].state == order[|order| - 1]
    ensures InOrder(order, r)
  {
    var front := order[..|order| - 1];
    forall i, j | 0 <= i < j < |r|
      ensures Before(order, r[i].state, r[j].state)
    {
      assert r[i] == bs[i];
      if j < |bs| {
        assert r[j] == bs[j];
        assert Before(front, bs[i].state, bs[j].state);
        var a, b :| 0 <= a < b < |front| && front[a] == bs[i].state && front[b] == bs[j].state;
        assert 0 <= a < b < |order| && order[a] == r[i].state && order[b] == r[j].state;
      } else {
        assert bs[i].state in front;
        var a :| 0 <= a < |front| && front[a] == bs[i].state;
        assert 0 <= a < |order| - 1 && order[a] == r[i].state && order[|order| - 1] == r[j].state;
      }
    }
  }

  /** The lists come in the order of `order`. */
  lemma {:induction false} Buckets01InOrder(m: map<State, seq<Ref>>, order: seq<State>)
    requires Buckets01(m, order).Ok?
    ensures InOrder(order, Buckets01(m, order).value)
    decreases |order|
  {
    if |order| > 0 {
      var front := order[..|order| - 1];
      var st := order[|order| - 1];
      var bs := Buckets01(m, front).value;
      Buckets01InOrder(m, front);
      var r := Buckets01(m, order).value;
      assert r[..|bs|] == bs;
      InOrderSnoc(order, bs, r);
    }
  }

  /** The report the lists give: the hosts, then the services. */
  function StatusReportSpec01(s: NagiosStatus.StatusData): Result<Report01> {
    var hs :- Buckets01(s.hostsBy, HOST_ORDER01);
    var ss :- Buckets01(s.servicesBy, SVC_ORDER01);
    Ok(Report01(hs, ss))
  }

  /** The lists of one kind, for the states of `order`. */
  method CollectBuckets(m: map<State, seq<Ref>>, order: seq<State>) returns (r: Result<seq<Bucket>>)
    ensures r == Buckets01(m, order)
  {
    var acc: seq<Bucket> := [];
    var i := 0;
    while i < |order|
      invariant 0 <= i <= |order|
      invariant Buckets01(m, order[..i]) == Ok(acc)
    {
      var st := order[i];
      assert order[..i + 1][..i] == order[..i] && order[..i + 1][i] == st;
      if st !in m {
        assert st in order;
        return Err(NilError("empty?"));
      }
      if m[st] != [] {
        acc := acc + [Bucket(st, m[st])];
      }
      i := i + 1;
    }
    assert order[..i] == order;
    return Ok(acc);
  }

  /** `status_report`: the host states down and unreachable, then the
      service states critical, warning and unknown, each with its objects
      when it has any. */
  method StatusReport01(s: NagiosStatus.StatusData) returns (r: Result<Report01>)
    ensures r == StatusReportSpec01(s)
  {
    var hs := CollectBuckets(s.hostsBy, HOST_ORDER01);
    if hs.Err? {
      return Err(hs.msg);
    }
    var ss := CollectBuckets(s.servicesBy, SVC_ORDER01);
    if ss.Err? {
      return Err(ss.msg);
    }
    return Ok(Report01(hs.value, ss.value));
  }

  /** Loaded status has a list for every state of each kind, so the report
      never raises; when nothing is in trouble it is empty. */
  lemma StatusReport01OfLoadedStatus(s: NagiosStatus.StatusData)
    requires s.hostsBy.Keys == NagiosStatus.NoStatus.hostsBy.Keys
    requires s.servicesBy.Keys == NagiosStatus.NoStatus.servicesBy.Keys
    ensures StatusReportSpec01(s).Ok?
    ensures ((forall st :: st in s.hostsBy ==> s.hostsBy[st] == []) &&
      (forall st :: st in s.servicesBy ==> s.servicesBy[st] == [])) ==>
      StatusReportSpec01(s) == Ok(Report01([], []))
  {
    var hs := Buckets01(s.hostsBy, HOST_ORDER01);
    var ss := Buckets01(s.servicesBy, SVC_ORDER01);
    if hs.Ok? && |hs.value| > 0 {
      assert hs.value[0].refs == s.hostsBy[hs.value[0].state] && hs.value[0].refs != [];
    }
    if ss.Ok? && |ss.value| > 0 {
      assert ss.value[0].refs == s.servicesBy[ss.value[0].state] && ss.value[0].refs != [];
    }
    assert DOWN in NagiosStatus.NoStatus.hostsBy && UNREACHABLE in NagiosStatus.NoStatus.hostsBy;
    assert CRITICAL in NagiosStatus.NoStatus.servicesBy && WARNING in NagiosStatus.NoStatus.servicesBy;
    assert UNKNOWN in NagiosStatus.NoStatus.servicesBy;
  }

  // ---------------------------------------------------------------------
  // Acknowledging

  /** The options release 0.1 acknowledges with: not sticky, notify,
      persistent. */
  function AckOptions01(author: string, comment: string): AckOptions {
    AckOptions(Some(0), Some(1), Some(1), Some(author), Some(comment))
  }

  /** `NagiosInstance#ack(n, user, comment)`: the acknowledgement of the
      notification's service or host by `author`; another notification
      type raises. */
  function Ack01(now: int, n: Notification, author: string, comment: string): Result<string> {
    if NType(n) == "service" then
      Ok(Acknowledge(now, SvcRef(Param(n, "HOSTNAME"), Param(n, "SERVICEDESC")), AckOptions01(author, comment)))
    else if NType(n) == "host" then
      Ok(Acknowledge(now, HostRef(Param(n, "HOSTNAME")), AckOptions01(author, comment)))
    else Err("unsupported ntype " + NType(n))
  }

  /** The target the acknowledgement names. */
  function AckTarget01(n: Notification): Ref {
    if NType(n) == "service" then SvcRef(Param(n, "HOSTNAME"), Param(n, "SERVICEDESC"))
    else HostRef(Param(n, "HOSTNAME"))
  }

  /** A host or service notification is acknowledged on the line that
      reads back as its names, sticky 0, notify 1, persistent 1, the author
      and the comment; any other type raises. */
  lemma Ack01Fields(now: int, n: Notification, author: string, comment: string)
    ensures NType(n) != "host" && NType(n) != "service" ==> Ack01(now, n, author, comment) == Err("unsupported ntype " + NType(n))
    ensures ((NType(n) == "host" || NType(n) == "service") && ';' !in Param(n, "HOSTNAME") && ';' !in Param(n, "SERVICEDESC") &&
      ';' !in author && ';' !in comment) ==>
        Ack01(now, n, author, comment).Ok? &&
        ParseControl(Ack01(now, n, author, comment).value) ==
          Some(Command(now, AckDirective(AckTarget01(n)), TargetArgs(AckTarget01(n)) + ["0", "1", "1", author, comment]))
  {
    var r := AckTarget01(n);
    if (NType(n) == "host" || NType(n) == "service") && ';' !in Param(n, "HOSTNAME") && ';' !in Param(n, "SERVICEDESC") &&
      ';' !in author && ';' !in comment {
      AcknowledgeFields(now, r, AckOptions01(author, comment));
      assert IntToString(0) == "0" && IntToString(1) == "1";
    }
  }

  // ---------------------------------------------------------------------
  // Delivering a notification

  /** What the switchboard knows of a chat contact in release 0.1. */
  function View01(x: ChatContact): View
    reads x
  {
    View(Available01(x.rosterItem), x.missed, x.recent, x.seqNo)
  }

  /** The lookups of release 0.1's chat formatter: `service_notify` finds
      the notification's host, raising when there is none, and then fetches
      its service, raising a key error when there is none. Host
      notifications look nothing up. */
  function ServiceNotify01(cfg: Result<ConfigData>, n: Notification): (r: Result<Service>)
    ensures var fs := FindService(cfg, Param(n, "HOSTNAME"), Param(n, "SERVICEDESC"));
      r.Ok? <==> (fs.Ok? && fs.value.Some?)
    ensures r.Ok? ==> r.value == FindService(cfg, Param(n, "HOSTNAME"), Param(n, "SERVICEDESC")).value.value
    ensures FindHost(cfg, Param(n, "HOSTNAME")).Err? ==> r == Err(FindHost(cfg, Param(n, "HOSTNAME")).msg)
    ensures FindHost(cfg, Param(n, "HOSTNAME")) == Ok(None) ==>
      r == Err("Notification for " + Param(n, "HOSTNAME") + " but could not find host definition!")
    ensures var fh := FindHost(cfg, Param(n, "HOSTNAME"));
      (fh.Ok? && fh.value.Some? && FindService(cfg, Param(n, "HOSTNAME"), Param(n, "SERVICEDESC")) == Ok(None)) ==>
        r == Err(KeyNotFound(Param(n, "SERVICEDESC")))
  {
    var h :- FindHost(cfg, Param(n, "HOSTNAME"));
    if h.None? then Err("Notification for " + Param(n, "HOSTNAME") + " but could not find host definition!")
    else match h.value.services.Get(Param(n, "SERVICEDESC"))
      case None => Err(KeyNotFound(Param(n, "SERVICEDESC")))
      case Some(svc) => Ok(svc)
  }

  /** One policy tried in release 0.1: as in the current release, except
      that a service notification reaching a chat contact is formatted only
      after its number is taken, so a failed lookup raises with the number
      used up and nothing sent. */
  function PolicyStep01(conf: Conf, cfg: Result<ConfigData>, contact: Item, p: string, view: Option<View>, n: Notification): (s: Step)
    ensures var t := PolicyStep(conf, contact, p, view, n);
      s == (if p == "xmpp" && NType(n) == "service" && t.stop && t.outcome == Pass && ServiceNotify01(cfg, n).Err?
            then Step(t.view, [], true, Fail(ServiceNotify01(cfg, n).msg)) else t)
  {
    var t := PolicyStep(conf, contact, p, view, n);
    if p == "xmpp" && NType(n) == "service" && t.stop && t.outcome == Pass then
      match ServiceNotify01(cfg, n)
      case Err(e) => Step(t.view, [], true, Fail(e))
      case Ok(_) => t
    else t
  }

  /** The walk over the policies in release 0.1. */
  function WalkSpec01(conf: Conf, cfg: Result<ConfigData>, contact: Item, ps: seq<string>, view: Option<View>, n: Notification): Walk
    decreases |ps|
  {
    if |ps| == 0 then Walk(view, [], Pass)
    else
      var s := PolicyStep01(conf, cfg, contact, ps[0], view, n);
      if s.stop then Walk(s.view, s.sent, s.outcome)
      else After(s.sent, WalkSpec01(conf, cfg, contact, ps[1..], s.view, n))
  }

  /** When the formatter's lookups succeed (and always for a host
      notification), the walk of release 0.1 is the current release's. */
  lemma {:induction false} WalkSpec01WhenFound(conf: Conf, cfg: Result<ConfigData>, contact: Item, ps: seq<string>,
                                                 view: Option<View>, n: Notification)
    requires NType(n) != "service" || ServiceNotify01(cfg, n).Ok?
    ensures WalkSpec01(conf, cfg, contact, ps, view, n) == WalkSpec(conf, contact, ps, view, n)
    decreases |ps|
  {
    if |ps| > 0 {
      var s := PolicyStep(conf, contact, ps[0], view, n);
      assert PolicyStep01(conf, cfg, contact, ps[0], view, n) == s;
      if !s.stop {
        WalkSpec01WhenFound(conf, cfg, contact, ps[1..], s.view, n);
      }
    }
  }

  /** `notification(contact_name, policy_spec, n)`: the contact is fetched
      by name, then the policies are tried in order; the referent is not
      looked up before the walk. */
  function Notification01(conf: Conf, cfg: Result<ConfigData>, contactName: string, policySpec: string,
                          view: Option<View>, n: Notification): (w: Walk)
    ensures ContactNamed(cfg, contactName).Err? ==> w == Walk(view, [], Fail(ContactNamed(cfg, contactName).msg))
    ensures ContactNamed(cfg, contactName).Ok? ==>
      w == WalkSpec01(conf, cfg, ContactNamed(cfg, contactName).value, RubySplit(policySpec, ';'), view, n)
  {
    match ContactNamed(cfg, contactName)
    case Err(m) => Walk(view, [], Fail(m))
    case Ok(contact) => WalkSpec01(conf, cfg, contact, RubySplit(policySpec, ';'), view, n)
  }

  /** A host notification naming no host is still delivered: where the
      current release raises before any channel is tried, release 0.1 walks
      the policies as the current release's walk does. */
  lemma Notification01NeedsNoReferent(conf: Conf, cfg: Result<ConfigData>, contactName: string, policySpec: string,
                                      view: Option<View>, n: Notification)
    requires ContactNamed(cfg, contactName).Ok? && NType(n) == "host" && FindReferent(cfg, n) == Ok(None)
    ensures Notification01(conf, cfg, contactName, policySpec, view, n) ==
      WalkSpec(conf, ContactNamed(cfg, contactName).value, RubySplit(policySpec, ';'), view, n)
  {
    WalkSpec01WhenFound(conf, cfg, ContactNamed(cfg, contactName).value, RubySplit(policySpec, ';'), view, n);
  }

  /** A service notification whose host is not configured is not delivered
      to a reachable chat contact: the walk raises at the first `xmpp`,
      nothing is sent, and the number it took stays used. */
  lemma MissingHostLosesSlot01(conf: Conf, cfg: Result<ConfigData>, contact: Item, rest: seq<string>, v: View, n: Notification)
    requires v.available && contact.props.Get(conf.xmppField).Some?
    requires NType(n) == "service" && FindHost(cfg, Param(n, "HOSTNAME")) == Ok(None)
    requires RenderNotification(ChatText, n.(number := Some(NextSeq(v.seqNo)))).Ok?
    ensures var w := WalkSpec01(conf, cfg, contact, ["xmpp"] + rest, Some(v), n);
      w.outcome == Fail("Notification for " + Param(n, "HOSTNAME") + " but could not find host definition!") &&
      w.sent == [] &&
      w.view == Some(v.(recent := v.recent[NextSeq(v.seqNo) := n], seqNo := NextSeq(v.seqNo)))
  {
    var t := PolicyStep(conf, contact, "xmpp", Some(v), n);
    assert t.stop && t.outcome == Pass;
  }

  // ---------------------------------------------------------------------
  // The presence callback and the catch-up

  /** `catch_up(x_contact)`: the missed notifications are looked up one by
      one, and the hosts and services still in trouble are reported; the
      missed queue is left as it is. */
  method CatchUp01(sb: Switchboard, x: ChatContact, cfg: Result<ConfigData>) returns (r: Outcome)
    modifies sb.out
    ensures x.missed == [] ==> r == Pass && sb.out.events == old(sb.out.events)
    ensures x.missed != [] && CatchUpMessage01(cfg, x.missed).Err? ==>
      r == Fail(CatchUpMessage01(cfg, x.missed).msg) && sb.out.events == old(sb.out.events)
    ensures x.missed != [] && CatchUpMessage01(cfg, x.missed).Ok? ==>
      r == Pass && sb.out.events == old(sb.out.events) +
        (match CatchUpMessage01(cfg, x.missed).value
         case None => []
         case Some(m) => [Chat(x.jid, m)])
  {
    if x.missed == [] {
      return Pass;
    }
    if cfg.Err? {
      return Fail(cfg.msg);
    }
    var acc := CollectMissed(cfg.value, x.missed);
    if acc.Err? {
      return Fail(acc.msg);
    }
    var mh := acc.value.0;
    var ms := acc.value.1;
    assert CatchUpMessage01(cfg, x.missed) == MessageOf01(mh, ms);
    if mh == [] && ms == [] {
      return Pass;
    }
    var msg := WHILE_OUT;
    if mh != [] {
      var h := GroupsText01(mh);
      if h.Err? {
        return Fail(h.msg);
      }
      msg := msg + h.value + "\n";
    }
    if ms != [] {
      var s := GroupsText01(ms);
      if s.Err? {
        return Fail(s.msg);
      }
      msg := msg + s.value + "\n";
    }
    sb.out.Send(Chat(x.jid, msg));
    return Pass;
  }

  /** The loop of `catch_up` over the missed notifications, adding each
      host and each service still in trouble to its set. */
  method CollectMissed(c: ConfigData, missed: seq<Notification>) returns (r: Result<(seq<Entry>, seq<Entry>)>)
    ensures r == Collect01(c, missed)
  {
    var mh: seq<Entry> := [];
    var ms: seq<Entry> := [];
    var i := 0;
    while i < |missed|
      invariant 0 <= i <= |missed|
      invariant Collect01(c, missed[..i]) == Ok((mh, ms))
    {
      var n := missed[i];
      assert missed[..i + 1][..i] == missed[..i] && missed[..i + 1][i] == n;
      var e := Referent01(c, n);
      if e.Err? {
        CollectErrSticks(c, missed, i + 1);
        return Err(e.msg);
      }
      if HardOf(e.value) != Some(OK) {
        if e.value.ref.HostRef? {
          if e.value !in mh {
            mh := mh + [e.value];
          }
        } else if e.value !in ms {
          ms := ms + [e.value];
        }
      }
      i := i + 1;
    }
    assert missed[..i] == missed;
    return Ok((mh, ms));
  }

  /** The presence callback: the contact is registered if new, and caught
      up when it has come online (the corrected trigger, see
      `CameOnlineAsWritten01`). */
  method PresenceCallback01(sb: Switchboard, item: RosterItem, oldP: Option<Presence>, newP: Option<Presence>,
                            cfg: Result<ConfigData>) returns (r: Outcome)
    requires sb.Valid()
    modifies sb.xmpp, sb.xmpp.contacts.Values, sb.out
    ensures sb.Valid()
    ensures BareJid(item.jid) in sb.xmpp.contacts
    ensures forall j :: j in old(sb.xmpp.contacts) ==> j in sb.xmpp.contacts && sb.xmpp.contacts[j] == old(sb.xmpp.contacts[j])
    ensures forall j :: j in old(sb.xmpp.contacts) ==> sb.xmpp.contacts[j].missed == old(sb.xmpp.contacts[j].missed)
    ensures !CameOnline(oldP, newP) ==> r == Pass && sb.out.events == old(sb.out.events)
    ensures BareJid(item.jid) !in old(sb.xmpp.contacts) ==> r == Pass && sb.out.events == old(sb.out.events)
    ensures CameOnline(oldP, newP) && BareJid(item.jid) in old(sb.xmpp.contacts) && old(sb.xmpp.contacts[BareJid(item.jid)].missed) == [] ==>
      r == Pass && sb.out.events == old(sb.out.events)
    ensures CameOnline(oldP, newP) && BareJid(item.jid) in old(sb.xmpp.contacts) && old(sb.xmpp.contacts[BareJid(item.jid)].missed) != [] ==>
      var missed := old(sb.xmpp.contacts[BareJid(item.jid)].missed);
      CatchUpMessage01(cfg, missed).Err? ==>
        r == Fail(CatchUpMessage01(cfg, missed).msg) && sb.out.events == old(sb.out.events)
    ensures CameOnline(oldP, newP) && BareJid(item.jid) in old(sb.xmpp.contacts) && old(sb.xmpp.contacts[BareJid(item.jid)].missed) != [] ==>
      var missed := old(sb.xmpp.contacts[BareJid(item.jid)].missed);
      CatchUpMessage01(cfg, missed).Ok? ==>
        r == Pass && sb.out.events == old(sb.out.events) +
          (match CatchUpMessage01(cfg, missed).value
           case None => []
           case Some(m) => [Chat(sb.xmpp.contacts[BareJid(item.jid)].jid, m)])
  {
    var c, came := sb.xmpp.PresenceChanged(item, oldP, newP);
    if came {
      r := CatchUp01(sb, c, cfg);
    } else {
      r := Pass;
    }
  }
}

=== FILE: release01_chat.dfy ===
/** The chat commands of release 0.1, all handled inside `handle_message`:
    the first word of the body (letters, digits, '_' and '@') picks the
    command, which reads on from the string scanner; what raised is
    answered with "Oops." and the message. Service names are matched
    case-sensitively here, and the status report and the service detail
    come from the chat formatter, which is a parameter. */
module Release01Chat {

  import opened Wrappers
  import opened Text
  import opened NagiosModel
  import opened Control
  import opened Events
  import opened StatusReport
  import opened Sorting
  import NagiosStatus
  import opened Chat
  import opened Scanning
  import opened Gateway
  import opened Commands
  import opened Release01

  /** The chat formatter's views: the status report and a service's
      detail. */
  datatype Render01 = Render01(statusReport: Report01 -> string, serviceDetail: Entry -> string)

  /** A chat message to `to` and nothing raised. */
  function Tell(to: string, pos: nat, text: string): Effect {
    Effect(pos, [Chat(to, text)], [], Pass)
  }

  /** One line written to the command pipe and nothing raised. */
  function Write(pos: nat, line: string): Effect {
    Effect(pos, [Control(line)], [], Pass)
  }

  // ---------------------------------------------------------------------
  // The commands, as functions of what they read, the text and the cursor

  /** `status`: the report of the loaded status, rendered. */
  function Status01At(from: string, status: Result<NagiosStatus.StatusData>, render: Render01, pos: nat): (e: Effect)
    ensures e.outcome == Pass <==> status.Ok? && StatusReportSpec01(status.value).Ok?
    ensures e.outcome == Pass ==> e.sent == [Chat(from, render.statusReport(StatusReportSpec01(status.value).value))]
    ensures e.outcome.Fail? ==> e.sent == []
  {
    match status
    case Err(m) => Raise(pos, m)
    case Ok(s) =>
      match StatusReportSpec01(s)
      case Err(m) => Raise(pos, m)
      case Ok(rep) => Tell(from, pos, render.statusReport(rep))
  }

  /** `check`: skip spaces (a skip of nothing answers 0, which is true, so
      it never raises), then a word and '/' name a host whose service is
      resolved from the text after the '/', or a word alone names a host;
      no word raises "syntax". The check is forced at the current time. */
  function Check01At(cfg: Result<ConfigData>, now: int, text: string, pos: nat): Effect
    requires pos <= |text|
  {
    CheckWord01At(cfg, now, text, SpanEnd(text, pos, Space))
  }

  /** `check` after the spaces. */
  function CheckWord01At(cfg: Result<ConfigData>, now: int, text: string, p: nat): Effect
    requires p <= |text|
  {
    var e := SpanEnd(text, p, Word);
    if e > p && e < |text| && text[e] == '/' then CheckService01At(cfg, now, text[p..e], text, e + 1)
    else if e > p then CheckHost01At(cfg, now, text[p..e], e)
    else Raise(p, "syntax")
  }

  /** `check host/svc`, with the cursor after the '/'. */
  function CheckService01At(cfg: Result<ConfigData>, now: int, name: string, text: string, pos: nat): Effect
    requires pos <= |text|
  {
    match FindHost(cfg, name)
    case Err(m) => Raise(pos, m)
    case Ok(None) => Raise(pos, "Unknown host " + name)
    case Ok(Some(h)) =>
      var s := ResolveAt(name, h, text, pos, false);
      if s.result.Err? then Raise(s.pos, s.result.msg)
      else Write(s.pos, ForceCheck(now, s.result.value.ref, now))
  }

  /** `check host`, with the cursor after the name. */
  function CheckHost01At(cfg: Result<ConfigData>, now: int, name: string, pos: nat): Effect {
    match FindHost(cfg, name)
    case Err(m) => Raise(pos, m)
    case Ok(None) => Raise(pos, "Unknown host " + name)
    case Ok(Some(h)) => Write(pos, ForceCheck(now, HostRef(name), now))
  }

  /** `check` raises "syntax" exactly when no word follows the spaces, and
      a check it forces names the word before the '/' or the whole word. */
  lemma Check01Syntax(cfg: Result<ConfigData>, now: int, text: string, pos: nat)
    requires pos <= |text|
    ensures var p := SpanEnd(text, pos, Space);
      RunAt(text, p, Word).None? <==> Check01At(cfg, now, text, pos) == Raise(p, "syntax")
    ensures var p := SpanEnd(text, pos, Space); var e := Check01At(cfg, now, text, pos);
      e.outcome == Pass ==> (RunAt(text, p, Word).Some? && |e.sent| == 1 && e.sent[0].Control? &&
        exists r: Ref :: r.host == RunAt(text, p, Word).value && e.sent[0] == Control(ForceCheck(now, r, now)))
  {
    var p := SpanEnd(text, pos, Space);
    var e := SpanEnd(text, p, Word);
    var eff := Check01At(cfg, now, text, pos);
    if eff.outcome == Pass {
      if e < |text| && text[e] == '/' {
        var h := FindHost(cfg, text[p..e]).value.value;
        var s := ResolveAt(text[p..e], h, text, e + 1, false);
        assert eff.sent[0] == Control(ForceCheck(now, s.result.value.ref, now));
      } else {
        assert eff.sent[0] == Control(ForceCheck(now, HostRef(text[p..e]), now));
      }
    }
  }

  /** A reply `ack`: the sender's configured contact is looked up first,
      then spaces are skipped and the comment is taken; the notification
      is acknowledged by the contact's name. */
  function ReplyAck01At(cfg: Result<ConfigData>, field: string, now: int, jid: string, n: Notification,
                        text: string, pos: nat): (e: Effect)
    requires pos <= |text|
    ensures e.outcome == Pass ==> (FindContactWithJid(cfg, field, jid).Ok? && FindContactWithJid(cfg, field, jid).value.Some? &&
      var author := FindContactWithJid(cfg, field, jid).value.value.name;
      var comment := ReplyComment(text, SpanEnd(text, pos, Space)).1;
      Ack01(now, n, author, comment).Ok? && e.sent == [Control(Ack01(now, n, author, comment).value)])
    ensures e.outcome.Fail? ==> e.sent == []
  {
    match FindContactWithJid(cfg, field, jid)
    case Err(m) => Raise(pos, m)
    case Ok(None) => Raise(pos, "No Nagios contact with JID " + jid + "?")
    case Ok(Some(nc)) =>
      var (p, comment) := ReplyComment(text, SpanEnd(text, pos, Space));
      match Ack01(now, n, nc.name, comment)
      case Err(m) => Raise(p, m)
      case Ok(line) => Write(p, line)
  }

  /** A reply `check`: the notification's referent is looked up; a
      notification naming nothing raises with the notification. */
  function ReplyCheck01At(cfg: Result<ConfigData>, now: int, n: Notification, pos: nat): (e: Effect)
    ensures e.outcome == Pass <==> FindReferent(cfg, n).Ok? && FindReferent(cfg, n).value.Some?
    ensures e.outcome == Pass ==> e.sent == [Control(ForceCheck(now, FindReferent(cfg, n).value.value.ref, now))]
    ensures FindReferent(cfg, n) == Ok(None) ==>
      e.outcome == Fail("Couldn't find what notification referred to: " + InspectProps(n.params))
  {
    match FindReferent(cfg, n)
    case Err(m) => Raise(pos, m)
    case Ok(None) => Raise(pos, "Couldn't find what notification referred to: " + InspectProps(n.params))
    case Ok(Some(e)) => Write(pos, ForceCheck(now, e.ref, now))
  }

  /** A reply whose slot holds `n`: a word names the subcommand; `ack` and
      `check` run, and any other word does nothing. */
  function ReplySub01At(cfg: Result<ConfigData>, field: string, now: int, jid: string, n: Notification,
                        text: string, pos: nat): Effect
    requires pos <= |text|
  {
    var p := SpanEnd(text, pos, Space);
    match RunAt(text, p, Word)
    case None => Raise(p, "Missing subcommand!")
    case Some(w) =>
      if w == "ack" then ReplyAck01At(cfg, field, now, jid, n, text, p + |w|)
      else if w == "check" then ReplyCheck01At(cfg, now, n, p + |w|)
      else Effect(p + |w|, [], [], Pass)
  }

  /** `@N ...`: the slot is the digit after the `@`; a sender without a
      chat contact raises, an empty slot is answered. */
  function Reply01At(c: Ctx, word: string, text: string, pos: nat): Effect
    requires pos <= |text| && IsReplyWord(word)
  {
    if c.sender.None? then Raise(pos, NilError("recent"))
    else if DigitValue(word[1]) !in c.sender.value.recent then
      Tell(c.from, pos, "No record of notification " + [word[1]] + ", sorry.")
    else ReplySub01At(c.cfg, c.field, c.now, c.sender.value.jid, c.sender.value.recent[DigitValue(word[1])], text, pos)
  }

  /** A reply subcommand other than `ack` and `check` is ignored: nothing
      is sent and nothing raised. */
  lemma UnknownReplyIgnored01(c: Ctx, word: string, text: string, pos: nat)
    requires pos <= |text| && IsReplyWord(word) && c.sender.Some? && DigitValue(word[1]) in c.sender.value.recent
    requires var w := RunAt(text, SpanEnd(text, pos, Space), Word); w.Some? && w.value != "ack" && w.value != "check"
    ensures Reply01At(c, word, text, pos).sent == [] && Reply01At(c, word, text, pos).outcome == Pass
  {
  }

  /** A sender without a chat contact raises on the missing record; an
      empty slot is answered with its digit and nothing else happens. */
  lemma Reply01Slots(c: Ctx, word: string, text: string, pos: nat)
    requires pos <= |text| && IsReplyWord(word)
    ensures c.sender.None? ==> Reply01At(c, word, text, pos) == Raise(pos, NilError("recent"))
    ensures c.sender.Some? && DigitValue(word[1]) !in c.sender.value.recent ==>
      Reply01At(c, word, text, pos).sent == [Chat(c.from, "No record of notification " + [word[1]] + ", sorry.")] &&
      Reply01At(c, word, text, pos).outcome == Pass
  {
  }

  /** The help text of release 0.1. */
  const HELP01: string :=
    "Nagios switchboard commands:\n" +
    "status: get a status report\n" +
    "check <host | host/svc>: force a check of the named host or service\n" +
    "You can respond to a notification with its @ number, like so:\n" +
    "@N ack [message]: acknowledge a host or service problem, with optional message\n" +
    "@N check: force a check of the host or service referred to\n"

  /** `admin add` as written: the address added is the whole match of
      `(\S+)\s+(\S+)` and the alias is its first group. */
  function AdminAddAsWritten01(c: Ctx, text: string, pos: nat): Effect
    requires pos <= |text|
  {
    match PairAt(text, pos)
    case None => Answer(c, pos, "Usage: admin add <jid> <alias>")
    case Some((m, e)) =>
      Effect(e, [RosterAdd(m.whole, m.first),
                 Chat(c.from, "Added " + m.whole + " (" + m.first + ") to roster and requested presence subscription.")], [], Pass)
  }

  /** On "a@b c" the code as written adds the address "a@b c", spaces and
      all, under the alias "a@b"; the corrected command adds "a@b" under
      the alias "c". */
  lemma AdminAddAsWrittenSwapsFields(c: Ctx)
    ensures AdminAddAsWritten01(c, "a@b c", 0).sent[0] == RosterAdd("a@b c", "a@b")
    ensures AdminAddAt(c, "a@b c", 0).sent[0] == RosterAdd("a@b", "c")
  {
    var s := "a@b c";
    assert SpanEnd(s, 5, NonSpace) == 5;
    assert SpanEnd(s, 4, NonSpace) == 5;
    assert SpanEnd(s, 3, Space) == 4;
    assert SpanEnd(s, 0, NonSpace) == 3 by {
      assert SpanEnd(s, 3, NonSpace) == 3;
    }
    assert s[0..5] == "a@b c" && s[0..3] == "a@b" && s[4..5] == "c";
  }

  /** Without a '/', a host name is answered with "not implemented"; with
      one, the service named after it is resolved case-sensitively. */
  function HostOr01At(cfg: Result<ConfigData>, from: string, render: Render01, word: string,
                      text: string, pos: nat): Effect
    requires pos <= |text|
  {
    match FindHost(cfg, word)
    case Err(m) => Raise(pos, m)
    case Ok(None) => Tell(from, pos, "I'm sorry, I didn't quite catch that?")
    case Ok(Some(h)) =>
      if pos < |text| && text[pos] == '/' then
        var s := ResolveAt(word, h, text, pos + 1, false);
        if s.result.Err? then Raise(s.pos, s.result.msg)
        else Tell(from, s.pos, render.serviceDetail(s.result.value))
      else Tell(from, pos, "Sorry, host details not implemented yet.")
  }

  /** A word that is no host is not understood, a host alone has no
      details yet, and a host with '/' is answered with the detail of the
      service resolved after it, case-sensitively. */
  lemma HostOr01Cases(cfg: Result<ConfigData>, from: string, render: Render01, word: string, text: string, pos: nat)
    requires pos <= |text| && FindHost(cfg, word).Ok?
    ensures HostOf(cfg.value, word).None? ==>
      HostOr01At(cfg, from, render, word, text, pos).sent == [Chat(from, "I'm sorry, I didn't quite catch that?")]
    ensures HostOf(cfg.value, word).Some? && !(pos < |text| && text[pos] == '/') ==>
      HostOr01At(cfg, from, render, word, text, pos).sent == [Chat(from, "Sorry, host details not implemented yet.")]
    ensures HostOf(cfg.value, word).Some? && pos < |text| && text[pos] == '/' ==>
      var s := ResolveAt(word, HostOf(cfg.value, word).value, text, pos + 1, false);
      (HostOr01At(cfg, from, render, word, text, pos).outcome == Pass <==> s.result.Ok?) &&
      (s.result.Ok? ==> HostOr01At(cfg, from, render, word, text, pos).sent == [Chat(from, render.serviceDetail(s.result.value))])
  {
  }

  /** Service names are matched with their case: a service `HTTP` is not
      found from the text `http`, which the current release, ignoring
      case, resolves. */
  lemma ServiceNamesCaseSensitive01(host: Host)
    requires host.services.keys == ["HTTP"] && "HTTP" in host.services.m
    ensures ResolveAt("web", host, "http", 0, false).result.Err?
    ensures ResolveAt("web", host, "http", 0, true).result == Ok(Entry(SvcRef("web", "HTTP"), host.services.m["HTTP"].mon))
  {
    assert !LiteralAt("http", 0, "HTTP", false) by {
      assert "http"[0] != "HTTP"[0];
    }
    assert LiteralAt("http", 0, "HTTP", true) by {
      forall j | 0 <= j < 4
        ensures SameLetter("http"[j], "HTTP"[j])
      {
      }
    }
    FirstServiceAtIs(host.services.keys, "http", 0, 0, true);
  }

  /** What `handle_message` reads: the command context, the loaded status
      and the chat formatter. */
  datatype Ctx01 = Ctx01(base: Ctx, status: Result<NagiosStatus.StatusData>, render: Render01)

  /** The commands in the order they are tried: `status`, `check`, a reply
      `@N`, `help`, `eval` (which does nothing), `admin`; any other word is
      tried as a host. */
  function Dispatch01At(c: Ctx01, word: string, text: string, pos: nat): Effect
    requires pos <= |text|
  {
    if word == "status" then Status01At(c.base.from, c.status, c.render, pos)
    else if word == "check" then Check01At(c.base.cfg, c.base.now, text, pos)
    else if IsReplyWord(word) then Reply01At(c.base, word, text, pos)
    else if word == "help" then Tell(c.base.from, pos, HELP01)
    else if word == "eval" then Effect(pos, [], [], Pass)
    else if word == "admin" then AdminAt(c.base, text, pos)
    else HostOr01At(c.base.cfg, c.base.from, c.render, word, text, pos)
  }

  /** `handle_message(msg)`: no body, or a body not starting with a word,
      gets no reply; otherwise the first word is dispatched, and what
      raised is answered with "Oops. " and the message. */
  function MessageSpec01(c: Ctx01, body: Option<string>): seq<Event> {
    if body.None? then []
    else
      var text := body.value;
      var e := SpanEnd(text, 0, WordOrAt);
      if e == 0 then []
      else
        var d := Dispatch01At(c, text[..e], text, e);
        d.sent + (if d.outcome.Fail? then [Chat(c.base.from, "Oops. " + d.outcome.msg)] else [])
  }

  /** What raised is answered, and only then: the last message sent is
      "Oops. " and the error exactly when the command raised. */
  lemma RaisedIsAnswered01(c: Ctx01, text: string)
    requires SpanEnd(text, 0, WordOrAt) > 0
    ensures var e := SpanEnd(text, 0, WordOrAt); var d := Dispatch01At(c, text[..e], text, e);
      d.outcome.Fail? ==> MessageSpec01(c, Some(text)) == d.sent + [Chat(c.base.from, "Oops. " + d.outcome.msg)]
    ensures var e := SpanEnd(text, 0, WordOrAt); var d := Dispatch01At(c, text[..e], text, e);
      d.outcome == Pass ==> MessageSpec01(c, Some(text)) == d.sent
  {
  }

  /** A body that starts with a space or a '/' gets no reply. */
  lemma NoWordNoReply01(c: Ctx01, text: string)
    requires |text| > 0 && (IsSpace(text[0]) || text[0] == '/')
    ensures MessageSpec01(c, Some(text)) == []
  {
  }

  // ---------------------------------------------------------------------
  // `handle_message`, step by step on the scanner

  /** What handling a message from `from` reads. */
  function MessageCtx01(sb: Switchboard, m: Message, cfg: Result<ConfigData>, status: Result<NagiosStatus.StatusData>,
                        render: Render01, now: int): Ctx01
    reads sb.xmpp, if BareJid(m.from) in sb.xmpp.contacts then {sb.xmpp.contacts[BareJid(m.from)]} else {}
  {
    Ctx01(MessageCtx(sb, m, cfg, now), status, render)
  }

  /** `handle_message(msg)`. */
  method HandleMessage01(sb: Switchboard, m: Message, cfg: Result<ConfigData>, status: Result<NagiosStatus.StatusData>,
                         render: Render01, now: int)
    modifies sb.out
    ensures sb.out.events == old(sb.out.events) + MessageSpec01(old(MessageCtx01(sb, m, cfg, status, render, now)), m.body)
  {
    ghost var c := MessageCtx01(sb, m, cfg, status, render, now);
    assert old(sb.out.events) + [] == old(sb.out.events);
    if m.body.None? {
      return;
    }
    var scanner := new Scanner(m.body.value);
    var first := scanner.Scan(WordOrAt);
    if first.None? {
      assert MessageSpec01(c, m.body) == [];
      return;
    }
    ghost var e0 := sb.out.events;
    ghost var d := Dispatch01At(c, first.value, scanner.text, |first.value|);
    assert MessageSpec01(c, m.body) == d.sent + (if d.outcome.Fail? then [Chat(m.from, "Oops. " + d.outcome.msg)] else []);
    var contact := SenderContact(sb.xmpp, m.from);
    var r := Dispatch01(sb, m, contact, scanner, first.value, cfg, status, render, now);
    assert sb.out.events == e0 + d.sent;
    if r.Fail? {
      sb.out.Send(Chat(m.from, "Oops. " + r.msg));
    }
  }

  /** The `case first` of `handle_message`. */
  method Dispatch01(sb: Switchboard, m: Message, contact: Option<ChatContact>, scanner: Scanner, first: string,
                    cfg: Result<ConfigData>, status: Result<NagiosStatus.StatusData>, render: Render01, now: int)
    returns (r: Outcome)
    requires scanner.Valid()
    modifies scanner, sb.out
    ensures var e := Dispatch01At(Ctx01(old(ContextOf(cfg, now, sb.conf.xmppField, m.from, contact, sb.xmpp)), status, render),
                                  first, scanner.text, old(scanner.pos));
      r == e.outcome && sb.out.events == old(sb.out.events) + e.sent
  {
    ghost var c := ContextOf(cfg, now, sb.conf.xmppField, m.from, contact, sb.xmpp);
    if first == "status" {
      r := Status01(sb, m.from, status, render);
    } else if first == "check" {
      r := Check01(sb, scanner, cfg, now);
    } else if IsReplyWord(first) {
      r := Reply01(sb, m, contact, scanner, first, cfg, now);
    } else if first == "help" {
      sb.out.Send(Chat(m.from, HELP01));
      r := Pass;
    } else if first == "eval" {
      r := Pass;
    } else if first == "admin" {
      r := Admin01(sb, m.from, scanner, c);
    } else {
      r := HostOr01(sb, m.from, scanner, first, cfg, render);
    }
  }

  /** `status`. */
  method Status01(sb: Switchboard, from: string, status: Result<NagiosStatus.StatusData>, render: Render01)
    returns (r: Outcome)
    modifies sb.out
    ensures var e := Status01At(from, status, render, 0); r == e.outcome && sb.out.events == old(sb.out.events) + e.sent
  {
    if status.Err? {
      return Fail(status.msg);
    }
    var rep := StatusReport01(status.value);
    if rep.Err? {
      return Fail(rep.msg);
    }
    sb.out.Send(Chat(from, render.statusReport(rep.value)));
    return Pass;
  }

  /** `check`. */
  method Check01(sb: Switchboard, scanner: Scanner, cfg: Result<ConfigData>, now: int) returns (r: Outcome)
    requires scanner.Valid()
    modifies scanner, sb.out
    ensures var e := Check01At(cfg, now, scanner.text, old(scanner.pos));
      r == e.outcome && sb.out.events == old(sb.out.events) + e.sent
  {
    var _ := scanner.Skip(Space);
    r := CheckWord01(sb, scanner, cfg, now);
  }

  /** `check` after the spaces: a host and '/', a host, or neither. */
  method CheckWord01(sb: Switchboard, scanner: Scanner, cfg: Result<ConfigData>, now: int) returns (r: Outcome)
    requires scanner.Valid()
    modifies scanner, sb.out
    ensures var e := CheckWord01At(cfg, now, scanner.text, old(scanner.pos));
      r == e.outcome && sb.out.events == old(sb.out.events) + e.sent
  {
    ghost var p := scanner.pos;
    var h := scanner.ScanRunThen(Word, '/');
    if h.Some? {
      assert CheckWord01At(cfg, now, scanner.text, p) == CheckService01At(cfg, now, h.value, scanner.text, scanner.pos);
      r := CheckService01(sb, scanner, h.value, cfg, now);
      return;
    }
    var w := scanner.Scan(Word);
    if w.Some? {
      assert CheckWord01At(cfg, now, scanner.text, p) == CheckHost01At(cfg, now, w.value, scanner.pos);
      r := CheckHost01(sb, w.value, cfg, now, scanner.pos);
      return;
    }
    return Fail("syntax");
  }

  /** `check host/svc`. */
  method CheckService01(sb: Switchboard, scanner: Scanner, name: string, cfg: Result<ConfigData>, now: int)
    returns (r: Outcome)
    requires scanner.Valid()
    modifies scanner, sb.out
    ensures var e := CheckService01At(cfg, now, name, scanner.text, old(scanner.pos));
      r == e.outcome && sb.out.events == old(sb.out.events) + e.sent
  {
    var host := FindHost(cfg, name);
    if host.Err? {
      return Fail(host.msg);
    }
    if host.value.None? {
      return Fail("Unknown host " + name);
    }
    var svc := sb.ResolveServiceName(name, host.value.value, scanner, false);
    if svc.Err? {
      return Fail(svc.msg);
    }
    sb.out.Send(Control(ForceCheck(now, svc.value.ref, now)));
    return Pass;
  }

  /** `check host`. */
  method CheckHost01(sb: Switchboard, name: string, cfg: Result<ConfigData>, now: int, ghost pos: nat) returns (r: Outcome)
    modifies sb.out
    ensures var e := CheckHost01At(cfg, now, name, pos); r == e.outcome && sb.out.events == old(sb.out.events) + e.sent
  {
    var host := FindHost(cfg, name);
    if host.Err? {
      return Fail(host.msg);
    }
    if host.value.None? {
      return Fail("Unknown host " + name);
    }
    sb.out.Send(Control(ForceCheck(now, HostRef(name), now)));
    return Pass;
  }

  /** `@N ...`. */
  method Reply01(sb: Switchboard, m: Message, contact: Option<ChatContact>, scanner: Scanner, first: string,
                 cfg: Result<ConfigData>, now: int) returns (r: Outcome)
    requires scanner.Valid() && IsReplyWord(first)
    modifies scanner, sb.out
    ensures var e := Reply01At(old(ContextOf(cfg, now, sb.conf.xmppField, m.from, contact, sb.xmpp)), first,
                               scanner.text, old(scanner.pos));
      r == e.outcome && sb.out.events == old(sb.out.events) + e.sent
  {
    if contact.None? {
      return Fail(NilError("recent"));
    }
    var slot := DigitValue(first[1]);
    if slot !in contact.value.recent {
      sb.out.Send(Chat(m.from, "No record of notification " + [first[1]] + ", sorry."));
      return Pass;
    }
    r := ReplySub01(sb, scanner, contact.value.jid, contact.value.recent[slot], cfg, now);
  }

  /** The subcommand of a reply, with the notification found. */
  method ReplySub01(sb: Switchboard, scanner: Scanner, jid: string, n: Notification, cfg: Result<ConfigData>, now: int)
    returns (r: Outcome)
    requires scanner.Valid()
    modifies scanner, sb.out
    ensures var e := ReplySub01At(cfg, sb.conf.xmppField, now, jid, n, scanner.text, old(scanner.pos));
      r == e.outcome && sb.out.events == old(sb.out.events) + e.sent
  {
    ghost var p0 := scanner.pos;
    var _ := scanner.Skip(Space);
    ghost var p := scanner.pos;
    var w := scanner.Scan(Word);
    if w.None? {
      return Fail("Missing subcommand!");
    }
    if w.value == "ack" {
      assert ReplySub01At(cfg, sb.conf.xmppField, now, jid, n, scanner.text, p0) ==
        ReplyAck01At(cfg, sb.conf.xmppField, now, jid, n, scanner.text, scanner.pos);
      r := ReplyAck01(sb, scanner, jid, n, cfg, now);
    } else if w.value == "check" {
      var ref := FindReferent(cfg, n);
      if ref.Err? {
        return Fail(ref.msg);
      }
      if ref.value.None? {
        return Fail("Couldn't find what notification referred to: " + InspectProps(n.params));
      }
      sb.out.Send(Control(ForceCheck(now, ref.value.value.ref, now)));
      r := Pass;
    } else {
      r := Pass;
    }
  }

  /** `@N ack [comment]`. */
  method ReplyAck01(sb: Switchboard, scanner: Scanner, jid: string, n: Notification, cfg: Result<ConfigData>, now: int)
    returns (r: Outcome)
    requires scanner.Valid()
    modifies scanner, sb.out
    ensures var e := ReplyAck01At(cfg, sb.conf.xmppField, now, jid, n, scanner.text, old(scanner.pos));
      r == e.outcome && sb.out.events == old(sb.out.events) + e.sent
  {
    var nc := FindContactWithJid(cfg, sb.conf.xmppField, jid);
    if nc.Err? {
      return Fail(nc.msg);
    }
    if nc.value.None? {
      return Fail("No Nagios contact with JID " + jid + "?");
    }
    var _ := scanner.Skip(Space);
    var mt := scanner.ScanUntilLine();
    var comment := if mt.Some? then mt.value else "acknowledged.";
    var line := Ack01(now, n, nc.value.value.name, comment);
    if line.Err? {
      return Fail(line.msg);
    }
    sb.out.Send(Control(line.value));
    return Pass;
  }

  /** `admin ...`: skip spaces, take the subcommand, skip spaces, then
      list the roster, add a contact, remove one, or answer. */
  method Admin01(sb: Switchboard, from: string, scanner: Scanner, ghost c: Ctx) returns (r: Outcome)
    requires scanner.Valid() && c.from == from && c.roster == sb.xmpp.roster
    modifies scanner, sb.out
    ensures var e := AdminAt(c, scanner.text, old(scanner.pos));
      r == e.outcome && sb.out.events == old(sb.out.events) + e.sent
  {
    ghost var p0 := scanner.pos;
    var _ := scanner.Skip(Space);
    var a := scanner.Scan(NonSpace);
    var _ := scanner.Skip(Space);
    ghost var p2 := scanner.pos;
    assert p2 == SpanEnd(scanner.text, SpanEnd(scanner.text, p0, Space) + (if a.Some? then |a.value| else 0), Space);
    if a == Some("list-roster") {
      assert AdminAt(c, scanner.text, p0) == Answer(c, p2, "Roster: " + Join(SortStrings(sb.xmpp.roster), ", "));
      sb.out.Send(Chat(from, "Roster: " + Join(SortStrings(sb.xmpp.roster), ", ")));
      r := Pass;
    } else if a == Some("add") {
      assert AdminAt(c, scanner.text, p0) == AdminAddAt(c, scanner.text, p2);
      r := AdminAdd01(sb, from, scanner, c);
    } else if a == Some("remove") {
      assert AdminAt(c, scanner.text, p0) == AdminRemoveAt(c, scanner.text, p2);
      r := AdminRemove01(sb, from, scanner, c);
    } else {
      assert AdminAt(c, scanner.text, p0) == Answer(c, p2, "Unknown admin command " + a.GetOr(""));
      sb.out.Send(Chat(from, "Unknown admin command " + a.GetOr("")));
      r := Pass;
    }
  }

  /** `admin add <jid> <alias>`, with the address and the alias taken from
      the two groups (see `AdminAddAsWritten01`). */
  method AdminAdd01(sb: Switchboard, from: string, scanner: Scanner, ghost c: Ctx) returns (r: Outcome)
    requires scanner.Valid() && c.from == from
    modifies scanner, sb.out
    ensures var e := AdminAddAt(c, scanner.text, old(scanner.pos));
      r == e.outcome && sb.out.events == old(sb.out.events) + e.sent
  {
    var m := scanner.ScanPair();
    if m.Some? {
      var added := "Added " + m.value.first + " (" + m.value.second + ") to roster and requested presence subscription.";
      sb.out.Send(RosterAdd(m.value.first, m.value.second));
      sb.out.Send(Chat(from, added));
      assert sb.out.events == old(sb.out.events) + [RosterAdd(m.value.first, m.value.second), Chat(from, added)];
    } else {
      sb.out.Send(Chat(from, "Usage: admin add <jid> <alias>"));
    }
    return Pass;
  }

  /** `admin remove <jid>`: an address not on the roster raises. */
  method AdminRemove01(sb: Switchboard, from: string, scanner: Scanner, ghost c: Ctx) returns (r: Outcome)
    requires scanner.Valid() && c.from == from && c.roster == sb.xmpp.roster
    modifies scanner, sb.out
    ensures var e := AdminRemoveAt(c, scanner.text, old(scanner.pos));
      r == e.outcome && sb.out.events == old(sb.out.events) + e.sent
  {
    var j := scanner.Scan(NonSpace);
    if j.None? {
      sb.out.Send(Chat(from, "Usage: admin remove <jid>"));
      return Pass;
    }
    if j.value !in sb.xmpp.roster {
      return Fail(NilError("remove"));
    }
    var removed := "Contact " + j.value + " successfully removed from roster.";
    sb.out.Send(RosterRemove(j.value));
    sb.out.Send(Chat(from, removed));
    assert sb.out.events == old(sb.out.events) + [RosterRemove(j.value), Chat(from, removed)];
    return Pass;
  }

  /** A word that is not a command: a host, and maybe '/' and a service. */
  method HostOr01(sb: Switchboard, from: string, scanner: Scanner, first: string, cfg: Result<ConfigData>,
                  render: Render01) returns (r: Outcome)
    requires scanner.Valid()
    modifies scanner, sb.out
    ensures var e := HostOr01At(cfg, from, render, first, scanner.text, old(scanner.pos));
      r == e.outcome && sb.out.events == old(sb.out.events) + e.sent
  {
    var host := FindHost(cfg, first);
    if host.Err? {
      return Fail(host.msg);
    }
    if host.value.None? {
      sb.out.Send(Chat(from, "I'm sorry, I didn't quite catch that?"));
      return Pass;
    }
    var slash := scanner.ScanChar('/');
    if slash {
      var svc := sb.ResolveServiceName(first, host.value.value, scanner, false);
      if svc.Err? {
        return Fail(svc.msg);
      }
      sb.out.Send(Chat(from, render.serviceDetail(svc.value)));
    } else {
      sb.out.Send(Chat(from, "Sorry, host details not implemented yet."));
    }
    return Pass;
  }
}

=== FILE: report.dfy ===
/** The status report (`NagiosInstance#status_report`): the hosts that are
    not up, and the problem services of the hosts that are, each grouped by
    current state. */
module StatusReport {

  import opened Wrappers
  import opened OrderedMaps
  import opened NagiosModel

  /** An object the report lists: which one it is and its monitored state. */
  datatype Entry = Entry(ref: Ref, mon: Monitored)

  /** One group of `classify`: the state its entries share, and the entries. */
  datatype Group = Group(state: Option<State>, entries: seq<Entry>)

  /** `{:hosts => ..., :services => ...}`: the host groups and the service
      groups. */
  datatype Report = Report(hosts: seq<Group>, services: seq<Group>)

  function StateOf(e: Entry): Option<State> {
    CurState(e.mon)
  }

  /** The entries in state `st`, in order. */
  function Having(es: seq<Entry>, st: Option<State>): (r: seq<Entry>)
    ensures forall e :: e in r <==> e in es && StateOf(e) == st
  {
    if |es| == 0 then []
    else Having(es[..|es| - 1], st) + (if StateOf(es[|es| - 1]) == st then [es[|es| - 1]] else [])
  }

  /** The position of the group for `st`, or the number of groups if there
      is none yet. */
  function GroupIndex(gs: seq<Group>, st: Option<State>): (i: nat)
    ensures i <= |gs|
    ensures i < |gs| ==> gs[i].state == st
    ensures forall j :: 0 <= j < i ==> gs[j].state != st
  {
    GroupIndexFrom(gs, st, 0)
  }

  function GroupIndexFrom(gs: seq<Group>, st: Option<State>, k: nat): (i: nat)
    requires k <= |gs|
    ensures k <= i <= |gs|
    ensures i < |gs| ==> gs[i].state == st
    ensures forall j :: k <= j < i ==> gs[j].state != st
    decreases |gs| - k
  {
    if k == |gs| then |gs| else if gs[k].state == st then k else GroupIndexFrom(gs, st, k + 1)
  }

  /** One step of `classify`: the entry joins the group of its state, which
      is opened at the end when it is the first of that state. */
  function AddTo(gs: seq<Group>, e: Entry): seq<Group> {
    var i := GroupIndex(gs, StateOf(e));
    if i < |gs| then gs[i := Group(gs[i].state, gs[i].entries + [e])]
    else gs + [Group(StateOf(e), [e])]
  }

  /** `classify { |x| x.cur_state }.to_a`. */
  function Classify(es: seq<Entry>): seq<Group> {
    if |es| == 0 then [] else AddTo(Classify(es[..|es| - 1]), es[|es| - 1])
  }

  /** `gs` groups `es` by state: one group per state that occurs, in the
      order the states first occur, each holding exactly the entries in
      that state in their original order. */
  ghost predicate Classified(es: seq<Entry>, gs: seq<Group>) {
    (forall i, j :: 0 <= i < j < |gs| ==> gs[i].state != gs[j].state) &&
    (forall i :: 0 <= i < |gs| ==> gs[i].entries == Having(es, gs[i].state) && |gs[i].entries| > 0) &&
    (forall e :: e in es ==> exists i :: 0 <= i < |gs| && gs[i].state == StateOf(e))
  }

  lemma {:induction false} HavingNone(es: seq<Entry>, st: Option<State>)
    requires forall e :: e in es ==> StateOf(e) != st
    ensures Having(es, st) == []
  {
    if |es| > 0 {
      assert forall e :: e in es[..|es| - 1] ==> e in es;
      HavingNone(es[..|es| - 1], st);
    }
  }

  lemma HavingSnoc(es: seq<Entry>, e: Entry, st: Option<State>)
    ensures Having(es + [e], st) == Having(es, st) + (if StateOf(e) == st then [e] else [])
  {
    assert (es + [e])[..|es + [e]| - 1] == es;
  }

  /** An entry whose state already has a group joins that group. */
  lemma AddToExisting(es: seq<Entry>, gs: seq<Group>, e: Entry)
    requires Classified(es, gs)
    requires GroupIndex(gs, StateOf(e)) < |gs|
    ensures Classified(es + [e], AddTo(gs, e))
  {
    var es' := es + [e];
    var i := GroupIndex(gs, StateOf(e));
    var gs' := AddTo(gs, e);
    assert |gs'| == |gs| && forall k :: 0 <= k < |gs| ==> gs'[k].state == gs[k].state;
    forall k | 0 <= k < |gs'|
      ensures gs'[k].entries == Having(es', gs'[k].state) && |gs'[k].entries| > 0
    {
      HavingSnoc(es, e, gs[k].state);
    }
  }

  /** An entry whose state has no group yet opens one at the end. */
  lemma AddToNew(es: seq<Entry>, gs: seq<Group>, e: Entry)
    requires Classified(es, gs)
    requires GroupIndex(gs, StateOf(e)) == |gs|
    ensures Classified(es + [e], AddTo(gs, e))
  {
    var gs' := gs + [Group(StateOf(e), [e])];
    assert AddTo(gs, e) == gs';
    forall i, j | 0 <= i < j < |gs'| ensures gs'[i].state != gs'[j].state {
      if j < |gs| {
        assert gs'[i] == gs[i] && gs'[j] == gs[j];
      } else {
        assert gs'[i] == gs[i];
      }
    }
    NewGroupEntries(es, gs, e);
    NewGroupCovers(es, gs, e);
  }

  /** The old groups gain nothing and the new group holds just `e`. */
  lemma NewGroupEntries(es: seq<Entry>, gs: seq<Group>, e: Entry)
    requires Classified(es, gs)
    requires GroupIndex(gs, StateOf(e)) == |gs|
    ensures var gs' := gs + [Group(StateOf(e), [e])];
      forall k :: 0 <= k < |gs'| ==> gs'[k].entries == Having(es + [e], gs'[k].state) && |gs'[k].entries| > 0
  {
    var st := StateOf(e);
    forall k | 0 <= k < |gs|
      ensures gs[k].entries == Having(es + [e], gs[k].state)
    {
      HavingSnoc(es, e, gs[k].state);
    }
    forall x | x in es ensures StateOf(x) != st {
      var j :| 0 <= j < |gs| && gs[j].state == StateOf(x);
    }
    HavingNone(es, st);
    HavingSnoc(es, e, st);
  }

  /** Every entry of `es + [e]` has a group once `e`'s group is added. */
  lemma NewGroupCovers(es: seq<Entry>, gs: seq<Group>, e: Entry)
    requires forall x :: x in es ==> exists i :: 0 <= i < |gs| && gs[i].state == StateOf(x)
    ensures var gs' := gs + [Group(StateOf(e), [e])];
      forall x :: x in es + [e] ==> exists k :: 0 <= k < |gs'| && gs'[k].state == StateOf(x)
  {
    var gs' := gs + [Group(StateOf(e), [e])];
    forall x | x in es + [e] ensures exists k :: 0 <= k < |gs'| && gs'[k].state == StateOf(x) {
      if x in es {
        var k :| 0 <= k < |gs| && gs[k].state == StateOf(x);
        assert gs'[k].state == StateOf(x);
      } else {
        assert gs'[|gs|].state == StateOf(x);
      }
    }
  }

  lemma AddToClassified(es: seq<Entry>, gs: seq<Group>, e: Entry)
    requires Classified(es, gs)
    ensures Classified(es + [e], AddTo(gs, e))
  {
    if GroupIndex(gs, StateOf(e)) < |gs| {
      AddToExisting(es, gs, e);
    } else {
      AddToNew(es, gs, e);
    }
  }

  /** `classify` partitions its input by state. */
  lemma {:induction false} ClassifyPartition(es: seq<Entry>)
    ensures Classified(es, Classify(es))
  {
    if |es| > 0 {
      ClassifyPartition(es[..|es| - 1]);
      AddToClassified(es[..|es| - 1], Classify(es[..|es| - 1]), es[|es| - 1]);
      assert es[..|es| - 1] + [es[|es| - 1]] == es;
    }
  }

  /** Which group an entry is listed in, if any. */
  predicate Listed(gs: seq<Group>, e: Entry) {
    exists i :: 0 <= i < |gs| && e in gs[i].entries
  }

  /** Every entry of the input is listed, in the group of its own state and
      in no other, and nothing else is listed. */
  lemma ClassifiedMembership(es: seq<Entry>, gs: seq<Group>, e: Entry)
    requires Classified(es, gs)
    ensures Listed(gs, e) <==> e in es
    ensures forall i :: 0 <= i < |gs| && e in gs[i].entries ==> gs[i].state == StateOf(e)
  {
    if e in es {
      var i :| 0 <= i < |gs| && gs[i].state == StateOf(e);
      assert e in gs[i].entries;
    }
  }

  // ---------------------------------------------------------------------
  // The report of a configuration

  const SVC_PROBLEMS: seq<State> := [CRITICAL, WARNING, UNKNOWN]

  function HostEntry(k: string, h: Host): Entry {
    Entry(HostRef(k), h.mon)
  }

  /** The hosts (listed under the keys `ks`) whose current state is not ok,
      in order. */
  function BadHosts(hs: OMap<string, Host>, ks: seq<string>): (r: seq<Entry>)
    ensures forall e :: e in r ==>
      (e.ref.HostRef? && e.ref.host in ks && e.ref.host in hs.m &&
       e == HostEntry(e.ref.host, hs.m[e.ref.host]) && StateOf(e) != Some(OK))
    ensures forall k :: k in ks && k in hs.m && CurState(hs.m[k].mon) != Some(OK) ==> HostEntry(k, hs.m[k]) in r
  {
    if |ks| == 0 then []
    else
      var k := ks[|ks| - 1];
      BadHosts(hs, ks[..|ks| - 1]) +
        (if k in hs.m && CurState(hs.m[k].mon) != Some(OK) then [HostEntry(k, hs.m[k])] else [])
  }

  /** The services of one host whose current state is a problem. */
  function ProblemServicesOf(host: string, ss: OMap<string, Service>, ks: seq<string>): (r: seq<Entry>)
    ensures forall e :: e in r ==>
      (e.ref.SvcRef? && e.ref.host == host && e.ref.svc in ks && e.ref.svc in ss.m &&
       e.mon == ss.m[e.ref.svc].mon && StateOf(e).Some? && StateOf(e).value in SVC_PROBLEMS)
    ensures forall k :: k in ks && k in ss.m && CurState(ss.m[k].mon).Some? && CurState(ss.m[k].mon).value in SVC_PROBLEMS ==>
      Entry(SvcRef(host, k), ss.m[k].mon) in r
  {
    if |ks| == 0 then []
    else
      var k := ks[|ks| - 1];
      var st := if k in ss.m then CurState(ss.m[k].mon) else None;
      ProblemServicesOf(host, ss, ks[..|ks| - 1]) +
        (if k in ss.m && st.Some? && st.value in SVC_PROBLEMS then [Entry(SvcRef(host, k), ss.m[k].mon)] else [])
  }

  /** The problem services of the hosts (listed under `ks`) that are ok. */
  function ProblemServices(hs: OMap<string, Host>, ks: seq<string>): (r: seq<Entry>)
    ensures forall e :: e in r ==>
      (e.ref.SvcRef? && e.ref.host in ks && e.ref.host in hs.m &&
       CurState(hs.m[e.ref.host].mon) == Some(OK) &&
       e.ref.svc in hs.m[e.ref.host].services.m && e.mon == hs.m[e.ref.host].services.m[e.ref.svc].mon &&
       StateOf(e).Some? && StateOf(e).value in SVC_PROBLEMS)
  {
    if |ks| == 0 then []
    else
      var k := ks[|ks| - 1];
      ProblemServices(hs, ks[..|ks| - 1]) +
        (if k in hs.m && CurState(hs.m[k].mon) == Some(OK)
         then ProblemServicesOf(k, hs.m[k].services, hs.m[k].services.keys) else [])
  }

  /** Every problem service of an ok host is in the list. */
  lemma {:induction false} ProblemServicesComplete(hs: OMap<string, Host>, ks: seq<string>, k: string, s: string)
    requires k in ks && k in hs.m && CurState(hs.m[k].mon) == Some(OK)
    requires s in hs.m[k].services.keys && s in hs.m[k].services.m
    requires CurState(hs.m[k].services.m[s].mon).Some? && CurState(hs.m[k].services.m[s].mon).value in SVC_PROBLEMS
    ensures Entry(SvcRef(k, s), hs.m[k].services.m[s].mon) in ProblemServices(hs, ks)
  {
    if ks[|ks| - 1] != k {
      assert k in ks[..|ks| - 1] by {
        var j :| 0 <= j < |ks| && ks[j] == k;
        assert ks[..|ks| - 1][j] == k;
      }
      ProblemServicesComplete(hs, ks[..|ks| - 1], k, s);
    }
  }

  /** `status_report` of a loaded configuration. A configuration without a
      host table raises, as `nil.values` does. */
  function StatusReportOf(c: ConfigData): (r: Result<Report>)
    ensures r.Err? <==> c.hosts.None?
  {
    match c.hosts
    case None => Err(NilError("values"))
    case Some(hs) =>
      Ok(Report(Classify(BadHosts(hs, hs.keys)), Classify(ProblemServices(hs, hs.keys))))
  }

  /** A host is listed exactly when its current state is not ok (including
      a host that was never updated, whose state is nil), and then in the
      group of its own state. */
  lemma HostListedIff(c: ConfigData, k: string)
    requires c.hosts.Some? && k in c.hosts.value.keys && k in c.hosts.value.m
    ensures var h := c.hosts.value.m[k];
      var rep := StatusReportOf(c).value;
      (Listed(rep.hosts, HostEntry(k, h)) <==> CurState(h.mon) != Some(OK)) &&
      (forall i :: 0 <= i < |rep.hosts| && HostEntry(k, h) in rep.hosts[i].entries ==> rep.hosts[i].state == CurState(h.mon))
  {
    var hs := c.hosts.value;
    ClassifyPartition(BadHosts(hs, hs.keys));
    ClassifiedMembership(BadHosts(hs, hs.keys), StatusReportOf(c).value.hosts, HostEntry(k, hs.m[k]));
  }

  /** Every listed host group holds only hosts that are not ok. */
  lemma HostGroupsNotOk(c: ConfigData, i: nat, e: Entry)
    requires c.hosts.Some?
    requires i < |StatusReportOf(c).value.hosts| && e in StatusReportOf(c).value.hosts[i].entries
    ensures e.ref.HostRef? && e.ref.host in c.hosts.value.m
    ensures e.mon == c.hosts.value.m[e.ref.host].mon
    ensures StatusReportOf(c).value.hosts[i].state == CurState(e.mon) != Some(OK)
  {
    var hs := c.hosts.value;
    ClassifyPartition(BadHosts(hs, hs.keys));
    ClassifiedMembership(BadHosts(hs, hs.keys), StatusReportOf(c).value.hosts, e);
  }

  /** A service is listed exactly when its host is ok and its own state is
      critical, warning or unknown, and then in the group of its state. */
  lemma ServiceListedIff(c: ConfigData, k: string, s: string)
    requires c.hosts.Some? && k in c.hosts.value.keys && k in c.hosts.value.m
    requires s in c.hosts.value.m[k].services.keys && s in c.hosts.value.m[k].services.m
    ensures var h := c.hosts.value.m[k];
      var e := Entry(SvcRef(k, s), h.services.m[s].mon);
      var rep := StatusReportOf(c).value;
      (Listed(rep.services, e) <==>
        CurState(h.mon) == Some(OK) && StateOf(e).Some? && StateOf(e).value in SVC_PROBLEMS) &&
      (forall i :: 0 <= i < |rep.services| && e in rep.services[i].entries ==> rep.services[i].state == StateOf(e))
  {
    var hs := c.hosts.value;
    var e := Entry(SvcRef(k, s), hs.m[k].services.m[s].mon);
    ClassifyPartition(ProblemServices(hs, hs.keys));
    ClassifiedMembership(ProblemServices(hs, hs.keys), StatusReportOf(c).value.services, e);
    if CurState(hs.m[k].mon) == Some(OK) && StateOf(e).Some? && StateOf(e).value in SVC_PROBLEMS {
      ProblemServicesComplete(hs, hs.keys, k, s);
    }
  }

  /** Every listed service group holds only problem services of ok hosts. */
  lemma ServiceGroupsProblems(c: ConfigData, i: nat, e: Entry)
    requires c.hosts.Some?
    requires i < |StatusReportOf(c).value.services| && e in StatusReportOf(c).value.services[i].entries
    ensures e.ref.SvcRef? && e.ref.host in c.hosts.value.m && CurState(c.hosts.value.m[e.ref.host].mon) == Some(OK)
    ensures e.ref.svc in c.hosts.value.m[e.ref.host].services.m
    ensures e.mon == c.hosts.value.m[e.ref.host].services.m[e.ref.svc].mon
    ensures StatusReportOf(c).value.services[i].state == StateOf(e)
    ensures StateOf(e).Some? && StateOf(e).value in SVC_PROBLEMS
  {
    var hs := c.hosts.value;
    ClassifyPartition(ProblemServices(hs, hs.keys));
    ClassifiedMembership(ProblemServices(hs, hs.keys), StatusReportOf(c).value.services, e);
  }

  /** Groups are never empty and no state has two groups. */
  lemma ReportGroupsDistinct(c: ConfigData)
    requires c.hosts.Some?
    ensures var rep := StatusReportOf(c).value;
      (forall i, j :: 0 <= i < j < |rep.hosts| ==> rep.hosts[i].state != rep.hosts[j].state) &&
      (forall i, j :: 0 <= i < j < |rep.services| ==> rep.services[i].state != rep.services[j].state) &&
      (forall i :: 0 <= i < |rep.hosts| ==> |rep.hosts[i].entries| > 0) &&
      (forall i :: 0 <= i < |rep.services| ==> |rep.services[i].entries| > 0)
  {
    var hs := c.hosts.value;
    ClassifyPartition(BadHosts(hs, hs.keys));
    ClassifyPartition(ProblemServices(hs, hs.keys));
  }
}

=== FILE: scanner.dfy ===
/** Ruby's StringScanner as the chat commands use it: a string and a cursor
    into it. Each `scan` tries one pattern anchored at the cursor and, when
    it matches, moves the cursor past the match; `skip` does the same and
    answers the length; `check` looks without moving; `scan_until` searches
    forward for the first match. */
module Scanning {

  import opened Wrappers
  import opened Text

  // ---------------------------------------------------------------------
  // The patterns, as functions of the text and a position

  /** `/[k]+/` anchored at `i`: the longest non-empty run of characters of
      class `k`, or nothing. */
  function RunAt(s: string, i: nat, k: CharClass): (r: Option<string>)
    requires i <= |s|
    ensures r.None? <==> i == |s| || !InClass(s[i], k)
    ensures r.Some? ==> |r.value| > 0 && r.value == s[i..SpanEnd(s, i, k)]
  {
    var e := SpanEnd(s, i, k);
    if e == i then None else Some(s[i..e])
  }

  /** A run holds characters of its class only, and ends where the class
      ends. */
  lemma RunAtIsMaximal(s: string, i: nat, k: CharClass)
    requires i <= |s| && RunAt(s, i, k).Some?
    ensures forall j :: 0 <= j < |RunAt(s, i, k).value| ==> InClass(RunAt(s, i, k).value[j], k)
    ensures var e := i + |RunAt(s, i, k).value|; e == |s| || !InClass(s[e], k)
  {
    SpanEndRun(s, i, k);
  }

  /** `/w/` built from a literal word (with the `true` flag, ignoring the
      case of letters) matches at `i`. */
  predicate LiteralAt(s: string, i: nat, w: string, ignoreCase: bool)
    requires i <= |s|
  {
    i + |w| <= |s| &&
    forall j :: 0 <= j < |w| ==> (if ignoreCase then SameLetter(s[i + j], w[j]) else s[i + j] == w[j])
  }

  /** `/(\S+)\s+(\S+)/` anchored at `i`: the whole match and the two
      groups. Each run is as long as it can be; when the first run reaches
      the end or the spaces do, no shorter choice can match either. */
  datatype Pair = Pair(whole: string, first: string, second: string)

  function PairAt(s: string, i: nat): (r: Option<(Pair, nat)>)
    requires i <= |s|
    ensures r.Some? ==> i < r.value.1 <= |s| && r.value.0.whole == s[i..r.value.1]
    ensures r.Some? ==> var p := r.value.0;
      |p.first| > 0 && |p.second| > 0 && |p.first| + |p.second| < |p.whole| &&
      p.whole[..|p.first|] == p.first && p.whole[|p.whole| - |p.second|..] == p.second
  {
    var e1 := SpanEnd(s, i, NonSpace);
    var e2 := SpanEnd(s, e1, Space);
    var e3 := SpanEnd(s, e2, NonSpace);
    if e1 == i || e2 == e1 || e3 == e2 then None
    else
      assert s[i..e3] == s[i..e1] + s[e1..e2] + s[e2..e3];
      Some((Pair(s[i..e3], s[i..e1], s[e2..e3]), e3))
  }

  /** Where `/\S.+/` first matches at or after `i`: a character that is not
      a space followed by at least one character other than a newline; the
      match runs to the end of that line. */
  function UntilLineFrom(s: string, i: nat): (r: Option<nat>)
    requires i <= |s|
    ensures r.Some? ==> i <= r.value && r.value + 1 < |s| && !IsSpace(s[r.value]) && s[r.value + 1] != '\n'
    ensures r.Some? ==> forall p :: i <= p < r.value ==> !(p + 1 < |s| && !IsSpace(s[p]) && s[p + 1] != '\n')
    ensures r.None? ==> forall p :: i <= p < |s| ==> !(p + 1 < |s| && !IsSpace(s[p]) && s[p + 1] != '\n')
    decreases |s| - i
  {
    if i + 1 >= |s| then None
    else if !IsSpace(s[i]) && s[i + 1] != '\n' then Some(i)
    else UntilLineFrom(s, i + 1)
  }

  /** The end of the line holding position `i`: the next newline, or the end
      of the text. */
  function LineEnd(s: string, i: nat): (e: nat)
    requires i <= |s|
    ensures i <= e <= |s| && (e == |s| || s[e] == '\n')
    ensures forall j :: i <= j < e ==> s[j] != '\n'
    decreases |s| - i
  {
    if i == |s| || s[i] == '\n' then i else LineEnd(s, i + 1)
  }

  /** A string scanner: the text and the cursor. */
  class Scanner {
    const text: string
    var pos: nat

    ghost predicate Valid()
      reads this
    {
      pos <= |text|
    }

    /** `StringScanner.new(s)`: the cursor at the start. */
    constructor (s: string)
      ensures text == s && pos == 0 && Valid()
    {
      text := s;
      pos := 0;
    }

    /** `rest`: the text from the cursor on. */
    function Rest(): (r: string)
      reads this
      requires Valid()
      ensures r == text[pos..] && |r| == |text| - pos
    {
      text[pos..]
    }

    /** `scan(/[k]+/)`: the run at the cursor, the cursor moving past it. */
    method Scan(k: CharClass) returns (t: Option<string>)
      requires Valid()
      modifies this
      ensures Valid()
      ensures t == RunAt(text, old(pos), k)
      ensures pos == old(pos) + (if t.Some? then |t.value| else 0)
    {
      t := RunAt(text, pos, k);
      if t.Some? {
        pos := pos + |t.value|;
      }
    }

    // `skip` with the pattern "any number of characters of class k": the
    // pattern always matches, so the answer is a length and never nil; the
    // cursor moves past the run.
    method Skip(k: CharClass) returns (n: nat)
      requires Valid()
      modifies this
      ensures Valid()
      ensures pos == SpanEnd(text, old(pos), k) && n == pos - old(pos)
    {
      var e := SpanEnd(text, pos, k);
      n := e - pos;
      pos := e;
    }

    /** `scan(/c/)` for one literal character. */
    method ScanChar(c: char) returns (b: bool)
      requires Valid()
      modifies this
      ensures Valid()
      ensures b <==> old(pos) < |text| && text[old(pos)] == c
      ensures pos == old(pos) + (if b then 1 else 0)
    {
      b := pos < |text| && text[pos] == c;
      if b {
        pos := pos + 1;
      }
    }

    /** `check(/[k]/)`: whether the next character is of class `k`; the
        cursor stays. */
    function Peek(k: CharClass): (b: bool)
      reads this
      requires Valid()
      ensures b <==> pos < |text| && InClass(text[pos], k)
    {
      pos < |text| && InClass(text[pos], k)
    }

    /** `scan(/([k]+)c/)`: a run followed by the character `c`, which the
        class excludes; the answer is the run (`scanner[1]`) and the cursor
        moves past `c`. */
    method ScanRunThen(k: CharClass, c: char) returns (g: Option<string>)
      requires Valid() && !InClass(c, k)
      modifies this
      ensures Valid()
      ensures var e := SpanEnd(text, old(pos), k);
        g.Some? <==> e > old(pos) && e < |text| && text[e] == c
      ensures g.Some? ==> g == RunAt(text, old(pos), k) && pos == old(pos) + |g.value| + 1
      ensures g.None? ==> pos == old(pos)
    {
      var e := SpanEnd(text, pos, k);
      if e > pos && e < |text| && text[e] == c {
        g := Some(text[pos..e]);
        pos := e + 1;
      } else {
        g := None;
      }
    }

    /** `scan(Regexp.new(w, ignoreCase))` for a word without pattern
        characters. */
    method ScanLiteral(w: string, ignoreCase: bool) returns (b: bool)
      requires Valid()
      modifies this
      ensures Valid()
      ensures b == LiteralAt(text, old(pos), w, ignoreCase)
      ensures pos == old(pos) + (if b then |w| else 0)
    {
      b := LiteralAt(text, pos, w, ignoreCase);
      if b {
        pos := pos + |w|;
      }
    }

    /** `scan(/(\S+)\s+(\S+)/)`: the match and its groups
        (`scanner[0]`, `scanner[1]`, `scanner[2]`). */
    method ScanPair() returns (m: Option<Pair>)
      requires Valid()
      modifies this
      ensures Valid()
      ensures var p := PairAt(text, old(pos));
        (m.Some? <==> p.Some?) && (m.Some? ==> m.value == p.value.0 && pos == p.value.1)
      ensures m.None? ==> pos == old(pos)
    {
      var p := PairAt(text, pos);
      if p.Some? {
        m := Some(p.value.0);
        pos := p.value.1;
      } else {
        m := None;
      }
    }

    /** `scan_until(/\S.+/)` followed by `matched`: the first match at or
        after the cursor, from its first character to the end of its line;
        the cursor moves to the end of the match. */
    method ScanUntilLine() returns (m: Option<string>)
      requires Valid()
      modifies this
      ensures Valid()
      ensures var p := UntilLineFrom(text, old(pos));
        (m.Some? <==> p.Some?) &&
        (m.Some? ==> m.value == text[p.value..LineEnd(text, p.value + 1)] && pos == LineEnd(text, p.value + 1))
      ensures m.None? ==> pos == old(pos)
    {
      var p := UntilLineFrom(text, pos);
      if p.Some? {
        var e := LineEnd(text, p.value + 1);
        m := Some(text[p.value..e]);
        pos := e;
      } else {
        m := None;
      }
    }
  }

  /** What `scan_until(/\S.+/)` finds holds at least two characters and no
      newline, so a one-character remainder is not found. */
  lemma UntilLineShape(s: string, i: nat)
    requires i <= |s| && UntilLineFrom(s, i).Some?
    ensures var p := UntilLineFrom(s, i).value;
      var m := s[p..LineEnd(s, p + 1)];
      |m| >= 2 && '\n' !in m && !IsSpace(m[0])
  {
    var p := UntilLineFrom(s, i).value;
    var e := LineEnd(s, p + 1);
    assert e > p + 1;
  }

  /** A comment of a single character is no match. */
  lemma UntilLineNeedsTwo(s: string, i: nat)
    requires i + 1 == |s|
    ensures UntilLineFrom(s, i).None?
  {
  }

  /** A run of the token class holds neither spaces nor '/'. */
  lemma TokenHasNoSpaceOrSlash(s: string, i: nat)
    requires i <= |s| && RunAt(s, i, Token).Some?
    ensures var t := RunAt(s, i, Token).value; '/' !in t && forall j :: 0 <= j < |t| ==> !IsSpace(t[j])
  {
    RunAtIsMaximal(s, i, Token);
  }
}

=== FILE: sorting.dfy ===
/** `Array#sort` on the entities and strings the gateway sorts: an insertion
    sort by a list-of-strings key, proved to return an ordered permutation of
    its input. Ruby's own sort is not stable, but wherever the gateway sorts,
    equal keys mean equal elements, so any ordered permutation is the same
    list (see `SortedPermutationUnique`). */
module Sorting {

  import opened Text

  predicate SortedBy<T>(s: seq<T>, key: T -> seq<string>) {
    forall i, j :: 0 <= i < j < |s| ==> KeyLe(key(s[i]), key(s[j]))
  }

  function Insert<T>(x: T, s: seq<T>, key: T -> seq<string>): (r: seq<T>)
    requires SortedBy(s, key)
    ensures SortedBy(r, key)
    ensures multiset(r) == multiset(s) + multiset{x}
    ensures |r| == |s| + 1
  {
    if |s| == 0 then [x]
    else if KeyLe(key(x), key(s[0])) then
      InsertFront(x, s, key);
      [x] + s
    else
      var rest := Insert(x, s[1..], key);
      InsertBehind(x, s, rest, key);
      [s[0]] + rest
  }

  lemma InsertFront<T>(x: T, s: seq<T>, key: T -> seq<string>)
    requires SortedBy(s, key) && |s| > 0 && KeyLe(key(x), key(s[0]))
    ensures SortedBy([x] + s, key)
  {
    forall j | 0 < j < |s| ensures KeyLe(key(x), key(s[j])) {
      KeyLeTrans(key(x), key(s[0]), key(s[j]));
    }
  }

  lemma InsertBehind<T>(x: T, s: seq<T>, rest: seq<T>, key: T -> seq<string>)
    requires SortedBy(s, key) && |s| > 0 && !KeyLe(key(x), key(s[0]))
    requires SortedBy(rest, key) && multiset(rest) == multiset(s[1..]) + multiset{x}
    ensures SortedBy([s[0]] + rest, key)
    ensures multiset([s[0]] + rest) == multiset(s) + multiset{x}
  {
    KeyLeTotal(key(x), key(s[0]));
    forall j | 0 <= j < |rest| ensures KeyLe(key(s[0]), key(rest[j])) {
      var y := rest[j];
      assert y in multiset(rest);
      assert y in multiset(s[1..]) + multiset{x};
      if y in multiset(s[1..]) {
        var k :| 0 <= k < |s[1..]| && s[1..][k] == y;
        assert s[k + 1] == y;
      }
    }
    assert s == [s[0]] + s[1..];
  }

  /** The list sorted by `key`: an ordered permutation of `s`. */
  function SortBy<T>(s: seq<T>, key: T -> seq<string>): (r: seq<T>)
    ensures SortedBy(r, key)
    ensures multiset(r) == multiset(s)
    ensures |r| == |s|
  {
    if |s| == 0 then []
    else
      assert s == s[..|s| - 1] + [s[|s| - 1]];
      Insert(s[|s| - 1], SortBy(s[..|s| - 1], key), key)
  }

  /** When equal keys mean equal elements, there is only one ordered
      permutation of a list, so the choice of sorting algorithm cannot show. */
  lemma {:induction false} SortedPermutationUnique<T>(a: seq<T>, b: seq<T>, key: T -> seq<string>)
    requires forall x, y :: key(x) == key(y) ==> x == y
    requires SortedBy(a, key) && SortedBy(b, key)
    requires multiset(a) == multiset(b)
    ensures a == b
    decreases |a|
  {
    assert |b| == |multiset(b)| == |multiset(a)| == |a|;
    if |a| > 0 {
      HeadsEqual(a, b, key);
      TailMultiset(a, b);
      assert SortedBy(a[1..], key) && SortedBy(b[1..], key);
      SortedPermutationUnique(a[1..], b[1..], key);
      assert a == [a[0]] + a[1..];
      assert b == [b[0]] + b[1..];
    }
  }

  lemma HeadsEqual<T>(a: seq<T>, b: seq<T>, key: T -> seq<string>)
    requires forall x, y :: key(x) == key(y) ==> x == y
    requires SortedBy(a, key) && SortedBy(b, key)
    requires multiset(a) == multiset(b)
    requires |a| > 0 && |b| > 0
    ensures a[0] == b[0]
  {
    assert a[0] in multiset(b);
    assert b[0] in multiset(a);
    var i :| 0 <= i < |b| && b[i] == a[0];
    var j :| 0 <= j < |a| && a[j] == b[0];
    assert KeyLe(key(b[0]), key(a[0])) by {
      if i > 0 { assert KeyLe(key(b[0]), key(b[i])); } else { KeyLeRefl(key(a[0])); }
    }
    assert KeyLe(key(a[0]), key(b[0])) by {
      if j > 0 { assert KeyLe(key(a[0]), key(a[j])); } else { KeyLeRefl(key(a[0])); }
    }
    KeyLeAntisym(key(a[0]), key(b[0]));
  }

  lemma TailMultiset<T>(a: seq<T>, b: seq<T>)
    requires |a| > 0 && |b| > 0 && a[0] == b[0]
    requires multiset(a) == multiset(b)
    ensures multiset(a[1..]) == multiset(b[1..])
  {
    assert a == [a[0]] + a[1..];
    assert b == [b[0]] + b[1..];
    assert multiset(a) == multiset{a[0]} + multiset(a[1..]);
    assert multiset(b) == multiset{a[0]} + multiset(b[1..]);
    forall x ensures multiset(a[1..])[x] == multiset(b[1..])[x] {
      assert multiset(a)[x] == multiset{a[0]}[x] + multiset(a[1..])[x];
      assert multiset(b)[x] == multiset{a[0]}[x] + multiset(b[1..])[x];
    }
  }

  /** Sorting strings by themselves. */
  function SortStrings(s: seq<string>): (r: seq<string>)
    ensures SortedBy(r, StringKey)
    ensures multiset(r) == multiset(s)
  {
    SortBy(s, StringKey)
  }

  function StringKey(s: string): seq<string> {
    [s]
  }
}

=== FILE: switchboard.dfy ===
/** The switchboard: it looks objects up in the loaded configuration, routes
    each notification along its contact's policies (chat, mail, pager),
    keeps what a contact missed while away and sums it up when the contact
    comes back, and forces checks whose results it reports back. */
module Gateway {

  import opened Wrappers
  import opened Text
  import opened OrderedMaps
  import opened NagiosModel
  import opened Control
  import opened Events
  import opened StatusReport
  import opened Formatting
  import opened Sorting
  import opened NagiosStore
  import opened Chat
  import opened Scanning

  /** The settings the switchboard reads from its configuration file: the
      contact property holding a chat address, and the sender of mail (a
      missing one raises when mail is sent). */
  datatype Conf = Conf(xmppField: string, smtpFrom: Option<string>)

  /** Everything the gateway sends, in order. */
  class Outbox {
    var events: seq<Event>

    constructor ()
      ensures events == []
    {
      events := [];
    }

    method Send(e: Event)
      modifies this
      ensures events == old(events) + [e]
    {
      events := events + [e];
    }
  }

  // ---------------------------------------------------------------------
  // Looking things up in the configuration

  /** `find_host(name)`: the host filed under `name`. Reading the
      configuration may raise, and a configuration without hosts raises on
      `[]`. */
  function FindHost(cfg: Result<ConfigData>, name: string): (r: Result<Option<Host>>)
    ensures cfg.Err? ==> r == Err(cfg.msg)
    ensures cfg.Ok? && cfg.value.hosts.None? ==> r == Err(NilError("[]"))
    ensures r.Ok? ==> cfg.Ok? && r.value == HostOf(cfg.value, name)
  {
    var c :- cfg;
    if c.hosts.None? then Err(NilError("[]")) else Ok(c.hosts.value.Get(name))
  }

  /** `find_service(hname, sname)`: the service `sname` of the host
      `hname`, or nothing when either is missing. */
  function FindService(cfg: Result<ConfigData>, hname: string, sname: string): (r: Result<Option<Service>>)
    ensures r.Err? <==> FindHost(cfg, hname).Err?
    ensures r.Ok? ==> (r.value.Some? <==>
      HostOf(cfg.value, hname).Some? && sname in HostOf(cfg.value, hname).value.services.m)
    ensures r.Ok? && r.value.Some? ==> r.value.value == HostOf(cfg.value, hname).value.services.m[sname]
  {
    var h :- FindHost(cfg, hname);
    if h.None? then Ok(None) else Ok(h.value.services.Get(sname))
  }

  /** `find_notification_referent(n)`: the host or service a notification
      names, by its type. Other types name nothing and read no
      configuration. The referent comes with its monitored state. */
  function FindReferent(cfg: Result<ConfigData>, n: Notification): (r: Result<Option<Entry>>)
    ensures NType(n) != "host" && NType(n) != "service" ==> r == Ok(None)
    ensures r.Ok? && r.value.Some? ==> cfg.Ok? && MonitoredOf(cfg.value, r.value.value.ref) == Some(r.value.value.mon)
    ensures r.Ok? && r.value.Some? && NType(n) == "host" ==> r.value.value.ref == HostRef(Param(n, "HOSTNAME"))
    ensures r.Ok? && r.value.Some? && NType(n) == "service" ==>
      r.value.value.ref == SvcRef(Param(n, "HOSTNAME"), Param(n, "SERVICEDESC"))
    ensures NType(n) == "host" && r.Ok? ==> cfg.Ok? && (r.value.None? <==> HostOf(cfg.value, Param(n, "HOSTNAME")).None?)
  {
    if NType(n) == "host" then
      var h :- FindHost(cfg, Param(n, "HOSTNAME"));
      if h.None? then Ok(None) else Ok(Some(Entry(HostRef(Param(n, "HOSTNAME")), h.value.mon)))
    else if NType(n) == "service" then
      var s :- FindService(cfg, Param(n, "HOSTNAME"), Param(n, "SERVICEDESC"));
      if s.None? then Ok(None) else Ok(Some(Entry(SvcRef(Param(n, "HOSTNAME"), Param(n, "SERVICEDESC")), s.value.mon)))
    else Ok(None)
  }

  /** The contact filed under `k` has `addr` in its property `field`. */
  predicate HasProp(t: OMap<string, Item>, k: string, field: string, addr: string) {
    k in t.m && t.m[k].props.Get(field) == Some(addr)
  }

  /** The place of the first key, in the order `ks`, whose contact has
      `addr` in its property `field`. */
  function FirstWithProp(t: OMap<string, Item>, ks: seq<string>, field: string, addr: string): (r: Option<nat>)
    ensures r.Some? ==> r.value < |ks| && HasProp(t, ks[r.value], field, addr)
    ensures r.Some? ==> forall j :: 0 <= j < r.value ==> !HasProp(t, ks[j], field, addr)
    ensures r.None? ==> forall j :: 0 <= j < |ks| ==> !HasProp(t, ks[j], field, addr)
  {
    if |ks| == 0 then None
    else if HasProp(t, ks[0], field, addr) then Some(0)
    else
      var r := FirstWithProp(t, ks[1..], field, addr);
      if r.None? then None
      else
        assert forall j :: 1 <= j < r.value + 1 ==> ks[j] == ks[1..][j - 1];
        Some(r.value + 1)
  }

  /** `find_nagios_contact_with_jid(addr)`: the first configured contact
      whose chat-address property is `addr`. A configuration without a
      contact table raises on `values`. */
  function FindContactWithJid(cfg: Result<ConfigData>, field: string, addr: string): (r: Result<Option<Item>>)
    ensures cfg.Err? ==> r == Err(cfg.msg)
    ensures cfg.Ok? ==> (r.Err? <==> Contacts(cfg.value).None?)
    ensures r.Ok? ==> var t := Contacts(cfg.value).value; var i := FirstWithProp(t, t.keys, field, addr);
      (r.value.Some? <==> i.Some?) && (r.value.Some? ==> r.value.value == t.m[t.keys[i.value]])
  {
    var c :- cfg;
    match Contacts(c)
    case None => Err(NilError("values"))
    case Some(t) =>
      var i := FirstWithProp(t, t.keys, field, addr);
      if i.None? then Ok(None) else Ok(Some(t.m[t.keys[i.value]]))
  }

  /** `contacts.fetch(name)` on the configured contacts. */
  function ContactNamed(cfg: Result<ConfigData>, name: string): (r: Result<Item>)
    ensures cfg.Err? ==> r == Err(cfg.msg)
    ensures cfg.Ok? && Contacts(cfg.value).None? ==> r == Err(NilError("fetch"))
    ensures cfg.Ok? && Contacts(cfg.value).Some? ==>
      (r.Ok? <==> name in Contacts(cfg.value).value.m) &&
      (r.Ok? ==> r.value == Contacts(cfg.value).value.m[name]) &&
      (r.Err? ==> r.msg == KeyNotFound(name))
  {
    var c :- cfg;
    match Contacts(c)
    case None => Err(NilError("fetch"))
    case Some(t) => if name in t.m then Ok(t.m[name]) else Err(KeyNotFound(name))
  }

  /** The first service key, in definition order, that matches at `pos`
      (ignoring case when `ignoreCase` is set): not the longest one. */
  function FirstServiceAt(keys: seq<string>, text: string, pos: nat, ignoreCase: bool): (r: Option<nat>)
    requires pos <= |text|
    ensures r.Some? ==> r.value < |keys| && LiteralAt(text, pos, keys[r.value], ignoreCase)
    ensures r.Some? ==> forall j :: 0 <= j < r.value ==> !LiteralAt(text, pos, keys[j], ignoreCase)
    ensures r.None? ==> forall j :: 0 <= j < |keys| ==> !LiteralAt(text, pos, keys[j], ignoreCase)
  {
    if |keys| == 0 then None
    else if LiteralAt(text, pos, keys[0], ignoreCase) then Some(0)
    else
      var r := FirstServiceAt(keys[1..], text, pos, ignoreCase);
      if r.None? then None
      else
        assert forall j :: 1 <= j < r.value + 1 ==> keys[j] == keys[1..][j - 1];
        Some(r.value + 1)
  }

  /** What a parse step yields: the host or service it names, or what it
      raised, and where the cursor is afterwards. */
  datatype Parsed = Parsed(result: Result<Entry>, pos: nat)

  /** `resolve_service_name(host, scanner)` with the cursor at `pos`: the
      first service of the host, in definition order, whose name matches at
      the cursor (ignoring case when `ignoreCase` is set, as the trunk's
      `Regexp.new(n, true)` does), the cursor moving past the name; no match
      raises and leaves the cursor. A key of the service table always has an
      entry; the last branch covers tables that do not keep that shape. */
  function ResolveAt(hostName: string, host: Host, text: string, pos: nat, ignoreCase: bool): (p: Parsed)
    requires pos <= |text|
    ensures pos <= p.pos <= |text|
  {
    match FirstServiceAt(host.services.keys, text, pos, ignoreCase)
    case None => Parsed(Err("Unknown service starting with " + text[pos..] + " for host " + host.name), pos)
    case Some(i) =>
      var k := host.services.keys[i];
      if k in host.services.m then Parsed(Ok(Entry(SvcRef(hostName, k), host.services.m[k].mon)), pos + |k|)
      else Parsed(Err(NilError("mon")), pos + |k|)
  }

  /** A resolved service is the first one, in definition order, whose name
      matches at the cursor, and the cursor ends right after that name; the
      error comes only when no name matches. */
  lemma ResolveAtIsFirstMatch(hostName: string, host: Host, text: string, pos: nat, ignoreCase: bool)
    requires pos <= |text| && host.services.Valid()
    ensures var p := ResolveAt(hostName, host, text, pos, ignoreCase);
      p.result.Ok? <==> exists j :: 0 <= j < |host.services.keys| && LiteralAt(text, pos, host.services.keys[j], ignoreCase)
    ensures var p := ResolveAt(hostName, host, text, pos, ignoreCase);
      p.result.Ok? ==> exists i :: (0 <= i < |host.services.keys| &&
        p.result.value.ref == SvcRef(hostName, host.services.keys[i]) &&
        LiteralAt(text, pos, host.services.keys[i], ignoreCase) && p.pos == pos + |host.services.keys[i]| &&
        forall j :: 0 <= j < i ==> !LiteralAt(text, pos, host.services.keys[j], ignoreCase))
  {
    var f := FirstServiceAt(host.services.keys, text, pos, ignoreCase);
    if f.Some? {
      assert host.services.keys[f.value] in host.services.m;
    }
  }

  /** When one service name is a prefix of another, the one defined first
      wins, even if the longer one matches too. */
  lemma FirstDefinedWins(keys: seq<string>, text: string, pos: nat, i: nat, j: nat, ignoreCase: bool)
    requires pos <= |text| && i < j < |keys|
    requires LiteralAt(text, pos, keys[i], ignoreCase) && LiteralAt(text, pos, keys[j], ignoreCase)
    ensures FirstServiceAt(keys, text, pos, ignoreCase).Some? && FirstServiceAt(keys, text, pos, ignoreCase).value <= i
  {
  }

  /** `"#{h.inspect}"` for a hash of strings: `{"k"=>"v", ...}`. */
  function InspectProps(p: Props): (r: string)
    ensures |r| >= 2 && r[0] == '{' && r[|r| - 1] == '}'
  {
    "{" + Join(InspectPairs(p, p.keys), ", ") + "}"
  }

  function InspectPairs(p: Props, ks: seq<string>): seq<string> {
    if |ks| == 0 then []
    else (if ks[0] in p.m then [Inspect(ks[0]) + "=>" + Inspect(p.m[ks[0]])] else []) + InspectPairs(p, ks[1..])
  }

  /** How a configured contact prints inside a message: the default
      `Object#to_s`, without the object's address. */
  const CONTACT_LABEL: string := "#<Nagios::Contact>"

  // ---------------------------------------------------------------------
  // Delivering one notification

  /** What the switchboard knows of a chat contact while routing: whether
      it is reachable, what it missed, and its ring of recent
      notifications. */
  datatype View = View(available: bool, missed: seq<Notification>, recent: map<int, Notification>, seqNo: int)

  /** The message raised for a contact without a chat address. */
  function NoJid(field: string, contact: Item): string {
    "Contact " + contact.name + " does not have a JID in " + field + ": props " + InspectProps(contact.props)
  }

  /** The chat contact's record after an attempt, what was sent, and what
      was returned or raised. */
  datatype Delivery = Delivery(view: Option<View>, sent: seq<Event>, result: Result<bool>)

  /** `xmpp_notification(contact, n)`, given the chat contact filed under
      the contact's address, if there is one: no address raises; no chat
      contact answers false; a reachable contact gets the next number, under
      which the notification is filed, and the chat text, and the answer is
      true; otherwise the notification joins the missed queue and the
      answer is false. */
  function XmppStep(field: string, contact: Item, view: Option<View>, n: Notification): (d: Delivery)
    ensures contact.props.Get(field).None? ==> d == Delivery(view, [], Err(NoJid(field, contact)))
    ensures contact.props.Get(field).Some? && view.None? ==> d == Delivery(None, [], Ok(false))
    ensures d.result == Ok(true) ==> (view.Some? && view.value.available && contact.props.Get(field).Some? &&
      var text := RenderNotification(ChatText, n.(number := Some(NextSeq(view.value.seqNo))));
      text.Ok? && d.sent == [Chat(contact.props.Get(field).value, text.value)])
    ensures view.Some? && !view.value.available && contact.props.Get(field).Some? ==>
      d == Delivery(Some(view.value.(missed := view.value.missed + [n])), [], Ok(false))
    ensures view.Some? && d.view.Some? ==> d.view.value.available == view.value.available
    ensures view.Some? && view.value.available && contact.props.Get(field).Some? ==>
      d.view == Some(view.value.(recent := view.value.recent[NextSeq(view.value.seqNo) := n], seqNo := NextSeq(view.value.seqNo)))
  {
    match contact.props.Get(field)
    case None => Delivery(view, [], Err(NoJid(field, contact)))
    case Some(jid) =>
      match view
      case None => Delivery(None, [], Ok(false))
      case Some(v) =>
        if v.available then
          var k := NextSeq(v.seqNo);
          var v' := v.(recent := v.recent[k := n], seqNo := k);
          match RenderNotification(ChatText, n.(number := Some(k)))
          case Err(e) => Delivery(Some(v'), [], Err(e))
          case Ok(text) => Delivery(Some(v'), [Chat(jid, text)], Ok(true))
        else Delivery(Some(v.(missed := v.missed + [n])), [], Ok(false))
  }

  /** `email_notification(contact, to, n)` to the address in the contact's
      property `field` (`email` or `pager`): every missing piece raises, in
      the order the code reads them. */
  function MailStep(conf: Conf, contact: Item, field: string, n: Notification): (r: Result<Event>)
    ensures r.Ok? ==> (r.value.Email? && contact.props.Get(field) == Some(r.value.to) &&
      conf.smtpFrom == Some(r.value.from) && contact.props.Get("alias") == Some(r.value.alias))
    ensures r.Ok? ==> Ok(r.value.subject) == RenderNotification(MailSubject, n) && Ok(r.value.body) == RenderNotification(MailBody, n)
    ensures contact.props.Get(field).None? ==> r == Err(KeyNotFound(field))
    ensures contact.props.Get(field).Some? && conf.smtpFrom.None? ==> r == Err(KeyNotFound("smtp_from"))
  {
    var to :- if contact.props.Get(field).Some? then Ok(contact.props.Get(field).value) else Err(KeyNotFound(field));
    var from :- if conf.smtpFrom.Some? then Ok(conf.smtpFrom.value) else Err(KeyNotFound("smtp_from"));
    var subject :- RenderNotification(MailSubject, n);
    // The body formatter fails exactly when the subject formatter does.
    var body := RenderNotification(MailBody, n).value;
    var alias :- if contact.props.Get("alias").Some? then Ok(contact.props.Get("alias").value) else Err(KeyNotFound("alias"));
    Ok(Email(from, to, alias, subject, body))
  }

  /** One policy tried: the chat contact's record after it, what was sent,
      whether the walk stops there, and whether it raised. */
  datatype Step = Step(view: Option<View>, sent: seq<Event>, stop: bool, outcome: Outcome)

  /** `xmpp` stops the walk when the contact was reached (or raised), `email`
      and `pager` always stop it, and any other policy raises. */
  function PolicyStep(conf: Conf, contact: Item, p: string, view: Option<View>, n: Notification): (s: Step)
    ensures !s.stop ==> p == "xmpp" && s.outcome == Pass
    ensures s.outcome.Fail? ==> s.stop
    ensures p != "xmpp" ==> s.view == view && s.stop
  {
    if p == "xmpp" then
      var d := XmppStep(conf.xmppField, contact, view, n);
      if d.result.Err? then Step(d.view, d.sent, true, Fail(d.result.msg))
      else Step(d.view, d.sent, d.result.value, Pass)
    else if p == "email" || p == "pager" then
      match MailStep(conf, contact, p, n)
      case Err(e) => Step(view, [], true, Fail(e))
      case Ok(m) => Step(view, [m], true, Pass)
    else Step(view, [], true, Fail("unknown policy " + p + " for " + CONTACT_LABEL + "!"))
  }

  /** The walk over the policies: the chat contact's record after it, what
      was sent, and whether it raised. */
  datatype Walk = Walk(view: Option<View>, sent: seq<Event>, outcome: Outcome)

  /** The policies in order, each tried until one stops the walk. */
  function WalkSpec(conf: Conf, contact: Item, ps: seq<string>, view: Option<View>, n: Notification): Walk
    decreases |ps|
  {
    if |ps| == 0 then Walk(view, [], Pass)
    else
      var s := PolicyStep(conf, contact, ps[0], view, n);
      if s.stop then Walk(s.view, s.sent, s.outcome)
      else After(s.sent, WalkSpec(conf, contact, ps[1..], s.view, n))
  }

  /** Prepending what was sent before a step of the walk. */
  function After(sent: seq<Event>, w: Walk): Walk {
    Walk(w.view, sent + w.sent, w.outcome)
  }

  /** The walk from `ps[i]` on is that policy's step, then, unless it
      stopped, the walk from `ps[i + 1]` on. */
  lemma WalkStep(conf: Conf, contact: Item, ps: seq<string>, i: nat, view: Option<View>, n: Notification)
    requires i < |ps|
    ensures var s := PolicyStep(conf, contact, ps[i], view, n);
      s.stop ==> WalkSpec(conf, contact, ps[i..], view, n) == Walk(s.view, s.sent, s.outcome)
    ensures var s := PolicyStep(conf, contact, ps[i], view, n);
      !s.stop ==> WalkSpec(conf, contact, ps[i..], view, n) == After(s.sent, WalkSpec(conf, contact, ps[i + 1..], s.view, n))
  {
    assert ps[i..][1..] == ps[i + 1..];
  }

  lemma Assoc(a: seq<Event>, b: seq<Event>, c: seq<Event>)
    ensures (a + b) + c == a + (b + c)
  {
  }

  lemma AfterAfter(a: seq<Event>, b: seq<Event>, w: Walk)
    ensures After(a, After(b, w)) == After(a + b, w)
  {
    assert a + (b + w.sent) == (a + b) + w.sent;
  }

  /** Mail and pager end the walk whatever follows. */
  lemma MailEndsWalk(conf: Conf, contact: Item, p: string, rest: seq<string>, view: Option<View>, n: Notification)
    requires p == "email" || p == "pager"
    ensures WalkSpec(conf, contact, [p] + rest, view, n) == WalkSpec(conf, contact, [p], view, n)
    ensures |WalkSpec(conf, contact, [p], view, n).sent| <= 1
  {
  }

  /** A reachable contact ends the walk at the first `xmpp`: nothing after
      it is tried, and exactly one chat message is sent. */
  lemma ReachedEndsWalk(conf: Conf, contact: Item, rest: seq<string>, v: View, n: Notification)
    requires v.available && contact.props.Get(conf.xmppField).Some?
    requires RenderNotification(ChatText, n.(number := Some(NextSeq(v.seqNo)))).Ok?
    ensures var w := WalkSpec(conf, contact, ["xmpp"] + rest, Some(v), n);
      w.outcome == Pass && |w.sent| == 1 && w.sent[0].Chat? &&
      w == WalkSpec(conf, contact, ["xmpp"], Some(v), n)
  {
  }

  /** An unknown policy raises when the walk reaches it, and only then. */
  lemma UnknownPolicyRaises(conf: Conf, contact: Item, p: string, rest: seq<string>, view: Option<View>, n: Notification)
    requires p != "xmpp" && p != "email" && p != "pager"
    ensures WalkSpec(conf, contact, [p] + rest, view, n) ==
      Walk(view, [], Fail("unknown policy " + p + " for " + CONTACT_LABEL + "!"))
  {
  }

  /** A contact that is away misses one copy of the notification for every
      `xmpp` policy the walk passes, and nothing is sent. */
  lemma {:induction false} AwayMissesEach(conf: Conf, contact: Item, k: nat, v: View, n: Notification)
    requires !v.available && contact.props.Get(conf.xmppField).Some?
    ensures var w := WalkSpec(conf, contact, seq(k, _ => "xmpp"), Some(v), n);
      w.outcome == Pass && w.sent == [] && w.view == Some(v.(missed := v.missed + seq(k, _ => n)))
  {
    if k > 0 {
      var ps := seq(k, _ => "xmpp");
      assert ps[1..] == seq(k - 1, _ => "xmpp");
      var v1 := v.(missed := v.missed + [n]);
      assert PolicyStep(conf, contact, ps[0], Some(v), n) == Step(Some(v1), [], false, Pass);
      AwayMissesEach(conf, contact, k - 1, v1, n);
      var w1 := WalkSpec(conf, contact, ps[1..], Some(v1), n);
      assert WalkSpec(conf, contact, ps, Some(v), n) == After([], w1);
      assert [n] + seq(k - 1, _ => n) == seq(k, _ => n);
      assert v.missed + [n] + seq(k - 1, _ => n) == v.missed + seq(k, _ => n);
    } else {
      assert v.missed + seq(k, _ => n) == v.missed;
    }
  }

  // ---------------------------------------------------------------------
  // Catching up

  /** The referents of the missed notifications that exist, in order. The
      first lookup that raises stops the collection. */
  function Referents(cfg: Result<ConfigData>, ns: seq<Notification>): (r: Result<seq<Entry>>)
    ensures r.Ok? ==> forall e :: e in r.value ==> exists n :: n in ns && FindReferent(cfg, n) == Ok(Some(e))
    ensures r.Ok? ==> forall n :: n in ns && FindReferent(cfg, n).Ok? && FindReferent(cfg, n).value.Some? ==>
      FindReferent(cfg, n).value.value in r.value
    ensures r.Err? ==> exists n :: n in ns && FindReferent(cfg, n).Err?
    ensures (forall n :: n in ns ==> FindReferent(cfg, n).Ok?) ==> r.Ok?
  {
    if |ns| == 0 then Ok([])
    else
      var here :- FindReferent(cfg, ns[0]);
      var rest :- Referents(cfg, ns[1..]);
      assert forall n :: n in ns[1..] ==> n in ns;
      assert forall n :: n in ns ==> n == ns[0] || n in ns[1..];
      Ok((if here.Some? then [here.value] else []) + rest)
  }

  /** `to_set`: each element once, at its first place. */
  function Dedup(s: seq<Entry>): (r: seq<Entry>)
    ensures forall x :: x in r <==> x in s
    ensures forall i, j :: 0 <= i < j < |r| ==> r[i] != r[j]
  {
    if |s| == 0 then []
    else
      var p := Dedup(s[..|s| - 1]);
      assert forall x :: x in s <==> x in s[..|s| - 1] || x == s[|s| - 1];
      if s[|s| - 1] in p then p else p + [s[|s| - 1]]
  }

  function HardOf(e: Entry): Option<State> {
    e.mon.hard
  }

  /** The objects still in a hard problem state (a missing hard state is not
      ok either). */
  function StillBad(es: seq<Entry>): (r: seq<Entry>)
    ensures forall e :: e in r <==> e in es && HardOf(e) != Some(OK)
  {
    if |es| == 0 then []
    else
      assert forall e :: e in es <==> e in es[..|es| - 1] || e == es[|es| - 1];
      StillBad(es[..|es| - 1]) + (if HardOf(es[|es| - 1]) != Some(OK) then [es[|es| - 1]] else [])
  }

  function Hosts(es: seq<Entry>): (r: seq<Entry>)
    ensures forall e :: e in r <==> e in es && e.ref.HostRef?
  {
    if |es| == 0 then []
    else
      assert forall e :: e in es <==> e in es[..|es| - 1] || e == es[|es| - 1];
      Hosts(es[..|es| - 1]) + (if es[|es| - 1].ref.HostRef? then [es[|es| - 1]] else [])
  }

  function Services(es: seq<Entry>): (r: seq<Entry>)
    ensures forall e :: e in r <==> e in es && e.ref.SvcRef?
  {
    if |es| == 0 then []
    else
      assert forall e :: e in es <==> e in es[..|es| - 1] || e == es[|es| - 1];
      Services(es[..|es| - 1]) + (if es[|es| - 1].ref.SvcRef? then [es[|es| - 1]] else [])
  }

  /** The hard states of the objects, each once, in the order they first
      occur: the keys of `classify { |x| x.hard_state }`. */
  function HardStates(es: seq<Entry>): (r: seq<Option<State>>)
    ensures forall st :: st in r <==> exists e :: e in es && HardOf(e) == st
    ensures forall i, j :: 0 <= i < j < |r| ==> r[i] != r[j]
  {
    if |es| == 0 then []
    else
      var p := HardStates(es[..|es| - 1]);
      var last := es[|es| - 1];
      assert forall e :: e in es <==> e in es[..|es| - 1] || e == last;
      if HardOf(last) in p then p else p + [HardOf(last)]
  }

  /** The objects in hard state `st`, in order. */
  function WithHard(es: seq<Entry>, st: Option<State>): (r: seq<Entry>)
    ensures forall e :: e in r <==> e in es && HardOf(e) == st
    ensures |r| <= |es|
  {
    if |es| == 0 then []
    else
      assert forall e :: e in es <==> e in es[..|es| - 1] || e == es[|es| - 1];
      WithHard(es[..|es| - 1], st) + (if HardOf(es[|es| - 1]) == st then [es[|es| - 1]] else [])
  }

  function Labels(es: seq<Entry>): (r: seq<string>)
    ensures |r| == |es| && forall i :: 0 <= i < |es| ==> r[i] == RefLabel(es[i].ref)
  {
    if |es| == 0 then [] else [RefLabel(es[0].ref)] + Labels(es[1..])
  }

  /** One state's line: the state upper-cased, then the names of its
      objects in their order (hosts by name, services by host name then
      description), joined by ", ". */
  function HardGroupText(es: seq<Entry>, st: Option<State>): string {
    Upcase(OptStateName(st)) + ": " + Join(Labels(SortBy(WithHard(es, st), EntryKey)), ", ")
  }

  function HardGroupTexts(es: seq<Entry>, sts: seq<Option<State>>): (r: seq<string>)
    ensures |r| == |sts| && forall i :: 0 <= i < |sts| ==> r[i] == HardGroupText(es, sts[i])
  {
    if |sts| == 0 then [] else [HardGroupText(es, sts[0])] + HardGroupTexts(es, sts[1..])
  }

  /** The groups of one kind of object, joined by "; ". */
  function HardGroupsText(es: seq<Entry>): string {
    Join(HardGroupTexts(es, HardStates(es)), "; ")
  }

  const WHILE_OUT: string := "While you were out:\n"

  /** `catch_up`'s message for a missed queue: the hosts and the services
      that are still in a hard problem state, each once, grouped by state;
      no message when there are none. */
  function CatchUpMessage(cfg: Result<ConfigData>, missed: seq<Notification>): (r: Result<Option<string>>)
    ensures r.Err? <==> Referents(cfg, missed).Err?
    ensures r.Ok? ==> (r.value.None? <==> StillBad(Referents(cfg, missed).value) == [])
  {
    var found :- Referents(cfg, missed);
    var bad := Dedup(StillBad(found));
    var hs := Hosts(bad);
    var ss := Services(bad);
    if hs == [] && ss == [] then
      Ok(None)
    else
      Ok(Some(WHILE_OUT +
        (if hs != [] then HardGroupsText(hs) + "\n" else "") +
        (if ss != [] then HardGroupsText(ss) + "\n" else "")))
  }

  /** Nothing is said when every missed notification names nothing that
      exists, or only objects that are hard ok now. */
  lemma CatchUpQuietWhenRecovered(cfg: Result<ConfigData>, missed: seq<Notification>)
    requires forall n :: n in missed ==> FindReferent(cfg, n).Ok?
    requires forall n :: n in missed && FindReferent(cfg, n).value.Some? ==> HardOf(FindReferent(cfg, n).value.value) == Some(OK)
    ensures CatchUpMessage(cfg, missed) == Ok(None)
  {
  }

  /** In a group line every object is in that state, each object of the
      kind in that state is there exactly once, the states differ from line
      to line, and the names are in order. */
  lemma HardGroupsPartition(es: seq<Entry>, e: Entry)
    requires forall i, j :: 0 <= i < j < |es| ==> es[i] != es[j]
    requires e in es
    ensures HardOf(e) in HardStates(es)
    ensures var g := SortBy(WithHard(es, HardOf(e)), EntryKey);
      e in g && SortedBy(g, EntryKey) && multiset(g)[e] == 1
    ensures forall st :: st in HardStates(es) && st != HardOf(e) ==> e !in WithHard(es, st)
  {
    WithHardOnce(es, HardOf(e), e);
  }

  lemma {:induction false} WithHardOnce(es: seq<Entry>, st: Option<State>, e: Entry)
    requires forall i, j :: 0 <= i < j < |es| ==> es[i] != es[j]
    ensures multiset(WithHard(es, st))[e] <= 1
  {
    if |es| > 0 {
      var p := es[..|es| - 1];
      WithHardOnce(p, st, e);
      if HardOf(es[|es| - 1]) == st && es[|es| - 1] == e {
        assert e !in p;
        assert e !in WithHard(p, st);
      }
    }
  }

  // ---------------------------------------------------------------------
  // The switchboard

  class Switchboard {
    const conf: Conf
    const nagios: NagiosInstance
    const xmpp: ChatClient
    const out: Outbox
    /** The presence text the gateway shows: the status message. */
    var statusMsg: string

    /** Every chat contact keeps its ring in shape. */
    ghost predicate Valid()
      reads this, xmpp, xmpp.contacts.Values
    {
      forall j :: j in xmpp.contacts ==> xmpp.contacts[j].Valid()
    }

    constructor (conf: Conf, nagios: NagiosInstance, xmpp: ChatClient, out: Outbox)
      requires forall j :: j in xmpp.contacts ==> xmpp.contacts[j].Valid()
      ensures this.conf == conf && this.nagios == nagios && this.xmpp == xmpp && this.out == out
      ensures statusMsg == "" && Valid()
    {
      this.conf := conf;
      this.nagios := nagios;
      this.xmpp := xmpp;
      this.out := out;
      statusMsg := "";
    }

    /** The chat contact filed under a configured contact's address. */
    function ChatContactFor(contact: Item): (r: Option<ChatContact>)
      reads this, xmpp
      ensures r.Some? ==> r.value in xmpp.contacts.Values
    {
      match contact.props.Get(conf.xmppField)
      case None => None
      case Some(jid) => if jid in xmpp.contacts then Some(xmpp.contacts[jid]) else None
    }

    function Targets(contact: Item): set<ChatContact>
      reads this, xmpp
    {
      var x := ChatContactFor(contact);
      if x.Some? then {x.value} else {}
    }

    /** `check(item, notify)`: a forced check of `item` at `now` goes to the
        command pipe and, when someone asked, a listener waits for a check
        newer than `now` to tell them. */
    method Check(item: Ref, notify: Option<ChatContact>, now: int)
      modifies out, nagios
      ensures out.events == old(out.events) + [Control(ForceCheck(now, item, now))]
      ensures nagios.Snapshot() == old(nagios.Snapshot()).(listeners := old(nagios.listeners) + (if notify.Some? then [CheckListener(item, now, notify.value.jid)] else []))
    {
      var line := ForceCheck(now, item, now);
      out.Send(Control(line));
      if notify.Some? {
        nagios.Register(CheckListener(item, now, notify.value.jid));
      } else {
        assert old(nagios.listeners) + [] == old(nagios.listeners);
      }
    }

    /** `resolve_service_name(host, scanner)`, carried out on the scanner. */
    method ResolveServiceName(hostName: string, host: Host, sc: Scanner, ignoreCase: bool) returns (r: Result<Entry>)
      requires sc.Valid()
      modifies sc
      ensures sc.Valid()
      ensures var p := ResolveAt(hostName, host, sc.text, old(sc.pos), ignoreCase);
        r == p.result && sc.pos == p.pos
    {
      var keys := host.services.keys;
      var i := 0;
      while i < |keys|
        invariant 0 <= i <= |keys| && sc.Valid() && sc.pos == old(sc.pos)
        invariant forall j :: 0 <= j < i ==> !LiteralAt(sc.text, sc.pos, keys[j], ignoreCase)
      {
        var hit := sc.ScanLiteral(keys[i], ignoreCase);
        if hit {
          FirstServiceAtIs(keys, sc.text, old(sc.pos), i, ignoreCase);
          if keys[i] in host.services.m {
            return Ok(Entry(SvcRef(hostName, keys[i]), host.services.m[keys[i]].mon));
          } else {
            return Err(NilError("mon"));
          }
        }
        i := i + 1;
      }
      return Err("Unknown service starting with " + sc.Rest() + " for host " + host.name);
    }

    /** `xmpp_notification(contact, n)`. */
    method XmppNotification(contact: Item, n: Notification) returns (r: Result<bool>)
      requires Valid()
      modifies out, Targets(contact)
      ensures Valid()
      ensures var x := ChatContactFor(contact);
        var d := XmppStep(conf.xmppField, contact, old(ViewFor(x)), n);
        r == d.result && out.events == old(out.events) + d.sent && d.view == ViewFor(x)
    {
      var jid := contact.props.Get(conf.xmppField);
      if jid.None? {
        return Err(NoJid(conf.xmppField, contact));
      }
      if jid.value !in xmpp.contacts {
        return Ok(false);
      }
      var x := xmpp.contacts[jid.value];
      if x.IsAvailable() {
        var k := x.RecordNotification(n);
        var text := RenderNotification(ChatText, n.(number := Some(k)));
        if text.Err? {
          return Err(text.msg);
        }
        out.Send(Chat(jid.value, text.value));
        return Ok(true);
      } else {
        x.Miss(n);
        return Ok(false);
      }
    }

    /** One policy tried for `contact`: what `PolicyStep` says, carried out
        on the chat contact and the outbox. */
    method ApplyPolicy(contact: Item, p: string, n: Notification) returns (stop: bool, r: Outcome)
      requires Valid()
      modifies out, Targets(contact)
      ensures Valid()
      ensures var s := PolicyStep(conf, contact, p, old(ViewFor(ChatContactFor(contact))), n);
        stop == s.stop && r == s.outcome && out.events == old(out.events) + s.sent &&
        ViewFor(ChatContactFor(contact)) == s.view
    {
      if p == "xmpp" {
        var ok := XmppNotification(contact, n);
        if ok.Err? {
          return true, Fail(ok.msg);
        }
        return ok.value, Pass;
      } else if p == "email" || p == "pager" {
        var m := MailStep(conf, contact, p, n);
        if m.Err? {
          return true, Fail(m.msg);
        }
        out.Send(m.value);
        return true, Pass;
      } else {
        return true, Fail("unknown policy " + p + " for " + CONTACT_LABEL + "!");
      }
    }

    /** The loop over the policies of `contact`: they are tried in order
        until one stops the walk. */
    method RunPolicies(contact: Item, ps: seq<string>, n: Notification) returns (r: Outcome)
      requires Valid()
      modifies out, Targets(contact)
      ensures Valid()
      ensures var w := WalkSpec(conf, contact, ps, old(ViewFor(ChatContactFor(contact))), n);
        r == w.outcome && out.events == old(out.events) + w.sent && ViewFor(ChatContactFor(contact)) == w.view
    {
      ghost var x := ChatContactFor(contact);
      ghost var v := ViewFor(x);
      ghost var w0 := WalkSpec(conf, contact, ps, v, n);
      ghost var acc: seq<Event> := [];
      assert ps[0..] == ps;
      var i := 0;
      while i < |ps|
        invariant 0 <= i <= |ps| && Valid()
        invariant x == ChatContactFor(contact) && v == ViewFor(x)
        invariant out.events == old(out.events) + acc
        invariant w0 == After(acc, WalkSpec(conf, contact, ps[i..], v, n))
      {
        ghost var s := PolicyStep(conf, contact, ps[i], v, n);
        WalkStep(conf, contact, ps, i, v, n);
        var stop, outcome := ApplyPolicy(contact, ps[i], n);
        if stop {
          Assoc(old(out.events), acc, s.sent);
          return outcome;
        }
        AfterAfter(acc, s.sent, WalkSpec(conf, contact, ps[i + 1..], s.view, n));
        Assoc(old(out.events), acc, s.sent);
        acc := acc + s.sent;
        v := s.view;
        i := i + 1;
      }
      assert ps[i..] == [];
      return Pass;
    }

    /** `notification(contact_name, policy_spec, n)`: the contact and the
        referent are looked up first, so an unknown contact or an
        unresolvable referent raises before any channel is tried; then the
        policies are walked, and the contact's chat record and the outbox
        end as the walk says. */
    method Notification(contactName: string, policySpec: string, n: Notification, cfg: Result<ConfigData>)
      returns (r: Outcome)
      requires Valid()
      modifies out, xmpp.contacts.Values
      ensures Valid()
      ensures ContactNamed(cfg, contactName).Err? ==>
        r == Fail(ContactNamed(cfg, contactName).msg) && out.events == old(out.events)
      ensures ContactNamed(cfg, contactName).Ok? && FindReferent(cfg, n).Err? ==>
        r == Fail(FindReferent(cfg, n).msg) && out.events == old(out.events)
      ensures ContactNamed(cfg, contactName).Ok? && FindReferent(cfg, n) == Ok(None) ==>
        r == Fail("Couldn't find what notification referred to: " + InspectProps(n.params)) && out.events == old(out.events)
      ensures ContactNamed(cfg, contactName).Ok? && FindReferent(cfg, n).Ok? && FindReferent(cfg, n).value.Some? ==>
        var contact := ContactNamed(cfg, contactName).value;
        var n' := n.(referent := Some(FindReferent(cfg, n).value.value.ref));
        var x := ChatContactFor(contact);
        var w := WalkSpec(conf, contact, RubySplit(policySpec, ';'), old(ViewFor(x)), n');
        r == w.outcome && out.events == old(out.events) + w.sent && ViewFor(x) == w.view
      ensures forall y :: y in old(xmpp.contacts.Values) && (ContactNamed(cfg, contactName).Err? || Some(y) != ChatContactFor(ContactNamed(cfg, contactName).value)) ==>
        ViewOf(y) == old(ViewOf(y))
    {
      var found := ContactNamed(cfg, contactName);
      if found.Err? {
        return Fail(found.msg);
      }
      var ref := FindReferent(cfg, n);
      if ref.Err? {
        return Fail(ref.msg);
      }
      if ref.value.None? {
        return Fail("Couldn't find what notification referred to: " + InspectProps(n.params));
      }
      r := RunPolicies(found.value, RubySplit(policySpec, ';'), n.(referent := Some(ref.value.value.ref)));
    }

    /** `catch_up(contact)`: with nothing missed nothing happens; otherwise
        the summary, if there is one, is sent and the queue is emptied. A
        lookup that raises leaves the queue as it was. */
    method CatchUp(x: ChatContact, cfg: Result<ConfigData>) returns (r: Outcome)
      modifies x, out
      ensures x.recent == old(x.recent) && x.seqNo == old(x.seqNo) && x.rosterItem == old(x.rosterItem)
      ensures old(x.missed) == [] ==> r == Pass && x.missed == [] && out.events == old(out.events)
      ensures old(x.missed) != [] && CatchUpMessage(cfg, old(x.missed)).Err? ==>
        r == Fail(CatchUpMessage(cfg, old(x.missed)).msg) && x.missed == old(x.missed) && out.events == old(out.events)
      ensures old(x.missed) != [] && CatchUpMessage(cfg, old(x.missed)).Ok? ==>
        r == Pass && x.missed == [] &&
        out.events == old(out.events) +
          (match CatchUpMessage(cfg, old(x.missed)).value
           case None => []
           case Some(m) => [Chat(x.jid, m)])
    {
      if x.missed == [] {
        return Pass;
      }
      var msg := CatchUpMessage(cfg, x.missed);
      if msg.Err? {
        return Fail(msg.msg);
      }
      if msg.value.Some? {
        out.Send(Chat(x.jid, msg.value.value));
      }
      x.missed := [];
      return Pass;
    }

    /** The presence callback: the contact is registered if new, and caught
        up when it has just come online. */
    method PresenceCallback(item: RosterItem, oldP: Option<Presence>, newP: Option<Presence>, cfg: Result<ConfigData>)
      returns (r: Outcome)
      requires Valid()
      modifies xmpp, xmpp.contacts.Values, out
      ensures Valid()
      ensures BareJid(item.jid) in xmpp.contacts
      ensures forall j :: j in old(xmpp.contacts) ==> j in xmpp.contacts && xmpp.contacts[j] == old(xmpp.contacts[j])
      ensures !CameOnline(oldP, newP) ==> r == Pass && out.events == old(out.events)
      ensures CameOnline(oldP, newP) && BareJid(item.jid) !in old(xmpp.contacts) ==> r == Pass && out.events == old(out.events)
      ensures CameOnline(oldP, newP) && BareJid(item.jid) in old(xmpp.contacts) && old(xmpp.contacts[BareJid(item.jid)].missed) == [] ==>
        r == Pass && out.events == old(out.events)
      ensures CameOnline(oldP, newP) && BareJid(item.jid) in old(xmpp.contacts) && old(xmpp.contacts[BareJid(item.jid)].missed) != [] ==>
        var missed := old(xmpp.contacts[BareJid(item.jid)].missed);
        CatchUpMessage(cfg, missed).Err? ==>
          r == Fail(CatchUpMessage(cfg, missed).msg) && xmpp.contacts[BareJid(item.jid)].missed == missed &&
          out.events == old(out.events)
      ensures CameOnline(oldP, newP) && BareJid(item.jid) in old(xmpp.contacts) && old(xmpp.contacts[BareJid(item.jid)].missed) != [] ==>
        var missed := old(xmpp.contacts[BareJid(item.jid)].missed);
        CatchUpMessage(cfg, missed).Ok? ==>
          r == Pass && xmpp.contacts[BareJid(item.jid)].missed == [] &&
          out.events == old(out.events) +
            (match CatchUpMessage(cfg, missed).value
             case None => []
             case Some(m) => [Chat(xmpp.contacts[BareJid(item.jid)].jid, m)])
    {
      var c, came := xmpp.PresenceChanged(item, oldP, newP);
      if came {
        r := CatchUp(c, cfg);
      } else {
        r := Pass;
      }
    }

    /** `update_status_msg`: the presence text becomes the status message of
        the current report; a report that raises leaves it as it was. */
    method UpdateStatusMsg(cfg: Result<ConfigData>) returns (r: Outcome)
      modifies this
      ensures cfg.Err? ==> r == Fail(cfg.msg) && statusMsg == old(statusMsg)
      ensures cfg.Ok? && StatusReportOf(cfg.value).Err? ==> r == Fail(StatusReportOf(cfg.value).msg) && statusMsg == old(statusMsg)
      ensures cfg.Ok? && StatusReportOf(cfg.value).Ok? ==> r == Pass && statusMsg == MessageOf(CountsOf(StatusReportOf(cfg.value).value))
    {
      if cfg.Err? {
        return Fail(cfg.msg);
      }
      var rep := StatusReportOf(cfg.value);
      if rep.Err? {
        return Fail(rep.msg);
      }
      statusMsg := StatusMessage(rep.value);
      return Pass;
    }
  }

  /** The view of the chat contact, if there is one. */
  function ViewFor(x: Option<ChatContact>): Option<View>
    reads if x.Some? then {x.value} else {}
  {
    if x.Some? then Some(ViewOf(x.value)) else None
  }

  /** The switchboard's view of a chat contact. */
  function ViewOf(x: ChatContact): View
    reads x
  {
    View(Available(x.rosterItem), x.missed, x.recent, x.seqNo)
  }

  lemma FirstServiceAtIs(keys: seq<string>, text: string, pos: nat, i: nat, ignoreCase: bool)
    requires pos <= |text| && i < |keys| && LiteralAt(text, pos, keys[i], ignoreCase)
    requires forall j :: 0 <= j < i ==> !LiteralAt(text, pos, keys[j], ignoreCase)
    ensures FirstServiceAt(keys, text, pos, ignoreCase) == Some(i)
  {
    var r := FirstServiceAt(keys, text, pos, ignoreCase);
    assert r.Some?;
  }
}

=== FILE: text.dfy ===
/** Character classes, number rendering and parsing, splitting and joining,
    and the byte-wise string order Ruby uses: the string vocabulary the
    gateway's parsers and formatters are written in. */
module Text {

  import opened Wrappers

  /** Ruby's `\s`: space, tab, carriage return, newline, form feed, vertical tab. */
  predicate IsSpace(c: char) {
    c == ' ' || c == '\t' || c == '\r' || c == '\n' || c == '\U{000C}' || c == '\U{000B}'
  }

  /** Ruby's `\w` on ASCII text, which is also `[a-zA-Z0-9_]`. */
  predicate IsWord(c: char) {
    ('a' <= c <= 'z') || ('A' <= c <= 'Z') || ('0' <= c <= '9') || c == '_'
  }

  predicate IsDigit(c: char) {
    '0' <= c <= '9'
  }

  predicate AllDigits(s: string) {
    forall i :: 0 <= i < |s| ==> IsDigit(s[i])
  }

  function UpcaseChar(c: char): char {
    if 'a' <= c <= 'z' then (c as int - 32) as char else c
  }

  function DowncaseChar(c: char): char {
    if 'A' <= c <= 'Z' then (c as int + 32) as char else c
  }

  /** `String#upcase` on ASCII letters. */
  function Upcase(s: string): (r: string)
    ensures |r| == |s|
    ensures forall i :: 0 <= i < |s| ==> r[i] == UpcaseChar(s[i])
  {
    seq(|s|, i requires 0 <= i < |s| => UpcaseChar(s[i]))
  }

  /** Two characters that a case-insensitive match treats as equal. */
  predicate SameLetter(a: char, b: char) {
    DowncaseChar(a) == DowncaseChar(b)
  }

  // ---------------------------------------------------------------------
  // Scanning helpers

  /** The character classes the gateway's regular expressions use: `\s`,
      `\w`, `\d`, `\S`, `[^\s\/]` and `[\w@]`. */
  datatype CharClass = Space | Word | Digit | NonSpace | Token | WordOrAt

  predicate InClass(c: char, k: CharClass) {
    match k
    case Space => IsSpace(c)
    case Word => IsWord(c)
    case Digit => IsDigit(c)
    case NonSpace => !IsSpace(c)
    case Token => !IsSpace(c) && c != '/'
    case WordOrAt => IsWord(c) || c == '@'
  }

  /** The end of the longest run of characters of class `k` starting at `i`. */
  function SpanEnd(s: string, i: nat, k: CharClass): (r: nat)
    requires i <= |s|
    ensures i <= r <= |s|
    ensures r == |s| || !InClass(s[r], k)
    decreases |s| - i
  {
    if i == |s| || !InClass(s[i], k) then i else SpanEnd(s, i + 1, k)
  }

  /** Every character the run covers is of the class: the run is maximal. */
  lemma {:induction false} SpanEndRun(s: string, i: nat, k: CharClass)
    requires i <= |s|
    ensures forall j :: i <= j < SpanEnd(s, i, k) ==> InClass(s[j], k)
    decreases |s| - i
  {
    if i < |s| && InClass(s[i], k) {
      SpanEndRun(s, i + 1, k);
    }
  }

  // ---------------------------------------------------------------------
  // Numbers

  function DigitChar(d: nat): char
    requires d < 10
  {
    ('0' as int + d) as char
  }

  function DigitValue(c: char): nat
    requires IsDigit(c)
  {
    c as int - '0' as int
  }

  /** Decimal rendering of a natural number, as `Integer#to_s`. */
  function NatToString(n: nat): (s: string)
    ensures 1 <= |s| && AllDigits(s)
    decreases n
  {
    if n < 10 then [DigitChar(n)] else NatToString(n / 10) + [DigitChar(n % 10)]
  }

  /** Decimal rendering of an integer, with a leading '-' when negative. */
  function IntToString(i: int): string {
    if i < 0 then "-" + NatToString(-i) else NatToString(i)
  }

  /** The value of a string of decimal digits. */
  function DigitsValue(s: string): nat
    requires AllDigits(s)
  {
    if |s| == 0 then 0 else DigitsValue(s[..|s| - 1]) * 10 + DigitValue(s[|s| - 1])
  }

  /** `String#to_i`: optional leading white space, an optional sign, then the
      longest run of digits; no digits give 0. */
  function ToI(s: string): int {
    var i := SpanEnd(s, 0, Space);
    if i < |s| && (s[i] == '-' || s[i] == '+') then
      var e := SpanEnd(s, i + 1, Digit);
      SpanEndRun(s, i + 1, Digit);
      var v: int := DigitsValue(s[i + 1..e]);
      if s[i] == '-' then -v else v
    else
      SpanEndRun(s, i, Digit);
      DigitsValue(s[i..SpanEnd(s, i, Digit)])
  }

  lemma {:induction false} DigitsOfNat(n: nat)
    ensures DigitsValue(NatToString(n)) == n
    decreases n
  {
    var s := NatToString(n);
    if n >= 10 {
      DigitsOfNat(n / 10);
      assert s[..|s| - 1] == NatToString(n / 10);
    }
  }

  /** Rendering an integer and reading it back with `to_i` gives it back. */
  lemma ToIOfIntToString(i: int)
    ensures ToI(IntToString(i)) == i
  {
    var s := IntToString(i);
    assert SpanEnd(s, 0, Space) == 0;
    if i < 0 {
      var d := NatToString(-i);
      assert s[1..|s|] == d;
      assert SpanEnd(s, 1, Digit) == |s| by { SpanAllDigits(s, 1); }
      DigitsOfNat(-i);
    } else {
      SpanAllDigits(s, 0);
      assert s[0..|s|] == s;
      DigitsOfNat(i);
    }
  }

  lemma {:induction false} SpanAllDigits(s: string, i: nat)
    requires i <= |s|
    requires forall k :: i <= k < |s| ==> IsDigit(s[k])
    ensures SpanEnd(s, i, Digit) == |s|
    decreases |s| - i
  {
    if i < |s| {
      SpanAllDigits(s, i + 1);
    }
  }

  // ---------------------------------------------------------------------
  // Joining and splitting

  /** `Array#join(sep)`. */
  function Join(parts: seq<string>, sep: string): string {
    if |parts| == 0 then ""
    else if |parts| == 1 then parts[0]
    else parts[0] + sep + Join(parts[1..], sep)
  }

  /** Splitting at every occurrence of `c`, keeping empty fields. */
  function SplitAll(s: string, c: char): (r: seq<string>)
    ensures |r| >= 1
    ensures forall k :: 0 <= k < |r| ==> c !in r[k]
    decreases |s|
  {
    if c !in s then [s]
    else
      var i := FirstIndex(s, c);
      [s[..i]] + SplitAll(s[i + 1..], c)
  }

  function FirstIndex(s: string, c: char): (i: nat)
    requires c in s
    ensures i < |s| && s[i] == c && c !in s[..i]
  {
    if s[0] == c then 0 else 1 + FirstIndex(s[1..], c)
  }

  /** `String#split(c)` for a one-character separator: the fields between
      separators, with trailing empty fields removed (so "" gives no field). */
  function RubySplit(s: string, c: char): (r: seq<string>)
    ensures forall k :: 0 <= k < |r| ==> c !in r[k]
    ensures |r| > 0 ==> r[|r| - 1] != ""
  {
    DropTrailingEmpty(SplitAll(s, c))
  }

  function DropTrailingEmpty(parts: seq<string>): (r: seq<string>)
    ensures r <= parts
    ensures |r| > 0 ==> r[|r| - 1] != ""
    ensures forall k :: |r| <= k < |parts| ==> parts[k] == ""
  {
    if |parts| == 0 then parts
    else if parts[|parts| - 1] == "" then DropTrailingEmpty(parts[..|parts| - 1])
    else parts
  }

  /** Splitting then joining with the same separator gives the string back. */
  lemma {:induction false} JoinSplitAll(s: string, c: char)
    ensures Join(SplitAll(s, c), [c]) == s
    decreases |s|
  {
    if c in s {
      var i := FirstIndex(s, c);
      var rest := SplitAll(s[i + 1..], c);
      JoinSplitAll(s[i + 1..], c);
      assert SplitAll(s, c) == [s[..i]] + rest;
      JoinCons(s[..i], rest, [c]);
      assert s == s[..i] + [c] + s[i + 1..];
    }
  }

  lemma JoinCons(p: string, rest: seq<string>, sep: string)
    requires |rest| >= 1
    ensures Join([p] + rest, sep) == p + sep + Join(rest, sep)
  {
    assert ([p] + rest)[1..] == rest;
  }

  /** Joining fields free of the separator and splitting again gives the
      fields back. */
  lemma {:induction false} SplitAllJoin(parts: seq<string>, c: char)
    requires |parts| >= 1
    requires forall k :: 0 <= k < |parts| ==> c !in parts[k]
    ensures SplitAll(Join(parts, [c]), c) == parts
    decreases |parts|
  {
    if |parts| > 1 {
      var s := Join(parts, [c]);
      var tail := Join(parts[1..], [c]);
      assert s == parts[0] + [c] + tail;
      assert c in s by { assert s[|parts[0]|] == c; }
      FirstIndexAfter(parts[0], tail, c);
      assert s[..|parts[0]|] == parts[0];
      assert s[|parts[0]| + 1..] == tail;
      SplitAllJoin(parts[1..], c);
    }
  }

  lemma FirstIndexAfter(a: string, b: string, c: char)
    requires c !in a
    ensures c in a + [c] + b
    ensures FirstIndex(a + [c] + b, c) == |a|
  {
    var s := a + [c] + b;
    assert s[|a|] == c;
  }

  // ---------------------------------------------------------------------
  // Ordering

  /** `String#<=>` seen as a "less than or equal": byte-wise lexicographic order. */
  predicate StrLe(a: string, b: string)
    decreases |a|
  {
    |a| == 0 || (|b| > 0 && (a[0] < b[0] || (a[0] == b[0] && StrLe(a[1..], b[1..]))))
  }

  lemma {:induction false} StrLeTotal(a: string, b: string)
    ensures StrLe(a, b) || StrLe(b, a)
    decreases |a|
  {
    if |a| > 0 && |b| > 0 && a[0] == b[0] {
      StrLeTotal(a[1..], b[1..]);
    }
  }

  lemma {:induction false} StrLeTrans(a: string, b: string, c: string)
    requires StrLe(a, b) && StrLe(b, c)
    ensures StrLe(a, c)
    decreases |a|
  {
    if |a| > 0 && a[0] == b[0] && b[0] == c[0] {
      StrLeTrans(a[1..], b[1..], c[1..]);
    }
  }

  lemma {:induction false} StrLeAntisym(a: string, b: string)
    requires StrLe(a, b) && StrLe(b, a)
    ensures a == b
    decreases |a|
  {
    if |a| > 0 {
      StrLeAntisym(a[1..], b[1..]);
      assert a == [a[0]] + a[1..];
      assert b == [b[0]] + b[1..];
    }
  }

  /** Lexicographic order on lists of strings, which is how Ruby compares a
      service by host name first and then by description. */
  predicate KeyLe(a: seq<string>, b: seq<string>)
    decreases |a|
  {
    |a| == 0 || (|b| > 0 && ((a[0] != b[0] && StrLe(a[0], b[0])) || (a[0] == b[0] && KeyLe(a[1..], b[1..]))))
  }

  lemma {:induction false} StrLeRefl(a: string)
    ensures StrLe(a, a)
    decreases |a|
  {
    if |a| > 0 {
      StrLeRefl(a[1..]);
    }
  }

  lemma {:induction false} KeyLeRefl(a: seq<string>)
    ensures KeyLe(a, a)
    decreases |a|
  {
    if |a| > 0 {
      KeyLeRefl(a[1..]);
    }
  }

  lemma {:induction false} KeyLeTotal(a: seq<string>, b: seq<string>)
    ensures KeyLe(a, b) || KeyLe(b, a)
    decreases |a|
  {
    if |a| > 0 && |b| > 0 {
      if a[0] == b[0] {
        KeyLeTotal(a[1..], b[1..]);
      } else {
        StrLeTotal(a[0], b[0]);
      }
    }
  }

  lemma {:induction false} KeyLeTrans(a: seq<string>, b: seq<string>, c: seq<string>)
    requires KeyLe(a, b) && KeyLe(b, c)
    ensures KeyLe(a, c)
    decreases |a|
  {
    if |a| > 0 {
      if a[0] == b[0] && b[0] == c[0] {
        KeyLeTrans(a[1..], b[1..], c[1..]);
      } else if a[0] != b[0] && b[0] != c[0] {
        StrLeTrans(a[0], b[0], c[0]);
        if a[0] == c[0] {
          StrLeAntisym(a[0], b[0]);
        }
      }
    }
  }

  lemma {:induction false} KeyLeAntisym(a: seq<string>, b: seq<string>)
    requires KeyLe(a, b) && KeyLe(b, a)
    ensures a == b
    decreases |a|
  {
    if |a| > 0 {
      if a[0] == b[0] {
        KeyLeAntisym(a[1..], b[1..]);
        assert a == [a[0]] + a[1..];
        assert b == [b[0]] + b[1..];
      } else {
        StrLeAntisym(a[0], b[0]);
      }
    }
  }

  // ---------------------------------------------------------------------
  // Inspection

  /** `String#inspect`: the text in double quotes, with quotes, backslashes and
      the common control characters escaped. */
  function Inspect(s: string): (r: string)
    ensures |r| >= 2 && r[0] == '"' && r[|r| - 1] == '"'
  {
    "\"" + Escape(s) + "\""
  }

  /** `Array#inspect` on an array of strings: each inspected, separated by
      ", ", in brackets. */
  function InspectList(ss: seq<string>): (r: string)
    ensures |r| >= 2 && r[0] == '[' && r[|r| - 1] == ']'
    ensures |ss| == 0 ==> r == "[]"
  {
    "[" + Join(InspectEach(ss), ", ") + "]"
  }

  function InspectEach(ss: seq<string>): (r: seq<string>)
    ensures |r| == |ss|
    ensures forall i :: 0 <= i < |ss| ==> r[i] == Inspect(ss[i])
  {
    if |ss| == 0 then [] else [Inspect(ss[0])] + InspectEach(ss[1..])
  }

  function Escape(s: string): string {
    if |s| == 0 then ""
    else EscapeChar(s[0]) + Escape(s[1..])
  }

  function EscapeChar(c: char): string {
    if c == '"' then "\\\""
    else if c == '\\' then "\\\\"
    else if c == '\n' then "\\n"
    else if c == '\t' then "\\t"
    else if c == '\r' then "\\r"
    else [c]
  }
}

=== FILE: wrappers.dfy ===
/** Failure-carrying datatypes shared by the whole model.
    Ruby code in the gateway signals failure by raising an exception whose
    message is later shown to a user ("Oops. <message>"), so an error here is
    simply the message text. */
module Wrappers {

  datatype Option<+T> = None | Some(value: T) {
    function GetOr(default: T): T {
      match this
      case Some(v) => v
      case None => default
    }
  }

  /** The outcome of an operation that may raise: a value or the message of
      the exception it raised. */
  datatype Result<+T> = Ok(value: T) | Err(msg: string) {
    predicate IsFailure() { Err? }

    function PropagateFailure<U>(): Result<U>
      requires Err?
    {
      Err(msg)
    }

    function Extract(): T
      requires Ok?
    {
      value
    }
  }

  /** The outcome of an operation that raises or returns nothing of interest. */
  datatype Outcome = Pass | Fail(msg: string) {
    predicate IsFailure() { Fail? }

    function PropagateFailure(): Outcome
      requires Fail?
    {
      this
    }
  }

  /** The message Ruby gives when a method is called on nil. */
  function NilError(meth: string): string {
    "undefined method `" + meth + "' for nil:NilClass"
  }
}
